=== FILE: README.md ===
# light — a verified model of the player core

`light` is a small terminal music player written in C++: it reads MP3 data from
local files or over HTTP, decodes it with libmad, and sends the PCM samples to
PulseAudio or into a WAV file, while a progress bar and a keyboard (or stdin)
thread run alongside. The repository holds two snapshots of the program: an
older one (`*.h`, `main.cpp`) and a newer one (`src/*.hpp`, `src/main.cpp`).

This project models, in Dafny, the sequential logic under the threads of both
snapshots, and proves properties of it:

- the byte queues that connect a download thread to the decoder
  (`NetInputStream`, both versions of `music::Buffer`) and the local-file stream
  (`FileInputStream`) as immutable records with a read cursor; the blocking
  wait loops become preconditions;
- the libmad callbacks of the decoder and of both audio back ends (`scale`, PCM
  interleaving, the input refill with its carried-over bytes, the "data too
  small" error, the one-shot publication of `MusicInfo`, the pause flag); libmad
  itself is an abstract driver that delivers a script of callback events;
- the byte/millisecond conversions, the WAV header and the WAV encoder;
- the time bar's text helpers and counters, colour wrapping;
- the ID3v2 tag reader (sizes, the frame loop, the ordered map and its queries);
- the URL parser and serialiser and the HTTP `Response` variant tag;
- both `Player` playlist state machines, with opening an entry abstracted to
  answers of an outside `World`, and, for the older player, `PULSE_SERVER` and
  the way each decode ends to answers of an outside `Sound`;
- the argument routing and the key/command dispatch of both front ends.

One module per source concern, one file per module:

| file | module | models |
|---|---|---|
| wrappers.dfy | Wrappers | `Option`/`Result` for thrown errors |
| bytes.dfy | Bytes | C++ integer widths and conversions, little-endian layout |
| decimal.dfy | Decimal | `std::to_string` and `std::stoi` on decimal numerals |
| stream.dfy | Stream | `NetInputStream` and `FileInputStream` (src/stream.hpp) |
| music_buffer.dfy | MusicBuffer | `music::Buffer` of src/music.hpp and music.h |
| utils.dfy | Utils | `MusicInfo`, `colorify` (src/utils.hpp) |
| timing.dfy | Timing | `size_to_time`, `time_to_size`, `AudioPos` (src/audio.hpp) |
| mad.dfy | Mad | the libmad structures the callbacks touch, `scale`, interleaving |
| encoder.dfy | Encoder | `WavHeader`, `WavEncodeStream`, `AudioEncodeStream` (src/encoder.hpp) |
| decoder.dfy | Decoder | the callbacks and `Decoder` of src/decoder.hpp |
| audio.dfy | AudioSession | the callbacks and `Audio` of src/audio.hpp and audio.h |
| bar.dfy | Bar | `ms_to_string`, `Bar`, `TimeBar` (src/bar.hpp, bar.h) |
| tagreader.dfy | TagReader | `TagInfo` (src/tagreader.hpp) |
| url.dfy | Url | `Url`, `ParsedUrl`, `Response` (http.h) |
| player.dfy | Player | `Player` of src/player.hpp |
| old_player.dfy | OldPlayer | `Player` of player.h |
| cli.dfy | Cli | `is_http`, argument routing and input threads of src/main.cpp and main.cpp |

Fixed-width C++ arithmetic is written out: `unsigned int` and `std::size_t`
results are reduced modulo 2^32 and 2^64 (`Bytes.U32`, `Bytes.U64`), a `char`
read from a byte is signed (`Bytes.SignedChar`), and `MAD_F_FRACBITS` is 28.
The model follows the code as written. Where the code does something other than
it evidently means (see "## Findings"), the operation exists in both forms:
either as a pair of functions (`Stream.SeekCurOffsetAsWritten` and
`Stream.SeekCurOffset`, `Timing.TimeToSizeAsWritten` and `Timing.TimeToSize`,
`Mad.ScaleAsWritten` and `Mad.Scale`, `Player.OutputAsWritten` and
`Player.Output`, `TagReader.Parse` and `TagReader.ParseIntended`) or through a
mode parameter (`TagReader.Arith`, `Cli.Variant`). Everything downstream of such
an operation — `Timing.AsSize`, `Mad.FrameBytes` and so the decoder and audio
callbacks, the front ends' argument routing — is built on the written form;
the corrected form carries the property the code evidently intends, and
lemmas state where the two agree and where they part.

## Model

| member | source | states |
|---|---|---|
| Bytes.U16 | src/encoder.hpp:74-84 | A value stored in a 16-bit unsigned field lies below 2^16, is unchanged when it fits and is otherwise congruent modulo 2^16. |
| Bytes.U32 | src/audio.hpp:34-41 | An `unsigned int` result lies below 2^32, is unchanged when it fits and is otherwise congruent modulo 2^32. |
| Bytes.U32Congruent | src/encoder.hpp:74-84 | Two values congruent modulo 2^32 give the same `unsigned int`, so a sum reduced early or late is stored alike. |
| Bytes.U64 | src/tagreader.hpp:214-228 | A `std::size_t` result lies below 2^64, is unchanged when it fits and is otherwise congruent modulo 2^64. |
| Bytes.I32 | src/decoder.hpp:44-56 | An `int` result lies in the 32-bit signed range, is unchanged when it fits and is otherwise congruent modulo 2^32. |
| Bytes.LE16 | src/encoder.hpp:59-64 | The two bytes of a 16-bit header field, least significant first, denote the field's value. |
| Bytes.LE32 | src/encoder.hpp:52-69 | The four bytes of a 32-bit header field, least significant first, denote the field's value. |
| Bytes.LE32RoundTrip | src/encoder.hpp:52-69 | Reading back the four little-endian bytes of a 32-bit field gives the field. |
| Bytes.LE16RoundTrip | src/encoder.hpp:59-64 | Reading back the two little-endian bytes of a 16-bit field gives the field. |
| Bytes.SignedChar | src/tagreader.hpp:39-43 | A byte read through a `char` has a value in [-128, 127] congruent to the byte modulo 256. |
| Bytes.Ascii | src/tagreader.hpp:229 | The bytes of a string of one-byte characters are those characters, one byte each, in order. |
| Decimal.NatToString | src/bar.hpp:88-89 | `std::to_string` of a natural number is a non-empty digit string, one digit exactly below 10, without a leading zero otherwise. |
| Decimal.NatToStringRoundTrip | src/bar.hpp:88-89 | The value of the digits `to_string` writes is the number itself, so distinct numbers print differently. |
| Decimal.NatToStringTwoDigits | src/bar.hpp:88-89 | `to_string` writes exactly two digits iff the number lies in 10..99, which is what the `> 9` padding test relies on. |
| Decimal.LeadingDigits | src/main.cpp:149 | The digits `stoi` reads after the white space and the sign are the longest run of digits there: all digits, a prefix, and followed by a non-digit or nothing. |
| Decimal.Stoi | src/main.cpp:149 | `std::stoi` skips white space and one sign, fails with `invalid_argument` exactly when no digit follows them, and otherwise yields an `int` (or `out_of_range`) that is negative only after a `-`. |
| Decimal.SkipSpace | src/main.cpp:149 | The white space `strtol` skips is the leading run of "C"-locale space characters, up to the first other character. |
| Decimal.SkipSpaceSuffix | src/main.cpp:149 | What remains after the white space is the rest of the same text. |
| Decimal.SkipBlanks | src/main.cpp:149 | Any run of white space in front of a non-space is skipped entirely. |
| Decimal.Unsigned | src/main.cpp:149 | One leading `+` or `-` is dropped and nothing else is. |
| Decimal.StoiOfToString | src/main.cpp:149 | `stoi` reads back any non-negative `int` that `to_string` wrote, whatever non-digit text follows. |
| Decimal.StoiSigned | src/main.cpp:149 | After any white space and a sign, `stoi` reads back the signed value of a numeral `to_string` wrote, down to `INT_MIN`, whatever non-digit text follows. |
| Decimal.StoiSignsAndBlanks | main.cpp:81-104 | User text such as `+5`, ` 5` and `-3` reads as 5, 5 and -3, while a lone sign or blank is `invalid_argument`. |
| Decimal.StoiSignExamples | main.cpp:81-104 | `+5` reads as 5 and `-3` as -3, while a lone `-` is `invalid_argument`. |
| Decimal.StoiBlankExamples | main.cpp:81-104 | ` 5` reads as 5, while a lone blank is `invalid_argument`. |
| Decimal.StoiOf | src/main.cpp:149 | Once the digit run after the white space and sign and its signed value within `int` are known, `stoi` yields that value. |
| Stream.Empty | src/stream.hpp:144 | A new stream holds no bytes, has its cursor at 0, has not ended and satisfies the cursor invariant. |
| Stream.Eof | src/stream.hpp:151-154 | End of stream holds exactly when the producer has marked the end and every byte has been read. |
| Stream.ReadSize | src/stream.hpp:186-189 | The consumed-byte count is the read cursor. |
| Stream.SetSize | src/stream.hpp:208 | The announced size is recorded; queue, cursor and end mark are untouched. |
| Stream.SetEof | src/stream.hpp:210 | The end mark is set; queue, cursor and size are untouched. |
| Stream.Write | src/stream.hpp:212-217 | Exactly the given bytes are appended at the back; cursor, end mark and size are unchanged and the consumed prefix and cursor invariant are kept. |
| Stream.Read | src/stream.hpp:156-170 | Once the wait has ended, the read returns min(n, unread) bytes, which are the queue bytes at the cursor, moves the cursor past them, keeps the invariant, and a short read leaves the stream at its end. |
| Stream.Ignore | src/stream.hpp:172-184 | Once the wait has ended, the cursor moves by min(n, unread) and nothing else changes. |
| Stream.Seek | src/stream.hpp:191-198 | Once the wait has ended, the cursor is exactly the requested position and nothing else changes. |
| Stream.SeekValid | src/stream.hpp:191-198 | A seek keeps `readpos <= |buffer|` exactly when the target lies inside the buffer. |
| Stream.SeekPastEndBreaksInvariant | src/stream.hpp:191-198 | On an ended three-byte stream, `seek(4)` leaves the cursor past the buffer, and `eof()` then never holds. |
| Stream.OpenFile | src/stream.hpp:66-76 | A file that opened is measured by the constructor: its size is its length, the cursor is at 0 and the end-of-file bit is clear. |
| Stream.FileRead | src/stream.hpp:90-93 | A file read returns min(n, left) bytes from the cursor and moves past them, returns nothing once the end-of-file bit is set, and sets that bit exactly on a short read. |
| Stream.FileEofNeedsShortRead | src/stream.hpp:90-103 | A read that takes exactly the bytes left leaves the file's `eof()` false; only the next read, which returns nothing, sets it. |
| Stream.FileSeekCurOffset | src/stream.hpp:121-131 | The file's relative seek moves by the offset and lands on position 0 when moving back past the start. |
| Stream.SeekCurOffsetAsWritten | src/stream.hpp:200-204 | As written, a non-positive offset moves back by it (clamping at 0), while a positive offset sends the cursor to 0. |
| Stream.SeekCurOffsetForwardResets | src/stream.hpp:200-204 | From position 10 in a 20-byte stream, skipping 5 forward lands at 0 instead of 15. |
| Stream.SeekCurOffset | src/stream.hpp:121-131 | The corrected relative seek moves by the offset and clamps at 0, like the file stream's. |
| Stream.SeekCurOffsetValid | src/stream.hpp:200-204 | The corrected relative seek keeps the cursor invariant exactly when the target does not pass the end of the buffer. |
| Stream.EofOnlyWhenDrained | src/stream.hpp:151-154 | Unread bytes keep `eof()` false even after `set_eof`. |
| Stream.ReadSplit | src/stream.hpp:156-170 | Two consecutive reads of a and b bytes deliver the same bytes and end in the same state as one read of a + b bytes. |
| Stream.Run | src/stream.hpp:156-217 | Any schedule of producer and consumer calls that do not block forever keeps the cursor invariant. |
| Stream.RunBuffer | src/stream.hpp:212-217 | After any schedule, the queue is the initial queue followed by every chunk the producer wrote, in order. |
| Stream.RunDelivers | src/stream.hpp:156-170 | Without `ignore`, the bytes the consumer received are exactly the queue bytes between the initial and the final cursor. |
| Stream.FreshStreamDeliversPrefix | src/stream.hpp:144-217 | From a new stream, what the consumer receives is a prefix of what the producer wrote. |
| MusicBuffer.Empty | src/music.hpp:94 | A new buffer holds no bytes, has its cursor at 0, has not ended and has requested no chunk. |
| MusicBuffer.Eof | src/music.hpp:101-104 | `eof()` is the producer's end mark alone, whatever remains unread. |
| MusicBuffer.ReadSize | src/music.hpp:126-129 | The consumed-byte count is the cursor. |
| MusicBuffer.Next | src/music.hpp:146-152 | Requesting a chunk raises the flag the producer waits on and changes nothing else. |
| MusicBuffer.Prepare | src/music.hpp:119-124 | The next chunk is requested exactly when the stream has not ended and fewer than n bytes are unread; nothing else changes. |
| MusicBuffer.Read | src/music.hpp:106-117 | Once the wait has ended, the read returns min(n, unread) bytes from the cursor, advances by that count, and then requests a chunk iff fewer than n bytes remain and the end has not come. |
| MusicBuffer.Seek | src/music.hpp:131-136 | Once the wait has ended, the cursor moves to the end of the buffer, whatever the requested distance. |
| MusicBuffer.SeekSkipsAllUnread | src/music.hpp:131-136 | The seek skips every unread byte, so it overshoots whenever more than the requested distance is buffered. |
| MusicBuffer.Write | src/music.hpp:139-144 | The bytes are appended at the back; the unread bytes become the old unread bytes followed by them; the cursor stays. |
| MusicBuffer.FreeRead | music.h:101-107 | Dropping the consumed prefix rewinds the cursor to 0 and leaves exactly the unread bytes. |
| MusicBuffer.FreeReadTransparent | music.h:101-107 | A read after `free_read` returns the same bytes as a read before it. |
| MusicBuffer.SetEof | src/music.hpp:172 | The end mark is set and nothing else changes. |
| MusicBuffer.EofWithUnreadBytes | music.h:71-74 | A buffer can report `eof()` while three bytes are still unread. |
| MusicBuffer.ReadSplit | music.h:75-86 | Consecutive reads of x and y bytes return the same bytes as one read of x + y. |
| Utils.Code | src/utils.hpp:37-52 | Every colour selects a two-character SGR foreground code `31`..`37`. |
| Utils.CodeInjective | src/utils.hpp:37-52 | Distinct colours select distinct codes. |
| Utils.Colorify | src/utils.hpp:35-56 | The wrapped text is `ESC [ code m`, the text verbatim at offset 5, then `ESC [ 0 m`, nine characters longer than the text. |
| Utils.ColorOfCode | src/utils.hpp:37-52 | Every valid code belongs to some colour, so the `default` branch is unreachable. |
| Utils.ColorifyRoundTrip | src/utils.hpp:35-56 | The text and the colour can be recovered from the wrapped string. |
| Timing.BlockMs | src/audio.hpp:34-37 | For a bit rate the formula can divide by, the milliseconds per 8192-byte block lie in 1..65536. |
| Timing.SizeToTime | src/audio.hpp:34-37 | The duration is whole blocks times the block duration, reduced to 32 bits. |
| Timing.TimeToSize | src/audio.hpp:38-41 | The conversion evidently intended (the finding's corrected half) returns the largest byte count whose duration does not exceed the time. |
| Timing.TimeSizeRoundTrip | src/audio.hpp:34-41 | Converting a byte count to milliseconds and back gives the count rounded down to a whole block. |
| Timing.TimeToSizeAsWritten | src/audio.hpp:38-41 | As written, the byte offset is computed in 32-bit unsigned arithmetic and stays below 2^32. |
| Timing.TimeToSizeAgreesWhenSmall | src/audio.hpp:38-41 | The written and the corrected conversions agree while `time * 8192` fits in 32 bits. |
| Timing.TimeToSizeAsWrittenWraps | src/audio.hpp:38-41 | At 128 kbit/s, the position 599552 ms maps to byte 1204224 as written, instead of 9592832. |
| Timing.MakeAudioPos | src/audio.hpp:48 | A new position has an undefined bit rate (-1). |
| Timing.SetBitrate | src/audio.hpp:50 | Setting the bit rate keeps the position. |
| Timing.GetBitrate | src/audio.hpp:51-56 | Reading the bit rate throws exactly while it is undefined. |
| Timing.AsSize | src/audio.hpp:58-63 | The byte offset throws exactly while the bit rate is undefined; otherwise it goes through the wrapping `time_to_size`: whole blocks fitting in `pos * 8192` reduced modulo 2^32, which is the intended offset only while that product fits in 32 bits. |
| Mad.StreamBuffer | src/decoder.hpp:101 | Handing a buffer to libmad restarts decoding at its first byte, so all of it is still to be consumed. |
| Mad.Carry | src/decoder.hpp:93-97 | The bytes the next refill carries over are those from libmad's `next_frame` to the end of its buffer, and none before the first buffer. |
| Mad.ClampShift | src/decoder.hpp:47-55 | Clamping to [-1.0, 1.0) and shifting always yields a 16-bit sample. |
| Mad.ScaleAsWritten | src/decoder.hpp:44-56 | As written, with the rounding addition wrapping in 32 bits, the result is a 16-bit sample. |
| Mad.ScaleAsWrittenWrapsAtTop | src/decoder.hpp:46 | As written, the largest sample maps to -32768 although 1.0 maps to 32767. |
| Mad.Scale | src/decoder.hpp:44-56 | The corrected conversion saturates to 32767 at the top and -32768 at the bottom and otherwise rounds the fixed-point value to 16 bits. |
| Mad.ScaleMonotone | src/decoder.hpp:44-56 | The corrected conversion preserves the order of samples. |
| Mad.ScaleAgreesBelowTop | src/decoder.hpp:44-56 | The written and corrected conversions agree on every sample at least 4096 below `INT_MAX`. |
| Mad.InterleaveRef | src/decoder.hpp:72-79 | The reference order for the first n frames has n times the channel count samples, each a 16-bit result of `scale` as written. |
| Mad.InterleaveRefIndex | src/decoder.hpp:72-79 | Slot `i * nch + c` of the reference order holds sample i of channel c through `scale` as written. |
| Mad.Frame | src/decoder.hpp:74-78 | The inner loop produces, in channel order, each channel's sample of one frame through `scale` as written. |
| Mad.Interleave | src/decoder.hpp:68-79 | The callback's loops produce `nch * nsamples` shorts, sample-major and channel-minor, each the input sample through `scale` as written, which is the reference order. |
| Mad.PcmBytes | src/decoder.hpp:80 | The bytes handed on are two per short, each short in little-endian order. |
| Mad.SampleRoundTrip | src/decoder.hpp:80 | A 16-bit sample is recovered from its two bytes. |
| Mad.SampleOf | src/decoder.hpp:80 | Two little-endian bytes read back as a 16-bit signed sample. |
| Mad.PcmBytesRoundTrip | src/decoder.hpp:80 | Every sample is recovered from its slot in the written bytes. |
| Mad.FrameBytes | src/decoder.hpp:58-81 | One decoded frame hands on `2 * nch * nsamples` bytes carrying at slot `i * nch + c` the as-written conversion of sample i of channel c. |
| Mad.FrameBytesAgreeBelowTop | src/decoder.hpp:44-81 | For samples at least 4096 below `INT_MAX`, every slot of the written bytes carries the corrected, saturating conversion. |
| Encoder.MakeHeader | src/encoder.hpp:74-84 | The header constructor stores the data size, 36 more as the RIFF size, format tag 1, and the channel, rate, byte-rate and alignment values, each reduced to its field width. |
| Encoder.PcmHeaderConsistent | src/encoder.hpp:74-84 | For 16-bit PCM the block alignment is two bytes per channel and the byte rate is the sample rate times the alignment. |
| Encoder.Layout | src/encoder.hpp:47-71 | The packed header occupies exactly 44 bytes. |
| Encoder.RiffFields | src/encoder.hpp:49-54 | The descriptor holds `RIFF`, the RIFF size little-endian, and `WAVE`, at offsets 0, 4 and 8. |
| Encoder.FmtFields | src/encoder.hpp:55-65 | The `fmt ` subchunk holds its tag, the size 16, and format, channels, rate, byte rate, alignment and bits, each little-endian at its offset. |
| Encoder.DataFields | src/encoder.hpp:66-70 | The `data` subchunk holds `data` and the data size little-endian. |
| Encoder.ParseHeader | src/encoder.hpp:47-71 | Any header read back from 44 bytes has fields within their widths. |
| Encoder.LayoutRoundTrip | src/encoder.hpp:47-71 | Parsing the 44 laid-out bytes gives back the header, so the layout carries every field and the fixed tags. |
| Encoder.SeekP | src/encoder.hpp:109 | Moving the put position leaves the file contents alone. |
| Encoder.WriteAt | src/encoder.hpp:96 | A write places the bytes at the put position, extends the file as needed, leaves every other byte alone and advances the position. |
| Encoder.Padded | src/encoder.hpp:109 | A file whose put position lies at or past its end reads as its contents followed by zeros up to the position. |
| Encoder.WriteAtEnd | src/encoder.hpp:96 | A write at or past the end of the file appends the bytes to the zero-padded contents and leaves the position at the new end. |
| Encoder.NewWav | src/encoder.hpp:89-90 | A new WAV stream has an empty file, no info and a zero count. |
| Encoder.WavWrite | src/encoder.hpp:94-98 | A write forwards the bytes to the file and adds exactly their number to the count. |
| Encoder.WavSetInfo | src/encoder.hpp:105-110 | Setting the info stores it and moves the put position past the 44 bytes reserved for the header, leaving contents and count alone. |
| Encoder.FinalHeader | src/encoder.hpp:116 | The destructor's header describes 16-bit samples, the stored channel count and rate, and the byte count as data size. |
| Encoder.WavFinish | src/encoder.hpp:112-121 | Destruction leaves the file alone when nothing was written, and otherwise puts the final header in the first 44 bytes. |
| Encoder.WriteAllAppends | src/encoder.hpp:94-98 | Writes at the end of the file append their bytes in order. |
| Encoder.WavWriteAll | src/encoder.hpp:94-98 | After any sequence of writes the count is the total number of bytes written. |
| Encoder.WavSession | src/encoder.hpp:105-121 | A whole conversion (set_info, writes, destruction) produces the final header followed by exactly the written bytes. |
| Encoder.FinishOverwritesSpace | src/encoder.hpp:112-121 | Destruction overwrites exactly the reserved 44 bytes with the header and keeps the data behind them. |
| Encoder.AudioWrite | src/encoder.hpp:129-132 | The sound-server stream forwards the bytes and changes nothing else. |
| Encoder.AudioSetInfo | src/encoder.hpp:139-144 | Setting the info stores it and passes its sample rate to the output. |
| Encoder.BaseSetInfo | src/encoder.hpp:33-36 | The base class only stores the info. |
| Encoder.Write | src/encoder.hpp:31 | The virtual write keeps the stream kind and the info and forwards to the concrete stream's write. |
| Encoder.SetInfo | src/encoder.hpp:105-110 | The virtual `set_info` stores the info and then does what the concrete stream adds. |
| Decoder.Start | src/decoder.hpp:141-148 | A decode starts unpaused with the given input and encoder, the info still to publish, nothing published, and no frame pointer. |
| Decoder.SourceRead | src/stream.hpp:90-170 | The virtual read of either stream returns the bytes at its cursor, moves past them, is short only at end of file, and takes min(n, unread) bytes while not at end. |
| Decoder.Input | src/decoder.hpp:84-103 | The input callback stops exactly at end of stream without touching anything; otherwise libmad's new buffer is the carried-over bytes followed by the bytes read from the cursor, and a read shorter than the free space means end of stream. |
| Decoder.EndOfInput | src/decoder.hpp:87-101 | Once all bytes are read, a finished network stream stops the decode at once, while a local file refills once more with only the carried-over bytes and stops at the callback after. |
| Decoder.InfoOf | src/decoder.hpp:110-116 | The published info has the duration formula's time, the header's rate and bit rate, two channels and the stream's size. |
| Decoder.HeaderCb | src/decoder.hpp:105-127 | The first header appends its info to the published values and gives it to the encoder; later headers change nothing; the callback stops iff the program is no longer running. |
| Decoder.OutputCb | src/decoder.hpp:58-81 | The output callback continues and changes only the encode stream: a sound-server sink receives exactly the frame's PCM bytes, a WAV sink writes them at its put position and counts them. |
| Decoder.ErrorCb | src/decoder.hpp:129-134 | The error callback continues and changes nothing. |
| Decoder.Step | src/decoder.hpp:84-134 | Every callback keeps the session invariant. |
| Decoder.Run | src/decoder.hpp:149-153 | A run of callbacks keeps the session invariant and every decoded frame it handled is well formed. |
| Decoder.RunWrites | src/decoder.hpp:58-81 | What a run hands to the encoder is exactly the PCM bytes of the frames it decoded, in order. |
| Decoder.FramesCons | src/decoder.hpp:58-81 | The bytes of a run's frames are the first frame's bytes followed by the rest's. |
| Decoder.RunPublishesOnce | src/decoder.hpp:105-120 | The info is published at most once per decode, it is the info the encoder holds, and it is still pending exactly when no header arrived. |
| Decoder.Headers | src/decoder.hpp:105-120 | A script has no more headers than events. |
| Decoder.HeadersCons | src/decoder.hpp:105-120 | The headers of a prefix are the first event's plus those of the rest. |
| Decoder.StepWrites | src/decoder.hpp:58-134 | One callback hands the encoder exactly the event's bytes (none unless it is a frame): a sound-server sink receives them, a WAV sink counts them and writes them at its put position. |
| Decoder.RunCons | src/decoder.hpp:149-153 | A run whose first callback continues is that callback followed by a run of the rest. |
| Decoder.RunStops | src/decoder.hpp:149-153 | A run whose first callback stops consists of that callback alone. |
| Decoder.QuietStepKeepsWav | src/decoder.hpp:84-134 | An input or error callback leaves the encode stream and the pending promise alone and writes nothing. |
| Decoder.HeaderReservesWav | src/decoder.hpp:105-120 | The first header on a fresh WAV file moves the put position past the 44 header bytes and writes nothing. |
| Decoder.StepAppendsWav | src/decoder.hpp:58-134 | After the info is published, one callback on a WAV file positioned at its end appends the event's bytes and keeps the position at the end. |
| Decoder.RunAppendsWav | src/decoder.hpp:58-153 | After the info is published, a run into a WAV file positioned at its end appends the decoded frames in order. |
| Decoder.AppendsCompose | src/encoder.hpp:94-98 | Two appends in a row to a WAV file are one append of both parts. |
| Decoder.PaddedAfterHeader | src/encoder.hpp:105-110 | A file that held only the reserved header room and then received frames reads as 44 zero bytes followed by the frames. |
| Decoder.HeaderStartsWav | src/decoder.hpp:105-153 | A run into a fresh WAV file that starts with a header reserves the header room and appends every later frame after it. |
| Decoder.QuietIntoWav | src/decoder.hpp:84-153 | Input and error callbacks before the first header leave a fresh WAV file untouched and the rest of the run writes as from the start. |
| Decoder.RunIntoWav | src/decoder.hpp:141-153 | A decode into an empty WAV file writes nothing before the first header; from then on the file reads as the 44 reserved bytes followed by the decoded frames. |
| Decoder.DecodeIntoWav | src/decoder.hpp:141-153 | Decoding into a fresh `WavEncodeStream` and destroying it yields the final header of the published info and the byte count, followed by exactly the decoded frames' bytes. |
| Decoder.Pause | src/decoder.hpp:161-165 | After `pause()` the decoder is paused and nothing else has changed. |
| Decoder.Go | src/decoder.hpp:167-171 | After `go()` the decoder runs and nothing else has changed. |
| Decoder.PauseGoLaws | src/decoder.hpp:156-171 | Pausing and resuming are idempotent and undo each other. |
| AudioSession.Refill | src/audio.hpp:130-152 | The shared refill stops at end of music, throws "data too small" exactly when not started and fewer than 1024 bytes arrive, and otherwise gives libmad the carried bytes followed by the next bytes of the buffer. |
| AudioSession.ZeroFill | src/audio.hpp:162 | Zero-filling leaves libmad a buffer of the same length holding only zeros. |
| AudioSession.NewAudio | src/audio.hpp:85 | A new audio object has no server, the bar on, no bar object and no open device. |
| AudioSession.NoBar | src/audio.hpp:207 | Only the bar flag is cleared. |
| AudioSession.WithBar | src/audio.hpp:208 | Only the bar flag is set. |
| AudioSession.Init | src/audio.hpp:209-213 | Only the server is recorded. |
| AudioSession.Play | src/audio.hpp:214-221 | Playing fails exactly when no server was given and `PULSE_SERVER` is unset; otherwise the session starts unstarted and unpaused with the new music and position and no frame pointer. |
| AudioSession.Input | src/audio.hpp:130-152 | The input callback stops exactly at end of music, can only throw before the first header, and never touches the pause flag, device, bar or position. |
| AudioSession.FirstBar | src/audio.hpp:183-188 | The bar the first header creates has the duration formula's time, starts at the position and is neither paused nor offset. |
| AudioSession.Header | src/audio.hpp:153-191 | Only the first header acts: it fixes the bit rate, opens the device at the header's rate (throwing when that fails), and seeks to the end of the buffer and zero-fills libmad's buffer iff the position is non-zero. |
| AudioSession.HeaderActsOnce | src/audio.hpp:156-165 | After a first header succeeded, any later header leaves the session as it is. |
| AudioSession.Output | src/audio.hpp:102-129 | The output callback continues and appends exactly the frame's PCM bytes to the device. |
| AudioSession.Error | src/audio.hpp:192-197 | The error callback continues and changes nothing. |
| AudioSession.Curr | src/audio.hpp:231-234 | The current position throws while the bit rate is undefined and is otherwise the duration of the bytes consumed. |
| AudioSession.Pause | src/audio.hpp:235-242 | Pausing while paused does nothing; otherwise the flag is set and the bar paused. |
| AudioSession.Go | src/audio.hpp:243-251 | Resuming while running does nothing; otherwise the flag is cleared and the bar resumed. |
| AudioSession.PauseGoLaws | src/audio.hpp:235-255 | The guarded toggles are idempotent, the bar's flag follows the session's, and a pause then a resume restores a running session. |
| AudioSession.PlayOld | audio.h:149-171 | The older play throws "Can not find PULSE_SERVER" exactly when no server was set and the variable is unset; otherwise it records a server and starts unstarted with the new music. |
| AudioSession.InputOld | audio.h:75-97 | The older input callback stops exactly at end of music and throws only before the first header. |
| AudioSession.HeaderOld | audio.h:98-127 | Only the first header acts: it opens the device at the header's rate, throws "Error initing PulseAudio" exactly when that fails, and with the bar on creates a bar whose time is the duration formula's. |
| AudioSession.OutputOld | audio.h:52-74 | The older output callback appends exactly the frame's PCM bytes to the device. |
| AudioSession.TooSmallOnlyBeforeStart | src/audio.hpp:145-149 | "Data too small" is only thrown before the first header and not at end of music; on the first fill it means fewer than 1024 bytes were available. |
| Bar.DigitsValueLeadingZero | src/bar.hpp:88-89 | A padding zero does not change the value of a numeral. |
| Bar.Pad2 | src/bar.hpp:88-89 | Each clock part is at least two digits, exactly two below 100, and reads back as the number. |
| Bar.MsToString | src/bar.hpp:84-91 | The clock text is at least two digits, a colon and exactly two digits. |
| Bar.MsToStringRoundTrip | src/bar.hpp:84-91 | The clock text names the whole minutes and the seconds within the minute, i.e. the time rounded down to a second. |
| Bar.Spaces | src/bar.hpp:78 | The padding is the given number of spaces. |
| Bar.Add | src/bar.hpp:74-81 | The addition is padded with spaces to the previous addition's length, and its own length is recorded. |
| Bar.AddCovers | bar.h:55-62 | A later addition always covers the earlier one completely. |
| Bar.NewOldBar | bar.h:17 | The older bar starts with 36 empty cells, not yet drawn. |
| Bar.UpdateOld | bar.h:27-53 | One update marks the bar drawn and fills exactly one more cell iff the ratio test passes and cells remain. |
| Bar.UpdateMany | bar.h:27-53 | Any run of updates keeps the bar's size and invariant and never empties a filled cell. |
| Bar.CountTrue | bar.h:27-53 | The passed ratio tests are counted: none exactly when no test passed, all exactly when every one did. |
| Bar.UpdateManyFills | bar.h:27-53 | After a run of updates the filled cells are the initial ones plus the passed tests, capped at the size, and the bar has been drawn. |
| Bar.NewOldTimeBar | bar.h:79-80 | The older time bar starts with the given duration. |
| Bar.SetTimeOld | bar.h:81 | Setting the time stores the duration. |
| Bar.NewTimeBar | src/bar.hpp:102 | The newer time bar starts with 36 empty cells, no time, unpaused, no offset and no thread. |
| Bar.SetTime | src/bar.hpp:118-122 | Only the duration changes. |
| Bar.Reset | src/bar.hpp:124-130 | The drawing state is forgotten and nothing else changes. |
| Bar.Start | src/bar.hpp:138 | Only the start position of the thread's clock is recorded. |
| Bar.Pause | src/bar.hpp:185-189 | Only the paused flag is set. |
| Bar.Go | src/bar.hpp:191-195 | Only the paused flag is cleared. |
| Bar.Rewind | src/bar.hpp:206-210 | The offset grows by 5000 ms and nothing else changes. |
| Bar.Skip | src/bar.hpp:212-216 | The offset shrinks by 5000 ms and nothing else changes. |
| Bar.ControlLaws | src/bar.hpp:185-216 | Rewind and skip cancel each other; pause and resume are idempotent and a pause then a resume restores a running bar. |
| Bar.GetTime | src/bar.hpp:150-159 | The shown time is never negative: it is the elapsed time less the offset, and the offset is clamped to the elapsed time. |
| Bar.GetTimeMonotone | src/bar.hpp:150-159 | After one clamped reading, the shown time advances exactly with the elapsed time. |
| TagReader.TagSizeAsWritten | src/tagreader.hpp:214-217 | As written, the tag size is the masked bytes weighted 0x200000, 0x400, 0x40 and 1. |
| TagReader.TagSizeAsWrittenCollides | src/tagreader.hpp:214-217 | The size fields of a 128-byte and a 64-byte tag both decode to 64 as written. |
| TagReader.SynchsafeSize | src/tagreader.hpp:214-217 | The synchsafe size of section 3.1 of ID3v2.3.0 is below 2^28. |
| TagReader.Synchsafe | src/tagreader.hpp:214-217 | The synchsafe layout of a size is four bytes with the top bit clear. |
| TagReader.SynchsafeRoundTrip | src/tagreader.hpp:214-217 | Decoding the synchsafe layout of a size gives the size. |
| TagReader.SynchsafeInjective | src/tagreader.hpp:214-217 | Distinct seven-bit size fields denote distinct sizes. |
| TagReader.TagSizeAgreesBelow | src/tagreader.hpp:214-217 | For a body under 128 bytes the written and the synchsafe tag sizes both read the size back. |
| TagReader.TagSizeBy | src/tagreader.hpp:214-217 | The reader's tag size is the written weights as written and the synchsafe size as intended. |
| TagReader.TagSize128 | src/tagreader.hpp:214-222 | A 128-byte body has the size field 0,0,1,0, which the reader as written takes as 64, giving a loop bound of 54. |
| TagReader.FrameSizeAsWritten | src/tagreader.hpp:226-227 | As written, the frame size is signed bytes weighted 0x10000000, 0x10000, 0x100 and 1, reduced to 64 bits. |
| TagReader.FrameSizeAsWrittenWraps | src/tagreader.hpp:226-227 | A 128-byte frame decodes to 2^64 - 128 as written, and a size field 1,0,0,0 to 2^28 instead of 2^24. |
| TagReader.FrameSize | src/tagreader.hpp:226-227 | The frame size of section 3.3 of ID3v2.3.0 is a 32-bit big-endian number. |
| TagReader.FrameSizeRoundTrip | src/tagreader.hpp:226-227 | Decoding the big-endian layout of a size gives the size. |
| TagReader.FrameSizeAgreesBelow | src/tagreader.hpp:226-227 | Written and corrected frame sizes agree when the top byte is 0 and the other bytes are below 128. |
| TagReader.FrameSizeBy | src/tagreader.hpp:226-227 | The reader's frame size is the signed, wrapping sum as written and the big-endian size as intended. |
| TagReader.LessIrreflexive | src/tagreader.hpp:202 | The map's key order is irreflexive. |
| TagReader.LessTotal | src/tagreader.hpp:202 | Any two distinct keys are ordered. |
| TagReader.LessTransitive | src/tagreader.hpp:202 | The key order is transitive. |
| TagReader.Lookup | src/tagreader.hpp:264 | `find` returns a value iff some entry has the key, and then that entry's value. |
| TagReader.LookupSorted | src/tagreader.hpp:264 | In a key-ordered map every entry is the one `find` returns for its key. |
| TagReader.ConsSorted | src/tagreader.hpp:240 | Putting a key that sorts after the head into the tail keeps the map ordered. |
| TagReader.Put | src/tagreader.hpp:240 | `tags[k] = v` makes k map to v, leaves every other key's value alone, keeps the keys ordered and adds at most one entry. |
| TagReader.PutStoredIds | src/tagreader.hpp:230-240 | Storing a listed id other than `APIC` keeps every stored id listed and not `APIC`. |
| TagReader.Get | src/tagreader.hpp:262-270 | `operator[]` throws "unexpected tag" exactly when no entry has the tag, and otherwise returns its value. |
| TagReader.CommonInfo | src/tagreader.hpp:272-286 | The summary is the title and " - " when a title is stored, followed by the artist when one is stored. |
| TagReader.TerminatedJoin | src/tagreader.hpp:291-298 | The values each followed by " - ", then one more value, are the join of all of them by " - ". |
| TagReader.VisibleSnoc | src/tagreader.hpp:293 | The shown values of a map with one more entry are the old ones plus that entry's value unless its id is ignored. |
| TagReader.AllInfoAsWritten | src/tagreader.hpp:288-301 | As written, the text is the shown values of every entry but the last, each followed by " - ", then the FIRST entry's value when its key is shown (nothing when it is ignored); so it holds " - " once per shown entry before the last. |
| TagReader.AllInfo | src/tagreader.hpp:288-301 | Corrected to append the last entry's value: when the last key is shown, the text is the values of the shown entries joined by " - ", in key order; when it is ignored, each shown value is followed by " - ", the trailing separator included. |
| TagReader.AllInfoAgreement | src/tagreader.hpp:288-301 | The written and the corrected text are equal exactly when the first entry prints what the last one does (the same value, or both ignored). |
| TagReader.AllInfoAsWrittenRepeatsFirst | src/tagreader.hpp:296-299 | For the tags TALB=A and TIT2=B the reader prints "A - A"; corrected it prints "A - B". |
| TagReader.Read | src/tagreader.hpp:224 | A read returns min(n, remaining) bytes and consumes them. |
| TagReader.ReadPrefix | src/tagreader.hpp:224 | A read of exactly the bytes before a point returns them and leaves the rest. |
| TagReader.Ignore | src/tagreader.hpp:251 | `ignore(n)` consumes min(n, remaining) bytes. |
| TagReader.Overlay | src/tagreader.hpp:224 | A short read into a struct replaces only the leading bytes it got. |
| TagReader.Filled | src/tagreader.hpp:237-239 | A zeroed vector after a short read holds the bytes read followed by zeros. |
| TagReader.Chars | src/tagreader.hpp:229 | Bytes taken as `std::string` characters keep their count and values. |
| TagReader.Shown | src/tagreader.hpp:240 | The stored string of an encoding-0 frame starts one byte into the text buffer. |
| TagReader.ReadHeader | src/tagreader.hpp:224 | Reading a frame header consumes up to ten bytes and copies them into the frame struct. |
| TagReader.FrameBody | src/tagreader.hpp:226-253 | Handling one frame, with either size arithmetic, throws `std::length_error` only for a listed frame, and otherwise changes at most the value stored under the frame's id, storing nothing for a zero-size, `APIC` or unlisted frame, and for a listed frame whose encoding byte is 2 or more storing nothing and skipping `size - 1` bytes after that byte. |
| TagReader.KeptBody | src/tagreader.hpp:229-253 | A listed frame of encoding 0 or 1 throws `length_error` exactly when its size less one exceeds `PTRDIFF_MAX`; otherwise the frame changes at most its own id's value; an encoding byte of 2 or more never throws, stores nothing, skips `size - 1` bytes after the encoding byte and counts only that byte. |
| TagReader.FrameBodyThrows | src/tagreader.hpp:226-253 | Handling a frame throws exactly for a listed frame of encoding 0 or 1 whose decoded size exceeds 2^63. |
| TagReader.ResizeLimit | src/tagreader.hpp:238-245 | `resize((size - 1) / w)` of a vector of `w`-byte elements exceeds `max_size()`, which is `PTRDIFF_MAX / w`, exactly when `size - 1` exceeds `PTRDIFF_MAX`, for `char` and `char16_t` alike. |
| TagReader.Step | src/tagreader.hpp:222-259 | One loop turn, with either size arithmetic, throws only `length_error` (never with the standard's sizes), and otherwise changes at most the value under the id it read, and stores nothing for a frame it skips: a zero-size, `APIC` or unlisted frame, or one whose encoding byte is 2 or more. |
| TagReader.Loop | src/tagreader.hpp:222-259 | The loop's only exception is `length_error`, never with the standard's sizes; when it ends normally the counter has reached the bound and no unlisted id and no `APIC` frame was ever stored. |
| TagReader.Parse | src/tagreader.hpp:204-260 | The constructor as written throws only `length_error`, and otherwise yields a key-ordered map of listed ids other than `APIC`; without the "ID3" magic it is empty. |
| TagReader.ParseBy | src/tagreader.hpp:204-260 | With either size arithmetic the constructor throws only `length_error` (never with the standard's sizes), and otherwise yields a key-ordered map of listed ids other than `APIC`, and an empty one without the magic. |
| TagReader.ParseIntended | src/tagreader.hpp:204-260 | The constructor with the sizes of ID3v2.3.0 never throws and has the same guarantees: an ordered map of stored ids, empty without the magic. |
| TagReader.TagsOf | src/tagreader.hpp:222-260 | A finished loop yields its tags, which are ordered and hold only stored ids, or passes its exception on. |
| TagReader.TagBound | src/tagreader.hpp:214-222 | A reader that decodes a tag size correctly loops up to the announced body length less 10 (as written only below 128 bytes). |
| TagReader.HeaderBoundOf | src/tagreader.hpp:214-222 | The bound a reader takes from a tag header is its decoded size less 10, modulo 2^64. |
| TagReader.ReadsTagHeader | src/tagreader.hpp:208 | The 10-byte header read takes the whole tag header and overwrites all of the struct. |
| TagReader.TagHeaderFields | src/tagreader.hpp:209-217 | The tag header carries the "ID3" magic and the synchsafe size at bytes 6 to 9. |
| TagReader.ParseByUnfolds | src/tagreader.hpp:204-222 | On data whose header read shows the magic the constructor is the frame loop from the rest, up to the header's bound. |
| TagReader.ParseStartsLoop | src/tagreader.hpp:204-222 | On a tag header announcing n bytes the constructor runs the loop from the first frame up to the bound the reader decodes. |
| TagReader.PutAllLookup | src/tagreader.hpp:240 | Storing frames in order leaves each id with the value of its last frame and every other id as it was. |
| TagReader.PutAll | src/tagreader.hpp:240 | Storing frames in order keeps a map ordered. |
| TagReader.LastText | src/tagreader.hpp:240 | The value kept for an id exists exactly when some frame has the id. |
| TagReader.FrameHeaderDecodes | src/tagreader.hpp:226-229 | A reader whose size arithmetic fits the frame decodes the id and the size of a well-formed frame header, and the text follows the encoding byte. |
| TagReader.FrameBytesSplit | src/tagreader.hpp:226-241 | A frame's bytes are its id, its big-endian size, two flag bytes, the encoding byte and the text. |
| TagReader.KeptTextHeader | src/tagreader.hpp:226-230 | The header of a well-formed text frame names a frame the reader stores, with its size read back. |
| TagReader.ReadsEncodedText | src/tagreader.hpp:233-239 | The encoding byte and then the text are read in full. |
| TagReader.ReadsHeader | src/tagreader.hpp:224 | A frame header that is present is read whole and counted. |
| TagReader.ReadsFrameHeader | src/tagreader.hpp:224 | Reading the header of a well-formed frame consumes its ten header bytes and counts them. |
| TagReader.FrameBodyReadsText | src/tagreader.hpp:226-241 | A listed frame whose decoded size is its text length plus one and whose encoding byte is 0 has its text stored under its id, and the counter grows by the size. |
| TagReader.FrameBodyIsKept | src/tagreader.hpp:226-230 | A frame of nonzero size whose id is listed and is not `APIC` goes down the reading branch. |
| TagReader.KeptBodyReadsText | src/tagreader.hpp:232-240 | In the reading branch, an encoding byte of 0 followed by the text stores that text and counts the encoding byte and the text. |
| TagReader.KeptBodyEncodingZero | src/tagreader.hpp:235-240 | Once the encoding byte 0 and the text are read and the buffer fits, the reading branch stores the buffer's shown text and counts both reads. |
| TagReader.StepReadsFrame | src/tagreader.hpp:222-241 | One turn over a frame header and an encoding-0 body of the decoded size stores the text and counts the header and body. |
| TagReader.StepReadsTextFrame | src/tagreader.hpp:222-241 | One turn over such a well-formed text frame stores it and counts all its bytes. |
| TagReader.LoopReadsTextFrames | src/tagreader.hpp:222-259 | With a size arithmetic that fits every frame, the loop reads a run of well-formed text frames that ends within the bound's slack and stores each in order. |
| TagReader.FramesTail | src/tagreader.hpp:222-259 | The frames after the first of a well-formed run are a well-formed run. |
| TagReader.SmallBodyFits | src/tagreader.hpp:226-227 | Every frame of a body under 128 bytes has a size the reader as written decodes correctly. |
| TagReader.LoopIterates | src/tagreader.hpp:222-224 | Below the bound the loop runs one more turn. |
| TagReader.StepReadsFirst | src/tagreader.hpp:222-241 | One turn over the first frame of such a run stores it and leaves the rest of the run to read. |
| TagReader.ParseReadsTag | src/tagreader.hpp:204-260 | A reader whose size arithmetic decodes the tag's sizes recovers, in order, every frame of a well-formed ID3v2.3.0 tag of text frames. |
| TagReader.ParseRecoversText | src/tagreader.hpp:204-260 | With the standard's sizes every id maps to the text of its last frame and no other id is stored; on bodies under 128 bytes the reader as written returns the same map. |
| TagReader.ParseAsWrittenDropsFrame | src/tagreader.hpp:214-222 | A 128-byte tag of a title and an artist frame: the reader as written stops after the title and loses the artist, which the standard's sizes recover. |
| TagReader.AsWrittenStopsAfterFirst | src/tagreader.hpp:214-259 | As written, a 128-byte tag whose first frame takes 60 bytes is read up to that frame only. |
| TagReader.LoopStopsAt54 | src/tagreader.hpp:222-259 | With bound 54 the loop reads the 60-byte first frame and stops. |
| TagReader.IntendedReadsBoth | src/tagreader.hpp:204-260 | With the standard's sizes the same 128-byte tag yields the second frame's text. |
| TagReader.TitleArtistStored | src/tagreader.hpp:230 | A 60-byte `TIT2` frame and a 68-byte `TPE1` frame are frames the reader stores. |
| TagReader.TitleArtistListed | src/tagreader.hpp:230 | `TIT2` and `TPE1` are on the list of stored ids and are not `APIC`. |
| TagReader.OneFrameBody | src/tagreader.hpp:222-259 | A run of one frame is that frame's bytes. |
| TagReader.OneFrameTags | src/tagreader.hpp:240 | Storing one frame into an empty map yields exactly its id with its shown text. |
| TagReader.FrameSizeAsWrittenNegative | src/tagreader.hpp:226-227 | A frame of 128 to 255 bytes has the size field 0,0,0,n, which the signed sum as written decodes to 2^64 - 256 + n, above 2^63. |
| TagReader.StepAsWrittenThrows | src/tagreader.hpp:222-238 | As written, one turn over a listed text frame of 128 to 255 bytes throws `length_error` from the `resize` of the text buffer. |
| TagReader.LongFrameHeader | src/tagreader.hpp:226-230 | As written, the header of a listed text frame of 128 to 255 bytes sends it down the reading branch with a size above 2^63. |
| TagReader.StepThrowsOnLongFrame | src/tagreader.hpp:222-245 | As written, one turn over a listed text frame of 128 to 255 bytes throws `length_error`; with the standard's sizes it stores the text. |
| TagReader.TagSizeAsWrittenAtLeast64 | src/tagreader.hpp:214-217 | A tag body of 128 bytes or more decodes as written to at least 64 bytes, so the loop reads the first frame. |
| TagReader.ParseThrowsOnLongFrame | src/tagreader.hpp:204-260 | As written, a tag whose first frame is a listed text frame of 128 to 255 bytes makes the constructor throw `length_error`; with the standard's sizes that frame is read. |
| TagReader.LongTitleThrows | src/tagreader.hpp:204-260 | As written, a tag holding a 128-byte `TIT2` frame makes the constructor throw `length_error`. |
| Url.Span | http.h:158-162 | A scan splits the text into the longest prefix of accepted characters and the rest, which starts with a rejected one. |
| Url.SpanOf | http.h:158-162 | The split is unique: an accepted prefix followed by a rejected character is what the scan finds. |
| Url.NewParsedUrl | http.h:77 | A new URL has no pieces and no port (-1). |
| Url.AddDomain | http.h:103-108 | One escaped label is appended and nothing else changes. |
| Url.AddPath | http.h:97-102 | One escaped segment is appended and nothing else changes. |
| Url.AddParam | http.h:90-96 | One pair with escaped key and value is appended and nothing else changes. |
| Url.Escaped | http.h:79-86 | Escaping a list escapes each element in place. |
| Url.AddPathsAppends | http.h:144-149 | The list constructor appends the escaped segments in order and changes nothing else. |
| Url.AddParams | http.h:138-143 | The list constructor appends the escaped pairs in order and changes nothing else. |
| Url.Domain | http.h:166-180 | The domain loop stops at the end of the text, at `/` or at `:`. |
| Url.Paths | http.h:194-208 | The path loop stops at the end of the text or at `?`. |
| Url.Param | http.h:211-230 | One parameter is a key up to `=`, a value up to `&`, and the rest starts at `&` or is empty. |
| Url.ParsePath | http.h:193-235 | The path and query part adds segments and pairs and keeps protocol, domain and port. |
| Url.Params | http.h:209-235 | The parameter loop yields no pair exactly for empty text, and at most one pair per character. |
| Url.ParseTail | http.h:181-235 | The part after the domain fails only on a `:` whose port `stoi` rejects, and sets the port only after a `:`. |
| Url.Parse | http.h:151-236 | The protocol is the longest leading run of letters, and the port is none or a non-negative `int`. |
| Url.PopBack | http.h:247 | `pop_back` drops exactly the last character. |
| Url.TrailIsJoin | http.h:242-247 | Each piece followed by a separator, less the last separator, is the join. |
| Url.JoinPrefixed | http.h:255-261 | A separator before the join is the pieces each preceded by the separator. |
| Url.PairTexts | http.h:266-272 | Each pair is written `key=value`. |
| Url.Authority | http.h:239-247 | The authority starts with the protocol and `:/`, and with labels it is the protocol, `://` and the labels joined by `.`. |
| Url.WithPaths | http.h:253-262 | The path part extends the text before it, and with segments begins with `/`. |
| Url.WithQuery | http.h:263-274 | The query part extends the text before it, and with pairs begins with `?`. |
| Url.Total | http.h:237-276 | `total()` starts with the protocol and `:/`, and with labels with the protocol, `://` and the labels joined by `.`. |
| Url.AuthorityShape | http.h:239-247 | The authority is the protocol, `://` and the labels joined by `.`; with no label the last `/` is lost. |
| Url.WithPathsShape | http.h:253-262 | The path part is each segment preceded by `/`. |
| Url.WithQueryShape | http.h:263-274 | The query part is `?` and the pairs joined by `&`, when there are pairs. |
| Url.TotalShape | http.h:237-276 | `total()` is the authority, the port when set, the path part and the query part. |
| Url.DomainStep | http.h:176-180 | One turn of the domain loop stores the next label. |
| Url.PathsStep | http.h:204-208 | One turn of the path loop stores the next segment. |
| Url.DomainDots | http.h:166-180 | Labels each behind a dot are read back by the domain loop. |
| Url.DomainJoin | http.h:166-180 | Labels joined by dots are read back by the domain loop. |
| Url.PathsPrefixed | http.h:194-208 | Segments each behind a slash are read back by the path loop. |
| Url.ParamOf | http.h:211-230 | One `key=value` is read back by the parameter step. |
| Url.ParamsStep | http.h:231-235 | One turn of the parameter loop stores the next pair. |
| Url.ParamsPrefixed | http.h:211-235 | Pairs each behind `&` are read back by the parameter loop. |
| Url.ParamsJoin | http.h:209-235 | The query text is read back by the parameter loop. |
| Url.ParsePathOf | http.h:193-235 | The path and query text is read back into the URL's segments and pairs. |
| Url.ParseTailPort | http.h:182-192 | A `:` and a numeral set the port to its value. |
| Url.ParseTailOf | http.h:181-235 | The text after the domain is read back into the URL's port, segments and pairs. |
| Url.ParseSteps | http.h:151-180 | Parsing is the protocol scan, the separator skip, the domain loop, then the rest. |
| Url.ParseTotal | http.h:137-276 | For a well-formed URL and an escape that keeps unreserved characters, parsing `total()` gives the URL back and `get()` after parsing is the identity on that text. |
| Url.TotalWithoutDomain | http.h:239-247 | With no label, `total()` is the protocol followed by `:/`. |
| Url.SchemeOfExample | http.h:157-165 | In `p://a?k=v` the protocol is `p` and the host starts at `a`. |
| Url.HostOfExample | http.h:166-180 | In `a?k=v` the domain loop takes all of `a?k=v` as one label. |
| Url.QueryWithoutPathIsDomain | http.h:151-236 | `p://a?k=v` parses to one label `a?k=v`, no path and no parameter. |
| Url.HexDigit | http.h:82 | A hex digit of an escape is alphanumeric. |
| Url.CurlEscape | http.h:79-86 | The escape leaves unreserved text alone and at most triples the length. |
| Url.CurlEscapeKeepsUnreserved | http.h:79-86 | The escape satisfies the round trip's condition on escape functions. |
| Url.NewResponse | http.h:24 | A new response is empty and not a buffer. |
| Url.Set | http.h:26-51 | A setter throws exactly when a file cannot be opened; otherwise the response is no longer empty and is a buffer iff `set_buffer` was called. |
| Url.ResponseTag | http.h:24-63 | After successful setters, `empty()` holds iff none was called, and `is_buffer()` iff the last one was `set_buffer`. |
| Url.GetStr | http.h:52 | `str()` succeeds exactly when a string is held, and returns it. |
| Player.NewPlayer | src/player.hpp:72-73 | A new player has an empty list, cursor 0, the bar on, no cache, the sound server as sink and the decoder running. |
| Player.SetAudioServer | src/player.hpp:75-81 | With the sound server as sink, only its server changes. |
| Player.OutputToFile | src/player.hpp:83-88 | The sink becomes the WAV file and the bar is turned off; nothing else changes. |
| Player.EnableCache | src/player.hpp:90-100 | Caching is turned on with the given directory; nothing else changes. |
| Player.NoBar | src/player.hpp:102-106 | Only the bar flag is cleared. |
| Player.WithBar | src/player.hpp:127-131 | Only the bar flag is set. |
| Player.Pause | src/player.hpp:113-118 | Both the decoder and the time bar are paused. |
| Player.Go | src/player.hpp:120-125 | Both the decoder and the time bar run. |
| Player.PauseGoLaws | src/player.hpp:108-125 | Pause and resume are idempotent, a pause then a resume restores a running player, and neither touches list, cursor or log. |
| Player.PushOnline | src/player.hpp:133-185 | One entry is appended with the given name; it is downloaded into `cachePath/fileName` when caching and streamed otherwise; nothing else changes. |
| Player.PushLocal | src/player.hpp:187-206 | One local entry is appended, named by the music name unless that is empty, then by the file name; nothing else changes. |
| Player.PushKeepsValid | src/player.hpp:183-204 | Pushing keeps the cursor and the log consistent. |
| Player.CheckList | src/player.hpp:260-266 | "No music" is thrown exactly when the cursor is past the list. |
| Player.Range | src/player.hpp:240-258 | The entries a run passes are the consecutive positions from the start cursor, one per turn. |
| Player.OpenError | src/player.hpp:139-203 | A local entry opens iff its file exists and opens; a streamed entry always opens; a cached entry opens iff its file opens and the server answers 200. |
| Player.Play | src/player.hpp:240-258 | Playing the entry under the cursor logs it, advances the cursor by one, leaves the decoder running and keeps list and settings. |
| Player.PlaysStep | src/player.hpp:211-242 | One loop turn over an entry that opens plays it and continues with the rest. |
| Player.Plays | src/player.hpp:211-242 | A run changes only cursor, log and pause state, moves the cursor by at most k and never past the list, succeeds iff it made k turns, and otherwise names the empty list or the entry that failed to open. |
| Player.PlaysKeeps | src/player.hpp:211-242 | A loop of k turns keeps list and settings, moves the cursor by at most k and logs exactly the entries it passed. |
| Player.PlaysSpec | src/player.hpp:211-242 | A loop of k turns plays entries that open from the cursor on; it succeeds iff it made k turns, "no music" means it ran off the list, and any other error is the opener's error for the entry under the cursor. |
| Player.PlaysOutcomeCons | src/player.hpp:211-242 | An entry that opens and is played, followed by the outcome of the remaining turns, is the outcome of the whole run. |
| Player.PlaysSucceed | src/player.hpp:211-242 | A loop of k turns succeeds exactly when k entries remain and all of them open. |
| Player.CountAsWritten | src/player.hpp:210 | As written, `output(-1)` makes as many turns as the list has entries. |
| Player.OutputAsWritten | src/player.hpp:208-244 | `output(num)` as written keeps the list; `output()` succeeds only from cursor 0 and then ends at the end of the list; from a later cursor it always fails; a count ≥ 0 that succeeds advances by it. |
| Player.OutputAllAsWrittenThrows | src/player.hpp:208-244 | As written, `output()` with the cursor past the start plays the rest of the list and then throws "no music". |
| Player.Count | src/player.hpp:210 | Corrected, `output(-1)` makes as many turns as entries remain after the cursor. |
| Player.Output | src/player.hpp:208-244 | The corrected `output(num)` keeps the list; `output()` that succeeds ends at the end of the list; a count ≥ 0 that succeeds advances by it; any other negative count does nothing. |
| Player.OutputAllPlaysRest | src/player.hpp:208-244 | Corrected, `output()` plays every remaining entry that opens, ends at the end of the list and has logged every entry in order. |
| Player.OutputAdvances | src/player.hpp:211-242 | A successful `output(num)` with `num >= 0` advances the cursor by exactly num and logs those entries. |
| OldPlayer.NewPlayer | player.h:46 | A new player has an empty list, cursor 0, the bar on, no cache and no server. |
| OldPlayer.SetAudioServer | player.h:47-51 | Only the server is recorded. |
| OldPlayer.EnableCache | player.h:52-57 | Caching is turned on with the given directory; nothing else changes. |
| OldPlayer.NoBar | player.h:58-63 | Only the bar flag is cleared. |
| OldPlayer.WithBar | player.h:64-69 | Only the bar flag is set. |
| OldPlayer.PushOnline | player.h:70-117 | One entry named by the URL's text is appended, cached or streamed by the cache flag; nothing else changes. |
| OldPlayer.PushOnlineNameParses | player.h:115 | The name an online entry shows parses back to the URL it was pushed with. |
| OldPlayer.PushLocal | player.h:118-130 | One local entry named by its file name is appended; nothing else changes. |
| OldPlayer.Pop | player.h:131-135 | The front entry is removed, the others move up, and the cursor stays. |
| OldPlayer.PopSkips | player.h:131-135 | Because the cursor stays, after `pop` it stands on what was the next entry, so one entry is skipped. |
| OldPlayer.PopPushCommute | player.h:118-135 | Pushing at the back and popping at the front commute. |
| OldPlayer.OpenError | player.h:70-127 | A local entry only has to open (no existence check); online entries behave as in the newer player; the opener never reports "no music". |
| OldPlayer.OpenErrorWeaker | player.h:120-126 | Every entry the newer opener accepts, the older one accepts too. |
| OldPlayer.CheckList | player.h:191-195 | "No music" is thrown exactly when the cursor is past the list. |
| OldPlayer.Server | audio.h:144-171 | The server `audio.play` uses is the one set with `set_audio_server`, else `PULSE_SERVER`. |
| OldPlayer.EntryFailure | audio.h:92-171 | Playing an entry succeeds exactly when it opens, a server is known and it decodes through; otherwise the error is the opener's, "Can not find PULSE_SERVER", "data too small" or "Error initing PulseAudio", in that order. |
| OldPlayer.PlayEntry | player.h:142 | `audio.play(get_file())` fails as the entry does and records the server found in the environment once the file has opened. |
| OldPlayer.PlayEntryAsAudio | audio.h:149-171 | The player's server handling agrees with `Audio::play`: it fails for want of a server exactly when the session does and otherwise ends with the same server. |
| OldPlayer.Ordered | player.h:136-147 | k ordered turns change only cursor, log and server, move the cursor by at most k, succeed iff all k turns were made, and report "no music" only past the end of the list. |
| OldPlayer.OrderedPlay | player.h:136-147 | `ordered_play(num)` does nothing for a count ≤ 0, runs num turns otherwise, and never changes the list. |
| OldPlayer.Advance | player.h:142-144 | A turn that played the entry under the cursor logs it, advances by one and records the server used. |
| OldPlayer.OrderedStep | player.h:138-145 | A turn whose entry plays through continues with the remaining turns from the next entry. |
| OldPlayer.OrderedSpec | player.h:136-147 | An ordered run changes only cursor, log and server, plays the entries from the cursor on in order, succeeds iff it made k turns, and otherwise names the empty list or the entry's open, server, decode or device failure. |
| OldPlayer.OutcomeCons | player.h:138-145 | An entry that plays through, followed by the outcome of the remaining turns, is the outcome of the whole ordered run. |
| OldPlayer.AllPlayCons | player.h:138-145 | An entry that plays through followed by a run of entries that do is such a run. |
| OldPlayer.Picks | player.h:153 | The drawn entries all lie inside the list. |
| OldPlayer.PicksCons | player.h:150-158 | The picks of a run are the first draw's entry followed by the rest's. |
| OldPlayer.PicksPlayCons | player.h:150-158 | All picks play through iff the first does and the rest do. |
| OldPlayer.Random | player.h:148-159 | A random run changes only log and server, logs at most one entry per turn after the old log, and logs exactly one per turn when it succeeds. |
| OldPlayer.RandomPlay | player.h:148-159 | `random_play(num)` does nothing for a count ≤ 0 and runs num turns otherwise. |
| OldPlayer.RandomStep | player.h:150-158 | One random turn whose drawn entry plays through logs it and continues with the remaining draws. |
| OldPlayer.RandomKeeps | player.h:148-159 | A random loop changes only the log and throws "no music" exactly when it turns at least once with the cursor past the list, even though it never uses the cursor. |
| OldPlayer.RandomSpec | player.h:148-159 | With the cursor on an entry, a random run succeeds iff every drawn entry plays through with the server in use, and then logs exactly the drawn entries. |
| OldPlayer.Copies | player.h:175-180 | The log of a repeated loop holds the entry once per turn. |
| OldPlayer.RepeatedPlay | player.h:160-184 | `repeated_play` keeps the list, and when it throws it has neither moved the cursor nor logged anything. |
| OldPlayer.RepeatedSpec | player.h:160-184 | A repeated play throws "no music" iff the cursor is past the list and otherwise the entry's failure; it runs forever iff the count is -1 and the entry plays through; otherwise it plays the entry num times (none for a negative count) and advances the cursor by one. |
| Cli.Lower | src/main.cpp:33 | `tolower` changes exactly the capital letters. |
| Cli.LowerAll | src/main.cpp:31-34 | Lower-casing maps each character. |
| Cli.IsHttpAsWrittenSpec | src/main.cpp:28-36 | As written, `is_http` holds exactly for an `http://` prefix in any case; an `https://` prefix never matches. |
| Cli.HttpsRejectedAsWritten | main.cpp:6-12 | `https://example.com/a.mp3` is not recognised as written and is recognised when corrected. |
| Cli.IsHttpSpec | src/main.cpp:28-36 | Corrected, `is_http` holds exactly for an `http://` or `https://` prefix in any case. |
| Cli.IsHttpExtends | main.cpp:6-12 | The corrected test accepts everything the written one does. |
| Cli.HttpBy | src/main.cpp:28-36 | As written, `is_http` accepts exactly an `http://` prefix in any case; corrected, an `http://` or `https://` prefix. |
| Cli.Push | src/main.cpp:84-87 | An argument `is_http` accepts is pushed as an online entry without a name, any other as a local file named by itself; only the list grows. |
| Cli.HttpsPushedAsFile | src/main.cpp:82-89 | As written, `https://example.com/a.mp3` becomes a local file entry of that name; corrected, an online entry. |
| Cli.OutputBy | src/player.hpp:208-244 | Either `output(num)` keeps list and cache settings; `output()` that succeeds has played to the end of the list, as written only from cursor 0. |
| Cli.Positional | src/main.cpp:82-89 | The positional arguments push at most one entry each after the old list, and all of them when no error ends the run. |
| Cli.Entries | src/main.cpp:82-89 | The arguments become one entry each: entry i is the one pushing argument i appends. |
| Cli.PositionalPlaysEach | src/main.cpp:82-89 | With nothing left to play at the start and every argument opening, each argument is pushed and played: the list grows by the arguments' entries and the cursor reaches its end. |
| Cli.EntriesDependOnSettings | src/main.cpp:82-89 | An argument's entry depends only on the cache settings. |
| Cli.LaterArgumentAsWrittenThrows | src/main.cpp:82-89 | With the written `output()`, once one argument has been played every later one throws "no music" after playing; with the corrected one it succeeds. |
| Cli.PositionalStep | src/main.cpp:82-89 | With the corrected `output()` and nothing left to play, an argument that opens is pushed and played and the run goes on from there. |
| Cli.PositionalAsWritten | src/main.cpp:82-89 | As written, on a fresh list the first argument is played; a second is played too and then "music list has no music." ends the program, so no third argument is pushed. |
| Cli.PositionalFirst | src/main.cpp:82-89 | As written, the first argument on a fresh list is pushed and played, and the run goes on from there. |
| Cli.PositionalSecond | src/main.cpp:82-89 | As written, a second argument after one that was played is played and then "music list has no music." is thrown. |
| Cli.Inputs | src/main.cpp:112-130 | `-i` appends, after the old list, exactly the entry pushing each argument would, in order, and changes nothing else, so nothing is played. |
| Cli.OutputOption | src/main.cpp:140-155 | `-o` with no argument runs `output()`, with one argument runs `output` on the count `stoi` reads or fails with `stoi`'s error, and with more does nothing; the list never changes. |
| Cli.Lift | src/main.cpp:82-155 | A player error becomes the program's error unchanged. |
| Cli.Key | src/main.cpp:59-78 | `q` stops the program and the thread and resumes the player; space toggles pause; any other key does nothing. |
| Cli.SpaceTwice | src/main.cpp:66-77 | Two spaces bring the player back to where it was. |
| Cli.Spaces | src/main.cpp:59-78 | The spaces before the first `q` are counted: at most one per key, some only if a space was pressed, and one per key when every key is a space. |
| Cli.KeyRunSpec | src/main.cpp:53-81 | After a run of keys the thread has stopped iff a `q` was pressed, and then the player runs; otherwise the pause state is flipped once per space. |
| Cli.KeyRun | src/main.cpp:53-81 | A run of keys never touches list or cursor, stops listening exactly when a `q` was pressed, and then leaves the program stopped and the player running. |
| Cli.PushOld | main.cpp:41-47 | A positional argument `is_http` accepts is parsed and pushed online, failing only when the port does not parse; any other is pushed as a local file. |
| Cli.LocalInputs | main.cpp:65-72 | `-i` pushes every argument as a local file named by itself, in order, URLs included, and changes nothing else. |
| Cli.OnlineEntry | main.cpp:73-80 | The entry `push_online` appends is named by the URL's serialised text. |
| Cli.OnlineEntryIsPushed | main.cpp:73-80 | That entry is what `push_online` appends, and `push_online` changes nothing but the list. |
| Cli.PushTexts | main.cpp:73-80 | Serialised URLs are pushed in order up to the first failed parse, whose error ends the run; with none, all of them are pushed. |
| Cli.ParseEach | main.cpp:73-80 | Each argument is parsed by the `Url` constructor, failing with its `stoi` error, or else serialised. |
| Cli.OnlineInputs | main.cpp:73-80 | `-n` pushes every argument online, in order and whatever it looks like, and reports an error exactly when it stopped before the last argument, at one whose port did not parse; nothing but the list changes. |
| Cli.OnlineInputsPushEach | main.cpp:73-80 | Each entry `-n` pushes is what `push_online` appends for the `Url` its argument parses to. |
| Cli.OnlineInputsStopsAt | main.cpp:73-80 | When `-n` stops early, the argument it stopped at fails `Url` parsing and its error is the program's. |
| Cli.PushTextsStopsAt | main.cpp:73-80 | Pushing serialised URLs ends with the error of the first one that failed to parse. |
| Cli.FailureOf | main.cpp:41-48 | A failed play of `player.h` ends the program with the player's or the audio's error. |
| Cli.PositionalOld | main.cpp:41-48 | The positional arguments push at most one entry each after the old list, and all of them when no error ends the run. |
| Cli.LocalEntry | main.cpp:46 | A local argument becomes an entry named by itself. |
| Cli.LocalArgsTail | main.cpp:41-48 | The tail of local arguments that open is again such a list. |
| Cli.Locals | main.cpp:46 | Local arguments become entries named by themselves. |
| Cli.PositionalOldStep | main.cpp:41-48 | One local argument that opens is pushed and played and the cursor passes it. |
| Cli.AllPlayedStep | main.cpp:41-48 | Playing the first argument and then the rest amounts to playing them all. |
| Cli.PositionalOldPlaysEach | main.cpp:41-48 | With nothing left to play and local files that open, each argument is pushed and played once: the list grows by their entries, the cursor passes them, and the log grows by their positions in order. |
| Cli.PositionalOldNeedsServer | main.cpp:41-48 | With no server set and no `PULSE_SERVER`, the first local argument that opens ends the program with "Can not find PULSE_SERVER", unplayed. |
| Cli.CountArg | main.cpp:81-104 | A count option uses the default with no argument, `stoi`'s value or error with one, and is ignored with more. |
| Cli.ParseCommand | main.cpp:26-38 | The words `pause`, `go` and `quit` select their commands. |
| Cli.QuitAt | main.cpp:34-38 | The first `quit` is found, and no earlier word is `quit`. |
| Cli.Commands | main.cpp:20-40 | The input thread quits iff some word is `quit`, and without any `pause` or `go` the pause state is unchanged. |
| Cli.CommandsSpec | main.cpp:20-40 | The input thread quits iff some word is `quit`, and the pause state is that of the last `pause` or `go` before the first `quit`, or unchanged if there is none. |

## Left out

- TagReader.IDS: the source's array of 75 ids lists `TBPM`, `TENC` and `TSRC` twice; the model keeps the set, since `std::find` only asks whether an id is present.
- Threads and blocking: the wait loops of the stream, the buffer, the decoder's pause wait and the audio output's condition wait are preconditions on the operations that would wait (`Stream.Read`, `Stream.Ignore`, `Stream.Seek`, `MusicBuffer.Read`, `MusicBuffer.Seek`, `AudioSession.Output`); the download threads, the time bar's drawing thread and the detached keyboard and stdin threads are not modelled.
- libmad is not part of this model: its driver is a script of callback events (`Decoder.Run`), and `MAD_F_FRACBITS` is the constant 28.
- PulseAudio, libcurl, `fstream` and `std::filesystem` are foreign I/O: opening a device is the boolean `paOk`, a file's existence, openability and an HTTP status are answers of `Player.World`, `curl_easy_escape` is a parameter `esc` of the URL functions (with `Url.CurlEscape` as one instance), and the UTF-16 conversion of the tag reader is a parameter `utf16`, a total function, so the `std::range_error` that `converter.to_bytes` throws on input it cannot convert (an unpaired surrogate, say) is not modelled.
- The `Http` class, the curl callbacks and src/http.hpp are not part of this model.
- Randomness: `randint` is replaced by a sequence of draws given to `OldPlayer.Random`; each draw is taken modulo the list size, as `uniform_int_distribution(0, size - 1)` guarantees.
- Clocks: the cache file name's timestamp is a parameter `stamp`, and the time bar's clock is integer milliseconds (`Bar.GetTime`).
- Floating point: `Bar::update`'s ratio test is an arbitrary boolean per call, and src/bar.hpp's `update` and the download progress callbacks are not modelled.
- Terminal drawing, logging, the help text and the `TimeBar` position are not modelled; errors are values of small datatypes rather than messages.
- The message `-i` and `-n` of main.cpp print when given no argument is not modelled; `Cli.LocalInputs` and `Cli.OnlineInputs` then push nothing.
- Cli.OnlineInputs: its own contract says where the run stopped, not with which error; `Cli.OnlineInputsStopsAt` states the error, because stating both in one contract is beyond what the prover settles reliably.
- The `-s`, `-c`, `-f`, `--no-bar` and `-h` options are not routed in `Cli` (their effects are the setters `Player.SetAudioServer`, `Player.EnableCache`, `Player.OutputToFile`, `OldPlayer.NoBar`), and the option parser's priorities are not modelled.
- Decimal.IsSpace: is `isspace` of the "C" locale; other locales are not modelled.
- TagReader.Loop: runs on fuel because the loop need not end on a truncated file; `None` means the fuel ran out, and `Some(Err(LengthError))` is the exception.
- TagReader.Shown: the source builds the string from `size - 1` bytes starting one byte into a `size - 1` byte vector, reading one byte past it; the model keeps only the bytes inside the vector, because the byte past it is undefined.
- TagReader.FrameBody: frames with an encoding byte other than 0 or 1 are skipped without counting their bytes, as written.
- TagReader.FrameBody: an encoding-1 frame whose `size - 1` is odd reads `size - 1` bytes into a buffer of `size - 2`, one byte past its end; the model keeps the bytes inside the buffer, because the overrun is undefined behaviour.
- TagReader.FrameBody: `max_size()` is that of libstdc++ on a 64-bit target (`PTRDIFF_MAX` over the element size), and a `resize` below it that memory cannot satisfy (`std::bad_alloc`) is not modelled.
- FrameHeaderDecodes: with the written size arithmetic it is stated only for texts under 127 bytes, because a size with a byte of 128 or more decodes otherwise (a 128-byte frame to 2^64 - 128, `TagReader.FrameSizeAsWrittenWraps`); the same bound applies to `TagReader.StepReadsTextFrame`, `TagReader.StepReadsFirst` and `TagReader.LoopReadsTextFrames`.
- TagReader.ParseReadsTag: with the written size arithmetic it is stated only for bodies under 128 bytes, because a larger body's size field generally decodes to less, and the reader as written then stops early and loses frames (`TagReader.ParseAsWrittenDropsFrame`).
- TagReader.Parse: the loop bound is the tag size less 10, reduced modulo 2^64 as `std::size_t` is.
- Player.SetAudioServer: requires the sound-server sink, because after `output_to_file` the source's cast yields a null pointer that it then dereferences.
- AudioSession.Pause: requires a bar object when the session is running, because the source then dereferences the bar pointer without a check.
- AudioSession.Go: requires a bar object when the session is paused, because the source then dereferences the bar pointer without a check.
- OldPlayer.Pop: requires a non-empty list, because `pop_front` on an empty `deque` is undefined.
- Url.ParseTotal: the round trip is stated for well-formed URLs of unreserved characters (`Url.WellFormed`) and escape functions that keep unreserved text, since other text is changed by the escape or mis-split by the parser (`Url.QueryWithoutPathIsDomain`).
- Cli.CommandsSpec: main.cpp calls `pause`, `go` and `curr`, which player.h's `Player` does not have, so the pause state is an abstract flag and `quit`'s printed position is not modelled.
- OldPlayer.EntryFailure: how the decode of an entry ends (plays through, under 1024 bytes on the first read, device refused) is an answer of `OldPlayer.Sound` rather than a run of the older audio callbacks, because the MP3 bytes and libmad are not modelled; `OldPlayer.PlayEntryAsAudio` ties its server handling to `AudioSession.PlayOld`.
- OldPlayer.Random: its own contract bounds the log only; which entries are played is stated by `OldPlayer.RandomSpec` and `OldPlayer.RandomKeeps`.
- OldPlayer.RepeatedPlay: its own contract states what is kept; the outcome of each case is stated by `OldPlayer.RepeatedSpec`.
- Cli.Positional: its own contract bounds the list only; what the arguments do is stated by `Cli.PositionalPlaysEach` (corrected) and `Cli.PositionalAsWritten` (as written).
- Cli.PositionalOld: its own contract bounds the list only; what the arguments do is stated by `Cli.PositionalOldPlaysEach` and `Cli.PositionalOldNeedsServer`.
- Url.Params: its own contract bounds the pairs only; the pairs read back from a query are stated by `Url.ParamsJoin`.
- Url.Total: its own contract states the prefix only; the whole text is stated by `Url.TotalShape` and the round trip by `Url.ParseTotal`.
- `FileInputStream::ignore`, `seek` and `read_size` are not modelled: the decoder reads a file only through `read`, `eof` and `size`, and the tag reader's stream is its own `TagReader.File`.
- `TimeBar::set` calls itself forever in both snapshots, and is not modelled.
- The `FileOutputStream` constructor throws when the file opens, and is not modelled; the WAV output is a file value (`Encoder.OutFile`).
- The `InputStream` base computes a size from uninitialised memory, `NetInputStream`'s size is uninitialised before `set_size` (the model's `Option` is `None` there), and the default `AudioPos()` leaves its bit rate uninitialised; none of these values is read by the model.

## Findings

| source | as written | input that shows it | evidently intended | confidence | as-written member | corrected member |
|---|---|---|---|---|---|---|
| src/main.cpp:28-36 (and main.cpp:6-12) | `is_http` compares a 7-character prefix with the 8-character `"https://"` | `https://example.com/a.mp3` is treated as a local file name | accept both `http://` and `https://` | not executed; high | Cli.HttpsPushedAsFile | Cli.IsHttpSpec |
| src/stream.hpp:200-204 | `offset * -1 >= readpos` compares after converting to `std::size_t`, so every positive offset wraps to a huge value | `readpos = 10`, `offset = 5` sets `readpos` to 0 | move by the offset, clamping at 0, as `FileInputStream` does | not executed; high | Stream.SeekCurOffsetForwardResets | Stream.SeekCurOffsetValid |
| src/player.hpp:210 | `output(-1)` makes `music_list.size()` turns from the current cursor | two positional arguments: the second `output()` plays one entry, then throws "music list has no music" | play the entries left after the cursor | not executed; high | Cli.PositionalAsWritten | Cli.PositionalPlaysEach |
| src/tagreader.hpp:214-217 | tag size weights 0x200000, 0x400, 0x40, 1 | size bytes 0,0,1,0 (a 128-byte tag) decode to 64 | synchsafe weights 0x200000, 0x4000, 0x80, 1 of section 3.1 of ID3v2.3.0 | not executed; high | TagReader.ParseAsWrittenDropsFrame | TagReader.ParseRecoversText |
| src/tagreader.hpp:226-227 | frame size from signed `char`s with top weight 0x10000000 | a listed text frame of 128 to 255 bytes (size bytes 0,0,0,n) decodes above 2^63, and `resize` at line 238 throws `std::length_error` out of the constructor | unsigned big-endian with weights 2^24, 2^16, 2^8, 1 (section 3.3 of ID3v2.3.0) | not executed; high | TagReader.ParseThrowsOnLongFrame | TagReader.FrameSizeRoundTrip |
| src/tagreader.hpp:296-299 | after the loop `all_info` appends the first entry's value | tags TALB=A, TIT2=B give "A - A" | append the last entry's value | not executed; high | TagReader.AllInfoAsWrittenRepeatsFirst | TagReader.TerminatedJoin |
| src/audio.hpp:38-41 | `time * 8192` is computed in 32-bit `unsigned int` | 599552 ms at 128 kbit/s gives byte 1204224 | byte 9592832, the inverse of `size_to_time` | not executed; medium | Timing.TimeToSizeAsWrittenWraps | Timing.TimeSizeRoundTrip |
| src/decoder.hpp:44-56 (and src/audio.hpp:93-101, audio.h:43-51) | the rounding addition on a 32-bit `mad_fixed_t` overflows near `INT_MAX` | sample `INT_MAX` scales to -32768 | saturate to 32767 | not executed; low | Mad.ScaleAsWrittenWrapsAtTop | Mad.ScaleMonotone |

=== FILE: audio.dfy ===
/** The libmad callbacks that play a `music::Buffer` on the sound server:
    `src/audio.hpp` (with pause, a start position and the `src/bar.hpp` time bar)
    and the older `audio.h`.

    PulseAudio is not part of this model: the playback stream is a record of the
    sample rate it was opened with and the bytes written to it, and whether
    `pa_simple_new` succeeds is a parameter. The condition-variable wait of the
    output callback becomes a precondition, as do the wait loops of the buffer. */
module AudioSession {
  import opened Bytes
  import opened Wrappers
  import MusicBuffer
  import Timing
  import Mad
  import Bar

  /** The thrown `error::Error`s. */
  datatype AudioError =
    | DataTooSmall
    | PulseInitFailed
    | NoPulseServer
    | BitrateUndefined

  /** An open playback stream: its sample rate and everything written to it. */
  datatype Device = Device(samplerate: nat, written: seq<byte>)

  /** Smallest first read that is accepted as music. */
  const MIN_FIRST_READ: nat := 1024

  /** The refill shared by both `input` callbacks: stop once the buffer reports
      end of stream; otherwise carry over the unfinished frame and fill the rest
      of the fixed buffer, refusing a first fill of under 1024 bytes. */
  function Refill(music: MusicBuffer.Buffer, mad: Mad.MadStream, started: bool)
    : (r: Result<(Mad.Flow, MusicBuffer.Buffer, Mad.MadStream), AudioError>)
    requires music.Valid() && mad.Valid() && |mad.Carry()| <= Mad.BUFFER_SIZE
    requires music.isEnd || music.Unread() >= Mad.BUFFER_SIZE - |mad.Carry()|
    ensures MusicBuffer.Eof(music) ==> r == Ok((Mad.Stop, music, mad))
    ensures r.Err? <==>
              !MusicBuffer.Eof(music) && !started && Min(Mad.BUFFER_SIZE - |mad.Carry()|, music.Unread()) < MIN_FIRST_READ
    ensures r.Err? ==> r.error == DataTooSmall
    ensures r.Ok? && r.value.0 == Mad.Continue ==>
              (var got := Min(Mad.BUFFER_SIZE - |mad.Carry()|, music.Unread());
               && r.value.1.Valid()
               && r.value.1.readpos == music.readpos + got
               && r.value.2.buffer == mad.Carry() + music.buf[music.readpos .. music.readpos + got]
               && |r.value.2.buffer| <= Mad.BUFFER_SIZE
               && r.value.2.nextFrame == Some(0))
  {
    if MusicBuffer.Eof(music) then Ok((Mad.Stop, music, mad))
    else
      var carry := mad.Carry();
      var (data, music') := MusicBuffer.Read(music, Mad.BUFFER_SIZE - |carry|);
      if !started && |data| < MIN_FIRST_READ then Err(DataTooSmall)
      else Ok((Mad.Continue, music', Mad.StreamBuffer(carry + data)))
  }

  /** Zero-filling the decoder buffer after a seek: libmad's view of it becomes
      zeros of the same length. */
  function ZeroFill(mad: Mad.MadStream): (m: Mad.MadStream)
    requires mad.Valid()
    ensures m.Valid() && |m.buffer| == |mad.buffer| && m.nextFrame == mad.nextFrame
    ensures forall i :: 0 <= i < |m.buffer| ==> m.buffer[i] == 0
  {
    mad.(buffer := seq(|mad.buffer|, i => 0))
  }

  /** The `Data` of `src/audio.hpp` for one `play`. `server` is `None` until
      `init` (the `inited` flag); `bar` is `None` while the pointer is empty. */
  datatype Session = Session(
    server: Option<string>,
    music: MusicBuffer.Buffer,
    mad: Mad.MadStream,
    started: bool,
    pause: bool,
    pos: Timing.AudioPos,
    withBar: bool,
    bar: Option<Bar.TimeBar>,
    device: Option<Device>)
  {
    predicate Valid() {
      music.Valid() && mad.Valid() && |mad.buffer| <= Mad.BUFFER_SIZE && pos.Valid()
    }
  }

  /** `Audio()`: not initialised, with the bar on. */
  function NewAudio(): (s: Session)
    ensures s.Valid() && s.server.None? && s.withBar && s.bar.None? && s.device.None?
  {
    Session(None, MusicBuffer.Empty(), Mad.MadStream([], None), false, false, Timing.MakeAudioPos(0),
            true, None, None)
  }

  function NoBar(s: Session): (t: Session)
    ensures !t.withBar && t == s.(withBar := false)
  {
    s.(withBar := false)
  }

  function WithBar(s: Session): (t: Session)
    ensures t.withBar && t == s.(withBar := true)
  {
    s.(withBar := true)
  }

  function Init(s: Session, server: string): (t: Session)
    ensures t.server == Some(server) && t == s.(server := Some(server))
  {
    s.(server := Some(server))
  }

  /** `Audio::play` up to `mad_decoder_run`: initialise from `PULSE_SERVER`
      (`env`) when needed, install the music and the start position, and clear
      `started` and `pause`. */
  function Play(s: Session, env: Option<string>, m: MusicBuffer.Buffer, pos: Timing.AudioPos)
    : (r: Result<Session, AudioError>)
    requires s.Valid() && m.Valid() && pos.Valid()
    ensures r.Err? <==> s.server.None? && env.None?
    ensures r.Err? ==> r.error == NoPulseServer
    ensures r.Ok? ==>
              && r.value.Valid() && r.value.server.Some?
              && r.value.music == m && r.value.pos == pos
              && !r.value.started && !r.value.pause && r.value.mad.nextFrame.None?
              && r.value.withBar == s.withBar && r.value.bar == s.bar && r.value.device == s.device
    ensures r.Ok? && s.server.Some? ==> r.value.server == s.server
  {
    var s1 :- if s.server.Some? then Ok(s) else if env.Some? then Ok(Init(s, env.value)) else Err(NoPulseServer);
    Ok(s1.(music := m, mad := Mad.MadStream([], None), started := false, pause := false, pos := pos))
  }

  /** The `input` callback of `src/audio.hpp`. */
  function Input(s: Session): (r: Result<(Mad.Flow, Session), AudioError>)
    requires s.Valid()
    requires s.music.isEnd || s.music.Unread() >= Mad.BUFFER_SIZE - |s.mad.Carry()|
    ensures r.Ok? ==> r.value.1.Valid()
    ensures r.Ok? && r.value.0 == Mad.Stop <==> MusicBuffer.Eof(s.music)
    ensures r.Err? ==> r.error == DataTooSmall && !s.started
    ensures s.started ==> r.Ok?
    ensures r.Ok? ==> r.value.1.started == s.started && r.value.1.pause == s.pause &&
                      r.value.1.device == s.device && r.value.1.bar == s.bar && r.value.1.pos == s.pos
  {
    var (flow, music', mad') :- Refill(s.music, s.mad, s.started);
    Ok((flow, s.(music := music', mad := mad')))
  }

  /** What the first header needs: a bit rate the conversions can divide by that
      `set_bitrate(int)` stores unchanged, and, for a start position, enough
      received data for the seek's wait to end (the offset `as_size()` computes,
      wrapping included); with the bar, a known size. */
  predicate HeaderReady(s: Session, h: Mad.Header)
    requires s.Valid()
  {
    !s.started ==>
      Timing.ValidBitrate(h.bitrate) && h.bitrate <= INT_MAX && h.samplerate < TWO_32 &&
      (s.pos.pos != 0 ==>
         s.music.isEnd || s.music.Unread() >= Timing.TimeToSizeAsWritten(s.pos.pos, h.bitrate)) &&
      (s.withBar ==> s.music.totalSize.Some? && s.music.totalSize.value < TWO_64)
  }

  /** The time bar the first header creates: duration from the announced size,
      started at the requested position. */
  function FirstBar(size: nat, bitrate: nat, start: nat): (b: Bar.TimeBar)
    requires Timing.ValidBitrate(bitrate)
    ensures b.time == Timing.SizeToTime(size, bitrate) && b.start == Some(start)
    ensures !b.paused && b.offset == 0 && b.finishedSize == 0
  {
    Bar.Start(Bar.SetTime(Bar.NewTimeBar(), Timing.SizeToTime(size, bitrate)), start)
  }

  /** `header_func` of `src/audio.hpp`. Only the first header acts: it fixes the
      bit rate of the start position, seeks there (clearing the decoder buffer)
      when the position is not 0, opens the playback stream at the header's sample
      rate (`paOk` says whether that succeeds) and creates the time bar. */
  function Header(s: Session, h: Mad.Header, paOk: bool): (r: Result<(Mad.Flow, Session), AudioError>)
    requires s.Valid() && HeaderReady(s, h)
    ensures s.started ==> r == Ok((Mad.Continue, s))
    ensures r.Err? <==> !s.started && !paOk
    ensures r.Err? ==> r.error == PulseInitFailed
    ensures r.Ok? ==>
              (var t := r.value.1;
               && r.value.0 == Mad.Continue && t.Valid() && t.started
               && t.pause == s.pause && t.server == s.server && t.withBar == s.withBar)
    ensures r.Ok? && !s.started ==>
              (var t := r.value.1;
               && t.pos == Timing.SetBitrate(s.pos, h.bitrate)
               && t.device == Some(Device(h.samplerate, []))
               && (s.pos.pos == 0 ==> t.music == s.music && t.mad == s.mad)
               && (s.pos.pos != 0 ==>
                     (t.music.readpos == |s.music.buf| && t.music.buf == s.music.buf &&
                      forall i :: 0 <= i < |t.mad.buffer| ==> t.mad.buffer[i] == 0))
               && (s.withBar ==> t.bar == Some(FirstBar(s.music.totalSize.value, h.bitrate, s.pos.pos)))
               && (!s.withBar ==> t.bar == s.bar))
  {
    if s.started then Ok((Mad.Continue, s))
    else
      var pos := Timing.SetBitrate(s.pos, h.bitrate);
      var s1 :=
        if pos.pos != 0 then
          var size := Timing.TimeToSizeAsWritten(pos.pos, pos.bitrate);
          s.(pos := pos, music := MusicBuffer.Seek(s.music, size), mad := ZeroFill(s.mad))
        else s.(pos := pos);
      if !paOk then Err(PulseInitFailed)
      else
        var s2 := s1.(started := true, device := Some(Device(h.samplerate, [])));
        if s2.withBar then Ok((Mad.Continue, s2.(bar := Some(FirstBar(s.music.totalSize.value, h.bitrate, pos.pos)))))
        else Ok((Mad.Continue, s2))
  }

  /** Once started, further headers leave the session as it is. */
  lemma HeaderActsOnce(s: Session, h1: Mad.Header, h2: Mad.Header)
    requires s.Valid() && HeaderReady(s, h1) && Header(s, h1, true).Ok?
    ensures var t := Header(s, h1, true).value.1;
            HeaderReady(t, h2) && Header(t, h2, true) == Ok((Mad.Continue, t)) &&
            Header(t, h2, false) == Ok((Mad.Continue, t))
  {
  }

  /** The `output` callback of `src/audio.hpp`, once the pause wait has ended. */
  function Output(s: Session, pcm: Mad.Pcm): (r: (Mad.Flow, Session))
    requires s.Valid() && pcm.Valid() && !s.pause && s.device.Some?
    ensures r.0 == Mad.Continue && r.1.Valid()
    ensures r.1.device.Some? && r.1.device.value.samplerate == s.device.value.samplerate
    ensures r.1.device.value.written == s.device.value.written + Mad.FrameBytes(pcm)
    ensures r.1.(device := s.device) == s
  {
    var d := s.device.value;
    (Mad.Continue, s.(device := Some(d.(written := d.written + Mad.FrameBytes(pcm)))))
  }

  /** The `error` callback. */
  function Error(s: Session): (r: (Mad.Flow, Session))
    ensures r.0 == Mad.Continue && r.1 == s
  {
    (Mad.Continue, s)
  }

  /** `Audio::curr()`: the played position in ms. */
  function Curr(s: Session): (r: Result<Timing.AudioPos, AudioError>)
    requires s.Valid()
    ensures r.Err? <==> s.pos.bitrate == -1
    ensures r.Ok? ==> r.value.bitrate == -1 && r.value.pos == Timing.SizeToTime(s.music.readpos, s.pos.bitrate)
  {
    match Timing.GetBitrate(s.pos)
    case Err(_) => Err(BitrateUndefined)
    case Ok(b) => Ok(Timing.MakeAudioPos(Timing.SizeToTime(s.music.readpos, b)))
  }

  /** `Audio::pause()`: a no-op when paused; otherwise sets the flag and pauses
      the bar (dereferencing it, so a bar must exist). */
  function Pause(s: Session): (t: Session)
    requires s.pause || s.bar.Some?
    ensures t.pause
    ensures s.pause ==> t == s
    ensures !s.pause ==> t == s.(pause := true, bar := Some(Bar.Pause(s.bar.value)))
  {
    if s.pause then s else s.(pause := true, bar := Some(Bar.Pause(s.bar.value)))
  }

  /** `Audio::go()`: a no-op when running; otherwise clears the flag, wakes the
      output callback and resumes the bar. */
  function Go(s: Session): (t: Session)
    requires !s.pause || s.bar.Some?
    ensures !t.pause
    ensures !s.pause ==> t == s
    ensures s.pause ==> t == s.(pause := false, bar := Some(Bar.Go(s.bar.value)))
  {
    if !s.pause then s else s.(pause := false, bar := Some(Bar.Go(s.bar.value)))
  }

  function IsPaused(s: Session): bool {
    s.pause
  }

  /** The guarded toggles: repeating either is a no-op, and the bar's flag follows
      the session's. */
  lemma PauseGoLaws(s: Session)
    requires s.bar.Some?
    ensures Pause(Pause(s)) == Pause(s) && Go(Go(s)) == Go(s)
    ensures IsPaused(Pause(s)) && (!s.pause ==> Pause(s).bar.value.paused)
    ensures !IsPaused(Go(s)) && (s.pause ==> !Go(s).bar.value.paused)
    ensures !s.pause && !s.bar.value.paused ==> Go(Pause(s)) == s
  {
  }

  /** The `Data` of `audio.h`: no pause, no start position, and `bar.h`'s bar. */
  datatype OldSession = OldSession(
    server: Option<string>,
    music: MusicBuffer.Buffer,
    mad: Mad.MadStream,
    started: bool,
    withBar: bool,
    bar: Option<Bar.OldTimeBar>,
    device: Option<Device>)
  {
    predicate Valid() {
      music.Valid() && mad.Valid() && |mad.buffer| <= Mad.BUFFER_SIZE
    }
  }

  /** `Audio::play` of `audio.h` up to `mad_decoder_run`. */
  function PlayOld(s: OldSession, env: Option<string>, m: MusicBuffer.Buffer): (r: Result<OldSession, AudioError>)
    requires s.Valid() && m.Valid()
    ensures r.Err? <==> s.server.None? && env.None?
    ensures r.Ok? ==> r.value.Valid() && r.value.server.Some? && r.value.music == m && !r.value.started &&
                      r.value.mad.nextFrame.None? && r.value.withBar == s.withBar && r.value.device == s.device
  {
    var s1 :- if s.server.Some? then Ok(s) else if env.Some? then Ok(s.(server := env)) else Err(NoPulseServer);
    Ok(s1.(music := m, mad := Mad.MadStream([], None), started := false))
  }

  /** The `input` callback of `audio.h`: the same refill and the same check. */
  function InputOld(s: OldSession): (r: Result<(Mad.Flow, OldSession), AudioError>)
    requires s.Valid()
    requires s.music.isEnd || s.music.Unread() >= Mad.BUFFER_SIZE - |s.mad.Carry()|
    ensures r.Ok? ==> r.value.1.Valid()
    ensures r.Ok? && r.value.0 == Mad.Stop <==> MusicBuffer.Eof(s.music)
    ensures r.Err? ==> r.error == DataTooSmall && !s.started
    ensures s.started ==> r.Ok?
  {
    var (flow, music', mad') :- Refill(s.music, s.mad, s.started);
    Ok((flow, s.(music := music', mad := mad')))
  }

  /** `header_func` of `audio.h`: the first header opens the stream and creates a
      bar whose duration is the same block formula as `size_to_time`, computed
      inline in `size_t` and stored as `unsigned int`. */
  function HeaderOld(s: OldSession, h: Mad.Header, paOk: bool): (r: Result<(Mad.Flow, OldSession), AudioError>)
    requires s.Valid()
    requires !s.started ==> Timing.ValidBitrate(h.bitrate) && h.samplerate < TWO_32 &&
                            (s.withBar ==> s.music.totalSize.Some? && s.music.totalSize.value < TWO_64)
    ensures s.started ==> r == Ok((Mad.Continue, s))
    ensures r.Err? <==> !s.started && !paOk
    ensures r.Ok? ==> r.value.0 == Mad.Continue && r.value.1.started && r.value.1.Valid()
    ensures r.Ok? && !s.started ==>
              && r.value.1.music == s.music && r.value.1.mad == s.mad
              && r.value.1.device == Some(Device(h.samplerate, []))
              && (s.withBar ==> r.value.1.bar == Some(Bar.OldTimeBar(Timing.SizeToTime(s.music.totalSize.value, h.bitrate))))
  {
    if s.started then Ok((Mad.Continue, s))
    else if !paOk then Err(PulseInitFailed)
    else
      var s1 := s.(started := true, device := Some(Device(h.samplerate, [])));
      if s.withBar then
        var time := U32(U64((s.music.totalSize.value / 8192) * ((8192 * 8) / (h.bitrate / 1000))));
        Ok((Mad.Continue, s1.(bar := Some(Bar.SetTimeOld(Bar.NewOldTimeBar(0), time)))))
      else Ok((Mad.Continue, s1))
  }

  /** The `output` callback of `audio.h`: no pause wait. */
  function OutputOld(s: OldSession, pcm: Mad.Pcm): (r: (Mad.Flow, OldSession))
    requires s.Valid() && pcm.Valid() && s.device.Some?
    ensures r.0 == Mad.Continue && r.1.Valid()
    ensures r.1.device.Some? && r.1.device.value.written == s.device.value.written + Mad.FrameBytes(pcm)
    ensures r.1.(device := s.device) == s
  {
    var d := s.device.value;
    (Mad.Continue, s.(device := Some(d.(written := d.written + Mad.FrameBytes(pcm)))))
  }

  /** A session that refused its first fill never started: the "data too small"
      error can only end a decode before any sound was produced. */
  lemma TooSmallOnlyBeforeStart(s: Session)
    requires s.Valid() && (s.music.isEnd || s.music.Unread() >= Mad.BUFFER_SIZE - |s.mad.Carry()|)
    requires Input(s).Err?
    ensures !s.started && !MusicBuffer.Eof(s.music)
    ensures s.mad.nextFrame.None? ==> s.music.Unread() < MIN_FIRST_READ
  {
  }
}

=== FILE: bar.dfy ===
/** The progress bars of `src/bar.hpp` and the older `bar.h`.

    The drawing thread, the terminal output and the floating-point fill ratio are
    not part of this model; what remains is the clock text, the padding of the
    trailing text, the fill counter of `bar.h`, and the `TimeBar` controls, with the
    `double` millisecond offset of `src/bar.hpp` taken as an integer. */
module Bar {
  import opened Bytes
  import opened Decimal
  import opened Wrappers

  /** A leading zero does not change the value of a numeral. */
  lemma {:induction false} DigitsValueLeadingZero(s: string)
    requires AllDigits(s)
    ensures AllDigits("0" + s) && DigitsValue("0" + s) == DigitsValue(s)
    decreases |s|
  {
    var z := "0" + s;
    if s != [] {
      assert z[..|z| - 1] == "0" + s[..|s| - 1];
      DigitsValueLeadingZero(s[..|s| - 1]);
    } else {
      assert z[..0] == [];
    }
  }

  /** One part of the clock: `to_string(n)`, preceded by `"0"` when `n <= 9`. */
  function Pad2(n: nat): (r: string)
    ensures AllDigits(r) && |r| >= 2
    ensures n < 100 ==> |r| == 2
    ensures DigitsValue(r) == n
  {
    NatToStringRoundTrip(n);
    NatToStringTwoDigits(n);
    if n > 9 then NatToString(n)
    else
      DigitsValueLeadingZero(NatToString(n));
      "0" + NatToString(n)
  }

  /** `ms_to_string(time)`: whole minutes, a colon, then the seconds within the
      minute, each at least two digits. */
  function MsToString(time: nat): (r: string)
    requires time < TWO_32
    ensures |r| >= 5 && r[|r| - 3] == ':'
    ensures AllDigits(r[..|r| - 3]) && AllDigits(r[|r| - 2..])
  {
    var minutes := time / 60000;
    var seconds := (time % 60000) / 1000;
    var r := Pad2(minutes) + ":" + Pad2(seconds);
    assert r[..|r| - 3] == Pad2(minutes) && r[|r| - 2..] == Pad2(seconds);
    r
  }

  /** Reads a clock text back as (minutes, seconds). */
  function ParseClock(r: string): (p: (nat, nat))
    requires |r| >= 5 && AllDigits(r[..|r| - 3]) && AllDigits(r[|r| - 2..])
  {
    (DigitsValue(r[..|r| - 3]), DigitsValue(r[|r| - 2..]))
  }

  /** The clock text names the whole minutes and the remaining whole seconds, and
      so determines the time to the second. */
  lemma MsToStringRoundTrip(time: nat)
    requires time < TWO_32
    ensures ParseClock(MsToString(time)) == (time / 60000, (time % 60000) / 1000)
    ensures ParseClock(MsToString(time)).0 * 60000 + ParseClock(MsToString(time)).1 * 1000 == time - time % 1000
  {
    var minutes := time / 60000;
    var seconds := (time % 60000) / 1000;
    var r := MsToString(time);
    assert r[..|r| - 3] == Pad2(minutes) && r[|r| - 2..] == Pad2(seconds);
    assert time % 60000 - (time % 60000) % 1000 == seconds * 1000;
    assert (time % 60000) % 1000 == time % 1000;
  }

  function Spaces(n: nat): (r: string)
    ensures |r| == n && forall i :: 0 <= i < n ==> r[i] == ' '
  {
    seq(n, i => ' ')
  }

  /** `Bar::add(addition)`, over the recorded `last_addition_size`: the text padded
      with spaces to cover the previous text, and the new recorded length. */
  function Add(last: nat, addition: string): (r: (string, nat))
    ensures |r.0| == Max(|addition|, last)
    ensures r.0[..|addition|] == addition
    ensures forall i :: |addition| <= i < |r.0| ==> r.0[i] == ' '
    ensures r.1 == |addition|
  {
    var opt := if |addition| < last then Spaces(last - |addition|) else [];
    (addition + opt, |addition|)
  }

  /** A text written over an earlier one always covers it completely. */
  lemma AddCovers(last: nat, a: string, b: string)
    ensures |Add(Add(last, a).1, b).0| >= |a|
    ensures |Add(last, a).0| >= last
  {
  }

  /** The state of `bar.h`'s `Bar` that `update` changes. */
  datatype OldBar = OldBar(size: nat, finishedSize: nat, lastAdditionSize: nat, first: bool)
  {
    predicate Valid() {
      finishedSize <= size
    }
  }

  /** The constructor with its defaults (36 cells). */
  function NewOldBar(): (b: OldBar)
    ensures b.Valid() && b.size == 36 && b.finishedSize == 0 && b.first
  {
    OldBar(36, 0, 0, true)
  }

  /** `Bar::update` of `bar.h`. `advance` stands for the floating-point test that
      the fill ratio is more than half a cell ahead. */
  function UpdateOld(b: OldBar, advance: bool, addition: string): (c: OldBar)
    requires b.Valid()
    ensures c.Valid() && !c.first && c.size == b.size
    ensures b.finishedSize <= c.finishedSize <= b.finishedSize + 1
    ensures c.finishedSize == b.finishedSize + 1 <==> advance && b.finishedSize < b.size
    ensures c.lastAdditionSize == |addition|
  {
    var b1 := if b.first then b.(first := false, lastAdditionSize := Add(b.lastAdditionSize, addition).1) else b;
    if b1.finishedSize < b1.size && advance then
      b1.(finishedSize := b1.finishedSize + 1, lastAdditionSize := Add(b1.lastAdditionSize, addition).1)
    else b1.(lastAdditionSize := Add(b1.lastAdditionSize, addition).1)
  }

  /** Applies `update` once per element of `steps`. */
  function UpdateMany(b: OldBar, steps: seq<bool>): (c: OldBar)
    requires b.Valid()
    ensures c.Valid() && c.size == b.size
    ensures b.finishedSize <= c.finishedSize
    decreases |steps|
  {
    if steps == [] then b else UpdateMany(UpdateOld(b, steps[0], ""), steps[1..])
  }

  function CountTrue(steps: seq<bool>): (n: nat)
    ensures n <= |steps|
    ensures n == 0 <==> forall i :: 0 <= i < |steps| ==> !steps[i]
    ensures n == |steps| <==> forall i :: 0 <= i < |steps| ==> steps[i]
    decreases |steps|
  {
    if steps == [] then 0
    else
      assert forall i :: 1 <= i < |steps| ==> steps[i] == steps[1..][i - 1];
      (if steps[0] then 1 else 0) + CountTrue(steps[1..])
  }

  /** Over any run of updates the bar fills monotonically: at most one cell per
      advancing call, never past its size, and it is full as soon as enough calls
      advanced. */
  lemma {:induction false} UpdateManyFills(b: OldBar, steps: seq<bool>)
    requires b.Valid()
    ensures UpdateMany(b, steps).finishedSize == Min(b.size, b.finishedSize + CountTrue(steps))
    ensures steps != [] ==> !UpdateMany(b, steps).first
    decreases |steps|
  {
    if steps != [] {
      UpdateManyFills(UpdateOld(b, steps[0], ""), steps[1..]);
    }
  }

  /** `bar.h`'s `TimeBar`: only the duration is state the controls touch. */
  datatype OldTimeBar = OldTimeBar(time: nat)

  /** `TimeBar(time)` and `TimeBar()`. */
  function NewOldTimeBar(time: nat): (t: OldTimeBar)
    ensures t.time == time
  {
    OldTimeBar(time)
  }

  function SetTimeOld(t: OldTimeBar, time: nat): (u: OldTimeBar)
    ensures u.time == time
  {
    t.(time := time)
  }

  /** `src/bar.hpp`'s `TimeBar` with its inherited `Bar` counters. `offset` is the
      number of milliseconds to subtract from the wall-clock elapsed time; `start`
      is the start position given to `start(pos)`, `None` before the thread is
      launched. */
  datatype TimeBar = TimeBar(
    size: nat,
    finishedSize: nat,
    lastAdditionSize: nat,
    first: bool,
    time: nat,
    paused: bool,
    offset: int,
    start: Option<nat>)

  /** The constructor: 36 cells, nothing drawn, duration 0, running, no offset. */
  function NewTimeBar(): (b: TimeBar)
    ensures b.size == 36 && b.finishedSize == 0 && b.lastAdditionSize == 0 && b.first
    ensures b.time == 0 && !b.paused && b.offset == 0 && b.start == None
  {
    TimeBar(36, 0, 0, true, 0, false, 0, None)
  }

  function SetTime(b: TimeBar, time: nat): (c: TimeBar)
    ensures c.time == time && c == b.(time := time)
  {
    b.(time := time)
  }

  /** `reset()`: forget what was drawn; nothing else changes. */
  function Reset(b: TimeBar): (c: TimeBar)
    ensures c.finishedSize == 0 && c.lastAdditionSize == 0 && c.first
    ensures c.size == b.size && c.time == b.time && c.paused == b.paused
    ensures c.offset == b.offset && c.start == b.start
  {
    b.(finishedSize := 0, lastAdditionSize := 0, first := true)
  }

  /** `start(pos)`: launches the drawing thread, whose clock begins `pos` ms in. */
  function Start(b: TimeBar, pos: nat): (c: TimeBar)
    ensures c.start == Some(pos) && c == b.(start := Some(pos))
  {
    b.(start := Some(pos))
  }

  function Pause(b: TimeBar): (c: TimeBar)
    ensures c.paused && c == b.(paused := true)
  {
    b.(paused := true)
  }

  function Go(b: TimeBar): (c: TimeBar)
    ensures !c.paused && c == b.(paused := false)
  {
    b.(paused := false)
  }

  /** `rewind()`: the displayed time moves 5 s back. */
  function Rewind(b: TimeBar): (c: TimeBar)
    ensures c.offset == b.offset + 5000 && c == b.(offset := c.offset)
  {
    b.(offset := b.offset + 5000)
  }

  /** `skip()`: the displayed time moves 5 s forward. */
  function Skip(b: TimeBar): (c: TimeBar)
    ensures c.offset == b.offset - 5000 && c == b.(offset := c.offset)
  {
    b.(offset := b.offset - 5000)
  }

  /** Rewinding and skipping cancel each other; pausing and resuming only touch
      the flag, so a resume after a pause restores the bar. */
  lemma ControlLaws(b: TimeBar)
    ensures Skip(Rewind(b)) == b && Rewind(Skip(b)) == b
    ensures !b.paused ==> Go(Pause(b)) == b
    ensures Pause(Pause(b)) == Pause(b) && Go(Go(b)) == Go(b)
  {
  }

  /** The thread's `get_time` over integer ms: the time shown for `elapsed` ms of
      wall clock, and the offset afterwards (lowered to `elapsed` when it would
      make the shown time negative). */
  function GetTime(offset: int, elapsed: nat): (r: (nat, int))
    ensures r.0 == Max(0, elapsed - offset)
    ensures r.0 + r.1 == elapsed
    ensures r.1 == Min(offset, elapsed)
  {
    if offset >= elapsed then (0, elapsed) else (elapsed - offset, offset)
  }

  /** After one clamped reading the offset never exceeds the elapsed time, so the
      shown time grows with the wall clock from then on. */
  lemma GetTimeMonotone(offset: int, e1: nat, e2: nat)
    requires e1 <= e2
    ensures GetTime(GetTime(offset, e1).1, e2).0 >= GetTime(offset, e1).0
    ensures GetTime(GetTime(offset, e1).1, e2).0 == GetTime(offset, e1).0 + (e2 - e1)
  {
  }
}

=== FILE: bytes.dfy ===
/** Machine integer widths and little-endian byte layouts.

    Dafny integers are unbounded; every truncation, wrap-around or sign
    reinterpretation the C++ code performs is written out here once. */
module Bytes {

  type byte = x: int | 0 <= x < 0x100

  const TWO_8: int := 0x100
  const TWO_16: int := 0x1_0000
  const TWO_32: int := 0x1_0000_0000
  const TWO_64: int := 0x1_0000_0000_0000_0000

  /** Largest value of a 32-bit signed `int`. */
  const INT_MAX: int := 0x7fff_ffff
  /** Smallest value of a 32-bit signed `int`. */
  const INT_MIN: int := -0x8000_0000

  predicate IsInt32(x: int) {
    INT_MIN <= x <= INT_MAX
  }

  /** Conversion to `uint16_t`: reduction modulo 2^16. */
  function U16(x: int): (r: nat)
    ensures r < TWO_16
    ensures 0 <= x < TWO_16 ==> r == x
    ensures (r - x) % TWO_16 == 0
  {
    x % TWO_16
  }

  /** Conversion to `uint32_t` / `unsigned int`: reduction modulo 2^32. */
  function U32(x: int): (r: nat)
    ensures r < TWO_32
    ensures 0 <= x < TWO_32 ==> r == x
    ensures (r - x) % TWO_32 == 0
  {
    x % TWO_32
  }

  /** Values congruent modulo 2^32 convert to the same `unsigned int`. */
  lemma U32Congruent(x: int, y: int)
    requires (x - y) % TWO_32 == 0
    ensures U32(x) == U32(y)
  {
    var k := (x - y) / TWO_32;
    assert x == y + k * TWO_32;
  }

  /** Conversion to `std::size_t` on a 64-bit target: reduction modulo 2^64. */
  function U64(x: int): (r: nat)
    ensures r < TWO_64
    ensures 0 <= x < TWO_64 ==> r == x
    ensures (r - x) % TWO_64 == 0
  {
    x % TWO_64
  }

  /** Conversion to a 32-bit two's-complement `int`. */
  function I32(x: int): (r: int)
    ensures IsInt32(r)
    ensures IsInt32(x) ==> r == x
    ensures (r - x) % TWO_32 == 0
  {
    var u := x % TWO_32;
    if u <= INT_MAX then u else u - TWO_32
  }

  /** The value of a byte read through a (signed) `char`. */
  function SignedChar(b: byte): (r: int)
    ensures -128 <= r < 128
    ensures (r - b) % TWO_8 == 0
  {
    if b < 0x80 then b else b - 0x100
  }

  /** Little-endian two-byte layout of the low 16 bits of `x`. */
  function LE16(x: nat): (r: seq<byte>)
    requires x < TWO_16
    ensures |r| == 2
    ensures r[0] as int + 0x100 * (r[1] as int) == x
  {
    [x % 0x100, x / 0x100]
  }

  /** Little-endian four-byte layout of `x`. */
  function LE32(x: nat): (r: seq<byte>)
    requires x < TWO_32
    ensures |r| == 4
    ensures r[0] as int + 0x100 * (r[1] as int) + 0x1_0000 * (r[2] as int) + 0x100_0000 * (r[3] as int) == x
  {
    var q1 := x / 0x100;
    var q2 := q1 / 0x100;
    var q3 := q2 / 0x100;
    assert x == x % 0x100 + 0x100 * q1;
    assert q1 == q1 % 0x100 + 0x100 * q2;
    assert q2 == q2 % 0x100 + 0x100 * q3;
    assert q3 < 0x100 by {
      assert q1 < 0x100_0000;
      assert q2 < 0x1_0000;
    }
    [x % 0x100, q1 % 0x100, q2 % 0x100, q3]
  }

  function FromLE16(b: seq<byte>): (r: nat)
    requires |b| == 2
    ensures r < TWO_16
  {
    b[0] as int + 0x100 * (b[1] as int)
  }

  function FromLE32(b: seq<byte>): (r: nat)
    requires |b| == 4
    ensures r < TWO_32
  {
    b[0] as int + 0x100 * (b[1] as int) + 0x1_0000 * (b[2] as int) + 0x100_0000 * (b[3] as int)
  }

  lemma LE16RoundTrip(x: nat)
    requires x < TWO_16
    ensures FromLE16(LE16(x)) == x
  {
  }

  lemma LE32RoundTrip(x: nat)
    requires x < TWO_32
    ensures FromLE32(LE32(x)) == x
  {
  }

  /** The bytes of a character string, each character taken as one byte. */
  function Ascii(s: string): (r: seq<byte>)
    requires forall i :: 0 <= i < |s| ==> s[i] as int < 0x100
    ensures |r| == |s|
    ensures forall i :: 0 <= i < |s| ==> r[i] == s[i] as int
  {
    if s == [] then [] else [s[0] as int as byte] + Ascii(s[1..])
  }

  /** Concatenation is associative; stated once so that proofs can name the step. */
  lemma AppendAssoc<T>(a: seq<T>, b: seq<T>, c: seq<T>)
    ensures (a + b) + c == a + (b + c)
  {
  }

  /** A non-empty sequence is its head followed by its tail. */
  lemma HeadTail<T>(xs: seq<T>)
    requires xs != []
    ensures [xs[0]] + xs[1..] == xs
  {
  }

  function Min(a: int, b: int): (r: int)
    ensures r <= a && r <= b
    ensures r == a || r == b
  {
    if a < b then a else b
  }

  function Max(a: int, b: int): (r: int)
    ensures r >= a && r >= b
    ensures r == a || r == b
  {
    if a < b then b else a
  }
}

=== FILE: cli.dfy ===
/** The two front ends: `src/main.cpp` drives `src/player.hpp`, `main.cpp` drives
    `player.h`. Both sort their positional arguments into URLs and paths with
    `is_http`; the newer one reads single keys, the older one whole words. */
module Cli {
  import opened Wrappers
  import Bytes
  import Decimal
  import Url
  import P = Player
  import O = OldPlayer
  import AudioSession

  // ---------------------------------------------------------------- is_http

  /** `std::tolower` in the C locale: only `A`-`Z` change. */
  function Lower(c: char): (d: char)
    ensures 'A' <= c <= 'Z' ==> d as int == c as int + 32
    ensures !('A' <= c <= 'Z') ==> d == c
  {
    if 'A' <= c <= 'Z' then (c as int + 32) as char else c
  }

  function LowerAll(s: string): (t: string)
    ensures |t| == |s| && forall i :: 0 <= i < |s| ==> t[i] == Lower(s[i])
  {
    seq(|s|, i requires 0 <= i < |s| => Lower(s[i]))
  }

  /** `s` starts with the lower-case `prefix`, ignoring the case of `s`. */
  predicate StartsWithIgnoringCase(s: string, prefix: string) {
    |prefix| <= |s| && forall i :: 0 <= i < |prefix| ==> Lower(s[i]) == prefix[i]
  }

  /** `is_http` as written: the first seven characters, lower-cased, compared
      with `"https://"` and with `"http://"`. */
  function IsHttpAsWritten(s: string): (r: bool)
  {
    var a := LowerAll(s[..if |s| < 7 then |s| else 7]);
    a == "https://" || a == "http://"
  }

  /** Seven characters never equal the eight of `"https://"`: as written the
      test accepts exactly the `http://` prefix. */
  lemma IsHttpAsWrittenSpec(s: string)
    ensures IsHttpAsWritten(s) <==> StartsWithIgnoringCase(s, "http://")
  {
    var a := LowerAll(s[..if |s| < 7 then |s| else 7]);
    assert |a| <= 7;
    if StartsWithIgnoringCase(s, "http://") {
      assert a == "http://";
    }
  }

  /** An `https` address is not recognised and becomes a local file name. */
  lemma HttpsRejectedAsWritten()
    ensures !IsHttpAsWritten("https://example.com/a.mp3")
    ensures IsHttp("https://example.com/a.mp3")
  {
    IsHttpAsWrittenSpec("https://example.com/a.mp3");
    assert "https://example.com/a.mp3"[4] == 's';
  }

  /** `is_http` as evidently meant: an `http://` or an `https://` prefix, in any
      case. */
  function IsHttp(s: string): (r: bool)
  {
    LowerAll(s[..if |s| < 8 then |s| else 8]) == "https://" || LowerAll(s[..if |s| < 7 then |s| else 7]) == "http://"
  }

  lemma IsHttpSpec(s: string)
    ensures IsHttp(s) <==> StartsWithIgnoringCase(s, "http://") || StartsWithIgnoringCase(s, "https://")
  {
    var a := LowerAll(s[..if |s| < 7 then |s| else 7]);
    var b := LowerAll(s[..if |s| < 8 then |s| else 8]);
    if StartsWithIgnoringCase(s, "http://") {
      assert a == "http://";
    }
    if StartsWithIgnoringCase(s, "https://") {
      assert b == "https://";
    }
  }

  /** The corrected test accepts everything the written one does. */
  lemma IsHttpExtends(s: string)
    ensures IsHttpAsWritten(s) ==> IsHttp(s)
  {
    IsHttpAsWrittenSpec(s);
    IsHttpSpec(s);
  }

  // ---------------------------------------------------------------- src/main.cpp

  /** The errors that end the program: a play exception, an exception of the
      older `audio.play`, or `std::stoi` failing on a count or on a URL's port. */
  datatype CliError =
    | PlayFailed(error: P.PlayerError)
    | AudioFailed(audio: AudioSession.AudioError)
    | BadNumber(reason: Decimal.StoiError)

  /** Which `is_http` and which `output()` a front end runs: the code's, or the
      corrected ones. */
  datatype Variant = AsWritten | Corrected

  /** The `is_http` of a variant. */
  function HttpBy(v: Variant, s: string): (r: bool)
    ensures v.AsWritten? ==> (r <==> StartsWithIgnoringCase(s, "http://"))
    ensures v.Corrected? ==> (r <==> StartsWithIgnoringCase(s, "http://") || StartsWithIgnoringCase(s, "https://"))
  {
    IsHttpAsWrittenSpec(s);
    IsHttpSpec(s);
    if v.AsWritten? then IsHttpAsWritten(s) else IsHttp(s)
  }

  /** The `output(num)` of a variant. */
  function OutputBy(v: Variant, p: P.Player, num: int, w: P.World): (r: (P.Player, Option<P.PlayerError>))
    requires p.Valid()
    ensures r.0.Valid() && r.0.list == p.list && r.0.cache == p.cache && r.0.cachePath == p.cachePath
    ensures v.AsWritten? && num == -1 && r.1.None? ==> p.index == 0 && r.0.index == |p.list|
    ensures v.Corrected? && num == -1 && r.1.None? ==> r.0.index == |p.list|
  {
    if v.AsWritten? then P.OutputAsWritten(p, num, w) else P.Output(p, num, w)
  }

  /** A positional argument or an `-i` argument of `src/main.cpp`: a URL is pushed
      online without a name, anything else as a local file; `stamp` is the clock
      reading that names a cached download. */
  function Push(v: Variant, p: P.Player, arg: string, stamp: string): (q: P.Player)
    ensures |q.list| == |p.list| + 1 && q.list[..|p.list|] == p.list
    ensures HttpBy(v, arg) ==> q.list[|p.list|].name == [] && !q.list[|p.list|].source.Local?
    ensures !HttpBy(v, arg) ==> q.list[|p.list|] == P.Music(arg, P.Local(arg))
    ensures q == p.(list := q.list)
  {
    if HttpBy(v, arg) then P.PushOnline(p, arg, [], stamp) else P.PushLocal(p, arg, [])
  }

  /** The code's front end files an `https` address as a local path, which then
      fails with "No such file" unless a file of that name exists. */
  lemma HttpsPushedAsFile(p: P.Player, stamp: string)
    ensures Push(AsWritten, p, "https://example.com/a.mp3", stamp).list[|p.list|] ==
            P.Music("https://example.com/a.mp3", P.Local("https://example.com/a.mp3"))
    ensures !Push(Corrected, p, "https://example.com/a.mp3", stamp).list[|p.list|].source.Local?
  {
    HttpsRejectedAsWritten();
    IsHttpSpec("https://example.com/a.mp3");
    IsHttpAsWrittenSpec("https://example.com/a.mp3");
  }

  /** The positional arguments: each is pushed and followed by `output()`; the
      first exception ends the run. */
  function Positional(v: Variant, p: P.Player, args: seq<string>, stamps: seq<string>, w: P.World)
    : (r: (P.Player, Option<CliError>))
    requires p.Valid() && |args| <= |stamps|
    ensures r.0.Valid() && |p.list| <= |r.0.list| <= |p.list| + |args| && r.0.list[..|p.list|] == p.list
    ensures r.1.None? ==> |r.0.list| == |p.list| + |args|
    decreases |args|
  {
    if args == [] then (p, None)
    else
      var q := Push(v, p, args[0], stamps[0]);
      P.PushKeepsValid(p, args[0], args[0], [], stamps[0]);
      var (q2, e) := OutputBy(v, q, -1, w);
      if e.Some? then (q2, Some(PlayFailed(e.value)))
      else
        var r := Positional(v, q2, args[1..], stamps[1..], w);
        assert r.0.list[..|p.list|] == r.0.list[..|q2.list|][..|p.list|];
        r
  }

  /** The entries the arguments become, in order. */
  function Entries(v: Variant, p: P.Player, args: seq<string>, stamps: seq<string>): (r: seq<P.Music>)
    requires |args| <= |stamps|
    ensures |r| == |args|
    ensures forall i :: 0 <= i < |args| ==> r[i] == Push(v, p, args[i], stamps[i]).list[|p.list|]
    decreases |args|
  {
    if args == [] then []
    else
      var r := [Push(v, p, args[0], stamps[0]).list[|p.list|]] + Entries(v, p, args[1..], stamps[1..]);
      assert forall i :: 1 <= i < |args| ==> args[i] == args[1..][i - 1] && stamps[i] == stamps[1..][i - 1];
      r
  }

  /** With the corrected `is_http` and `output()`, starting with nothing left to
      play, every argument is played right after it is pushed, provided each one
      opens. */
  lemma {:induction false} PositionalPlaysEach(p: P.Player, args: seq<string>, stamps: seq<string>, w: P.World)
    requires p.Valid() && p.index == |p.list| && |args| <= |stamps|
    requires forall i :: 0 <= i < |args| ==> P.OpenError(Entries(Corrected, p, args, stamps)[i], w).None?
    ensures var (q, e) := Positional(Corrected, p, args, stamps, w);
            && e.None? && q.Valid()
            && q.list == p.list + Entries(Corrected, p, args, stamps) && q.index == |q.list|
    decreases |args|
  {
    if args != [] {
      var es := Entries(Corrected, p, args, stamps);
      var q2 := PositionalStep(p, args, stamps, w);
      assert Entries(Corrected, q2, args[1..], stamps[1..]) == Entries(Corrected, p, args[1..], stamps[1..]) by {
        EntriesDependOnSettings(Corrected, p, q2, args[1..], stamps[1..]);
      }
      forall i | 0 <= i < |args| - 1
        ensures P.OpenError(Entries(Corrected, q2, args[1..], stamps[1..])[i], w).None?
      {
        assert es[i + 1] == Entries(Corrected, p, args[1..], stamps[1..])[i];
      }
      PositionalPlaysEach(q2, args[1..], stamps[1..], w);
      Bytes.AppendAssoc(p.list, [es[0]], Entries(Corrected, p, args[1..], stamps[1..]));
    }
  }

  /** With the corrected `output()` and nothing left to play, an argument that
      opens is pushed and played, and the run goes on from there. */
  lemma PositionalStep(p: P.Player, args: seq<string>, stamps: seq<string>, w: P.World) returns (q2: P.Player)
    requires p.Valid() && p.index == |p.list| && 0 < |args| <= |stamps|
    requires P.OpenError(Entries(Corrected, p, args, stamps)[0], w).None?
    ensures q2.Valid() && q2.list == p.list + [Entries(Corrected, p, args, stamps)[0]] && q2.index == |q2.list|
    ensures q2.cache == p.cache && q2.cachePath == p.cachePath
    ensures Positional(Corrected, p, args, stamps, w) == Positional(Corrected, q2, args[1..], stamps[1..], w)
  {
    var q := Push(Corrected, p, args[0], stamps[0]);
    P.PushKeepsValid(p, args[0], args[0], [], stamps[0]);
    assert P.Count(q, -1) == 1;
    P.PlaysSucceed(q, 1, w);
    P.PlaysKeeps(q, 1, w);
    q2 := P.Output(q, -1, w).0;
  }

  /** An entry depends only on the cache settings, not on the list. */
  lemma {:induction false} EntriesDependOnSettings(v: Variant, p: P.Player, q: P.Player, args: seq<string>, stamps: seq<string>)
    requires p.cache == q.cache && p.cachePath == q.cachePath && |args| <= |stamps|
    ensures Entries(v, p, args, stamps) == Entries(v, q, args, stamps)
    decreases |args|
  {
    if args != [] {
      EntriesDependOnSettings(v, p, q, args[1..], stamps[1..]);
    }
  }

  /** With the written `output()`, once one argument has been played every later
      argument is played and then "music list has no music." is thrown, so a
      second positional argument ends the program with an error. */
  lemma LaterArgumentAsWrittenThrows(p: P.Player, arg: string, stamp: string, w: P.World)
    requires p.Valid() && 0 < p.index == |p.list|
    requires P.OpenError(Push(AsWritten, p, arg, stamp).list[|p.list|], w).None?
    ensures P.OutputAsWritten(Push(AsWritten, p, arg, stamp), -1, w).1 == Some(P.NoMusic)
    ensures P.Output(Push(AsWritten, p, arg, stamp), -1, w).1 == None
  {
    var q := Push(AsWritten, p, arg, stamp);
    P.PushKeepsValid(p, arg, arg, [], stamp);
    P.OutputAllAsWrittenThrows(q, w);
    P.OutputAllPlaysRest(q, w);
  }

  /** The code's front end on a fresh list: the first argument is played; a
      second one is played too, and then "music list has no music." ends the
      program, so no third argument is ever pushed. */
  lemma PositionalAsWritten(p: P.Player, args: seq<string>, stamps: seq<string>, w: P.World)
    requires p.Valid() && p.list == [] && 0 < |args| <= |stamps|
    requires forall i :: 0 <= i < |args| && i < 2 ==> P.OpenError(Entries(AsWritten, p, args, stamps)[i], w).None?
    ensures var (q, e) := Positional(AsWritten, p, args, stamps, w);
            && (|args| == 1 ==> e.None? && q.list == Entries(AsWritten, p, args, stamps) && q.index == 1)
            && (|args| >= 2 ==> e == Some(PlayFailed(P.NoMusic)) && q.list == Entries(AsWritten, p, args, stamps)[..2]
                                && q.index == 2 && q.played == [0, 1])
  {
    var es := Entries(AsWritten, p, args, stamps);
    var q2 := PositionalFirst(p, args, stamps, w);
    if |args| >= 2 {
      EntriesDependOnSettings(AsWritten, p, q2, args, stamps);
      assert Push(AsWritten, q2, args[1], stamps[1]).list[1] == es[1];
      PositionalSecond(q2, args[1..], stamps[1..], w);
      FirstTwo(es);
    }
  }

  lemma FirstTwo<T>(s: seq<T>)
    requires |s| >= 2
    ensures s[..2] == [s[0], s[1]]
  {
  }

  /** The first argument on a fresh list is pushed and played; the run goes on
      from there. */
  lemma PositionalFirst(p: P.Player, args: seq<string>, stamps: seq<string>, w: P.World) returns (q2: P.Player)
    requires p.Valid() && p.list == [] && 0 < |args| <= |stamps|
    requires P.OpenError(Entries(AsWritten, p, args, stamps)[0], w).None?
    ensures q2.Valid() && q2.list == [Entries(AsWritten, p, args, stamps)[0]] && q2.index == 1 && q2.played == [0]
    ensures q2.cache == p.cache && q2.cachePath == p.cachePath
    ensures Positional(AsWritten, p, args, stamps, w) == Positional(AsWritten, q2, args[1..], stamps[1..], w)
  {
    var q := Push(AsWritten, p, args[0], stamps[0]);
    P.PushKeepsValid(p, args[0], args[0], [], stamps[0]);
    assert q.list == [Entries(AsWritten, p, args, stamps)[0]];
    P.PlaysSucceed(q, 1, w);
    P.PlaysKeeps(q, 1, w);
    q2 := P.OutputAsWritten(q, -1, w).0;
    assert P.Range(0, 1) == [0];
  }

  /** A second argument after one that was played: it is played too, and then
      the written `output()` throws "music list has no music.". */
  lemma PositionalSecond(q2: P.Player, args: seq<string>, stamps: seq<string>, w: P.World)
    requires q2.Valid() && q2.index == |q2.list| == 1 && 0 < |args| <= |stamps|
    requires P.OpenError(Push(AsWritten, q2, args[0], stamps[0]).list[1], w).None?
    ensures var (q, e) := Positional(AsWritten, q2, args, stamps, w);
            && e == Some(PlayFailed(P.NoMusic))
            && q.list == q2.list + [Push(AsWritten, q2, args[0], stamps[0]).list[1]]
            && q.index == 2 && q.played == [0, 1]
  {
    var q3 := Push(AsWritten, q2, args[0], stamps[0]);
    P.PushKeepsValid(q2, args[0], args[0], [], stamps[0]);
    P.OutputAllAsWrittenThrows(q3, w);
    P.PlaysKeeps(q3, 2, w);
    assert P.Range(0, 2) == [0, 1];
  }

  /** `-i`: every argument is pushed, URL or file, and nothing is played. */
  function Inputs(v: Variant, p: P.Player, args: seq<string>, stamps: seq<string>): (q: P.Player)
    requires |args| <= |stamps|
    ensures q == p.(list := p.list + Entries(v, p, args, stamps))
    decreases |args|
  {
    if args == [] then p
    else
      var q := Push(v, p, args[0], stamps[0]);
      EntriesDependOnSettings(v, p, q, args[1..], stamps[1..]);
      Bytes.AppendAssoc(p.list, [q.list[|p.list|]], Entries(v, p, args[1..], stamps[1..]));
      Inputs(v, q, args[1..], stamps[1..])
  }

  /** A player error becomes the program's error. */
  function Lift(r: (P.Player, Option<P.PlayerError>)): (o: (P.Player, Option<CliError>))
    ensures o.0 == r.0 && (o.1.None? <==> r.1.None?)
    ensures r.1.Some? ==> o.1 == Some(PlayFailed(r.1.value))
  {
    (r.0, if r.1.None? then None else Some(PlayFailed(r.1.value)))
  }

  /** `-o`: no argument plays the list, one argument is read by `std::stoi` and
      played that many times, more arguments do nothing. */
  function OutputOption(v: Variant, p: P.Player, args: seq<string>, w: P.World): (r: (P.Player, Option<CliError>))
    requires p.Valid()
    ensures |args| > 1 ==> r == (p, None)
    ensures |args| == 1 && Decimal.Stoi(args[0]).Err? ==> r == (p, Some(BadNumber(Decimal.Stoi(args[0]).error)))
    ensures |args| == 1 && Decimal.Stoi(args[0]).Ok? ==>
              r.0 == OutputBy(v, p, Decimal.Stoi(args[0]).value, w).0 &&
              (r.1.None? <==> OutputBy(v, p, Decimal.Stoi(args[0]).value, w).1.None?)
    ensures args == [] ==> r.0 == OutputBy(v, p, -1, w).0 && (r.1.None? <==> OutputBy(v, p, -1, w).1.None?)
    ensures r.0.list == p.list
  {
    if |args| == 0 then Lift(OutputBy(v, p, -1, w))
    else if |args| == 1 then
      match Decimal.Stoi(args[0])
      case Err(e) => (p, Some(BadNumber(e)))
      case Ok(n) => Lift(OutputBy(v, p, n, w))
    else (p, None)
  }

  /** The keyboard thread's state: the player and `light_is_running`; `listening`
      is false once the thread has returned. */
  datatype Keys = Keys(player: P.Player, running: bool, listening: bool)

  /** One key: `q` stops the program, resumes the player so that the decoder can
      notice, and ends the thread; a space toggles pause; anything else is
      ignored. */
  function Key(k: Keys, c: char): (r: Keys)
    requires k.listening
    ensures c == 'q' ==> !r.running && !r.listening && !P.IsPaused(r.player)
    ensures c == ' ' ==> r.listening && r.running == k.running && P.IsPaused(r.player) == !P.IsPaused(k.player)
    ensures c != 'q' && c != ' ' ==> r == k
    ensures r.player.list == k.player.list && r.player.index == k.player.index
  {
    if c == 'q' then Keys(P.Go(k.player), false, false)
    else if c == ' ' then
      Keys(if P.IsPaused(k.player) then P.Go(k.player) else P.Pause(k.player), k.running, true)
    else k
  }

  /** The decoder's flag and the bar's flag agree. */
  predicate InStep(p: P.Player) {
    P.IsPaused(p) == p.timebar.paused
  }

  /** Pressing space twice brings the player back to where it was, as long as
      the two pause flags agree. */
  lemma SpaceTwice(k: Keys)
    requires k.listening && InStep(k.player)
    ensures Key(Key(k, ' '), ' ') == k
  {
  }

  /** A run of keys, stopped by the first `q`. */
  function KeyRun(k: Keys, cs: string): (r: Keys)
    requires k.listening || cs == []
    ensures r.player.list == k.player.list && r.player.index == k.player.index
    ensures k.listening ==> (r.listening <==> 'q' !in cs)
    ensures k.listening && !r.listening ==> !r.running && !P.IsPaused(r.player)
    decreases |cs|
  {
    if cs == [] then k
    else
      var k1 := Key(k, cs[0]);
      assert 'q' in cs <==> cs[0] == 'q' || 'q' in cs[1..] by {
        assert cs == [cs[0]] + cs[1..];
      }
      if !k1.listening then k1 else KeyRun(k1, cs[1..])
  }

  /** The number of spaces before the first `q`. */
  function Spaces(cs: string): (n: nat)
    ensures n <= |cs|
    ensures n > 0 ==> ' ' in cs
    ensures (forall i :: 0 <= i < |cs| ==> cs[i] == ' ') ==> n == |cs|
  {
    if cs == [] || cs[0] == 'q' then 0
    else
      assert forall i :: 1 <= i < |cs| ==> cs[i] == cs[1..][i - 1];
      (if cs[0] == ' ' then 1 else 0) + Spaces(cs[1..])
  }

  /** After a run of keys the program is stopped exactly when a `q` was pressed,
      and otherwise the player is paused exactly when the number of spaces
      flipped it; the list and the cursor are never touched, and the two pause
      flags stay in step. */
  lemma {:induction false} KeyRunSpec(k: Keys, cs: string)
    requires k.listening && InStep(k.player)
    ensures var r := KeyRun(k, cs);
            && r.player.list == k.player.list && r.player.index == k.player.index
            && InStep(r.player)
            && (!r.listening <==> 'q' in cs)
            && ('q' in cs ==> !r.running && !P.IsPaused(r.player))
            && ('q' !in cs ==>
                  && r.running == k.running
                  && (P.IsPaused(r.player) <==> (P.IsPaused(k.player) != (Spaces(cs) % 2 == 1))))
    decreases |cs|
  {
    if cs != [] {
      var k1 := Key(k, cs[0]);
      assert 'q' in cs <==> cs[0] == 'q' || 'q' in cs[1..] by {
        assert cs == [cs[0]] + cs[1..];
      }
      if k1.listening {
        KeyRunSpec(k1, cs[1..]);
      }
    }
  }

  // ---------------------------------------------------------------- main.cpp

  /** A positional argument of `main.cpp`: one `is_http` accepts goes through
      the `Url` constructor (whose port may fail `std::stoi`), any other is a
      local file. */
  function PushOld(v: Variant, p: O.Player, arg: string, stamp: string, esc: string -> string): (r: Result<O.Player, CliError>)
    ensures HttpBy(v, arg) ==> (r.Err? <==> Url.Parse(arg, esc).Err?)
    ensures HttpBy(v, arg) && r.Ok? ==> r.value == O.PushOnline(p, Url.Parse(arg, esc).value, stamp)
    ensures !HttpBy(v, arg) ==> r == Ok(O.PushLocal(p, arg))
    ensures r.Ok? ==> |r.value.list| == |p.list| + 1 && r.value.list[..|p.list|] == p.list
  {
    if HttpBy(v, arg) then
      match Url.Parse(arg, esc)
      case Err(e) => Err(BadNumber(e))
      case Ok(u) => Ok(O.PushOnline(p, u, stamp))
    else Ok(O.PushLocal(p, arg))
  }

  /** `-i` of `main.cpp`: every argument is pushed as a local file, in order,
      whether or not it looks like a URL; nothing is played. */
  function LocalInputs(p: O.Player, args: seq<string>): (q: O.Player)
    ensures q == p.(list := p.list + Locals(args))
    decreases |args|
  {
    if args == [] then p
    else
      var q := LocalInputs(O.PushLocal(p, args[0]), args[1..]);
      assert [LocalEntry(args[0])] + Locals(args[1..]) == Locals(args);
      Bytes.AppendAssoc(p.list, [LocalEntry(args[0])], Locals(args[1..]));
      q
  }

  /** The entry `push_online` appends for a URL whose serialised form is
      `text`: it depends on the cache settings, not on the list. */
  function OnlineEntry(p: O.Player, text: string, stamp: string): (m: P.Music)
    ensures m.name == text
  {
    P.Music(text, if p.cache then P.Cached(text, p.cachePath + "/" + stamp) else P.Streamed(text))
  }

  /** `OnlineEntry` is what `push_online` appends. */
  lemma OnlineEntryIsPushed(p: O.Player, u: Url.ParsedUrl, stamp: string)
    ensures OnlineEntry(p, Url.Get(u), stamp) == O.PushOnline(p, u, stamp).list[|p.list|]
    ensures O.PushOnline(p, u, stamp) == p.(list := p.list + [OnlineEntry(p, Url.Get(u), stamp)])
  {
    var q := O.PushOnline(p, u, stamp);
    assert q.list == q.list[..|p.list|] + [q.list[|p.list|]];
  }

  /** Pushes the serialised URLs online, in order, up to the first argument
      whose port failed to parse; that failure is the error the program ends
      with. */
  function PushTexts(p: O.Player, texts: seq<Result<string, Decimal.StoiError>>, stamps: seq<string>)
    : (r: (O.Player, Option<CliError>))
    requires |texts| <= |stamps|
    ensures r.0 == p.(list := r.0.list)
    ensures |p.list| <= |r.0.list| <= |p.list| + |texts| && r.0.list[..|p.list|] == p.list
    ensures forall i :: 0 <= i < |r.0.list| - |p.list| ==>
              texts[i].Ok? && r.0.list[|p.list| + i] == OnlineEntry(p, texts[i].value, stamps[i])
    ensures r.1.None? <==> |r.0.list| == |p.list| + |texts|
    ensures r.1.Some? ==> texts[|r.0.list| - |p.list|].Err?
                          && r.1 == Some(BadNumber(texts[|r.0.list| - |p.list|].error))
    decreases |texts|
  {
    if texts == [] then (p, None)
    else
      match texts[0]
      case Err(e) => (p, Some(BadNumber(e)))
      case Ok(text) =>
        var q := p.(list := p.list + [OnlineEntry(p, text, stamps[0])]);
        var r := PushTexts(q, texts[1..], stamps[1..]);
        assert r.0.list[..|p.list|] == r.0.list[..|q.list|][..|p.list|];
        assert r.0.list[|p.list|] == OnlineEntry(p, text, stamps[0]) by {
          assert r.0.list[|p.list|] == r.0.list[..|q.list|][|p.list|];
        }
        forall i | 1 <= i < |r.0.list| - |p.list|
          ensures texts[i].Ok? && r.0.list[|p.list| + i] == OnlineEntry(p, texts[i].value, stamps[i])
        {
          var j := i - 1;
          assert 0 <= j < |r.0.list| - |q.list|;
          assert texts[1..][j].Ok? && r.0.list[|q.list| + j] == OnlineEntry(q, texts[1..][j].value, stamps[1..][j]);
          assert texts[1..][j] == texts[i] && stamps[1..][j] == stamps[i] && |q.list| + j == |p.list| + i;
        }
        r
  }

  /** Every argument through the `Url` constructor, then serialised as
      `push_online` names it. */
  function ParseEach(args: seq<string>, esc: string -> string): (texts: seq<Result<string, Decimal.StoiError>>)
    ensures |texts| == |args|
    ensures forall i {:trigger Url.Parse(args[i], esc)} :: 0 <= i < |args| ==> (texts[i].Ok? <==> Url.Parse(args[i], esc).Ok?)
    ensures forall i {:trigger Url.Parse(args[i], esc)} :: 0 <= i < |args| && texts[i].Ok? ==>
              texts[i].value == Url.Get(Url.Parse(args[i], esc).value)
    ensures forall i {:trigger Url.Parse(args[i], esc)} :: 0 <= i < |args| && texts[i].Err? ==>
              texts[i].error == Url.Parse(args[i], esc).error
  {
    seq(|args|, i requires 0 <= i < |args| =>
      match Url.Parse(args[i], esc)
      case Ok(u) => Ok(Url.Get(u))
      case Err(e) => Err(e))
  }

  /** `-n` of `main.cpp`: every argument, whatever it looks like, goes through
      the `Url` constructor and is pushed online, in order; the first argument
      whose port `std::stoi` rejects ends the program. `ParseEach` relates
      each text to `Url.Parse`, `OnlineEntryIsPushed` each entry to
      `push_online`, and `OnlineInputsStopsAt` names the error. */
  function OnlineInputs(p: O.Player, args: seq<string>, stamps: seq<string>, esc: string -> string)
    : (r: (O.Player, Option<CliError>))
    requires |args| <= |stamps|
    ensures r.0 == p.(list := r.0.list)
    ensures |p.list| <= |r.0.list| <= |p.list| + |args| && r.0.list[..|p.list|] == p.list
    ensures forall i :: 0 <= i < |r.0.list| - |p.list| ==>
              ParseEach(args, esc)[i].Ok? && r.0.list[|p.list| + i] == OnlineEntry(p, ParseEach(args, esc)[i].value, stamps[i])
    ensures r.1.None? <==> |r.0.list| == |p.list| + |args|
  {
    PushTexts(p, ParseEach(args, esc), stamps)
  }

  /** `-n` in terms of the source's calls: entry `i` is what `push_online`
      appends for the `Url` its argument parses to. */
  lemma OnlineInputsPushEach(p: O.Player, args: seq<string>, stamps: seq<string>, esc: string -> string, i: nat)
    requires |args| <= |stamps|
    requires i < |OnlineInputs(p, args, stamps, esc).0.list| - |p.list|
    ensures Url.Parse(args[i], esc).Ok?
    ensures OnlineInputs(p, args, stamps, esc).0.list[|p.list| + i]
              == O.PushOnline(p, Url.Parse(args[i], esc).value, stamps[i]).list[|p.list|]
  {
    var r := OnlineInputs(p, args, stamps, esc);
    var texts := ParseEach(args, esc);
    assert texts[i].Ok? && r.0.list[|p.list| + i] == OnlineEntry(p, texts[i].value, stamps[i]);
    assert Url.Parse(args[i], esc).Ok?;
    assert texts[i].value == Url.Get(Url.Parse(args[i], esc).value);
    OnlineEntryIsPushed(p, Url.Parse(args[i], esc).value, stamps[i]);
  }

  /** `-n` stops exactly at the first argument whose port `std::stoi`
      rejects, with that error. */
  lemma OnlineInputsStopsAt(p: O.Player, args: seq<string>, stamps: seq<string>, esc: string -> string, k: nat)
    requires |args| <= |stamps|
    requires k == |OnlineInputs(p, args, stamps, esc).0.list| - |p.list| < |args|
    ensures Url.Parse(args[k], esc).Err?
    ensures OnlineInputs(p, args, stamps, esc).1 == Some(BadNumber(Url.Parse(args[k], esc).error))
  {
    var texts := ParseEach(args, esc);
    PushTextsStopsAt(p, texts, stamps, k);
    assert texts[k] == Err(Url.Parse(args[k], esc).error);
  }

  /** `PushTexts` ends with the error of the first text it could not push. */
  lemma PushTextsStopsAt(p: O.Player, texts: seq<Result<string, Decimal.StoiError>>, stamps: seq<string>, k: nat)
    requires |texts| <= |stamps|
    requires k == |PushTexts(p, texts, stamps).0.list| - |p.list| < |texts|
    ensures texts[k].Err? && PushTexts(p, texts, stamps).1 == Some(BadNumber(texts[k].error))
  {
  }

  /** The error a failed play loop of `player.h` ends the program with. */
  function FailureOf(f: O.Failure): (e: CliError)
    ensures f.ListFailure? ==> e == PlayFailed(f.error)
    ensures f.AudioFailure? ==> e == AudioFailed(f.audio)
  {
    match f
    case ListFailure(e) => PlayFailed(e)
    case AudioFailure(a) => AudioFailed(a)
  }

  /** The positional arguments of `main.cpp`: each is pushed and followed by
      `ordered_play()`, which plays one entry; the first exception ends the run. */
  function PositionalOld(v: Variant, p: O.Player, args: seq<string>, stamps: seq<string>, esc: string -> string,
                         w: P.World, snd: O.Sound)
    : (r: (O.Player, Option<CliError>))
    requires |args| <= |stamps|
    ensures |p.list| <= |r.0.list| <= |p.list| + |args| && r.0.list[..|p.list|] == p.list
    ensures r.1.None? ==> |r.0.list| == |p.list| + |args|
    decreases |args|
  {
    if args == [] then (p, None)
    else
      match PushOld(v, p, args[0], stamps[0], esc)
      case Err(e) => (p, Some(e))
      case Ok(q) =>
        var (q2, e) := O.OrderedPlay(q, 1, w, snd);
        assert q2.list == q.list;
        if e.Some? then (q2, Some(FailureOf(e.value)))
        else
          var r := PositionalOld(v, q2, args[1..], stamps[1..], esc, w, snd);
          assert r.0.list[..|p.list|] == r.0.list[..|q2.list|][..|p.list|];
          r
  }

  /** The entry a local argument becomes. */
  function LocalEntry(arg: string): (m: P.Music)
    ensures m.name == arg && m.source == P.Local(arg)
  {
    P.Music(arg, P.Local(arg))
  }

  /** Every argument names a local file that opens and plays through. */
  predicate LocalArgs(v: Variant, args: seq<string>, w: P.World, snd: O.Sound) {
    forall i :: 0 <= i < |args| ==> !HttpBy(v, args[i]) && w.opens(args[i]) && snd.decode(LocalEntry(args[i])).PlaysThrough?
  }

  lemma LocalArgsTail(v: Variant, args: seq<string>, w: P.World, snd: O.Sound)
    requires args != [] && LocalArgs(v, args, w, snd)
    ensures !HttpBy(v, args[0]) && w.opens(args[0]) && snd.decode(LocalEntry(args[0])).PlaysThrough?
    ensures LocalArgs(v, args[1..], w, snd)
  {
    forall i | 0 <= i < |args| - 1
      ensures !HttpBy(v, args[1..][i]) && w.opens(args[1..][i]) && snd.decode(LocalEntry(args[1..][i])).PlaysThrough?
    {
      assert args[1..][i] == args[i + 1];
    }
  }

  /** The entries local-file arguments become. */
  function Locals(args: seq<string>): (r: seq<P.Music>)
    ensures |r| == |args| && forall i :: 0 <= i < |args| ==> r[i] == LocalEntry(args[i])
  {
    seq(|args|, i requires 0 <= i < |args| => LocalEntry(args[i]))
  }

  /** One local argument of `main.cpp` that opens and plays, with a sound server
      at hand and nothing else pending: it is pushed, played, and the cursor
      passes it; the server in use is now recorded. */
  lemma PositionalOldStep(v: Variant, p: O.Player, args: seq<string>, stamps: seq<string>, esc: string -> string,
                          w: P.World, snd: O.Sound)
    requires p.index == |p.list| && 0 < |args| <= |stamps|
    requires !HttpBy(v, args[0]) && w.opens(args[0]) && snd.decode(LocalEntry(args[0])).PlaysThrough?
    requires O.Server(p, snd).Some?
    ensures PositionalOld(v, p, args, stamps, esc, w, snd) ==
              PositionalOld(v, p.(list := p.list + Locals(args[..1]), index := |p.list| + 1,
                                  played := p.played + [|p.list|], server := O.Server(p, snd)),
                            args[1..], stamps[1..], esc, w, snd)
  {
    var q := O.PushLocal(p, args[0]);
    assert PushOld(v, p, args[0], stamps[0], esc) == Ok(q);
    var q1 := q.(server := O.Server(p, snd));
    assert O.OrderedPlay(q, 1, w, snd) == O.Ordered(q1.(played := q1.played + [q1.index], index := q1.index + 1), 0, w, snd);
    assert Locals(args[..1]) == [LocalEntry(args[0])];
  }

  /** The state after local arguments that all open and play have each been
      pushed and played: the list grows by their entries, the cursor passes them,
      the log grows by their positions, in order, and the server in use is
      recorded. */
  function AllPlayed(p: O.Player, args: seq<string>, snd: O.Sound): (q: O.Player)
  {
    p.(list := p.list + Locals(args), index := |p.list| + |args|,
       played := p.played + P.Range(|p.list|, |p.list| + |args|),
       server := if args == [] then p.server else O.Server(p, snd))
  }

  lemma AllPlayedStep(p: O.Player, args: seq<string>, snd: O.Sound)
    requires args != [] && O.Server(p, snd).Some?
    ensures AllPlayed(p.(list := p.list + Locals(args[..1]), index := |p.list| + 1, played := p.played + [|p.list|],
                         server := O.Server(p, snd)),
                      args[1..], snd) == AllPlayed(p, args, snd)
  {
    var n := |p.list|;
    assert Locals(args) == Locals(args[..1]) + Locals(args[1..]);
    Bytes.AppendAssoc(p.list, Locals(args[..1]), Locals(args[1..]));
    P.RangeSplit(n, n + 1, n + |args|);
    assert P.Range(n, n + 1) == [n];
    Bytes.AppendAssoc(p.played, [n], P.Range(n + 1, n + |args|));
  }

  /** Local files only: with nothing left to play at the start and a sound
      server at hand, the older front end plays each argument right after
      pushing it, as long as each opens and plays. */
  lemma {:induction false} PositionalOldPlaysEach(v: Variant, p: O.Player, args: seq<string>, stamps: seq<string>,
                                                   esc: string -> string, w: P.World, snd: O.Sound)
    requires p.index == |p.list| && |args| <= |stamps| && O.Server(p, snd).Some?
    requires LocalArgs(v, args, w, snd)
    ensures PositionalOld(v, p, args, stamps, esc, w, snd) == (AllPlayed(p, args, snd), None)
    decreases |args|
  {
    if args != [] {
      var q2 := p.(list := p.list + Locals(args[..1]), index := |p.list| + 1, played := p.played + [|p.list|],
                   server := O.Server(p, snd));
      LocalArgsTail(v, args, w, snd);
      PositionalOldStep(v, p, args, stamps, esc, w, snd);
      PositionalOldPlaysEach(v, q2, args[1..], stamps[1..], esc, w, snd);
      AllPlayedStep(p, args, snd);
    } else {
      assert Locals(args) == [] && P.Range(|p.list|, |p.list|) == [];
      assert p.list + [] == p.list && p.played + [] == p.played;
      assert AllPlayed(p, args, snd) == p;
    }
  }

  /** With no server set and no `PULSE_SERVER`, the first local argument that
      opens ends the program with "Can not find PULSE_SERVER", unplayed. */
  lemma PositionalOldNeedsServer(v: Variant, p: O.Player, args: seq<string>, stamps: seq<string>,
                                 esc: string -> string, w: P.World, snd: O.Sound)
    requires p.index == |p.list| && 0 < |args| <= |stamps| && O.Server(p, snd).None?
    requires !HttpBy(v, args[0]) && w.opens(args[0])
    ensures PositionalOld(v, p, args, stamps, esc, w, snd) ==
              (O.PushLocal(p, args[0]), Some(AudioFailed(AudioSession.NoPulseServer)))
  {
    var q := O.PushLocal(p, args[0]);
    assert PushOld(v, p, args[0], stamps[0], esc) == Ok(q);
  }

  /** A count option of `main.cpp` (`-o`, `-l`, `-r`): no argument uses the
      default, one argument is read with `std::stoi`, more are ignored. */
  function CountArg(args: seq<string>, default: int): (r: Option<Result<int, CliError>>)
    ensures |args| > 1 <==> r.None?
    ensures args == [] ==> r == Some(Ok(default))
    ensures |args| == 1 && Decimal.Stoi(args[0]).Ok? ==> r == Some(Ok(Decimal.Stoi(args[0]).value))
    ensures |args| == 1 && Decimal.Stoi(args[0]).Err? ==> r == Some(Err(BadNumber(Decimal.Stoi(args[0]).error)))
  {
    if args == [] then Some(Ok(default))
    else if |args| == 1 then
      match Decimal.Stoi(args[0])
      case Ok(n) => Some(Ok(n))
      case Err(e) => Some(Err(BadNumber(e)))
    else None
  }

  /** A line typed to `main.cpp`'s input thread. */
  datatype Command = PauseCmd | GoCmd | QuitCmd | NoCmd

  function ParseCommand(word: string): (c: Command)
    ensures c == PauseCmd <==> word == "pause"
    ensures c == GoCmd <==> word == "go"
    ensures c == QuitCmd <==> word == "quit"
  {
    if word == "pause" then PauseCmd
    else if word == "go" then GoCmd
    else if word == "quit" then QuitCmd
    else NoCmd
  }

  /** The input thread over a sequence of words: `pause` and `go` set the
      player's pause state, `quit` ends the program, other words are skipped.
      `player.h` has no `pause`, `go` or `curr`, so the state is a plain flag
      here. The result is the pause state and whether `quit` was read. */
  function Commands(paused: bool, words: seq<string>): (r: (bool, bool))
    ensures r.1 <==> "quit" in words
    ensures (forall i :: 0 <= i < |words| ==> !IsSetting(words[i])) ==> r.0 == paused
    decreases |words|
  {
    if words == [] then (paused, false)
    else
      assert "quit" in words <==> words[0] == "quit" || "quit" in words[1..] by {
        assert words == [words[0]] + words[1..];
      }
      assert (forall i :: 0 <= i < |words| ==> !IsSetting(words[i])) ==>
             !IsSetting(words[0]) && forall i :: 0 <= i < |words[1..]| ==> !IsSetting(words[1..][i]) by {
        forall i | 0 <= i < |words[1..]| ensures words[1..][i] == words[i + 1] { }
      }
      match ParseCommand(words[0])
      case QuitCmd => (paused, true)
      case PauseCmd => Commands(true, words[1..])
      case GoCmd => Commands(false, words[1..])
      case NoCmd => Commands(paused, words[1..])
  }

  /** The index of the first `quit`, or the number of words. */
  function QuitAt(words: seq<string>): (n: nat)
    ensures n <= |words| && (n < |words| ==> words[n] == "quit")
    ensures forall i :: 0 <= i < n ==> words[i] != "quit"
  {
    if words == [] then 0 else if words[0] == "quit" then 0 else 1 + QuitAt(words[1..])
  }

  predicate IsSetting(word: string) {
    word == "pause" || word == "go"
  }

  /** No `pause` or `go` from index `from` up to the first `quit`. */
  predicate NoSetting(words: seq<string>, from: nat) {
    forall j :: from <= j < QuitAt(words) ==> !IsSetting(words[j])
  }

  /** The program quits exactly when some word is `quit`, and the pause state it
      ends with is set by the last `pause` or `go` before the first `quit`. */
  lemma {:induction false} CommandsSpec(paused: bool, words: seq<string>)
    ensures var (p, quit) := Commands(paused, words);
            && (quit <==> "quit" in words)
            && (NoSetting(words, 0) ==> p == paused)
            && (forall i :: 0 <= i < QuitAt(words) && IsSetting(words[i]) && NoSetting(words, i + 1) ==>
                  p == (words[i] == "pause"))
    decreases |words|
  {
    if words != [] {
      var rest := words[1..];
      assert "quit" in words <==> words[0] == "quit" || "quit" in rest by {
        assert words == [words[0]] + rest;
      }
      if words[0] != "quit" {
        var next := match ParseCommand(words[0]) case PauseCmd => true case GoCmd => false case _ => paused;
        CommandsSpec(next, rest);
        assert QuitAt(words) == 1 + QuitAt(rest);
        forall i | 0 <= i < QuitAt(words) && IsSetting(words[i]) && NoSetting(words, i + 1)
          ensures Commands(paused, words).0 == (words[i] == "pause")
        {
          if i > 0 {
            assert rest[i - 1] == words[i];
            forall j | i <= j < QuitAt(rest) ensures !IsSetting(rest[j]) {
              assert rest[j] == words[j + 1];
            }
          } else {
            forall j | 0 <= j < QuitAt(rest) ensures !IsSetting(rest[j]) {
              assert rest[j] == words[j + 1];
            }
          }
        }
        if NoSetting(words, 0) {
          forall j | 0 <= j < QuitAt(rest) ensures !IsSetting(rest[j]) {
            assert rest[j] == words[j + 1];
          }
        }
      }
    }
  }
}

=== FILE: decimal.dfy ===
/** Decimal text of integers: `std::to_string` for non-negative values and
    `std::stoi`'s reading of a signed numeral after white space. */
module Decimal {
  import opened Wrappers
  import opened Bytes

  predicate IsDigit(c: char) {
    '0' <= c <= '9'
  }

  predicate AllDigits(s: string) {
    forall i :: 0 <= i < |s| ==> IsDigit(s[i])
  }

  function DigitChar(d: nat): (c: char)
    requires d < 10
    ensures IsDigit(c)
    ensures c as int - '0' as int == d
  {
    ('0' as int + d) as char
  }

  /** `std::to_string(n)` for `n >= 0`: the shortest decimal numeral of `n`. */
  function NatToString(n: nat): (s: string)
    ensures 1 <= |s|
    ensures AllDigits(s)
    ensures n < 10 <==> |s| == 1
    ensures |s| > 1 ==> s[0] != '0'
    decreases n
  {
    if n < 10 then [DigitChar(n)] else NatToString(n / 10) + [DigitChar(n % 10)]
  }

  /** The value of a string of decimal digits (most significant first). */
  function DigitsValue(s: string): (v: nat)
    requires AllDigits(s)
    decreases |s|
  {
    if s == [] then 0
    else DigitsValue(s[..|s| - 1]) * 10 + (s[|s| - 1] as int - '0' as int)
  }

  /** Reading the numeral back gives the number: `to_string` is injective. */
  lemma {:induction false} NatToStringRoundTrip(n: nat)
    ensures DigitsValue(NatToString(n)) == n
    decreases n
  {
    if n >= 10 {
      var s := NatToString(n);
      NatToStringRoundTrip(n / 10);
      assert s[..|s| - 1] == NatToString(n / 10);
    }
  }

  /** Two-digit numerals are exactly the values 10..99. */
  lemma NatToStringTwoDigits(n: nat)
    ensures |NatToString(n)| == 2 <==> 10 <= n < 100
  {
    if n >= 10 {
      assert |NatToString(n)| == |NatToString(n / 10)| + 1;
    }
  }

  /** The longest prefix of `s` made of digits. */
  function LeadingDigits(s: string): (d: string)
    ensures AllDigits(d)
    ensures d <= s
    ensures |d| < |s| ==> !IsDigit(s[|d|])
    decreases |s|
  {
    if s != [] && IsDigit(s[0]) then [s[0]] + LeadingDigits(s[1..]) else []
  }

  datatype StoiError = InvalidArgument | OutOfRange

  /** `isspace` in the "C" locale: the blank and the five control characters
      tab, line feed, vertical tab, form feed and carriage return. */
  predicate IsSpace(c: char) {
    c == ' ' || '\t' <= c <= '\r'
  }

  /** What `strtol` skips first: the leading white space. */
  function SkipSpace(s: string): (t: string)
    ensures |t| <= |s|
    ensures forall i :: 0 <= i < |s| - |t| ==> IsSpace(s[i])
    ensures t == [] || !IsSpace(t[0])
    decreases |s|
  {
    if s != [] && IsSpace(s[0]) then SkipSpace(s[1..]) else s
  }

  /** What is left after the white space is the rest of the same text. */
  lemma {:induction false} SkipSpaceSuffix(s: string)
    ensures SkipSpace(s) == s[|s| - |SkipSpace(s)|..]
    decreases |s|
  {
    if s != [] && IsSpace(s[0]) {
      SkipSpaceSuffix(s[1..]);
      assert s[1..][|s| - 1 - |SkipSpace(s)|..] == s[|s| - |SkipSpace(s)|..];
    }
  }

  /** The text after one optional sign. */
  function Unsigned(t: string): (u: string)
    ensures t != [] && (t[0] == '+' || t[0] == '-') ==> u == t[1..]
    ensures t == [] || (t[0] != '+' && t[0] != '-') ==> u == t
  {
    if t != [] && (t[0] == '+' || t[0] == '-') then t[1..] else t
  }

  /** `std::stoi(s)` (base 10): `strtol` skips white space, reads one optional
      sign and then the longest run of digits; no digit there is
      `std::invalid_argument`, and a value outside `int` (or outside `long`,
      which contains it) is `std::out_of_range`. */
  function Stoi(s: string): (r: Result<int, StoiError>)
    ensures r.Ok? ==> INT_MIN <= r.value <= INT_MAX
    ensures r == Err(InvalidArgument) <==> (Unsigned(SkipSpace(s)) == [] || !IsDigit(Unsigned(SkipSpace(s))[0]))
    ensures r.Ok? && r.value < 0 ==> SkipSpace(s)[0] == '-'
  {
    var t := SkipSpace(s);
    var d := LeadingDigits(Unsigned(t));
    if d == [] then Err(InvalidArgument)
    else
      var v: int := if t[0] == '-' then -(DigitsValue(d) as int) else DigitsValue(d);
      if v < INT_MIN || v > INT_MAX then Err(OutOfRange) else Ok(v)
  }

  lemma LeadingDigitsOfDigits(s: string, rest: string)
    requires AllDigits(s)
    requires rest == [] || !IsDigit(rest[0])
    ensures LeadingDigits(s + rest) == s
    decreases |s|
  {
    if s != [] {
      assert (s + rest)[1..] == s[1..] + rest;
      LeadingDigitsOfDigits(s[1..], rest);
    } else {
      assert s + rest == rest;
    }
  }

  /** `stoi` reads back what `to_string` wrote, whatever non-digit text follows. */
  lemma StoiOfToString(n: nat, rest: string)
    requires n <= INT_MAX
    requires rest == [] || !IsDigit(rest[0])
    ensures Stoi(NatToString(n) + rest) == Ok(n)
  {
    var s := NatToString(n) + rest;
    assert s[0] == NatToString(n)[0];
    assert SkipSpace(s) == s && Unsigned(s) == s;
    LeadingDigitsOfDigits(NatToString(n), rest);
    NatToStringRoundTrip(n);
  }

  /** White space, then a sign, then a numeral: `stoi` reads the signed value,
      down to `INT_MIN`. */
  lemma {:induction false} StoiSigned(blanks: string, sign: char, n: nat, rest: string)
    requires forall i :: 0 <= i < |blanks| ==> IsSpace(blanks[i])
    requires sign == '+' || sign == '-'
    requires if sign == '-' then n <= -INT_MIN else n <= INT_MAX
    requires rest == [] || !IsDigit(rest[0])
    ensures Stoi(blanks + [sign] + NatToString(n) + rest) == Ok(if sign == '-' then -(n as int) else n)
    decreases |blanks|
  {
    var digits := NatToString(n);
    var tail := [sign] + digits + rest;
    assert blanks + [sign] + digits + rest == blanks + tail;
    assert tail[0] == sign && tail[1..] == digits + rest;
    SkipBlanks(blanks, tail);
    assert Unsigned(tail) == digits + rest;
    LeadingDigitsOfDigits(digits, rest);
    NatToStringRoundTrip(n);
    assert digits != [] && DigitsValue(digits) == n;
    var v: int := if sign == '-' then -(n as int) else n;
    assert INT_MIN <= v <= INT_MAX;
    StoiOf(blanks + tail, digits, v);
  }

  /** `Stoi` once its digit run and signed value are known. */
  lemma StoiOf(s: string, digits: string, v: int)
    requires digits != [] && LeadingDigits(Unsigned(SkipSpace(s))) == digits
    requires v == if SkipSpace(s)[0] == '-' then -(DigitsValue(digits) as int) else DigitsValue(digits)
    requires INT_MIN <= v <= INT_MAX
    ensures Stoi(s) == Ok(v)
  {
  }

  /** Leading white space is skipped up to the first other character. */
  lemma {:induction false} SkipBlanks(blanks: string, tail: string)
    requires forall i :: 0 <= i < |blanks| ==> IsSpace(blanks[i])
    requires tail == [] || !IsSpace(tail[0])
    ensures SkipSpace(blanks + tail) == tail
    decreases |blanks|
  {
    if blanks == [] {
      assert blanks + tail == tail;
    } else {
      assert (blanks + tail)[1..] == blanks[1..] + tail;
      SkipBlanks(blanks[1..], tail);
    }
  }

  /** The readings a bare digit-prefix model would reject. */
  lemma StoiSignsAndBlanks()
    ensures Stoi("+5") == Ok(5) && Stoi(" 5") == Ok(5) && Stoi("-3") == Ok(-3)
    ensures Stoi("-") == Err(InvalidArgument) && Stoi(" ") == Err(InvalidArgument)
  {
    StoiSignExamples();
    StoiBlankExamples();
  }

  /** One leading sign is read; a sign alone has no digits. */
  lemma StoiSignExamples()
    ensures Stoi("+5") == Ok(5) && Stoi("-3") == Ok(-3) && Stoi("-") == Err(InvalidArgument)
  {
    assert NatToString(5) == "5" && NatToString(3) == "3";
    StoiSigned([], '+', 5, []);
    assert [] + ['+'] + NatToString(5) + [] == "+5";
    StoiSigned([], '-', 3, []);
    assert [] + ['-'] + NatToString(3) + [] == "-3";
  }

  /** Leading blanks are skipped; blanks alone have no digits. */
  lemma StoiBlankExamples()
    ensures Stoi(" 5") == Ok(5) && Stoi(" ") == Err(InvalidArgument)
  {
    assert NatToString(5) == "5";
    StoiOfToString(5, []);
    SkipBlanks(" ", "5");
    assert " " + "5" == " 5";
    SkipBlanks(" ", []);
    assert " " + [] == " ";
  }
}

=== FILE: decoder.dfy ===
/** `src/decoder.hpp`: the callbacks through which libmad pulls compressed bytes
    from an input stream and pushes 16-bit PCM into an encode stream.

    libmad itself is not part of this model. What it does between callbacks is
    abstracted into a sequence of `Event`s: before each refill it reports where the
    unfinished frame starts (`next_frame`); it reports each frame header and each
    decoded frame; and it stops as soon as a callback answers `Stop`. The global
    `light_is_running` flag is read by the header callback and becomes a field of
    the header event. The header callback's spin while the session is paused
    becomes a precondition: the callback returns in a state where it has ended. */
module Decoder {
  import opened Bytes
  import opened Wrappers
  import opened Utils
  import Stream
  import Timing
  import Mad
  import Encoder

  /** The decoder's `InputStream`: the network stream of a URL or the file stream
      of a local path. */
  datatype Source = Net(net: Stream.NetInputStream) | File(file: Stream.FileInputStream)
  {
    predicate Valid() {
      match this
      case Net(n) => n.Valid()
      case File(f) => f.Valid()
    }

    /** The bytes the stream holds (received so far, for the network). */
    function Data(): seq<byte> {
      match this
      case Net(n) => n.buf
      case File(f) => f.data
    }

    /** The read cursor. */
    function Cursor(): nat {
      match this
      case Net(n) => n.readpos
      case File(f) => f.pos
    }

    /** `size()`: a file always knows its length; the network stream once announced. */
    function Size(): Option<nat> {
      match this
      case Net(n) => Stream.Size(n)
      case File(f) => Some(Stream.FileSize(f))
    }

    /** A read of `n` bytes returns without waiting: always for a file. */
    predicate Available(n: nat)
      requires Valid()
    {
      File? || net.Available(n)
    }
  }

  /** The virtual `eof()`. */
  function SourceEof(src: Source): bool {
    match src
    case Net(n) => Stream.Eof(n)
    case File(f) => Stream.FileEof(f)
  }

  /** The virtual `read(dest, n)`: the bytes at the cursor, fewer than `n` only
      when the stream then reports end of file. */
  function SourceRead(src: Source, n: nat): (r: (seq<byte>, Source))
    requires src.Valid() && src.Available(n)
    ensures r.1.Valid() && (r.1.Net? <==> src.Net?) && r.1.Data() == src.Data()
    ensures r.1.Cursor() == src.Cursor() + |r.0| && r.0 == src.Data()[src.Cursor() .. r.1.Cursor()]
    ensures |r.0| < n ==> SourceEof(r.1)
    ensures !SourceEof(src) ==> |r.0| == Min(n, |src.Data()| - src.Cursor())
    ensures src.Net? ==> r.1.net.isEnd == src.net.isEnd && r.1.net.totalSize == src.net.totalSize
  {
    match src
    case Net(n') => var (d, t) := Stream.Read(n', n); (d, Net(t))
    case File(f) => var (d, g) := Stream.FileRead(f, n); (d, File(g))
  }

  /** The shared `Data` of one decode: the input, libmad's buffer, whether the
      `MusicInfo` promise is still unfulfilled (`info != nullptr`), the pause flag,
      the infos handed to the promise so far, and the encode stream. */
  datatype Session = Session(
    input: Source,
    mad: Mad.MadStream,
    infoPending: bool,
    pause: bool,
    published: seq<MusicInfo>,
    encoder: Encoder.EncodeStream)
  {
    /** The invariant every callback keeps: both buffers' cursors are in range and
        libmad's buffer never exceeds the fixed `decoder_buffer`. */
    predicate Valid() {
      input.Valid() && mad.Valid() && |mad.buffer| <= Mad.BUFFER_SIZE
    }
  }

  /** `Decoder::decode` before `mad_decoder_run`: the session starts unpaused, with
      the promise pending, nothing published and no buffer handed to libmad. */
  function Start(input: Source, encoder: Encoder.EncodeStream): (s: Session)
    requires input.Valid()
    ensures s.Valid() && s.infoPending && !s.pause && s.published == []
    ensures s.input == input && s.encoder == encoder && s.mad.nextFrame.None?
  {
    Session(input, Mad.MadStream([], None), true, false, [], encoder)
  }

  /** The condition under which the input callback's `read` does not block. */
  predicate InputReady(s: Session)
    requires s.Valid()
  {
    s.input.Available(Mad.BUFFER_SIZE - |s.mad.Carry()|)
  }

  /** The `input` callback: stop at end of stream; otherwise move the unfinished
      frame to the front of the buffer, fill the rest from the stream and hand the
      whole to libmad. */
  function Input(s: Session): (r: (Mad.Flow, Session))
    requires s.Valid() && InputReady(s)
    ensures r.1.Valid()
    ensures r.0 == Mad.Stop <==> SourceEof(s.input)
    ensures r.0 == Mad.Stop ==> r.1 == s
    ensures r.1.input.Data() == s.input.Data() && (r.1.input.Net? <==> s.input.Net?)
    ensures r.0 == Mad.Continue ==>
              (r.1.input.Cursor() >= s.input.Cursor() &&
               r.1.mad.buffer == s.mad.Carry() + s.input.Data()[s.input.Cursor() .. r.1.input.Cursor()] &&
               r.1.input.Cursor() - s.input.Cursor() == Min(Mad.BUFFER_SIZE - |s.mad.Carry()|, |s.input.Data()| - s.input.Cursor()) &&
               r.1.mad.nextFrame == Some(0) &&
               (r.1.input.Cursor() - s.input.Cursor() < Mad.BUFFER_SIZE - |s.mad.Carry()| ==> SourceEof(r.1.input)))
    ensures r.1.published == s.published && r.1.encoder == s.encoder
    ensures r.1.infoPending == s.infoPending && r.1.pause == s.pause
  {
    if SourceEof(s.input) then (Mad.Stop, s)
    else
      var carry := s.mad.Carry();
      var (data, input') := SourceRead(s.input, Mad.BUFFER_SIZE - |carry|);
      (Mad.Continue, s.(input := input', mad := Mad.StreamBuffer(carry + data)))
  }

  /** At the end of the input the two streams part ways. A network stream whose
      transfer has ended stops the decode as soon as it is drained. A local file
      whose last bytes were read without a short read still refills once more,
      handing libmad only the carried-over frame, and the decode stops at the
      callback after that. */
  lemma EndOfInput(s: Session)
    requires s.Valid() && s.input.Cursor() == |s.input.Data()| && |s.mad.Carry()| < Mad.BUFFER_SIZE
    requires s.input.Net? ==> s.input.net.isEnd
    requires s.input.File? ==> !SourceEof(s.input)
    ensures InputReady(s)
    ensures s.input.Net? ==> Input(s).0 == Mad.Stop
    ensures s.input.File? ==>
              (var (flow, t) := Input(s);
               && flow == Mad.Continue && t.mad.buffer == s.mad.Carry()
               && InputReady(t) && Input(t).0 == Mad.Stop)
  {
  }

  /** What the header callback needs when it still has to publish the info: a
      known stream size and a bit rate the block formula can divide by, and values
      that fit the `MusicInfo` fields. */
  predicate HeaderReady(s: Session, h: Mad.Header)
  {
    !s.pause &&
    (s.infoPending ==>
       s.input.Size().Some? && s.input.Size().value < TWO_64 &&
       Timing.ValidBitrate(h.bitrate) && h.samplerate < TWO_32 && h.bitrate < TWO_64)
  }

  /** The `MusicInfo` built from the first header: duration from the byte size,
      the header's rates, two channels. */
  function InfoOf(size: nat, h: Mad.Header): (info: MusicInfo)
    requires size < TWO_64 && Timing.ValidBitrate(h.bitrate) && h.samplerate < TWO_32 && h.bitrate < TWO_64
    ensures info.WellTyped()
    ensures info.size == size && info.samplerate == h.samplerate && info.bitrate == h.bitrate
    ensures info.channels == 2 && info.time == Timing.SizeToTime(size, h.bitrate)
  {
    MusicInfo(Timing.SizeToTime(size, h.bitrate), h.samplerate, h.bitrate, 2, size)
  }

  /** The `header` callback: the first call publishes the `MusicInfo` to the
      promise and the encode stream; every call stops the decode once the program
      is shutting down. */
  function HeaderCb(s: Session, h: Mad.Header, running: bool): (r: (Mad.Flow, Session))
    requires s.Valid() && HeaderReady(s, h)
    ensures r.1.Valid() && !r.1.infoPending
    ensures r.0 == Mad.Stop <==> !running
    ensures r.1.input == s.input && r.1.mad == s.mad && r.1.pause == s.pause
    ensures s.infoPending ==>
              && |r.1.published| == |s.published| + 1
              && r.1.published[..|s.published|] == s.published
              && r.1.published[|s.published|] == InfoOf(s.input.Size().value, h)
              && r.1.encoder == Encoder.SetInfo(s.encoder, InfoOf(s.input.Size().value, h))
    ensures !s.infoPending ==> r.1 == s
  {
    var s' :=
      if s.infoPending then
        var info := InfoOf(s.input.Size().value, h);
        s.(encoder := Encoder.SetInfo(s.encoder, info), published := s.published + [info], infoPending := false)
      else s;
    (if running then Mad.Continue else Mad.Stop, s')
  }

  /** The `output` callback: one write of the interleaved frame; never stops. */
  function OutputCb(s: Session, pcm: Mad.Pcm): (r: (Mad.Flow, Session))
    requires s.Valid() && pcm.Valid()
    ensures r.0 == Mad.Continue && r.1.Valid()
    ensures r.1.(encoder := s.encoder) == s
    ensures r.1.encoder.Info() == s.encoder.Info() && (r.1.encoder.Audio? <==> s.encoder.Audio?)
    ensures s.encoder.Audio? ==> r.1.encoder.audio.sent == s.encoder.audio.sent + Mad.FrameBytes(pcm)
    ensures s.encoder.Wav? ==> r.1.encoder.wav.bitscount == s.encoder.wav.bitscount + 2 * pcm.length * |pcm.samples|
    ensures s.encoder.Wav? ==> r.1.encoder.wav.out == Encoder.WriteAt(s.encoder.wav.out, Mad.FrameBytes(pcm))
  {
    (Mad.Continue, s.(encoder := Encoder.Write(s.encoder, Mad.FrameBytes(pcm))))
  }

  /** The `error` callback: corrupt frames are skipped. */
  function ErrorCb(s: Session): (r: (Mad.Flow, Session))
    ensures r == (Mad.Continue, s)
  {
    (Mad.Continue, s)
  }

  /** One step of libmad as seen from the callbacks. `InputEv(next)` carries
      libmad's `next_frame` at the time of the refill. */
  datatype Event =
    | InputEv(next: Option<nat>)
    | HeaderEv(header: Mad.Header, running: bool)
    | OutputEv(pcm: Mad.Pcm)
    | ErrorEv

  /** libmad only moves `next_frame` forward within the buffer it was given. */
  predicate Enabled(s: Session, e: Event)
    requires s.Valid()
  {
    match e
    case InputEv(next) =>
      (s.mad.nextFrame.Some? ==> next.Some?) && (s.mad.nextFrame.None? ==> next.None?) &&
      (next.Some? ==> next.value <= |s.mad.buffer|) &&
      InputReady(s.(mad := s.mad.(nextFrame := next)))
    case HeaderEv(h, _) => HeaderReady(s, h)
    case OutputEv(pcm) => pcm.Valid()
    case ErrorEv => true
  }

  function Step(s: Session, e: Event): (r: (Mad.Flow, Session))
    requires s.Valid() && Enabled(s, e)
    ensures r.1.Valid()
  {
    match e
    case InputEv(next) => Input(s.(mad := s.mad.(nextFrame := next)))
    case HeaderEv(h, running) => HeaderCb(s, h, running)
    case OutputEv(pcm) => OutputCb(s, pcm)
    case ErrorEv => ErrorCb(s)
  }

  /** Every event libmad delivers is enabled, up to the first `Stop`. */
  predicate Admissible(s: Session, evs: seq<Event>)
    requires s.Valid()
    decreases |evs|
  {
    evs == [] ||
    (Enabled(s, evs[0]) &&
     var st := Step(s, evs[0]);
     st.0 == Mad.Stop || Admissible(st.1, evs[1..]))
  }

  /** `mad_decoder_run` over a script of events: callbacks run in order until one
      answers `Stop`; returns the final session and the number of events consumed. */
  function Run(s: Session, evs: seq<Event>): (r: (Session, nat))
    requires s.Valid() && Admissible(s, evs)
    ensures r.0.Valid() && r.1 <= |evs|
    ensures OutputsValid(evs, r.1)
    decreases |evs|
  {
    if evs == [] then (s, 0)
    else
      StepWrites(s, evs[0]);
      var st := Step(s, evs[0]);
      if st.0 == Mad.Stop then
        FramesCons(evs, 0);
        (st.1, 1)
      else
        var rest := Run(st.1, evs[1..]);
        FramesCons(evs, rest.1);
        (rest.0, rest.1 + 1)
  }

  /** What a run hands to the encode stream is exactly the frames of the events
      it consumed, in order: the sound server receives their bytes, the WAV file
      counts them. */
  lemma {:induction false} RunWrites(s: Session, evs: seq<Event>)
    requires s.Valid() && Admissible(s, evs)
    ensures var (t, n) := Run(s, evs);
            && (s.encoder.Audio? <==> t.encoder.Audio?)
            && (s.encoder.Audio? ==> t.encoder.audio.sent == s.encoder.audio.sent + Frames(evs, n))
            && (s.encoder.Wav? ==> t.encoder.wav.bitscount == s.encoder.wav.bitscount + |Frames(evs, n)|)
    decreases |evs|
  {
    if evs != [] {
      StepWrites(s, evs[0]);
      var st := Step(s, evs[0]);
      if st.0 == Mad.Stop {
        assert Run(s, evs) == (st.1, 1);
        FramesCons(evs, 0);
      } else {
        RunWrites(st.1, evs[1..]);
        var rest := Run(st.1, evs[1..]);
        assert Run(s, evs) == (rest.0, rest.1 + 1);
        FramesCons(evs, rest.1);
        if s.encoder.Audio? {
          AppendAssoc(s.encoder.audio.sent, EventBytes(evs[0]), Frames(evs[1..], rest.1));
        }
      }
    }
  }

  /** Every decoded frame among the first `n` of `evs` is a well-formed `mad_pcm`. */
  predicate OutputsValid(evs: seq<Event>, n: nat) {
    forall k :: 0 <= k < n && k < |evs| && evs[k].OutputEv? ==> evs[k].pcm.Valid()
  }

  /** Number of header events among `evs`. */
  function Headers(evs: seq<Event>): (n: nat)
    ensures n <= |evs|
    decreases |evs|
  {
    if evs == [] then 0 else (if evs[0].HeaderEv? then 1 else 0) + Headers(evs[1..])
  }

  /** The PCM bytes of the output events among the first `n` of `evs`, in order. */
  function Frames(evs: seq<Event>, n: nat): (b: seq<byte>)
    requires n <= |evs| && OutputsValid(evs, n)
    decreases n
  {
    if n == 0 then []
    else EventBytes(evs[0]) + Frames(evs[1..], n - 1)
  }

  /** The frames of a prefix are the first event's frame, then the rest's. */
  lemma FramesCons(evs: seq<Event>, n: nat)
    requires n < |evs| && OutputsValid(evs[1..], n) && (evs[0].OutputEv? ==> evs[0].pcm.Valid())
    ensures OutputsValid(evs, n + 1)
    ensures Frames(evs, n + 1) == EventBytes(evs[0]) + Frames(evs[1..], n)
  {
    assert forall k :: 0 < k < |evs| ==> evs[k] == evs[1..][k - 1];
  }

  /** The promise is fulfilled at most once per decode: a session that starts
      with the info pending publishes exactly one info if libmad reported a header
      before stopping and none otherwise; once published, the encode stream holds
      that same info. */
  lemma {:induction false} RunPublishesOnce(s: Session, evs: seq<Event>)
    requires s.Valid() && Admissible(s, evs)
    requires s.infoPending ==> s.published == []
    requires !s.infoPending ==> |s.published| == 1 && s.encoder.Info() == Some(s.published[0])
    ensures var (t, n) := Run(s, evs);
            && (t.infoPending ==> t.published == [])
            && (!t.infoPending ==> |t.published| == 1 && t.encoder.Info() == Some(t.published[0]))
            && (t.infoPending <==> s.infoPending && Headers(evs[..n]) == 0)
    decreases |evs|
  {
    if evs != [] {
      var (flow, t) := Step(s, evs[0]);
      if flow == Mad.Stop {
        assert Run(s, evs) == (t, 1);
        HeadersCons(evs, 0);
      } else {
        var more := evs[1..];
        RunPublishesOnce(t, more);
        var (u, n) := Run(t, more);
        assert Run(s, evs) == (u, n + 1);
        HeadersCons(evs, n);
        match evs[0]
        case OutputEv(pcm) => assert t.encoder.Info() == s.encoder.Info();
        case _ =>
      }
    }
  }

  /** The headers in a prefix are the first event's, then the rest's. */
  lemma HeadersCons(evs: seq<Event>, n: nat)
    requires n < |evs|
    ensures Headers(evs[..n + 1]) == (if evs[0].HeaderEv? then 1 else 0) + Headers(evs[1..][..n])
  {
    assert evs[..n + 1][0] == evs[0] && evs[..n + 1][1..] == evs[1..][..n];
  }

  /** The bytes one event contributes to `Frames`. */
  function EventBytes(e: Event): seq<byte>
    requires e.OutputEv? ==> e.pcm.Valid()
  {
    if e.OutputEv? then Mad.FrameBytes(e.pcm) else []
  }

  /** One callback hands the encode stream exactly the event's bytes: a
      sound-device sink receives them, a WAV sink counts them and writes them at
      its put position. */
  lemma StepWrites(s: Session, e: Event)
    requires s.Valid() && Enabled(s, e)
    ensures e.OutputEv? ==> e.pcm.Valid()
    ensures s.encoder.Audio? <==> Step(s, e).1.encoder.Audio?
    ensures s.encoder.Audio? ==> Step(s, e).1.encoder.audio.sent == s.encoder.audio.sent + EventBytes(e)
    ensures s.encoder.Wav? ==> Step(s, e).1.encoder.wav.bitscount == s.encoder.wav.bitscount + |EventBytes(e)|
    ensures s.encoder.Wav? && e.OutputEv? ==>
              Step(s, e).1.encoder.wav.out == Encoder.WriteAt(s.encoder.wav.out, EventBytes(e))
  {
  }

  /** libmad reports a frame's header before its samples: no output event comes
      before the first header event. */
  predicate HeaderFirst(evs: seq<Event>)
    decreases |evs|
  {
    evs == [] || evs[0].HeaderEv? || (!evs[0].OutputEv? && HeaderFirst(evs[1..]))
  }

  /** One callback after the info is published, on a WAV file whose put
      position is at or past its end: the event's bytes are appended. */
  lemma StepAppendsWav(s: Session, e: Event)
    requires s.Valid() && Enabled(s, e)
    requires !s.infoPending && s.encoder.Wav? && Encoder.AtEnd(s.encoder.wav.out)
    ensures var t := Step(s, e).1;
            && !t.infoPending && t.encoder.Wav? && t.encoder.wav.info == s.encoder.wav.info
            && Encoder.AtEnd(t.encoder.wav.out)
            && Encoder.Padded(t.encoder.wav.out) == Encoder.Padded(s.encoder.wav.out) + EventBytes(e)
            && (t.encoder.wav.out == s.encoder.wav.out || t.encoder.wav.out.pos == |t.encoder.wav.out.contents|)
  {
    if e.OutputEv? {
      Encoder.WriteAtEnd(s.encoder.wav.out, EventBytes(e));
    } else {
      assert Step(s, e).1.encoder == s.encoder;
    }
  }

  /** Once the info is published, a run into a WAV file whose put position is at
      or past its end appends the frames, in order; the file is either untouched or
      left with the put position at its end. */
  lemma {:induction false} RunAppendsWav(s: Session, evs: seq<Event>)
    requires s.Valid() && Admissible(s, evs)
    requires !s.infoPending && s.encoder.Wav? && Encoder.AtEnd(s.encoder.wav.out)
    ensures var (t, n) := Run(s, evs);
            && !t.infoPending && t.encoder.Wav? && t.encoder.wav.info == s.encoder.wav.info
            && Encoder.AtEnd(t.encoder.wav.out)
            && Encoder.Padded(t.encoder.wav.out) == Encoder.Padded(s.encoder.wav.out) + Frames(evs, n)
            && (t.encoder.wav.out == s.encoder.wav.out || t.encoder.wav.out.pos == |t.encoder.wav.out.contents|)
    decreases |evs|
  {
    if evs != [] {
      StepAppendsWav(s, evs[0]);
      var st := Step(s, evs[0]);
      if st.0 == Mad.Stop {
        RunStops(s, evs);
      } else {
        RunCons(s, evs);
        RunAppendsWav(st.1, evs[1..]);
        var (t, m) := Run(st.1, evs[1..]);
        FramesCons(evs, m);
        AppendsCompose(s.encoder.wav.out, st.1.encoder.wav.out, t.encoder.wav.out, EventBytes(evs[0]), Frames(evs[1..], m));
      }
    }
  }

  /** Two appends in a row are one append of both parts. */
  lemma AppendsCompose(a: Encoder.OutFile, b: Encoder.OutFile, c: Encoder.OutFile, x: seq<byte>, y: seq<byte>)
    requires Encoder.AtEnd(a) && Encoder.AtEnd(b) && Encoder.AtEnd(c)
    requires Encoder.Padded(b) == Encoder.Padded(a) + x && (b == a || b.pos == |b.contents|)
    requires Encoder.Padded(c) == Encoder.Padded(b) + y && (c == b || c.pos == |c.contents|)
    ensures Encoder.Padded(c) == Encoder.Padded(a) + (x + y)
    ensures c == a || c.pos == |c.contents|
  {
    AppendAssoc(Encoder.Padded(a), x, y);
  }

  /** A decode into a WAV stream with an empty file: until the first header
      nothing is written; from then on the file reads as the reserved header space
      followed by the decoded frames. */
  lemma {:induction false} RunIntoWav(s: Session, evs: seq<Event>)
    requires s.Valid() && Admissible(s, evs) && HeaderFirst(evs)
    requires s.infoPending && s.encoder.Wav? && s.encoder.wav.out.contents == []
    ensures IntoWav(s, evs)
    decreases |evs|, 1
  {
    if evs != [] {
      if evs[0].HeaderEv? {
        if Step(s, evs[0]).0 == Mad.Stop {
          HeaderReservesWav(s, evs[0]);
          RunStops(s, evs);
        } else {
          HeaderStartsWav(s, evs);
        }
      } else {
        QuietIntoWav(s, evs);
      }
    }
  }

  /** What a run into a fresh WAV file leaves: nothing until a header was seen;
      after it, the reserved header room followed by the frames. */
  predicate IntoWav(s: Session, evs: seq<Event>)
    requires s.Valid() && Admissible(s, evs)
  {
    var (t, n) := Run(s, evs);
    && t.encoder.Wav?
    && (t.infoPending ==> t.encoder == s.encoder && Frames(evs, n) == [])
    && (!t.infoPending ==>
          && Encoder.AtEnd(t.encoder.wav.out)
          && Encoder.Padded(t.encoder.wav.out) == Encoder.Zeros(Encoder.HEADER_SIZE) + Frames(evs, n)
          && (Frames(evs, n) != [] ==> t.encoder.wav.out.pos == |t.encoder.wav.out.contents|))
  }

  /** A run into a fresh WAV file that starts with an input or error callback. */
  lemma {:induction false} QuietIntoWav(s: Session, evs: seq<Event>)
    requires s.Valid() && Admissible(s, evs) && HeaderFirst(evs) && evs != [] && !evs[0].HeaderEv?
    requires s.infoPending && s.encoder.Wav? && s.encoder.wav.out.contents == []
    ensures IntoWav(s, evs)
    decreases |evs|, 0
  {
    QuietStepKeepsWav(s, evs[0]);
    var st := Step(s, evs[0]);
    if st.0 == Mad.Stop {
      RunStops(s, evs);
    } else {
      RunCons(s, evs);
      RunIntoWav(st.1, evs[1..]);
      var m := Run(st.1, evs[1..]).1;
      FramesCons(evs, m);
      assert Frames(evs, m + 1) == Frames(evs[1..], m);
    }
  }

  /** A run whose first callback stops consists of that callback alone. */
  lemma RunStops(s: Session, evs: seq<Event>)
    requires s.Valid() && Admissible(s, evs) && evs != [] && Step(s, evs[0]).0 == Mad.Stop
    ensures Run(s, evs) == (Step(s, evs[0]).1, 1)
    ensures Frames(evs, 1) == EventBytes(evs[0])
  {
    StepWrites(s, evs[0]);
    FramesCons(evs, 0);
  }

  /** An input or error callback leaves the encode stream and the promise alone. */
  lemma QuietStepKeepsWav(s: Session, e: Event)
    requires s.Valid() && Enabled(s, e) && !e.HeaderEv? && !e.OutputEv?
    ensures Step(s, e).1.encoder == s.encoder && Step(s, e).1.infoPending == s.infoPending
    ensures EventBytes(e) == []
  {
  }

  /** The first header of a run into a fresh WAV file: the header's room is
      reserved and every later frame is appended after it. */
  lemma HeaderStartsWav(s: Session, evs: seq<Event>)
    requires s.Valid() && Admissible(s, evs) && evs != [] && evs[0].HeaderEv?
    requires s.infoPending && s.encoder.Wav? && s.encoder.wav.out.contents == []
    requires Step(s, evs[0]).0 != Mad.Stop
    ensures var (t, n) := Run(s, evs);
            && t.encoder.Wav? && !t.infoPending
            && Encoder.AtEnd(t.encoder.wav.out)
            && Encoder.Padded(t.encoder.wav.out) == Encoder.Zeros(Encoder.HEADER_SIZE) + Frames(evs, n)
            && (Frames(evs, n) != [] ==> t.encoder.wav.out.pos == |t.encoder.wav.out.contents|)
  {
    HeaderReservesWav(s, evs[0]);
    var st := Step(s, evs[0]).1;
    RunCons(s, evs);
    RunAppendsWav(st, evs[1..]);
    var (t, m) := Run(st, evs[1..]);
    assert Run(s, evs) == (t, m + 1);
    FramesCons(evs, m);
    assert Frames(evs, m + 1) == Frames(evs[1..], m);
    PaddedAfterHeader(t.encoder.wav.out, Frames(evs[1..], m));
  }

  /** A file that held only the reserved header room and then had `frames`
      appended reads as that room followed by the frames. */
  lemma PaddedAfterHeader(t: Encoder.OutFile, frames: seq<byte>)
    requires Encoder.AtEnd(t)
    requires Encoder.Padded(t) == Encoder.Padded(Encoder.OutFile([], Encoder.HEADER_SIZE)) + frames
    requires t == Encoder.OutFile([], Encoder.HEADER_SIZE) || t.pos == |t.contents|
    ensures Encoder.Padded(t) == Encoder.Zeros(Encoder.HEADER_SIZE) + frames
    ensures frames != [] ==> t.pos == |t.contents|
  {
    assert Encoder.Padded(Encoder.OutFile([], Encoder.HEADER_SIZE)) == Encoder.Zeros(Encoder.HEADER_SIZE);
  }

  /** A run whose first callback does not stop is that callback followed by a
      run of the rest. */
  lemma RunCons(s: Session, evs: seq<Event>)
    requires s.Valid() && Admissible(s, evs) && evs != [] && Step(s, evs[0]).0 != Mad.Stop
    ensures Admissible(Step(s, evs[0]).1, evs[1..])
    ensures var rest := Run(Step(s, evs[0]).1, evs[1..]);
            Run(s, evs) == (rest.0, rest.1 + 1)
  {
  }

  /** The first header on a fresh WAV file reserves the header's room. */
  lemma HeaderReservesWav(s: Session, e: Event)
    requires s.Valid() && Enabled(s, e) && e.HeaderEv?
    requires s.infoPending && s.encoder.Wav? && s.encoder.wav.out.contents == []
    ensures !Step(s, e).1.infoPending && Step(s, e).1.encoder.Wav?
    ensures Step(s, e).1.encoder.wav.out == Encoder.OutFile([], Encoder.HEADER_SIZE)
    ensures Encoder.AtEnd(Encoder.OutFile([], Encoder.HEADER_SIZE))
    ensures Encoder.Padded(Encoder.OutFile([], Encoder.HEADER_SIZE)) == Encoder.Zeros(Encoder.HEADER_SIZE)
    ensures EventBytes(e) == []
  {
  }

  /** Decoding into a fresh `WavEncodeStream` and destroying it yields the
      header describing the published info and exactly the decoded bytes,
      followed by those bytes in order. */
  lemma DecodeIntoWav(input: Source, evs: seq<Event>)
    requires input.Valid()
    requires Admissible(Start(input, Encoder.Wav(Encoder.NewWav())), evs) && HeaderFirst(evs)
    ensures var (t, n) := Run(Start(input, Encoder.Wav(Encoder.NewWav())), evs);
            && t.encoder.Wav? && t.encoder.wav.bitscount == |Frames(evs, n)|
            && (Frames(evs, n) != [] ==>
                  && |t.published| == 1 && t.encoder.wav.info == Some(t.published[0])
                  && (Encoder.InfoFits(t.published[0]) ==>
                        Encoder.WavFinish(t.encoder.wav).contents ==
                        Encoder.Layout(Encoder.FinalHeader(t.published[0], |Frames(evs, n)|)) + Frames(evs, n)))
  {
    var s := Start(input, Encoder.Wav(Encoder.NewWav()));
    RunWrites(s, evs);
    RunPublishesOnce(s, evs);
    RunIntoWav(s, evs);
    var (t, n) := Run(s, evs);
    var data := Frames(evs, n);
    if data != [] && Encoder.InfoFits(t.published[0]) {
      assert t.encoder.wav.out.contents == Encoder.Zeros(Encoder.HEADER_SIZE) + data;
      Encoder.FinishOverwritesSpace(t.encoder.wav, t.published[0], data);
    }
  }

  /** `is_paused()`. */
  function IsPaused(s: Session): bool {
    s.pause
  }

  /** `pause()`: sets the flag (a no-op when already set). */
  function Pause(s: Session): (t: Session)
    ensures IsPaused(t) && t == s.(pause := true)
  {
    if s.pause then s else s.(pause := true)
  }

  /** `go()`: clears the flag (a no-op when already clear). */
  function Go(s: Session): (t: Session)
    ensures !IsPaused(t) && t == s.(pause := false)
  {
    if !s.pause then s else s.(pause := false)
  }

  /** Pausing and resuming are idempotent and undo each other. */
  lemma PauseGoLaws(s: Session)
    ensures Pause(Pause(s)) == Pause(s) && Go(Go(s)) == Go(s)
    ensures !IsPaused(s) ==> Go(Pause(s)) == s
    ensures IsPaused(s) ==> Pause(Go(s)) == s
  {
  }
}

=== FILE: encoder.dfy ===
/** `src/encoder.hpp`: the sinks the decoder writes PCM into.

    `WavEncodeStream` writes the samples to a file, leaving room for the 44-byte
    canonical RIFF/WAVE header (the `fmt ` chunk of the Microsoft/IBM Multimedia
    Programming Interface and Data Specifications 1.0) and filling the header in
    when the stream is destroyed, once the data length is known.
    `AudioEncodeStream` forwards the samples to the sound server. The output file is
    modelled as its byte contents plus the put position (`seekp`). */
module Encoder {
  import opened Bytes
  import opened Wrappers
  import opened Utils

  /** `sizeof(WavHeader)`. */
  const HEADER_SIZE: nat := 44

  /** The numeric fields of `WavHeader`, as stored (`uint32_t` / `uint16_t`). */
  datatype WavHeader = WavHeader(
    fileSize: nat,
    formatTag: nat,
    channels: nat,
    samplesPerSec: nat,
    avgBytesPerSec: nat,
    blockAlign: nat,
    bitsPerSample: nat,
    dataSize: nat)
  {
    predicate WellTyped() {
      fileSize < TWO_32 && formatTag < TWO_16 && channels < TWO_16 && samplesPerSec < TWO_32 &&
      avgBytesPerSec < TWO_32 && blockAlign < TWO_16 && bitsPerSample < TWO_16 && dataSize < TWO_32
    }
  }

  /** What the `int` parameters of the `WavHeader` constructor may hold without the
      `int` products overflowing. */
  predicate HeaderArgs(channels: int, samplerate: int, bitsPerSample: int) {
    0 <= channels && 0 <= samplerate && 0 <= bitsPerSample &&
    samplerate * channels * bitsPerSample <= INT_MAX
  }

  /** The constructor `WavHeader(channels, samplerate, bits_per_sample, data_size)`;
      `data_size` arrives as an `int` converted from the `size_t` byte count. */
  function MakeHeader(channels: int, samplerate: int, bitsPerSample: int, dataSize: nat): (h: WavHeader)
    requires HeaderArgs(channels, samplerate, bitsPerSample)
    ensures h.WellTyped()
    ensures h.dataSize == U32(dataSize) && h.fileSize == U32(dataSize + 36)
    ensures h.formatTag == 1
    ensures h.channels == U16(channels) && h.samplesPerSec == U32(samplerate) && h.bitsPerSample == U16(bitsPerSample)
    ensures h.avgBytesPerSec == U32(samplerate * channels * bitsPerSample / 8)
    ensures h.blockAlign == U16(channels * bitsPerSample / 8)
  {
    var n := I32(dataSize);
    U32Congruent(36 + n, dataSize + 36);
    U32Congruent(n, dataSize);
    WavHeader(
      U32(36 + n), 1, U16(channels), U32(samplerate),
      U32(samplerate * channels * bitsPerSample / 8),
      U16(channels * bitsPerSample / 8), U16(bitsPerSample), U32(n))
  }

  /** For the 16-bit PCM the destructor describes, the derived fields agree with
      each other as the RIFF/WAVE format requires: one frame is `2 * channels`
      bytes and a second is `samplerate` frames. */
  lemma PcmHeaderConsistent(channels: nat, samplerate: nat, dataSize: nat)
    requires 2 * channels < TWO_16 && HeaderArgs(channels, samplerate, 16)
    ensures MakeHeader(channels, samplerate, 16, dataSize).blockAlign == 2 * channels
    ensures MakeHeader(channels, samplerate, 16, dataSize).avgBytesPerSec ==
            samplerate * MakeHeader(channels, samplerate, 16, dataSize).blockAlign
  {
    assert channels * 16 / 8 == 2 * channels;
    assert samplerate * channels * 16 / 8 == samplerate * (2 * channels);
    assert U16(2 * channels) == 2 * channels;
    assert U32(samplerate * (2 * channels)) == samplerate * (2 * channels);
  }

  const RIFF: seq<byte> := [0x52, 0x49, 0x46, 0x46]
  const WAVE: seq<byte> := [0x57, 0x41, 0x56, 0x45]
  const FMT: seq<byte> := [0x66, 0x6d, 0x74, 0x20]
  const DATA: seq<byte> := [0x64, 0x61, 0x74, 0x61]

  /** The in-memory image of the packed struct on a little-endian host: the
      RIFF descriptor, the `fmt ` sub-chunk and the `data` sub-chunk header. */
  function Layout(h: WavHeader): (r: seq<byte>)
    requires h.WellTyped()
    ensures |r| == HEADER_SIZE
  {
    RiffPart(h) + FmtPart(h) + DataPart(h)
  }

  /** "RIFF", size, "WAVE". */
  function RiffPart(h: WavHeader): (r: seq<byte>)
    requires h.WellTyped()
    ensures |r| == 12
  {
    RIFF + LE32(h.fileSize) + WAVE
  }

  /** "fmt ", 16, tag, channels, rate, byte rate, align, bits. */
  function FmtPart(h: WavHeader): (r: seq<byte>)
    requires h.WellTyped()
    ensures |r| == 24
  {
    (FMT + LE32(16)) +
    (LE16(h.formatTag) + LE16(h.channels) + LE32(h.samplesPerSec)) +
    (LE32(h.avgBytesPerSec) + LE16(h.blockAlign) + LE16(h.bitsPerSample))
  }

  /** "data", size. */
  function DataPart(h: WavHeader): (r: seq<byte>)
    requires h.WellTyped()
    ensures |r| == 8
  {
    DATA + LE32(h.dataSize)
  }

  /** Reads a canonical 44-byte header back; `None` unless every tag and the
      `fmt ` chunk length are where the format puts them. */
  function ParseHeader(b: seq<byte>): (r: Option<WavHeader>)
    requires |b| == HEADER_SIZE
    ensures r.Some? ==> r.value.WellTyped()
  {
    if b[0..4] == RIFF && b[8..12] == WAVE && b[12..16] == FMT && FromLE32(b[16..20]) == 16 && b[36..40] == DATA
    then Some(WavHeader(
      FromLE32(b[4..8]), FromLE16(b[20..22]), FromLE16(b[22..24]), FromLE32(b[24..28]),
      FromLE32(b[28..32]), FromLE16(b[32..34]), FromLE16(b[34..36]), FromLE32(b[40..44])))
    else None
  }

  lemma LayoutRoundTrip(h: WavHeader)
    requires h.WellTyped()
    ensures ParseHeader(Layout(h)) == Some(h)
  {
    var b := Layout(h);
    var riff, fmt, data := RiffPart(h), FmtPart(h), DataPart(h);
    assert b[0..12] == riff && b[12..36] == fmt && b[36..44] == data;
    RiffFields(h);
    FmtFields(h);
    DataFields(h);
    Within(b, 0, riff, 0, 4);
    Within(b, 0, riff, 4, 8);
    Within(b, 0, riff, 8, 12);
    Within(b, 12, fmt, 0, 4);
    Within(b, 12, fmt, 4, 8);
    Within(b, 12, fmt, 8, 10);
    Within(b, 12, fmt, 10, 12);
    Within(b, 12, fmt, 12, 16);
    Within(b, 12, fmt, 16, 20);
    Within(b, 12, fmt, 20, 22);
    Within(b, 12, fmt, 22, 24);
    Within(b, 36, data, 0, 4);
    Within(b, 36, data, 4, 8);
    LE32RoundTrip(h.fileSize);
    LE32RoundTrip(16);
    LE16RoundTrip(h.formatTag);
    LE16RoundTrip(h.channels);
    LE32RoundTrip(h.samplesPerSec);
    LE32RoundTrip(h.avgBytesPerSec);
    LE16RoundTrip(h.blockAlign);
    LE16RoundTrip(h.bitsPerSample);
    LE32RoundTrip(h.dataSize);
  }

  /** A slice of a part that sits at `off` is the matching slice of the whole. */
  lemma Within(b: seq<byte>, off: nat, part: seq<byte>, i: nat, j: nat)
    requires off + |part| <= |b| && b[off..off + |part|] == part && i <= j <= |part|
    ensures b[off + i..off + j] == part[i..j]
  {
    var whole := b[off + i..off + j];
    assert forall k :: 0 <= k < |whole| ==> whole[k] == b[off..off + |part|][i + k];
  }

  lemma RiffFields(h: WavHeader)
    requires h.WellTyped()
    ensures RiffPart(h)[0..4] == RIFF && RiffPart(h)[4..8] == LE32(h.fileSize) && RiffPart(h)[8..12] == WAVE
  {
  }

  lemma FmtFields(h: WavHeader)
    requires h.WellTyped()
    ensures var f := FmtPart(h);
            && f[0..4] == FMT && f[4..8] == LE32(16)
            && f[8..10] == LE16(h.formatTag) && f[10..12] == LE16(h.channels)
            && f[12..16] == LE32(h.samplesPerSec) && f[16..20] == LE32(h.avgBytesPerSec)
            && f[20..22] == LE16(h.blockAlign) && f[22..24] == LE16(h.bitsPerSample)
  {
    var f := FmtPart(h);
    var a := FMT + LE32(16);
    var m := LE16(h.formatTag) + LE16(h.channels) + LE32(h.samplesPerSec);
    var z := LE32(h.avgBytesPerSec) + LE16(h.blockAlign) + LE16(h.bitsPerSample);
    Three(a, m, z);
    Three(FMT, LE32(16), []);
    Three(LE16(h.formatTag), LE16(h.channels), LE32(h.samplesPerSec));
    Three(LE32(h.avgBytesPerSec), LE16(h.blockAlign), LE16(h.bitsPerSample));
    Within(f, 0, a, 0, 4);
    Within(f, 0, a, 4, 8);
    Within(f, 8, m, 0, 2);
    Within(f, 8, m, 2, 4);
    Within(f, 8, m, 4, 8);
    Within(f, 16, z, 0, 4);
    Within(f, 16, z, 4, 6);
    Within(f, 16, z, 6, 8);
  }

  /** The three parts of a concatenation sit one after the other. */
  lemma Three(x: seq<byte>, y: seq<byte>, z: seq<byte>)
    ensures (x + y + z)[0..|x|] == x
    ensures (x + y + z)[|x|..|x| + |y|] == y
    ensures (x + y + z)[|x| + |y|..|x| + |y| + |z|] == z
  {
  }

  lemma DataFields(h: WavHeader)
    requires h.WellTyped()
    ensures DataPart(h)[0..4] == DATA && DataPart(h)[4..8] == LE32(h.dataSize)
  {
  }

  function Zeros(n: nat): (z: seq<byte>)
    ensures |z| == n && forall i :: 0 <= i < n ==> z[i] == 0
  {
    seq(n, i => 0)
  }

  /** A binary output file: its contents and the put position. */
  datatype OutFile = OutFile(contents: seq<byte>, pos: nat)

  /** `seekp(pos)`. */
  function SeekP(f: OutFile, pos: nat): (g: OutFile)
    ensures g.pos == pos && g.contents == f.contents
  {
    f.(pos := pos)
  }

  /** `write(data, bytes)` at the put position: a gap left by seeking past the end
      reads as zero bytes, the data overwrites or extends the contents, and the put
      position moves past it. */
  function WriteAt(f: OutFile, data: seq<byte>): (g: OutFile)
    ensures g.pos == f.pos + |data|
    ensures |g.contents| == Max(|f.contents|, f.pos + |data|)
    ensures g.contents[f.pos .. f.pos + |data|] == data
    ensures forall i :: 0 <= i < |g.contents| && !(f.pos <= i < f.pos + |data|) ==>
              g.contents[i] == (if i < |f.contents| then f.contents[i] else 0)
  {
    var padded := if f.pos > |f.contents| then f.contents + Zeros(f.pos - |f.contents|) else f.contents;
    var tail := if f.pos + |data| < |padded| then padded[f.pos + |data|..] else [];
    OutFile(padded[..f.pos] + data + tail, f.pos + |data|)
  }

  /** The put position is at or past the end of the contents. */
  predicate AtEnd(f: OutFile) {
    f.pos >= |f.contents|
  }

  /** What the file holds up to a put position at or past its end, once the next
      write lands: the contents, then zero bytes for the gap. */
  function Padded(f: OutFile): (r: seq<byte>)
    requires AtEnd(f)
    ensures |r| == f.pos && r[..|f.contents|] == f.contents
    ensures forall i :: |f.contents| <= i < f.pos ==> r[i] == 0
  {
    f.contents + Zeros(f.pos - |f.contents|)
  }

  /** A write at or past the end appends to the padded contents and leaves the put
      position at the new end. */
  lemma WriteAtEnd(f: OutFile, data: seq<byte>)
    requires AtEnd(f)
    ensures WriteAt(f, data).pos == |WriteAt(f, data).contents|
    ensures AtEnd(WriteAt(f, data)) && Padded(WriteAt(f, data)) == Padded(f) + data
  {
    var g := WriteAt(f, data);
    assert g.contents == Padded(f) + data;
  }

  /** `WavEncodeStream`: the file, the stored `MusicInfo` (`None` until `set_info`,
      the member being left indeterminate before) and the count of bytes written. */
  datatype WavEncodeStream = WavEncodeStream(out: OutFile, info: Option<MusicInfo>, bitscount: nat)

  /** The constructor on a freshly truncated file. */
  function NewWav(): (w: WavEncodeStream)
    ensures w.out == OutFile([], 0) && w.info.None? && w.bitscount == 0
  {
    WavEncodeStream(OutFile([], 0), None, 0)
  }

  /** `write(data, bytes)`: forwards the bytes and counts them. */
  function WavWrite(w: WavEncodeStream, data: seq<byte>): (v: WavEncodeStream)
    ensures v.bitscount == w.bitscount + |data|
    ensures v.out == WriteAt(w.out, data) && v.info == w.info
  {
    w.(out := WriteAt(w.out, data), bitscount := w.bitscount + |data|)
  }

  /** `set_info`: stores the info and moves the put position past the space the
      header will take. */
  function WavSetInfo(w: WavEncodeStream, info: MusicInfo): (v: WavEncodeStream)
    ensures v.info == Some(info) && v.out.pos == HEADER_SIZE
    ensures v.out.contents == w.out.contents && v.bitscount == w.bitscount
  {
    w.(info := Some(info), out := SeekP(w.out, HEADER_SIZE))
  }

  /** What the destructor needs of the stored info for its `int` arithmetic. */
  predicate InfoFits(info: MusicInfo) {
    info.channels < TWO_16 && HeaderArgs(info.channels, info.samplerate, 16)
  }

  /** The header the destructor writes: 16 bits per sample, the stored channel
      count and sample rate, and the byte count as data size. */
  function FinalHeader(info: MusicInfo, bitscount: nat): (h: WavHeader)
    requires InfoFits(info)
    ensures h.WellTyped() && h.dataSize == U32(bitscount) && h.bitsPerSample == 16
    ensures h.channels == info.channels && h.samplesPerSec == U32(info.samplerate)
  {
    MakeHeader(info.channels, info.samplerate, 16, bitscount)
  }

  /** `~WavEncodeStream()`: the header is written at offset 0 exactly when some
      byte was written; the file is left untouched otherwise. */
  function WavFinish(w: WavEncodeStream): (f: OutFile)
    requires w.bitscount != 0 ==> w.info.Some? && InfoFits(w.info.value)
    ensures w.bitscount == 0 ==> f == w.out
    ensures w.bitscount != 0 ==>
              (|f.contents| >= HEADER_SIZE &&
               f.contents[..HEADER_SIZE] == Layout(FinalHeader(w.info.value, w.bitscount)))
  {
    if w.bitscount != 0 then
      var h := FinalHeader(w.info.value, w.bitscount);
      WriteAt(SeekP(w.out, 0), Layout(h))
    else w.out
  }

  function Concat(chunks: seq<seq<byte>>): (r: seq<byte>)
    decreases |chunks|
  {
    if chunks == [] then [] else chunks[0] + Concat(chunks[1..])
  }

  /** Applies `write` for each chunk in order. */
  function WavWriteAll(w: WavEncodeStream, chunks: seq<seq<byte>>): (v: WavEncodeStream)
    ensures v.info == w.info && v.bitscount == w.bitscount + |Concat(chunks)|
    decreases |chunks|
  {
    if chunks == [] then w else WavWriteAll(WavWrite(w, chunks[0]), chunks[1..])
  }

  lemma {:induction false} WriteAllAppends(w: WavEncodeStream, chunks: seq<seq<byte>>)
    requires w.out.pos == |w.out.contents|
    ensures WavWriteAll(w, chunks).out.contents == w.out.contents + Concat(chunks)
    ensures WavWriteAll(w, chunks).out.pos == |WavWriteAll(w, chunks).out.contents|
    decreases |chunks|
  {
    if chunks != [] {
      var v := WavWrite(w, chunks[0]);
      WriteAtEnd(w.out, chunks[0]);
      assert Padded(w.out) == w.out.contents;
      WriteAllAppends(v, chunks[1..]);
      AppendAssoc(w.out.contents, chunks[0], Concat(chunks[1..]));
    }
  }

  /** A whole conversion: `set_info`, the writes, then destruction produce a file
      that is the header describing exactly the written bytes followed by those
      bytes, in order. */
  lemma {:induction false} WavSession(info: MusicInfo, chunks: seq<seq<byte>>)
    requires InfoFits(info)
    requires |Concat(chunks)| > 0
    ensures var w := WavWriteAll(WavSetInfo(NewWav(), info), chunks);
            WavFinish(w).contents == Layout(FinalHeader(info, |Concat(chunks)|)) + Concat(chunks)
  {
    var w0 := WavSetInfo(NewWav(), info);
    var first := WavWrite(w0, chunks[0]);
    WriteAtEnd(w0.out, chunks[0]);
    assert Padded(w0.out) == Zeros(HEADER_SIZE);
    assert Padded(first.out) == first.out.contents;
    WriteAllAppends(first, chunks[1..]);
    var w := WavWriteAll(first, chunks[1..]);
    assert w == WavWriteAll(w0, chunks);
    AppendAssoc(Zeros(HEADER_SIZE), chunks[0], Concat(chunks[1..]));
    FinishOverwritesSpace(w, info, Concat(chunks));
  }

  /** Destruction overwrites exactly the reserved space with the header. */
  lemma FinishOverwritesSpace(w: WavEncodeStream, info: MusicInfo, data: seq<byte>)
    requires w.info == Some(info) && InfoFits(info) && w.bitscount == |data| > 0
    requires w.out.contents == Zeros(HEADER_SIZE) + data
    ensures WavFinish(w).contents == Layout(FinalHeader(info, |data|)) + data
  {
  }

  /** `AudioEncodeStream`: the stored info, the sample rate last given to the
      sound device, and the bytes sent to it. */
  datatype AudioEncodeStream = AudioEncodeStream(info: Option<MusicInfo>, samplerate: Option<nat>, sent: seq<byte>)

  /** `AudioEncodeStream::write`: forwards the bytes. */
  function AudioWrite(a: AudioEncodeStream, data: seq<byte>): (b: AudioEncodeStream)
    ensures b.sent == a.sent + data && b.info == a.info && b.samplerate == a.samplerate
  {
    a.(sent := a.sent + data)
  }

  /** `AudioEncodeStream::set_info`: stores the info and passes its sample rate to
      the device. */
  function AudioSetInfo(a: AudioEncodeStream, info: MusicInfo): (b: AudioEncodeStream)
    ensures b.info == Some(info) && b.samplerate == Some(info.samplerate) && b.sent == a.sent
  {
    a.(info := Some(info), samplerate := Some(info.samplerate))
  }

  /** The encoder the decoder is given: one of the two concrete streams. */
  datatype EncodeStream = Wav(wav: WavEncodeStream) | Audio(audio: AudioEncodeStream)
  {
    /** The info the stream holds (`EncodeStream::info`). */
    function Info(): Option<MusicInfo> {
      match this
      case Wav(w) => w.info
      case Audio(a) => a.info
    }
  }

  /** The base class's `set_info`: stores the info and nothing else. */
  function BaseSetInfo(stored: Option<MusicInfo>, info: MusicInfo): (r: Option<MusicInfo>)
    ensures r == Some(info)
  {
    Some(info)
  }

  /** The virtual `write`. */
  function Write(e: EncodeStream, data: seq<byte>): (r: EncodeStream)
    ensures r.Wav? <==> e.Wav?
    ensures r.Info() == e.Info()
    ensures e.Wav? ==> r.wav.bitscount == e.wav.bitscount + |data|
    ensures e.Wav? ==> r.wav.out == WriteAt(e.wav.out, data)
    ensures e.Audio? ==> r.audio.sent == e.audio.sent + data
  {
    match e
    case Wav(w) => Wav(WavWrite(w, data))
    case Audio(a) => Audio(AudioWrite(a, data))
  }

  /** The virtual `set_info`. */
  function SetInfo(e: EncodeStream, info: MusicInfo): (r: EncodeStream)
    ensures r.Wav? <==> e.Wav?
    ensures r.Info() == Some(info)
    ensures e.Wav? ==> r.wav.bitscount == e.wav.bitscount && r.wav.out == OutFile(e.wav.out.contents, HEADER_SIZE)
    ensures e.Audio? ==> r.audio.samplerate == Some(info.samplerate) && r.audio.sent == e.audio.sent
  {
    match e
    case Wav(w) => Wav(WavSetInfo(w, info))
    case Audio(a) => Audio(AudioSetInfo(a, info))
  }
}

=== FILE: mad.dfy ===
/** The narrow interface between the player and libmad, which is not part of this
    model: the engine calls an input callback to refill its compressed-byte buffer,
    a header callback per frame header, an output callback per decoded frame and an
    error callback per corrupt frame; each answers with a flow code. Decoded
    samples are libmad fixed-point numbers (`mad_fixed_t`, 32-bit, 28 fraction
    bits) converted to 16-bit PCM by `scale`. */
module Mad {
  import opened Bytes
  import opened Wrappers

  /** `LIGHT_AUDIO_READ_BUFFER_SIZE`, the capacity of the compressed-byte buffer. */
  const BUFFER_SIZE: nat := 65536

  /** `MAD_F_FRACBITS` as defined by libmad. */
  const FRACBITS: nat := 28
  /** `MAD_F_ONE`, the fixed-point value 1.0. */
  const F_ONE: int := 0x1000_0000

  /** `enum mad_flow`, restricted to the two codes the callbacks return. */
  datatype Flow = Continue | Stop

  /** The fields of `struct mad_header` the callbacks read. */
  datatype Header = Header(samplerate: nat, bitrate: nat)

  /** The part of `struct mad_stream` the input callback touches: the buffer last
      handed to the engine, and `next_frame` as an offset into it (`None` while the
      pointer is still NULL, before the first refill). */
  datatype MadStream = MadStream(buffer: seq<byte>, nextFrame: Option<nat>)
  {
    predicate Valid() {
      nextFrame.Some? ==> nextFrame.value <= |buffer|
    }

    /** The bytes from `next_frame` to `bufend`: the frame the engine could not
        finish, which the next refill carries over. */
    function Carry(): (c: seq<byte>)
      requires Valid()
      ensures nextFrame.None? ==> c == []
      ensures nextFrame.Some? ==> c == buffer[nextFrame.value..]
    {
      if nextFrame.None? then [] else buffer[nextFrame.value..]
    }
  }

  /** `mad_stream_buffer`: hand a new buffer to the engine, decoding restarts at its
      first byte. */
  function StreamBuffer(data: seq<byte>): (m: MadStream)
    ensures m.Valid() && m.buffer == data && m.Carry() == data
  {
    MadStream(data, Some(0))
  }

  /** `struct mad_pcm`: `length` samples for each of one or two channels. */
  datatype Pcm = Pcm(samples: seq<seq<int>>, length: nat)
  {
    predicate Valid() {
      1 <= |samples| <= 2 &&
      (forall c :: 0 <= c < |samples| ==> |samples[c]| >= length) &&
      (forall c, i :: 0 <= c < |samples| && 0 <= i < length ==> IsInt32(samples[c][i]))
    }
  }

  /** Clamp to the fixed-point range [-1.0, 1.0) and drop the 13 low bits (an
      arithmetic right shift, that is floor division). */
  function ClampShift(v: int): (r: int)
    ensures -32768 <= r <= 32767
  {
    var clamped := if v >= F_ONE then F_ONE - 1 else if v < -F_ONE then -F_ONE else v;
    clamped / 0x2000
  }

  /** `scale(sample)` as written: the rounding constant 2^(FRACBITS-16) is added in
      the 32-bit `mad_fixed_t` itself, so a sample within 4096 of `INT_MAX` wraps
      around to a large negative value before the clamp. */
  function ScaleAsWritten(sample: int): (r: int)
    requires IsInt32(sample)
    ensures -32768 <= r <= 32767
  {
    ClampShift(I32(sample + 0x1000))
  }

  /** The largest sample maps to the most negative output. */
  lemma ScaleAsWrittenWrapsAtTop()
    ensures ScaleAsWritten(INT_MAX) == -32768
    ensures ScaleAsWritten(F_ONE) == 32767
  {
  }

  /** `scale` as evidently intended: add the rounding constant without overflow,
      clamp, shift. */
  function Scale(sample: int): (r: int)
    requires IsInt32(sample)
    ensures -32768 <= r <= 32767
    ensures sample >= F_ONE - 0x1000 ==> r == 32767
    ensures sample < -F_ONE - 0x1000 ==> r == -32768
    ensures -F_ONE - 0x1000 <= sample < F_ONE - 0x1000 ==>
              r * 0x2000 <= sample + 0x1000 < (r + 1) * 0x2000
  {
    ClampShift(sample + 0x1000)
  }

  /** The corrected conversion is monotone, unlike the as-written one. */
  lemma ScaleMonotone(a: int, b: int)
    requires IsInt32(a) && IsInt32(b) && a <= b
    ensures Scale(a) <= Scale(b)
  {
  }

  /** Both agree everywhere except within 4096 of `INT_MAX`. */
  lemma ScaleAgreesBelowTop(sample: int)
    requires IsInt32(sample) && sample <= INT_MAX - 0x1000
    ensures ScaleAsWritten(sample) == Scale(sample)
  {
  }

  /** Reference definition of the output callback's sample order: frame by frame,
      channel 0 then channel 1, each sample through `scale` as written. */
  function InterleaveRef(pcm: Pcm, n: nat): (r: seq<int>)
    requires pcm.Valid() && n <= pcm.length
    ensures |r| == n * |pcm.samples|
    ensures forall k :: 0 <= k < |r| ==> -32768 <= r[k] <= 32767
    decreases n
  {
    if n == 0 then []
    else InterleaveRef(pcm, n - 1) + seq(|pcm.samples|, c requires 0 <= c < |pcm.samples| => ScaleAsWritten(pcm.samples[c][n - 1]))
  }

  lemma {:induction false} InterleaveRefIndex(pcm: Pcm, n: nat, i: nat, c: nat)
    requires pcm.Valid() && n <= pcm.length
    requires i < n && c < |pcm.samples|
    ensures i * |pcm.samples| + c < |InterleaveRef(pcm, n)|
    ensures InterleaveRef(pcm, n)[i * |pcm.samples| + c] == ScaleAsWritten(pcm.samples[c][i])
    decreases n
  {
    var nch := |pcm.samples|;
    if i < n - 1 {
      InterleaveRefIndex(pcm, n - 1, i, c);
      assert i * nch + c < (n - 1) * nch by {
        assert (i + 1) * nch <= (n - 1) * nch;
      }
    } else {
      assert i * nch + c == (n - 1) * nch + c;
    }
  }

  /** The inner loop of the output callback: one scaled sample per channel. */
  method Frame(pcm: Pcm, s: nat) returns (frame: seq<int>)
    requires pcm.Valid() && s < pcm.length
    ensures frame == seq(|pcm.samples|, k requires 0 <= k < |pcm.samples| => ScaleAsWritten(pcm.samples[k][s]))
  {
    var nch := |pcm.samples|;
    frame := [];
    var c := 0;
    while c < nch
      invariant c <= nch
      invariant |frame| == c
      invariant forall k :: 0 <= k < c ==> frame[k] == ScaleAsWritten(pcm.samples[k][s])
    {
      frame := frame + [ScaleAsWritten(pcm.samples[c][s])];
      c := c + 1;
    }
  }

  /** The loop of the output callback: `nch * nsamples` shorts, sample-major and
      channel-minor, each the scaled input sample. */
  method Interleave(pcm: Pcm) returns (out: seq<int>)
    requires pcm.Valid()
    ensures |out| == pcm.length * |pcm.samples|
    ensures out == InterleaveRef(pcm, pcm.length)
    ensures forall i, c :: 0 <= i < pcm.length && 0 <= c < |pcm.samples| ==>
              out[i * |pcm.samples| + c] == ScaleAsWritten(pcm.samples[c][i])
  {
    out := [];
    var s := 0;
    while s < pcm.length
      invariant s <= pcm.length
      invariant out == InterleaveRef(pcm, s)
    {
      var frame := Frame(pcm, s);
      out := out + frame;
      s := s + 1;
    }
    forall i, c | 0 <= i < pcm.length && 0 <= c < |pcm.samples|
      ensures out[i * |pcm.samples| + c] == ScaleAsWritten(pcm.samples[c][i])
    {
      InterleaveRefIndex(pcm, pcm.length, i, c);
    }
  }

  /** The bytes handed to the sink for a sequence of shorts on a little-endian host:
      each sample as two's-complement low byte then high byte. */
  function PcmBytes(samples: seq<int>): (r: seq<byte>)
    requires forall i :: 0 <= i < |samples| ==> -32768 <= samples[i] <= 32767
    ensures |r| == 2 * |samples|
    ensures forall i :: 0 <= i < |samples| ==> r[2 * i .. 2 * i + 2] == LE16(U16(samples[i]))
    decreases |samples|
  {
    if samples == [] then []
    else
      var rest := PcmBytes(samples[1..]);
      var r := LE16(U16(samples[0])) + rest;
      assert forall i :: 1 <= i < |samples| ==> r[2 * i .. 2 * i + 2] == rest[2 * (i - 1) .. 2 * (i - 1) + 2];
      r
  }

  /** The sample back from its two bytes. */
  function SampleOf(b: seq<byte>): (v: int)
    requires |b| == 2
    ensures -32768 <= v <= 32767
  {
    var u := FromLE16(b);
    if u < 0x8000 then u else u - TWO_16
  }

  /** One sample survives its two-byte encoding. */
  lemma SampleRoundTrip(v: int)
    requires -32768 <= v <= 32767
    ensures SampleOf(LE16(U16(v))) == v
  {
    var u := U16(v);
    LE16RoundTrip(u);
    if v < 0 {
      assert u == v + TWO_16 by {
        assert 0 <= v + TWO_16 < TWO_16;
        assert (u - (v + TWO_16)) % TWO_16 == 0;
      }
    }
  }

  /** Decoding the written bytes gives back every sample. */
  lemma PcmBytesRoundTrip(samples: seq<int>, i: nat)
    requires forall k :: 0 <= k < |samples| ==> -32768 <= samples[k] <= 32767
    requires i < |samples|
    ensures SampleOf(PcmBytes(samples)[2 * i .. 2 * i + 2]) == samples[i]
  {
    var b := PcmBytes(samples)[2 * i .. 2 * i + 2];
    assert b == LE16(U16(samples[i]));
    SampleRoundTrip(samples[i]);
  }

  /** `b` holds, at sample slot `i * nch + c`, the scaled sample `i` of channel `c`. */
  predicate CarriesFrame(pcm: Pcm, b: seq<byte>)
    requires pcm.Valid() && |b| == 2 * pcm.length * |pcm.samples|
  {
    forall i, c :: 0 <= i < pcm.length && 0 <= c < |pcm.samples| ==>
      SlotIndexInRange(pcm, i, c) &&
      SampleOf(b[2 * (i * |pcm.samples| + c) .. 2 * (i * |pcm.samples| + c) + 2]) == ScaleAsWritten(pcm.samples[c][i])
  }

  /** Sample slot `i * nch + c` lies inside the frame. */
  predicate SlotIndexInRange(pcm: Pcm, i: nat, c: nat)
  {
    (i * |pcm.samples| + c + 1) * 2 <= 2 * pcm.length * |pcm.samples|
  }

  /** The bytes the output callback hands to its sink for one decoded frame: the
      interleaved scaled samples as little-endian shorts. */
  function FrameBytes(pcm: Pcm): (b: seq<byte>)
    requires pcm.Valid()
    ensures |b| == 2 * pcm.length * |pcm.samples|
    ensures CarriesFrame(pcm, b)
  {
    var samples := InterleaveRef(pcm, pcm.length);
    var b := PcmBytes(samples);
    forall i, c | 0 <= i < pcm.length && 0 <= c < |pcm.samples|
      ensures SlotIndexInRange(pcm, i, c)
      ensures SampleOf(b[2 * (i * |pcm.samples| + c) .. 2 * (i * |pcm.samples| + c) + 2]) ==
              ScaleAsWritten(pcm.samples[c][i])
    {
      InterleaveRefIndex(pcm, pcm.length, i, c);
      PcmBytesRoundTrip(samples, i * |pcm.samples| + c);
    }
    b
  }

  /** No sample of the frame lies within 4096 of `INT_MAX`. */
  predicate BelowTop(pcm: Pcm)
    requires pcm.Valid()
  {
    forall c, i :: 0 <= c < |pcm.samples| && 0 <= i < pcm.length ==> pcm.samples[c][i] <= INT_MAX - 0x1000
  }

  /** For frames that stay clear of the top of the range, the bytes written carry
      the corrected, monotone conversion of every sample. */
  lemma FrameBytesAgreeBelowTop(pcm: Pcm, i: nat, c: nat)
    requires pcm.Valid() && BelowTop(pcm)
    requires i < pcm.length && c < |pcm.samples|
    ensures SlotIndexInRange(pcm, i, c)
    ensures SampleOf(FrameBytes(pcm)[2 * (i * |pcm.samples| + c) .. 2 * (i * |pcm.samples| + c) + 2]) ==
            Scale(pcm.samples[c][i])
  {
    ScaleAgreesBelowTop(pcm.samples[c][i]);
  }
}

=== FILE: music_buffer.dfy ===
/** `music::Buffer` of `src/music.hpp` and of the older `music.h`: the network byte
    queue that the libcurl write callback fills and the audio session drains.

    Unlike `NetInputStream`, its `eof()` is the producer's end mark alone, and every
    read ends by asking the producer for the next chunk (`next()`, which raises the
    `can_next` flag the download thread waits on) when the unread bytes fall short
    of the request. The wait loops become preconditions as in `Stream`. */
module MusicBuffer {
  import opened Bytes
  import opened Wrappers

  datatype Buffer = Buffer(
    buf: seq<byte>,
    readpos: nat,
    isEnd: bool,
    totalSize: Option<nat>,
    canNext: bool)
  {
    predicate Valid() {
      readpos <= |buf|
    }

    function Unread(): nat
      requires Valid()
    {
      |buf| - readpos
    }

    /** The unread suffix of the queue. */
    function UnreadData(): seq<byte>
      requires Valid()
    {
      buf[readpos..]
    }
  }

  /** The constructor: empty, not ended, no chunk requested. */
  function Empty(): (b: Buffer)
    ensures b.Valid() && b.buf == [] && b.readpos == 0 && !b.isEnd && !b.canNext
  {
    Buffer([], 0, false, None, false)
  }

  /** `eof()`: the producer's end mark, whatever is still unread. */
  function Eof(b: Buffer): (r: bool)
    ensures r <==> b.isEnd
  {
    b.isEnd
  }

  /** `read_size()` (src/music.hpp only). */
  function ReadSize(b: Buffer): (r: nat)
    ensures r == b.readpos
  {
    b.readpos
  }

  /** `next()`: raise the flag the producer waits on. */
  function Next(b: Buffer): (t: Buffer)
    ensures t.canNext
    ensures t.buf == b.buf && t.readpos == b.readpos && t.isEnd == b.isEnd && t.totalSize == b.totalSize
  {
    b.(canNext := true)
  }

  /** `prepare(n)`: request the next chunk only when the stream has not ended and
      fewer than `n` bytes are unread. */
  function Prepare(b: Buffer, n: nat): (t: Buffer)
    requires b.Valid()
    ensures t.canNext <==> b.canNext || (!b.isEnd && b.Unread() < n)
    ensures t.buf == b.buf && t.readpos == b.readpos && t.isEnd == b.isEnd && t.totalSize == b.totalSize
  {
    if Eof(b) || b.Unread() >= n then b else Next(b)
  }

  /** `read(dest, n)` once its wait loop has ended: copies `min(n, unread)` bytes,
      advances the cursor by that count, then `prepare(n)`. */
  function Read(b: Buffer, n: nat): (r: (seq<byte>, Buffer))
    requires b.Valid() && (b.isEnd || b.Unread() >= n)
    ensures |r.0| == Min(n, b.Unread())
    ensures r.0 == b.buf[b.readpos .. b.readpos + |r.0|]
    ensures r.1.Valid() && r.1.readpos == b.readpos + |r.0|
    ensures r.1.buf == b.buf && r.1.isEnd == b.isEnd && r.1.totalSize == b.totalSize
    ensures r.1.canNext <==> b.canNext || (!b.isEnd && r.1.Unread() < n)
  {
    var realsize := if b.Unread() < n then b.Unread() else n;
    var t := b.(readpos := b.readpos + realsize);
    (b.buf[b.readpos .. b.readpos + realsize], Prepare(t, n))
  }

  /** `seek(size)` (src/music.hpp) once its wait loop (`!eof() && unread < size`) has
      ended: the cursor jumps to the end of everything received so far, not to
      `size`. */
  function Seek(b: Buffer, size: nat): (t: Buffer)
    requires b.Valid() && (b.isEnd || b.Unread() >= size)
    ensures t.Valid() && t.readpos == |b.buf| && t.Unread() == 0
    ensures t.buf == b.buf && t.isEnd == b.isEnd && t.totalSize == b.totalSize && t.canNext == b.canNext
  {
    b.(readpos := |b.buf|)
  }

  /** The seek skips all unread bytes, which is more than the requested distance
      whenever more than `size` bytes were waiting. */
  lemma SeekSkipsAllUnread(b: Buffer, size: nat)
    requires b.Valid() && (b.isEnd || b.Unread() >= size)
    ensures Seek(b, size).readpos - b.readpos == b.Unread()
    ensures b.Unread() > size ==> Seek(b, size).readpos > b.readpos + size
  {
  }

  /** `write(arr, n)`: appends the bytes, leaving the cursor where it was. */
  function Write(b: Buffer, arr: seq<byte>): (t: Buffer)
    ensures t.buf == b.buf + arr
    ensures t.readpos == b.readpos && t.isEnd == b.isEnd && t.totalSize == b.totalSize && t.canNext == b.canNext
    ensures b.Valid() ==> t.Valid() && t.UnreadData() == b.UnreadData() + arr
  {
    b.(buf := b.buf + arr)
  }

  /** `free_read()` (music.h): drops the consumed prefix and rewinds the cursor. */
  function FreeRead(b: Buffer): (t: Buffer)
    requires b.Valid()
    ensures t.Valid() && t.readpos == 0
    ensures t.UnreadData() == b.UnreadData()
    ensures |t.buf| == b.Unread()
    ensures t.isEnd == b.isEnd && t.totalSize == b.totalSize && t.canNext == b.canNext
  {
    b.(buf := b.buf[b.readpos..], readpos := 0)
  }

  /** `free_read` is invisible to the consumer: reading after it yields the same bytes. */
  lemma FreeReadTransparent(b: Buffer, n: nat)
    requires b.Valid() && (b.isEnd || b.Unread() >= n)
    ensures Read(FreeRead(b), n).0 == Read(b, n).0
  {
    var t := FreeRead(b);
    var r := Min(n, b.Unread());
    assert t.buf[0..r] == b.buf[b.readpos .. b.readpos + r];
  }

  /** `set_eof`, called by the download thread. */
  function SetEof(b: Buffer): (t: Buffer)
    ensures t.isEnd
    ensures t.buf == b.buf && t.readpos == b.readpos && t.totalSize == b.totalSize && t.canNext == b.canNext
  {
    b.(isEnd := true)
  }

  /** `eof()` can already hold while bytes remain unread. */
  lemma EofWithUnreadBytes()
    ensures var b := SetEof(Write(Empty(), [7, 7, 7]));
            Eof(b) && b.Valid() && b.Unread() == 3
  {
  }

  /** Consecutive reads see consecutive bytes of the queue. */
  lemma ReadSplit(b: Buffer, x: nat, y: nat)
    requires b.Valid() && (b.isEnd || b.Unread() >= x + y)
    ensures b.isEnd || b.Unread() >= x
    ensures Read(b, x).1.isEnd || Read(b, x).1.Unread() >= y
    ensures Read(b, x).0 + Read(Read(b, x).1, y).0 == Read(b, x + y).0
  {
    var (d1, b1) := Read(b, x);
    var (d2, b2) := Read(b1, y);
    assert b.buf[b.readpos .. b.readpos + |d1|] + b.buf[b.readpos + |d1| .. b.readpos + |d1| + |d2|]
        == b.buf[b.readpos .. b.readpos + |d1| + |d2|];
  }
}

=== FILE: old_player.dfy ===
/** `player.h`, the player the older front end drives: the same list and cursor
    as `src/player.hpp`, plus `pop`, `random_play` and `repeated_play`. Entries,
    their sources, the outside world and the exceptions are the `Player` model's. */
module OldPlayer {
  import opened Wrappers
  import Bytes
  import Url
  import P = Player
  import AudioSession
  import MusicBuffer

  datatype Player = Player(
    list: seq<P.Music>,
    index: nat,
    cachePath: string,
    bar: bool,
    cache: bool,
    server: Option<string>,
    played: seq<nat>)

  /** `Player()`: an empty list, the cursor at 0, the bar on, no cache. */
  function NewPlayer(): (p: Player)
    ensures p.list == [] && p.index == 0 && p.bar && !p.cache && p.server.None? && p.played == []
  {
    Player([], 0, [], true, false, None, [])
  }

  // ---------------------------------------------------------------- settings

  /** `set_audio_server`: `audio.init(server)`. */
  function SetAudioServer(p: Player, server: string): (q: Player)
    ensures q.server == Some(server) && q == p.(server := Some(server))
  {
    p.(server := Some(server))
  }

  /** `enable_cache` (the default directory `cache/` is the caller's argument). */
  function EnableCache(p: Player, path: string): (q: Player)
    ensures q.cache && q.cachePath == path && q == p.(cache := true, cachePath := path)
  {
    p.(cachePath := path, cache := true)
  }

  /** `no_bar`: the player's flag and the audio's flag move together, so one
      field stands for both. */
  function NoBar(p: Player): (q: Player)
    ensures !q.bar && q == p.(bar := false)
  {
    p.(bar := false)
  }

  function WithBar(p: Player): (q: Player)
    ensures q.bar && q == p.(bar := true)
  {
    p.(bar := true)
  }

  // ---------------------------------------------------------------- list

  /** `push_online`: the entry is named by the URL's serialised form; with the
      cache on it downloads to `cachePath + "/" + stamp` first. */
  function PushOnline(p: Player, url: Url.ParsedUrl, stamp: string): (q: Player)
    ensures |q.list| == |p.list| + 1 && q.list[..|p.list|] == p.list
    ensures q.list[|p.list|].name == Url.Get(url)
    ensures q.list[|p.list|].source ==
              if p.cache then P.Cached(Url.Get(url), p.cachePath + "/" + stamp) else P.Streamed(Url.Get(url))
    ensures q == p.(list := q.list)
  {
    var text := Url.Get(url);
    var source := if p.cache then P.Cached(text, p.cachePath + "/" + stamp) else P.Streamed(text);
    p.(list := p.list + [P.Music(text, source)])
  }

  /** The name an online entry shows parses back to the URL it was pushed with. */
  lemma PushOnlineNameParses(p: Player, url: Url.ParsedUrl, stamp: string, esc: string -> string)
    requires Url.WellFormed(url) && Url.KeepsUnreserved(esc)
    ensures Url.Parse(PushOnline(p, url, stamp).list[|p.list|].name, esc) == Ok(url)
  {
    Url.ParseTotal(url, esc);
  }

  /** `push_local`: the entry is named by its file name. */
  function PushLocal(p: Player, filename: string): (q: Player)
    ensures |q.list| == |p.list| + 1 && q.list[..|p.list|] == p.list
    ensures q.list[|p.list|] == P.Music(filename, P.Local(filename))
    ensures q == p.(list := q.list)
  {
    p.(list := p.list + [P.Music(filename, P.Local(filename))])
  }

  /** `pop`: drops the front entry and leaves the cursor where it was (popping an
      empty deque is undefined, hence the precondition). */
  function Pop(p: Player): (q: Player)
    requires p.list != []
    ensures |q.list| == |p.list| - 1
    ensures forall i :: 0 <= i < |q.list| ==> q.list[i] == p.list[i + 1]
    ensures q.index == p.index && q == p.(list := q.list)
  {
    p.(list := p.list[1..])
  }

  /** Because the cursor stays put, after `pop` it stands on the entry that
      followed the one it stood on. */
  lemma PopSkips(p: Player)
    requires p.index + 1 < |p.list|
    ensures Pop(p).list[Pop(p).index] == p.list[p.index + 1]
  {
  }

  /** Pushing at the back and popping at the front commute. */
  lemma PopPushCommute(p: Player, filename: string)
    requires p.list != []
    ensures Pop(PushLocal(p, filename)) == PushLocal(Pop(p), filename)
  {
    assert (p.list + [P.Music(filename, P.Local(filename))])[1..] == p.list[1..] + [P.Music(filename, P.Local(filename))];
  }

  // ---------------------------------------------------------------- playing

  /** The opener of `player.h`: a local file only has to open (there is no
      separate existence check); downloads behave as in `src/player.hpp`. */
  function OpenError(m: P.Music, w: P.World): (r: Option<P.PlayerError>)
    ensures m.source.Local? ==> (r.None? <==> w.opens(m.source.filename)) && (r.Some? ==> r == Some(P.OpenFailed))
    ensures !m.source.Local? ==> r == P.OpenError(m, w)
    ensures r != Some(P.NoMusic)
  {
    match m.source
    case Local(f) => if w.opens(f) then None else Some(P.OpenFailed)
    case _ => P.OpenError(m, w)
  }

  /** Every entry the newer opener accepts, the older one accepts too. */
  lemma OpenErrorWeaker(m: P.Music, w: P.World)
    ensures P.OpenError(m, w).None? ==> OpenError(m, w).None?
  {
  }

  /** How decoding an entry whose file opened ends: it plays through, its first
      read brings under 1024 bytes ("The data is too small"), or `pa_simple_new`
      refuses the stream ("Error initing PulseAudio"). */
  datatype Decode = PlaysThrough | TooSmall | DeviceRefused

  /** What `audio.play` meets besides the file: the `PULSE_SERVER` variable and
      how each entry's decode ends. */
  datatype Sound = Sound(env: Option<string>, decode: P.Music -> Decode)

  /** What a play loop can throw: the list's and opener's exceptions, or the
      audio's. */
  datatype Failure = ListFailure(error: P.PlayerError) | AudioFailure(audio: AudioSession.AudioError)

  /** The server `audio.play` uses: the one set with `set_audio_server`, else
      `PULSE_SERVER`, which is then kept. */
  function Server(p: Player, snd: Sound): (r: Option<string>)
    ensures p.server.Some? ==> r == p.server
    ensures p.server.None? ==> r == snd.env
  {
    if p.server.Some? then p.server else snd.env
  }

  /** How playing entry `m` ends with sound server `server`: `get_file` runs
      first, then `audio.play`, whose `default_init` needs a server, and then the
      decode. */
  function EntryFailure(m: P.Music, w: P.World, snd: Sound, server: Option<string>): (r: Option<Failure>)
    ensures r.None? <==> OpenError(m, w).None? && server.Some? && snd.decode(m).PlaysThrough?
    ensures OpenError(m, w).Some? ==> r == Some(ListFailure(OpenError(m, w).value))
    ensures OpenError(m, w).None? && server.None? ==> r == Some(AudioFailure(AudioSession.NoPulseServer))
    ensures OpenError(m, w).None? && server.Some? && snd.decode(m).TooSmall? ==> r == Some(AudioFailure(AudioSession.DataTooSmall))
    ensures OpenError(m, w).None? && server.Some? && snd.decode(m).DeviceRefused? ==> r == Some(AudioFailure(AudioSession.PulseInitFailed))
    ensures r != Some(ListFailure(P.NoMusic))
  {
    match OpenError(m, w)
    case Some(e) => Some(ListFailure(e))
    case None =>
      if server.None? then Some(AudioFailure(AudioSession.NoPulseServer))
      else
        match snd.decode(m)
        case PlaysThrough => None
        case TooSmall => Some(AudioFailure(AudioSession.DataTooSmall))
        case DeviceRefused => Some(AudioFailure(AudioSession.PulseInitFailed))
  }

  /** `audio.play(m.get_file())`: once the file has opened, the server found in
      the environment is recorded whatever the decode does. */
  function PlayEntry(p: Player, m: P.Music, w: P.World, snd: Sound): (r: (Player, Option<Failure>))
    ensures r.1 == EntryFailure(m, w, snd, Server(p, snd))
    ensures r.0 == p.(server := r.0.server) && Server(r.0, snd) == Server(p, snd)
    ensures r.0.server == if OpenError(m, w).Some? then p.server else Server(p, snd)
  {
    var q := if OpenError(m, w).Some? then p else p.(server := Server(p, snd));
    (q, EntryFailure(m, w, snd, Server(p, snd)))
  }

  /** The server handling of `PlayEntry` is that of `Audio::play` in `audio.h`:
      it fails for want of a server exactly when the session does, and otherwise
      ends up with the same server. */
  lemma PlayEntryAsAudio(p: Player, m: P.Music, w: P.World, snd: Sound, s: AudioSession.OldSession, buf: MusicBuffer.Buffer)
    requires s.Valid() && buf.Valid() && s.server == p.server && OpenError(m, w).None?
    ensures var (q, e) := PlayEntry(p, m, w, snd);
            && (AudioSession.PlayOld(s, snd.env, buf).Err? <==> e == Some(AudioFailure(AudioSession.NoPulseServer)))
            && (AudioSession.PlayOld(s, snd.env, buf).Ok? ==> AudioSession.PlayOld(s, snd.env, buf).value.server == q.server)
  {
  }

  /** `check_list`. */
  function CheckList(p: Player): (r: Option<P.PlayerError>)
    ensures r.Some? <==> p.index >= |p.list|
    ensures r.Some? ==> r.value == P.NoMusic
  {
    if p.index >= |p.list| then Some(P.NoMusic) else None
  }

  /** Every entry in `[a, b)` plays through with server `server`. */
  predicate AllPlay(list: seq<P.Music>, a: nat, b: nat, w: P.World, snd: Sound, server: Option<string>)
    requires b <= |list|
  {
    forall j :: a <= j < b ==> EntryFailure(list[j], w, snd, server).None?
  }

  /** `ordered_play`'s loop run `k` times: check, open and play, advance. */
  function Ordered(p: Player, k: nat, w: P.World, snd: Sound): (r: (Player, Option<Failure>))
    ensures r.0 == p.(index := r.0.index, played := r.0.played, server := r.0.server)
    ensures p.index <= r.0.index <= p.index + k
    ensures r.1.None? <==> r.0.index == p.index + k
    ensures r.1 == Some(ListFailure(P.NoMusic)) ==> r.0.index >= |p.list|
    decreases k
  {
    if k == 0 then (p, None)
    else if CheckList(p).Some? then (p, Some(ListFailure(CheckList(p).value)))
    else
      var (p1, e) := PlayEntry(p, p.list[p.index], w, snd);
      if e.Some? then (p1, e)
      else Ordered(p1.(played := p1.played + [p1.index], index := p1.index + 1), k - 1, w, snd)
  }

  /** `ordered_play(num)`: a negative count runs the loop zero times. */
  function OrderedPlay(p: Player, num: int, w: P.World, snd: Sound): (r: (Player, Option<Failure>))
    ensures num <= 0 ==> r == (p, None)
    ensures num > 0 ==> r == Ordered(p, num, w, snd)
    ensures r.0.list == p.list
  {
    Ordered(p, if num < 0 then 0 else num, w, snd)
  }

  /** The player after one ordered turn that played the entry under the cursor. */
  function Advance(p: Player, snd: Sound): (q: Player)
    ensures q == p.(server := q.server, played := q.played, index := q.index)
    ensures q.index == p.index + 1 && q.played == p.played + [p.index] && q.server == Server(p, snd)
  {
    p.(server := Server(p, snd), played := p.played + [p.index], index := p.index + 1)
  }

  /** One ordered turn whose entry plays through. */
  lemma OrderedStep(p: Player, k: nat, w: P.World, snd: Sound)
    requires 0 < k && p.index < |p.list| && EntryFailure(p.list[p.index], w, snd, Server(p, snd)).None?
    ensures Ordered(p, k, w, snd) == Ordered(Advance(p, snd), k - 1, w, snd)
    ensures Server(Advance(p, snd), snd) == Server(p, snd)
  {
  }

  /** What `k` ordered turns from `p` may end in: only the cursor, the log and
      the server change; the entries from the cursor on were played in order;
      the run succeeds iff it made all `k` turns, and otherwise names the empty
      list or the entry that stopped it. */
  predicate OrderedOutcome(p: Player, k: nat, w: P.World, snd: Sound, q: Player, e: Option<Failure>) {
    && q == p.(index := q.index, played := q.played, server := q.server)
    && Server(q, snd) == Server(p, snd)
    && p.index <= q.index <= p.index + k
    && (q.index == p.index || q.index <= |p.list|)
    && q.played == p.played + P.Range(p.index, q.index)
    && (e.None? <==> q.index == p.index + k)
    && (e == Some(ListFailure(P.NoMusic)) ==> q.index >= |p.list|)
    && (e.Some? && e != Some(ListFailure(P.NoMusic)) ==>
          q.index < |p.list| && e == EntryFailure(p.list[q.index], w, snd, Server(p, snd)))
    && (q.index > p.index ==> AllPlay(p.list, p.index, q.index, w, snd, Server(p, snd)))
  }

  /** An ordered run plays the entries from the cursor on, in order, and stops at
      the count, at the end of the list, or at the first entry that fails to open
      or to play. */
  lemma {:induction false} OrderedSpec(p: Player, k: nat, w: P.World, snd: Sound)
    ensures OrderedOutcome(p, k, w, snd, Ordered(p, k, w, snd).0, Ordered(p, k, w, snd).1)
    decreases k
  {
    if k > 0 && p.index < |p.list| && EntryFailure(p.list[p.index], w, snd, Server(p, snd)).None? {
      OrderedStep(p, k, w, snd);
      OrderedSpec(Advance(p, snd), k - 1, w, snd);
      var (q, e) := Ordered(Advance(p, snd), k - 1, w, snd);
      OutcomeCons(p, k, w, snd, q, e);
    } else {
      assert P.Range(p.index, p.index) == [];
    }
  }

  /** A turn whose entry plays, followed by the outcome of the remaining turns,
      is the outcome of all of them. */
  lemma OutcomeCons(p: Player, k: nat, w: P.World, snd: Sound, q: Player, e: Option<Failure>)
    requires 0 < k && p.index < |p.list| && EntryFailure(p.list[p.index], w, snd, Server(p, snd)).None?
    requires OrderedOutcome(Advance(p, snd), k - 1, w, snd, q, e)
    ensures OrderedOutcome(p, k, w, snd, q, e)
  {
    PlayedCons(p.played, p.index, q.index);
    if q.index > p.index {
      AllPlayCons(p.list, p.index, q.index, w, snd, Server(p, snd));
    }
  }

  /** Playing entry `a` and then `a + 1` up to `b` plays `a` up to `b`. */
  lemma PlayedCons(played: seq<nat>, a: nat, b: nat)
    requires a < b
    ensures (played + [a]) + P.Range(a + 1, b) == played + P.Range(a, b)
  {
    P.RangeSplit(a, a + 1, b);
    assert P.Range(a, a + 1) == [a];
    Bytes.AppendAssoc(played, [a], P.Range(a + 1, b));
  }

  /** An entry that plays, followed by a run of entries that play. */
  lemma AllPlayCons(list: seq<P.Music>, a: nat, b: nat, w: P.World, snd: Sound, server: Option<string>)
    requires a < b <= |list| && EntryFailure(list[a], w, snd, server).None?
    requires AllPlay(list, a + 1, b, w, snd, server)
    ensures AllPlay(list, a, b, w, snd, server)
  {
  }

  /** The entries `random_play` picks: draw `i` taken modulo the list size, since
      `randint(0, size - 1)` lands in the list. */
  function Picks(n: nat, draws: seq<nat>, k: nat): (r: seq<nat>)
    requires n > 0 && k <= |draws|
    ensures |r| == k && forall i :: 0 <= i < k ==> r[i] < n
  {
    seq(k, i requires 0 <= i < k => draws[i] % n)
  }

  /** `random_play`'s loop run `k` times on the random draws `draws`. */
  function Random(p: Player, k: nat, draws: seq<nat>, w: P.World, snd: Sound): (r: (Player, Option<Failure>))
    requires k <= |draws|
    ensures r.0 == p.(played := r.0.played, server := r.0.server)
    ensures |p.played| <= |r.0.played| <= |p.played| + k && r.0.played[..|p.played|] == p.played
    ensures r.1.None? ==> |r.0.played| == |p.played| + k
    decreases k
  {
    if k == 0 then (p, None)
    else if CheckList(p).Some? then (p, Some(ListFailure(CheckList(p).value)))
    else
      var j := draws[0] % |p.list|;
      var (p1, e) := PlayEntry(p, p.list[j], w, snd);
      if e.Some? then (p1, e)
      else
        var r := Random(p1.(played := p1.played + [j]), k - 1, draws[1..], w, snd);
        assert r.0.played[..|p.played|] == r.0.played[..|p.played| + 1][..|p.played|];
        r
  }

  /** `random_play(num)`: a negative count runs the loop zero times. */
  function RandomPlay(p: Player, num: int, draws: seq<nat>, w: P.World, snd: Sound): (r: (Player, Option<Failure>))
    requires num <= |draws|
    ensures num <= 0 ==> r == (p, None)
    ensures num > 0 ==> r == Random(p, num, draws, w, snd)
  {
    Random(p, if num < 0 then 0 else num, draws, w, snd)
  }

  /** Every picked entry plays through with server `server`. */
  predicate PicksPlay(list: seq<P.Music>, picks: seq<nat>, w: P.World, snd: Sound, server: Option<string>)
    requires forall i :: 0 <= i < |picks| ==> picks[i] < |list|
  {
    forall i :: 0 <= i < |picks| ==> EntryFailure(list[picks[i]], w, snd, server).None?
  }

  lemma PicksCons(n: nat, draws: seq<nat>, k: nat)
    requires n > 0 && 0 < k <= |draws|
    ensures Picks(n, draws, k) == [draws[0] % n] + Picks(n, draws[1..], k - 1)
  {
    var picks := Picks(n, draws, k);
    var rest := Picks(n, draws[1..], k - 1);
    forall i | 0 < i < k ensures picks[i] == rest[i - 1] { }
  }

  lemma PicksPlayCons(list: seq<P.Music>, j: nat, rest: seq<nat>, w: P.World, snd: Sound, server: Option<string>)
    requires j < |list| && forall i :: 0 <= i < |rest| ==> rest[i] < |list|
    ensures PicksPlay(list, [j] + rest, w, snd, server) <==>
            EntryFailure(list[j], w, snd, server).None? && PicksPlay(list, rest, w, snd, server)
  {
    var picks := [j] + rest;
    assert forall i :: 0 < i < |picks| ==> picks[i] == rest[i - 1];
    if EntryFailure(list[j], w, snd, server).None? && PicksPlay(list, rest, w, snd, server) {
      forall i | 0 <= i < |picks| ensures EntryFailure(list[picks[i]], w, snd, server).None? {
        if i > 0 {
          assert EntryFailure(list[rest[i - 1]], w, snd, server).None?;
        }
      }
    }
    if PicksPlay(list, picks, w, snd, server) {
      assert picks[0] == j;
      forall i | 0 <= i < |rest| ensures EntryFailure(list[rest[i]], w, snd, server).None? {
        assert picks[i + 1] == rest[i];
      }
    }
  }

  /** One turn of a random run on a non-empty list whose drawn entry plays. */
  lemma RandomStep(p: Player, k: nat, draws: seq<nat>, w: P.World, snd: Sound)
    requires 0 < k <= |draws| && p.index < |p.list|
    requires EntryFailure(p.list[draws[0] % |p.list|], w, snd, Server(p, snd)).None?
    ensures var p1 := PlayEntry(p, p.list[draws[0] % |p.list|], w, snd).0;
            Random(p, k, draws, w, snd) == Random(p1.(played := p1.played + [draws[0] % |p.list|]), k - 1, draws[1..], w, snd)
  {
  }

  /** A random run leaves everything but the log and the server alone, keeps the
      server it plays with, and throws "music list has no music." exactly when it
      should run and the cursor is at the end, although it never reads the cursor
      otherwise. */
  lemma {:induction false} RandomKeeps(p: Player, k: nat, draws: seq<nat>, w: P.World, snd: Sound)
    requires k <= |draws|
    ensures var (q, e) := Random(p, k, draws, w, snd);
            && q == p.(played := q.played, server := q.server)
            && Server(q, snd) == Server(p, snd)
            && (e == Some(ListFailure(P.NoMusic)) <==> k > 0 && p.index >= |p.list|)
    decreases k
  {
    if k > 0 && p.index < |p.list| && PlayEntry(p, p.list[draws[0] % |p.list|], w, snd).1.None? {
      var p1 := PlayEntry(p, p.list[draws[0] % |p.list|], w, snd).0;
      RandomStep(p, k, draws, w, snd);
      RandomKeeps(p1.(played := p1.played + [draws[0] % |p.list|]), k - 1, draws[1..], w, snd);
    }
  }

  /** With the cursor on an entry, a random run succeeds exactly when every drawn
      entry plays through, and then it has played the drawn entries in order. */
  lemma {:induction false} RandomSpec(p: Player, k: nat, draws: seq<nat>, w: P.World, snd: Sound)
    requires k <= |draws| && p.index < |p.list|
    ensures var (q, e) := Random(p, k, draws, w, snd);
            && (e.None? <==> PicksPlay(p.list, Picks(|p.list|, draws, k), w, snd, Server(p, snd)))
            && (e.None? ==> q.played == p.played + Picks(|p.list|, draws, k))
    decreases k
  {
    var n := |p.list|;
    if k > 0 {
      var j := draws[0] % n;
      var rest := Picks(n, draws[1..], k - 1);
      PicksCons(n, draws, k);
      PicksPlayCons(p.list, j, rest, w, snd, Server(p, snd));
      if EntryFailure(p.list[j], w, snd, Server(p, snd)).None? {
        var p0 := PlayEntry(p, p.list[j], w, snd).0;
        var p1 := p0.(played := p0.played + [j]);
        RandomStep(p, k, draws, w, snd);
        RandomSpec(p1, k - 1, draws[1..], w, snd);
        Bytes.AppendAssoc(p.played, [j], rest);
      }
    } else {
      assert Picks(n, draws, k) == [];
    }
  }

  /** How `repeated_play` ends: it returns, it throws, or (with -1) it never
      returns. */
  datatype Ending = Finished | Threw(failure: Failure) | Forever

  /** `num` copies of entry `j`. */
  function Copies(j: nat, num: nat): (r: seq<nat>)
    ensures |r| == num && forall i :: 0 <= i < num ==> r[i] == j
  {
    seq(num, _ => j)
  }

  /** `repeated_play(num)`: check the list, then play the entry under the cursor
      `num` times (forever for -1) and advance the cursor once. Every turn plays
      the same entry with the same server, so the first turn decides them all. */
  function RepeatedPlay(p: Player, num: int, w: P.World, snd: Sound): (r: (Player, Ending))
    ensures r.0.list == p.list
    ensures r.1.Threw? ==> r.0.index == p.index && r.0.played == p.played
  {
    if CheckList(p).Some? then (p, Threw(ListFailure(P.NoMusic)))
    else if num != -1 && num <= 0 then (p.(index := p.index + 1), Finished)
    else
      var (p1, e) := PlayEntry(p, p.list[p.index], w, snd);
      if e.Some? then (p1, Threw(e.value))
      else if num == -1 then (p1, Forever)
      else (p1.(played := p1.played + Copies(p.index, num), index := p.index + 1), Finished)
  }

  /** A repeated run returns exactly when the cursor is on an entry, the count is
      not -1, and the entry plays through (or is played no times); it then has
      played that one entry `num` times and moved past it. With -1 and an entry
      that plays it never returns. */
  lemma RepeatedSpec(p: Player, num: int, w: P.World, snd: Sound)
    ensures var (q, e) := RepeatedPlay(p, num, w, snd);
            && q.list == p.list && Server(q, snd) == Server(p, snd)
            && (e == Threw(ListFailure(P.NoMusic)) <==> p.index >= |p.list|)
            && (e.Threw? && p.index < |p.list| ==> e.failure == EntryFailure(p.list[p.index], w, snd, Server(p, snd)).value)
            && (e == Forever <==> num == -1 && p.index < |p.list| && EntryFailure(p.list[p.index], w, snd, Server(p, snd)).None?)
            && (e == Finished <==>
                  p.index < |p.list| && num != -1 && (num <= 0 || EntryFailure(p.list[p.index], w, snd, Server(p, snd)).None?))
            && (e == Finished ==>
                  && q.index == p.index + 1
                  && |q.played| == |p.played| + (if num < 0 then 0 else num)
                  && q.played[..|p.played|] == p.played
                  && forall i :: |p.played| <= i < |q.played| ==> q.played[i] == p.index)
  {
    if p.index < |p.list| && num > 0 && EntryFailure(p.list[p.index], w, snd, Server(p, snd)).None? {
      var q := RepeatedPlay(p, num, w, snd).0;
      assert q.played[..|p.played|] == p.played;
    }
  }
}

=== FILE: player.dfy ===
/** `src/player.hpp`: the play list and its cursor. Turning an entry into a byte
    stream (a local file, a cached download, a streamed download) is answered by
    a `World` the caller supplies; decoding belongs to the `Decoder` model and
    shows here only as the pause flag that `Decoder::decode` clears. */
module Player {
  import opened Wrappers
  import Bytes
  import Bar
  import Url

  /** Where an entry's bytes come from: a local path, a download streamed into a
      buffer, or a download saved under the cache directory first. */
  datatype Source =
    | Local(filename: string)
    | Streamed(url: string)
    | Cached(url: string, filename: string)

  /** `Player::Music`: the display name and the way to open the stream. */
  datatype Music = Music(name: string, source: Source)

  /** The encode stream the decoder feeds: the sound server or a WAV file. */
  datatype Sink = Speaker(server: Option<string>) | WavFile(filename: string)

  /** The playback-relevant state of `Player`. `played` lists the entries handed
      to `play`, in order. */
  datatype Player = Player(
    list: seq<Music>,
    index: nat,
    cachePath: string,
    bar: bool,
    cache: bool,
    sink: Sink,
    timebar: Bar.TimeBar,
    decoderPaused: bool,
    played: seq<nat>)
  {
    /** The cursor never passes the end, and the entries before it are exactly
        the ones played, in list order. */
    predicate Valid() {
      index <= |list| && played == Range(0, index)
    }
  }

  /** `a, a + 1, ..., b - 1`. */
  function Range(a: nat, b: nat): (r: seq<nat>)
    requires a <= b
    ensures |r| == b - a
    ensures forall i :: 0 <= i < |r| ==> r[i] == a + i
  {
    seq(b - a, i => a + i)
  }

  lemma RangeSplit(a: nat, b: nat, c: nat)
    requires a <= b <= c
    ensures Range(a, b) + Range(b, c) == Range(a, c)
  {
  }

  /** `Player()`: an empty list, the cursor at 0, the bar on, no cache, sound out. */
  function NewPlayer(): (p: Player)
    ensures p.Valid() && p.list == [] && p.index == 0
    ensures p.bar && !p.cache && p.sink == Speaker(None) && !p.decoderPaused
  {
    Player([], 0, [], true, false, Speaker(None), Bar.NewTimeBar(), false, [])
  }

  // ---------------------------------------------------------------- settings

  /** `set_audio_server`: the cast to `AudioEncodeStream` only succeeds while
      the output has not been redirected to a file. */
  function SetAudioServer(p: Player, server: string): (q: Player)
    requires p.sink.Speaker?
    ensures q.sink == Speaker(Some(server)) && q == p.(sink := q.sink)
  {
    p.(sink := Speaker(Some(server)))
  }

  /** `output_to_file`: a WAV sink, and no bar. */
  function OutputToFile(p: Player, name: string): (q: Player)
    ensures q.sink == WavFile(name) && !q.bar
    ensures q == p.(sink := q.sink, bar := false)
  {
    NoBar(p.(sink := WavFile(name)))
  }

  /** `enable_cache` (creating the directory is left to the file system). */
  function EnableCache(p: Player, path: string): (q: Player)
    ensures q.cache && q.cachePath == path
    ensures q == p.(cache := true, cachePath := path)
  {
    p.(cachePath := path, cache := true)
  }

  function NoBar(p: Player): (q: Player)
    ensures !q.bar && q == p.(bar := false)
  {
    p.(bar := false)
  }

  function WithBar(p: Player): (q: Player)
    ensures q.bar && q == p.(bar := true)
  {
    p.(bar := true)
  }

  /** `is_paused`: the decoder's flag. */
  predicate IsPaused(p: Player) {
    p.decoderPaused
  }

  /** `pause`: both the time bar and the decoder. */
  function Pause(p: Player): (q: Player)
    ensures IsPaused(q) && q.timebar.paused
  {
    p.(timebar := Bar.Pause(p.timebar), decoderPaused := true)
  }

  /** `go`: both the time bar and the decoder. */
  function Go(p: Player): (q: Player)
    ensures !IsPaused(q) && !q.timebar.paused
  {
    p.(timebar := Bar.Go(p.timebar), decoderPaused := false)
  }

  /** Pause and resume touch only the two flags: repeating either changes nothing,
      and resuming after a pause restores a running player. */
  lemma PauseGoLaws(p: Player)
    ensures Pause(Pause(p)) == Pause(p) && Go(Go(p)) == Go(p)
    ensures !IsPaused(p) && !p.timebar.paused ==> Go(Pause(p)) == p
    ensures Pause(p).list == p.list && Pause(p).index == p.index && Pause(p).played == p.played
    ensures Go(p).list == p.list && Go(p).index == p.index && Go(p).played == p.played
  {
  }

  // ---------------------------------------------------------------- list

  /** `push_online`: appends one entry named `musicName` (even when empty); with
      the cache on it downloads to `cachePath + "/" + fileName` first. */
  function PushOnline(p: Player, url: string, musicName: string, fileName: string): (q: Player)
    ensures |q.list| == |p.list| + 1 && q.list[..|p.list|] == p.list
    ensures q.list[|p.list|].name == musicName
    ensures q.list[|p.list|].source == if p.cache then Cached(url, p.cachePath + "/" + fileName) else Streamed(url)
    ensures q == p.(list := q.list)
  {
    var source := if p.cache then Cached(url, p.cachePath + "/" + fileName) else Streamed(url);
    p.(list := p.list + [Music(musicName, source)])
  }

  /** `push_local`: appends one entry, named `musicName` unless that is empty, in
      which case the file name is shown. */
  function PushLocal(p: Player, filename: string, musicName: string): (q: Player)
    ensures |q.list| == |p.list| + 1 && q.list[..|p.list|] == p.list
    ensures q.list[|p.list|].source == Local(filename)
    ensures musicName != [] ==> q.list[|p.list|].name == musicName
    ensures musicName == [] ==> q.list[|p.list|].name == filename
    ensures q == p.(list := q.list)
  {
    p.(list := p.list + [Music(if musicName != [] then musicName else filename, Local(filename))])
  }

  /** Pushing keeps the cursor invariant. */
  lemma PushKeepsValid(p: Player, url: string, filename: string, name: string, stamp: string)
    requires p.Valid()
    ensures PushOnline(p, url, name, stamp).Valid()
    ensures PushLocal(p, filename, name).Valid()
  {
  }

  // ---------------------------------------------------------------- playing

  /** What the outside world answers when an entry is opened: whether a path
      exists, whether it can be opened, and the HTTP status of a download. */
  datatype World = World(present: string -> bool, opens: string -> bool, status: string -> int)

  /** The exceptions `output` lets through. */
  datatype PlayerError =
    | NoMusic                       // "music list has no music."
    | NoSuchFile(filename: string)  // "No such file '<name>'."
    | OpenFailed                    // "Open file failed."
    | DownloadFailed                // "Download music failed"

  /** `check_list`. */
  function CheckList(p: Player): (r: Option<PlayerError>)
    ensures r.Some? <==> p.index >= |p.list|
    ensures r.Some? ==> r.value == NoMusic
  {
    if p.index >= |p.list| then Some(NoMusic) else None
  }

  /** `Music::get_file`: the exception the entry's opener throws, if any. A local
      file must exist and open; a cached download must be able to create its
      file (`Response::set_file`) and must answer 200; a streamed download always
      yields its buffer. */
  function OpenError(m: Music, w: World): (r: Option<PlayerError>)
    ensures m.source.Streamed? ==> r == None
    ensures m.source.Local? ==> (r.None? <==> w.present(m.source.filename) && w.opens(m.source.filename))
    ensures m.source.Cached? ==> (r.None? <==> w.opens(m.source.filename) && w.status(m.source.url) == 200)
  {
    match m.source
    case Local(f) =>
      if !w.present(f) then Some(NoSuchFile(f))
      else if !w.opens(f) then Some(OpenFailed)
      else None
    case Streamed(_) => None
    case Cached(url, f) =>
      match Url.Set(Url.NewResponse(), Url.SetFile(f, w.opens(f)))
      case Err(_) => Some(OpenFailed)
      case Ok(_) => if w.status(url) != 200 then Some(DownloadFailed) else None
  }

  /** `play` of the entry under the cursor, then `index++`: the bar (when shown)
      starts at 0 and is reset afterwards, and `decode` clears the pause flag. */
  function Play(p: Player): (q: Player)
    requires p.index < |p.list|
    ensures q.index == p.index + 1 && q.played == p.played + [p.index]
    ensures q.list == p.list && q.bar == p.bar && q.sink == p.sink && q.cache == p.cache
    ensures !q.decoderPaused
  {
    var bar := if p.bar then Bar.Start(p.timebar, 0) else p.timebar;
    p.(timebar := Bar.Reset(bar), decoderPaused := false, played := p.played + [p.index], index := p.index + 1)
  }

  /** The body of `output`'s loop run `k` times: check, open, play, advance; the
      first exception ends the run and the state reached so far stays. */
  function Plays(p: Player, k: nat, w: World): (r: (Player, Option<PlayerError>))
    ensures r.0 == p.(index := r.0.index, played := r.0.played, timebar := r.0.timebar,
                      decoderPaused := r.0.decoderPaused)
    ensures p.index <= r.0.index <= p.index + k
    ensures p.index <= |p.list| ==> r.0.index <= |p.list|
    ensures r.1.None? <==> r.0.index == p.index + k
    ensures r.1 == Some(NoMusic) ==> r.0.index >= |p.list|
    ensures r.1.Some? && r.1 != Some(NoMusic) ==>
              r.0.index < |p.list| && r.1 == OpenError(p.list[r.0.index], w)
    decreases k
  {
    if k == 0 then (p, None)
    else if CheckList(p).Some? then (p, CheckList(p))
    else if OpenError(p.list[p.index], w).Some? then (p, OpenError(p.list[p.index], w))
    else Plays(Play(p), k - 1, w)
  }

  /** Every entry in `[a, b)` opens. */
  predicate AllOpen(p: Player, a: nat, b: nat, w: World)
    requires b <= |p.list|
  {
    forall j :: a <= j < b ==> OpenError(p.list[j], w).None?
  }

  /** One turn of a run: the entry under the cursor is played and the rest follows. */
  lemma PlaysStep(p: Player, k: nat, w: World)
    requires k > 0 && p.index < |p.list| && OpenError(p.list[p.index], w).None?
    ensures Plays(p, k, w) == Plays(Play(p), k - 1, w)
  {
  }

  /** A run keeps the list and the settings, moves the cursor by at most `k`, and
      logs exactly the entries it passed. */
  lemma {:induction false} PlaysKeeps(p: Player, k: nat, w: World)
    requires p.Valid()
    ensures var q := Plays(p, k, w).0;
            && q.Valid() && q.list == p.list && q.bar == p.bar && q.sink == p.sink && q.cache == p.cache
            && p.index <= q.index <= p.index + k
            && q.played == p.played + Range(p.index, q.index)
    decreases k
  {
    if k > 0 && CheckList(p).None? && OpenError(p.list[p.index], w).None? {
      var p1 := Play(p);
      PlaysKeeps(p1, k - 1, w);
      var q := Plays(p1, k - 1, w).0;
      PlaysStep(p, k, w);
      RangeSplit(p.index, p.index + 1, q.index);
      assert p1.played + Range(p1.index, q.index) == p.played + Range(p.index, q.index) by {
        assert Range(p.index, p.index + 1) == [p.index];
        Bytes.AppendAssoc(p.played, [p.index], Range(p1.index, q.index));
      }
    } else {
      assert Range(p.index, p.index) == [];
    }
  }

  /** What a run of `k` turns from `p` may end in: the cursor moved over entries
      that all open; the run succeeds iff it made all `k` turns, and otherwise
      names the empty list or the entry that failed to open. */
  predicate PlaysOutcome(p: Player, k: nat, w: World, q: Player, e: Option<PlayerError>) {
    && p.index <= q.index <= p.index + k && q.index <= |p.list|
    && AllOpen(p, p.index, q.index, w)
    && (e.None? <==> q.index == p.index + k)
    && (e == Some(NoMusic) ==> q.index == |p.list|)
    && (e.Some? && e != Some(NoMusic) ==> q.index < |p.list| && e == OpenError(p.list[q.index], w))
  }

  /** A run plays entries from the cursor on until the count is reached, the list
      ends, or an entry fails to open, and stops at the first such place. */
  lemma {:induction false} PlaysSpec(p: Player, k: nat, w: World)
    requires p.Valid()
    ensures PlaysOutcome(p, k, w, Plays(p, k, w).0, Plays(p, k, w).1)
    decreases k
  {
    PlaysKeeps(p, k, w);
    if k > 0 && CheckList(p).None? && OpenError(p.list[p.index], w).None? {
      PlaysStep(p, k, w);
      PlaysSpec(Play(p), k - 1, w);
      var (q, e) := Plays(Play(p), k - 1, w);
      PlaysOutcomeCons(p, k, w, q, e);
    }
  }

  /** An entry that opens, followed by the outcome of the remaining turns, is the
      outcome of all of them. */
  lemma PlaysOutcomeCons(p: Player, k: nat, w: World, q: Player, e: Option<PlayerError>)
    requires 0 < k && p.index < |p.list| && OpenError(p.list[p.index], w).None?
    requires PlaysOutcome(Play(p), k - 1, w, q, e)
    ensures PlaysOutcome(p, k, w, q, e)
  {
    assert AllOpen(p, p.index, q.index, w) by {
      forall j | p.index <= j < q.index
        ensures OpenError(p.list[j], w).None?
      {
        if j > p.index {
          assert AllOpen(Play(p), Play(p).index, q.index, w);
        }
      }
    }
  }

  /** A run of `k` succeeds exactly when `k` entries remain and all of them open. */
  lemma PlaysSucceed(p: Player, k: nat, w: World)
    requires p.Valid()
    ensures Plays(p, k, w).1.None? <==> p.index + k <= |p.list| && AllOpen(p, p.index, p.index + k, w)
  {
    PlaysSpec(p, k, w);
    PlaysKeeps(p, k, w);
  }

  /** The number of loop turns for `output(num)`: -1 means the list size; any
      other negative count runs the `for` loop zero times. */
  function CountAsWritten(p: Player, num: int): (n: nat)
    ensures num == -1 ==> n == |p.list|
    ensures num >= 0 ==> n == num
  {
    if num == -1 then |p.list| else if num < 0 then 0 else num
  }

  /** `output(num)` as written: with `num == -1` it runs once per list entry
      wherever the cursor stands. */
  function OutputAsWritten(p: Player, num: int, w: World): (r: (Player, Option<PlayerError>))
    requires p.Valid()
    ensures r.0.Valid() && r.0.list == p.list
    ensures num == -1 && r.1.None? ==> p.index == 0 && r.0.index == |p.list|
    ensures num == -1 && p.index > 0 ==> r.1.Some?
    ensures num >= 0 && r.1.None? ==> r.0.index == p.index + num
  {
    PlaysKeeps(p, CountAsWritten(p, num), w);
    Plays(p, CountAsWritten(p, num), w)
  }

  /** With the cursor past the start, `output()` on a list whose remaining entries
      all open plays them and then throws "music list has no music." */
  lemma OutputAllAsWrittenThrows(p: Player, w: World)
    requires p.Valid() && 0 < p.index <= |p.list|
    requires AllOpen(p, p.index, |p.list|, w)
    ensures OutputAsWritten(p, -1, w).1 == Some(NoMusic)
    ensures OutputAsWritten(p, -1, w).0.index == |p.list|
  {
    PlaysSpec(p, |p.list|, w);
    PlaysKeeps(p, |p.list|, w);
  }

  /** The count `output` evidently means: -1 plays the rest of the list. */
  function Count(p: Player, num: int): (n: nat)
    requires p.Valid()
    ensures num == -1 ==> p.index + n == |p.list|
    ensures num >= 0 ==> n == num
  {
    if num == -1 then |p.list| - p.index else if num < 0 then 0 else num
  }

  /** `output(num)` with the corrected count. */
  function Output(p: Player, num: int, w: World): (r: (Player, Option<PlayerError>))
    requires p.Valid()
    ensures r.0.Valid() && r.0.list == p.list
    ensures num == -1 && r.1.None? ==> r.0.index == |p.list|
    ensures num >= 0 && r.1.None? ==> r.0.index == p.index + num
    ensures num < -1 ==> r == (p, None)
  {
    PlaysKeeps(p, Count(p, num), w);
    Plays(p, Count(p, num), w)
  }

  /** `output()` plays every remaining entry that opens and ends at the end of
      the list without an exception. */
  lemma OutputAllPlaysRest(p: Player, w: World)
    requires p.Valid() && AllOpen(p, p.index, |p.list|, w)
    ensures Output(p, -1, w).1 == None
    ensures Output(p, -1, w).0.index == |p.list|
    ensures Output(p, -1, w).0.played == Range(0, |p.list|)
  {
    PlaysSucceed(p, Count(p, -1), w);
    PlaysSpec(p, Count(p, -1), w);
    PlaysKeeps(p, Count(p, -1), w);
  }

  /** A successful `output(num)` with `num >= 0` moves the cursor by exactly `num`. */
  lemma OutputAdvances(p: Player, num: int, w: World)
    requires p.Valid() && num >= 0 && Output(p, num, w).1.None?
    ensures Output(p, num, w).0.index == p.index + num
    ensures Output(p, num, w).0.played == p.played + Range(p.index, p.index + num)
  {
    PlaysSpec(p, num, w);
    PlaysKeeps(p, num, w);
  }
}

=== FILE: stream.dfy ===
/** The input streams of `src/stream.hpp`.

    `NetInputStream` is the network byte queue: the download thread appends with
    `Write` and finally calls `SetEof`; the decode thread consumes with `Read`,
    `Ignore` and the seeks. Its busy-wait for more data becomes a precondition:
    every consuming operation is called in a state where the wait has already
    ended (`isEnd` or enough unread bytes). `FileInputStream` is a thin wrapper
    around `std::fstream`: the decoder's `read`, `eof` and `size`, and the cursor
    arithmetic of its relative seek. */
module Stream {
  import opened Bytes
  import opened Wrappers

  /** The network stream's state. `totalSize` is `None` until the transfer
      reports its length (the field is left uninitialised before `set_size`). */
  datatype NetInputStream = NetInputStream(
    buf: seq<byte>,
    readpos: nat,
    isEnd: bool,
    totalSize: Option<nat>)
  {
    /** The invariant the constructor establishes: the cursor stays inside the buffer. */
    predicate Valid() {
      readpos <= |buf|
    }

    /** `unread_size()` while the invariant holds. */
    function Unread(): nat
      requires Valid()
    {
      |buf| - readpos
    }

    /** The condition under which `read(n)` / `ignore(n)` no longer wait for data. */
    predicate Available(n: nat)
      requires Valid()
    {
      isEnd || Unread() >= n
    }

    /** The bytes already handed to the consumer. */
    function Consumed(): seq<byte>
      requires Valid()
    {
      buf[..readpos]
    }
  }

  /** The freshly constructed stream. */
  function Empty(): (s: NetInputStream)
    ensures s.Valid() && s.buf == [] && s.readpos == 0 && !s.isEnd
  {
    NetInputStream([], 0, false, None)
  }

  /** `eof()`: `is_end` and nothing unread. With `readpos > |buf|` (reachable only
      through `Seek`) the size_t difference wraps to a non-zero value, so `eof()` is
      false there too. */
  function Eof(s: NetInputStream): (r: bool)
    ensures r <==> s.isEnd && s.readpos == |s.buf|
  {
    s.isEnd && s.readpos == |s.buf|
  }

  /** `size()`: the announced total length, if any. */
  function Size(s: NetInputStream): Option<nat> {
    s.totalSize
  }

  /** `read_size()`: the number of bytes consumed so far. */
  function ReadSize(s: NetInputStream): (r: nat)
    ensures r == s.readpos
  {
    s.readpos
  }

  /** `set_size`: records the announced total length; the queue is untouched. */
  function SetSize(s: NetInputStream, size: nat): (t: NetInputStream)
    ensures t.totalSize == Some(size)
    ensures t.buf == s.buf && t.readpos == s.readpos && t.isEnd == s.isEnd
  {
    s.(totalSize := Some(size))
  }

  /** `set_eof`: the producer's end-of-transfer mark. */
  function SetEof(s: NetInputStream): (t: NetInputStream)
    ensures t.isEnd
    ensures t.buf == s.buf && t.readpos == s.readpos && t.totalSize == s.totalSize
  {
    s.(isEnd := true)
  }

  /** `write(arr, n)`: appends exactly the `n` bytes of `arr` to the queue. */
  function Write(s: NetInputStream, arr: seq<byte>): (t: NetInputStream)
    ensures t.buf == s.buf + arr
    ensures t.readpos == s.readpos && t.isEnd == s.isEnd && t.totalSize == s.totalSize
    ensures s.Valid() ==> t.Valid() && t.Consumed() == s.Consumed()
  {
    s.(buf := s.buf + arr)
  }

  /** `read(dest, n)` once its wait loop has ended: copies `min(n, unread)` bytes
      from the cursor and advances the cursor by that count. */
  function Read(s: NetInputStream, n: nat): (r: (seq<byte>, NetInputStream))
    requires s.Valid() && s.Available(n)
    ensures |r.0| == Min(n, s.Unread())
    ensures r.0 == s.buf[s.readpos .. s.readpos + |r.0|]
    ensures r.1.Valid() && r.1.readpos == s.readpos + |r.0|
    ensures r.1.buf == s.buf && r.1.isEnd == s.isEnd && r.1.totalSize == s.totalSize
    ensures |r.0| < n ==> Eof(r.1)
  {
    var realsize := if s.Unread() < n then s.Unread() else n;
    (s.buf[s.readpos .. s.readpos + realsize], s.(readpos := s.readpos + realsize))
  }

  /** `ignore(n)` once its wait loop has ended: skips `min(n, unread)` bytes. */
  function Ignore(s: NetInputStream, n: nat): (t: NetInputStream)
    requires s.Valid() && s.Available(n)
    ensures t.Valid() && t.readpos == s.readpos + Min(n, s.Unread())
    ensures t.buf == s.buf && t.isEnd == s.isEnd && t.totalSize == s.totalSize
  {
    var realsize := if s.Unread() < n then s.Unread() else n;
    s.(readpos := s.readpos + realsize)
  }

  /** `seek(size)` once its wait loop (`!is_end && buffer.size() < size`) has ended:
      moves the cursor to the absolute offset `size`, unchecked. */
  function Seek(s: NetInputStream, size: nat): (t: NetInputStream)
    requires s.isEnd || |s.buf| >= size
    ensures t.readpos == size
    ensures t.buf == s.buf && t.isEnd == s.isEnd && t.totalSize == s.totalSize
  {
    s.(readpos := size)
  }

  /** `FileInputStream` on an opened file: the file's bytes, the get position and
      the stream's end-of-file bit. A read that comes back short sets the
      end-of-file bit together with the fail bit, after which nothing more is read. */
  datatype FileInputStream = FileInputStream(data: seq<byte>, pos: nat, eofBit: bool)
  {
    predicate Valid() {
      pos <= |data|
    }
  }

  /** The constructor on a file that opened: it measures the file by ignoring
      everything (`size()` keeps that count), clears the bits and rewinds. */
  function OpenFile(data: seq<byte>): (f: FileInputStream)
    ensures f.Valid() && f.pos == 0 && !FileEof(f) && FileSize(f) == |data| && f.data == data
  {
    FileInputStream(data, 0, false)
  }

  /** `eof()`: the stream's end-of-file bit, which says that a read hit the end,
      not that nothing is left to read. */
  function FileEof(f: FileInputStream): bool {
    f.eofBit
  }

  /** `size()`: the length measured when the stream was opened. */
  function FileSize(f: FileInputStream): nat {
    |f.data|
  }

  /** `read(dest, n)`: the count `istream::read` transfers, `min(n, left)`, or
      nothing once the bits are set; a short read sets the end-of-file bit. */
  function FileRead(f: FileInputStream, n: nat): (r: (seq<byte>, FileInputStream))
    requires f.Valid()
    ensures FileEof(f) ==> r == ([], f)
    ensures !FileEof(f) ==> |r.0| == Min(n, |f.data| - f.pos)
    ensures r.0 == f.data[f.pos .. f.pos + |r.0|]
    ensures r.1.Valid() && r.1.data == f.data && r.1.pos == f.pos + |r.0|
    ensures FileEof(r.1) <==> FileEof(f) || |r.0| < n
  {
    if f.eofBit then ([], f)
    else
      var got := Min(n, |f.data| - f.pos);
      (f.data[f.pos .. f.pos + got], f.(pos := f.pos + got, eofBit := got < n))
  }

  /** Unlike the network stream's, the file's `eof()` stays false after a read
      that takes exactly the bytes left: only the next, empty read sets it. */
  lemma FileEofNeedsShortRead(f: FileInputStream, m: nat)
    requires f.Valid() && !FileEof(f) && f.pos < |f.data| && m > 0
    ensures var (d, g) := FileRead(f, |f.data| - f.pos);
            d == f.data[f.pos..] && g.pos == |g.data| && !FileEof(g)
    ensures var g := FileRead(f, |f.data| - f.pos).1;
            FileRead(g, m).0 == [] && FileEof(FileRead(g, m).1)
  {
  }

  /** `FileInputStream::seek_cur_offset(offset)` over the abstract file position
      `pos` (`tellg()`): a move back past the start lands on position 0, any other
      move is relative. */
  function FileSeekCurOffset(pos: nat, offset: int): (r: nat)
    requires IsInt32(offset) && offset != INT_MIN
    ensures r == Max(0, pos + offset)
  {
    if -offset > pos then 0 else pos + offset
  }

  /** `NetInputStream::seek_cur_offset(offset)` as the code is written:
      `offset * -1 >= readpos` compares an `int` with a `size_t`, so the left side is
      converted to `size_t`; a positive offset becomes a huge value and the cursor
      is reset to 0 instead of moving forward. */
  function SeekCurOffsetAsWritten(s: NetInputStream, offset: int): (t: NetInputStream)
    requires IsInt32(offset) && offset != INT_MIN
    requires s.readpos < TWO_64
    ensures t.buf == s.buf && t.isEnd == s.isEnd && t.totalSize == s.totalSize
    ensures offset <= 0 ==> t.readpos == Max(0, s.readpos + offset)
    ensures 0 < offset && s.readpos <= TWO_64 - offset ==> t.readpos == 0
  {
    var lhs := U64(-offset);
    if lhs >= s.readpos then s.(readpos := 0)
    else s.(readpos := U64(s.readpos + offset))
  }

  /** A positive offset rewinds the stream to its start: from position 10,
      `seek_cur_offset(5)` lands on 0 rather than 15. */
  lemma SeekCurOffsetForwardResets()
    ensures var s := NetInputStream(seq(20, i => 0), 10, true, None);
            SeekCurOffsetAsWritten(s, 5).readpos == 0 && s.readpos + 5 == 15
  {
  }

  /** `seek_cur_offset` as evidently intended, matching `FileInputStream`: move by
      `offset`, stopping at 0 when moving back past the start. */
  function SeekCurOffset(s: NetInputStream, offset: int): (t: NetInputStream)
    requires IsInt32(offset) && offset != INT_MIN
    ensures t.readpos == Max(0, s.readpos + offset)
    ensures t.buf == s.buf && t.isEnd == s.isEnd && t.totalSize == s.totalSize
  {
    s.(readpos := FileSeekCurOffset(s.readpos, offset))
  }

  /** The corrected relative seek keeps the cursor inside the buffer exactly when
      it does not move past the bytes received so far. */
  lemma SeekCurOffsetValid(s: NetInputStream, offset: int)
    requires s.Valid()
    requires IsInt32(offset) && offset != INT_MIN
    ensures SeekCurOffset(s, offset).Valid() <==> s.readpos + offset <= |s.buf|
  {
  }

  /** `Seek` keeps the invariant exactly when the target lies inside the buffer; after
      `set_eof` the wait no longer protects it, so the invariant can break. */
  lemma SeekValid(s: NetInputStream, size: nat)
    requires s.isEnd || |s.buf| >= size
    ensures Seek(s, size).Valid() <==> size <= |s.buf|
  {
  }

  lemma SeekPastEndBreaksInvariant()
    ensures var s := NetInputStream([1, 2, 3], 0, true, None);
            !Seek(s, 4).Valid() && !Eof(Seek(s, 4))
  {
  }

  /** Unread bytes keep `eof()` false even after `set_eof`. */
  lemma EofOnlyWhenDrained(s: NetInputStream)
    requires s.Valid() && s.Unread() > 0
    ensures !Eof(SetEof(s))
  {
  }

  /** Chunking is transparent: two consecutive reads return the same bytes as one
      read of the combined length. */
  lemma ReadSplit(s: NetInputStream, a: nat, b: nat)
    requires s.Valid() && s.Available(a + b)
    ensures s.Available(a)
    ensures Read(s, a).1.Available(b)
    ensures Read(s, a).0 + Read(Read(s, a).1, b).0 == Read(s, a + b).0
    ensures Read(Read(s, a).1, b).1 == Read(s, a + b).1
  {
    var (d1, s1) := Read(s, a);
    var (d2, s2) := Read(s1, b);
    var (d, t) := Read(s, a + b);
    assert |d| == |d1| + |d2|;
    SliceJoin(s.buf, s.readpos, s.readpos + |d1|, s.readpos + |d1| + |d2|);
  }

  /** Adjacent slices join into one. */
  lemma SliceJoin(buf: seq<byte>, i: nat, j: nat, k: nat)
    requires i <= j <= k <= |buf|
    ensures buf[i..j] + buf[j..k] == buf[i..k]
  {
  }

  /** One call of the producer/consumer protocol. */
  datatype Op = WriteOp(chunk: seq<byte>) | ReadOp(n: nat) | IgnoreOp(n: nat) | SetEofOp | SetSizeOp(size: nat)

  /** Whether `op` can run in `s` without blocking forever in a wait loop. */
  predicate Enabled(s: NetInputStream, op: Op)
    requires s.Valid()
  {
    match op
    case ReadOp(n) => s.Available(n)
    case IgnoreOp(n) => s.Available(n)
    case _ => true
  }

  /** Runs a schedule of producer and consumer calls; returns the final stream, the
      concatenation of everything the producer wrote and everything the consumer
      received through `Read`. */
  function Run(s: NetInputStream, ops: seq<Op>): (r: (NetInputStream, seq<byte>, seq<byte>))
    requires s.Valid()
    ensures r.0.Valid()
    decreases |ops|
  {
    if ops == [] then (s, [], [])
    else if !Enabled(s, ops[0]) then (s, [], [])
    else
      match ops[0]
      case WriteOp(chunk) =>
        var (t, w, d) := Run(Write(s, chunk), ops[1..]);
        (t, chunk + w, d)
      case ReadOp(n) =>
        var (data, s1) := Read(s, n);
        var (t, w, d) := Run(s1, ops[1..]);
        (t, w, data + d)
      case IgnoreOp(n) => Run(Ignore(s, n), ops[1..])
      case SetEofOp => Run(SetEof(s), ops[1..])
      case SetSizeOp(size) => Run(SetSize(s, size), ops[1..])
  }

  /** Everything ever appended stays in the queue, in order: the final buffer is the
      initial one followed by all chunks written. */
  lemma {:induction false} RunBuffer(s: NetInputStream, ops: seq<Op>)
    requires s.Valid()
    ensures Run(s, ops).0.buf == s.buf + Run(s, ops).1
    decreases |ops|
  {
    if ops != [] && Enabled(s, ops[0]) {
      match ops[0]
      case WriteOp(chunk) =>
        RunBuffer(Write(s, chunk), ops[1..]);
        assert s.buf + chunk + Run(Write(s, chunk), ops[1..]).1 == s.buf + (chunk + Run(Write(s, chunk), ops[1..]).1);
      case ReadOp(n) => RunBuffer(Read(s, n).1, ops[1..]);
      case IgnoreOp(n) => RunBuffer(Ignore(s, n), ops[1..]);
      case SetEofOp => RunBuffer(SetEof(s), ops[1..]);
      case SetSizeOp(size) => RunBuffer(SetSize(s, size), ops[1..]);
    }
  }

  /** Bytes received through `Read` are exactly the buffer bytes the cursor passes
      over while reading; with no `Ignore` in the schedule this means the consumer
      observes the producer's bytes in order, whatever the chunk boundaries. */
  predicate NoIgnore(ops: seq<Op>) {
    forall i :: 0 <= i < |ops| ==> !ops[i].IgnoreOp?
  }

  lemma {:induction false} RunDelivers(s: NetInputStream, ops: seq<Op>)
    requires s.Valid()
    requires NoIgnore(ops)
    ensures s.readpos <= Run(s, ops).0.readpos
    ensures Run(s, ops).2 == Run(s, ops).0.buf[s.readpos .. Run(s, ops).0.readpos]
    decreases |ops|
  {
    if ops != [] && Enabled(s, ops[0]) {
      assert NoIgnore(ops[1..]) by {
        forall i | 0 <= i < |ops[1..]| ensures !ops[1..][i].IgnoreOp? {
          assert ops[1..][i] == ops[i + 1];
        }
      }
      match ops[0]
      case WriteOp(chunk) =>
        RunDelivers(Write(s, chunk), ops[1..]);
      case ReadOp(n) =>
        var (data, s1) := Read(s, n);
        RunDelivers(s1, ops[1..]);
        RunBuffer(s1, ops[1..]);
        var t := Run(s1, ops[1..]).0;
        assert t.buf[..|s1.buf|] == s1.buf;
        assert data == t.buf[s.readpos .. s1.readpos];
        assert t.buf[s.readpos .. s1.readpos] + t.buf[s1.readpos .. t.readpos] == t.buf[s.readpos .. t.readpos];
      case SetEofOp =>
        RunDelivers(SetEof(s), ops[1..]);
      case SetSizeOp(size) =>
        RunDelivers(SetSize(s, size), ops[1..]);
    }
  }

  /** From a fresh stream, the consumer's bytes are a prefix of the producer's bytes. */
  lemma FreshStreamDeliversPrefix(ops: seq<Op>)
    requires NoIgnore(ops)
    ensures Run(Empty(), ops).2 <= Run(Empty(), ops).1
  {
    RunDelivers(Empty(), ops);
    RunBuffer(Empty(), ops);
  }
}

=== FILE: tagreader.dfy ===
/** The ID3v2 tag reader of `src/tagreader.hpp`.

    The reader consumes the 10-byte tag header, then frames until the loop
    counter reaches the tag size less 10. Text frames whose id is on the
    reader's list are stored in an ordered map; everything else is skipped.
    The stream is modelled as the bytes of a file with a cursor, the map as an
    association list kept in `std::string` key order, and the loop, which need
    not terminate on a truncated file, as a function with fuel. The UTF-16 to
    UTF-8 conversion of the standard library is a parameter. */
module TagReader {
  import opened Bytes
  import opened Wrappers

  /** `sizeof(ID3v2Header)` and `sizeof(ID3v2Frame)`. */
  const HEADER_SIZE: nat := 10
  const FRAME_HEADER_SIZE: nat := 10

  const APIC: string := "APIC"
  const COMM: string := "COMM"
  const TIT2: string := "TIT2"
  const TPE1: string := "TPE1"

  /** The frame ids the reader stores. The source's array of 75 lists `TBPM`,
      `TENC` and `TSRC` twice; `std::find` only asks for membership, so the
      model keeps the set. */
  const IDS: set<string> := {
    "AENC", "APIC", "COMM", "COMR", "ENCR", "EQUA", "ETCO", "GEOB", "GRID", "IPLS",
    "LINK", "MCDI", "MLLT", "OWNE", "PRIV", "PCNT", "POPM", "POSS", "RBUF", "RVAD",
    "RVRB", "SYLT", "SYTC", "TALB", "TBPM", "TBPM", "TCOM", "TCON", "TCOP", "TDLY",
    "TENC", "TENC", "TFLT", "TIME", "TIT1", "TIT2", "TIT3", "TKEY", "TLAN", "TLEN",
    "TMED", "TOAL", "TOFN", "TOLY", "TOPE", "TORY", "TOWN", "TPE1", "TPE2", "TPE3",
    "TPE4", "TPOS", "TPUB", "TRCK", "TRDA", "TRSN", "TRSO", "TSIZ", "TSRC", "TSRC",
    "TSSE", "TYER", "TXXX", "UFID", "USER", "USLT", "WCOM", "WCOP", "WOAF", "WOAR",
    "WOAS", "WORS", "WPAY", "WPUB", "WXXX"}

  /** The separator `all_info` and `common_info` put between values. */
  const SEP: string := " - "

  // ---------------------------------------------------------------------------
  // Sizes
  // ---------------------------------------------------------------------------

  /** The tag size as the reader computes it: every byte masked to seven bits,
      but weighted 2^21, 2^10, 2^6 and 1. */
  function TagSizeAsWritten(b: seq<byte>): (r: nat)
    requires |b| == 4
    ensures r < 128 * 0x20_0000
  {
    (b[0] as int % 0x80) * 0x20_0000 + (b[1] as int % 0x80) * 0x400 + (b[2] as int % 0x80) * 0x40 + b[3] as int % 0x80
  }

  /** Two different size fields the reader decodes to the same tag size. */
  lemma TagSizeAsWrittenCollides()
    ensures TagSizeAsWritten([0, 0, 1, 0]) == TagSizeAsWritten([0, 0, 0, 64]) == 64
    ensures SynchsafeSize([0, 0, 1, 0]) == 128 && SynchsafeSize([0, 0, 0, 64]) == 64
  {
  }

  /** The synchsafe integer of section 3.1 of ID3v2.3.0: seven bits per byte,
      most significant first. */
  function SynchsafeSize(b: seq<byte>): (r: nat)
    requires |b| == 4
    ensures r < 0x1000_0000
  {
    (b[0] as int % 0x80) * 0x20_0000 + (b[1] as int % 0x80) * 0x4000 + (b[2] as int % 0x80) * 0x80 + b[3] as int % 0x80
  }

  /** The synchsafe layout of a tag size. */
  function Synchsafe(n: nat): (b: seq<byte>)
    requires n < 0x1000_0000
    ensures |b| == 4
    ensures forall i :: 0 <= i < 4 ==> b[i] < 0x80
  {
    var q1 := n / 0x80;
    var q2 := q1 / 0x80;
    [q2 / 0x80, q2 % 0x80, q1 % 0x80, n % 0x80]
  }

  lemma SynchsafeRoundTrip(n: nat)
    requires n < 0x1000_0000
    ensures SynchsafeSize(Synchsafe(n)) == n
  {
    var q1 := n / 0x80;
    var q2 := q1 / 0x80;
    var b := Synchsafe(n);
    assert b == [q2 / 0x80, q2 % 0x80, q1 % 0x80, n % 0x80];
    assert n == q1 * 0x80 + n % 0x80;
    assert q1 == q2 * 0x80 + q1 % 0x80;
    assert q2 == (q2 / 0x80) * 0x80 + q2 % 0x80;
  }

  /** Distinct seven-bit size fields denote distinct sizes. */
  lemma SynchsafeInjective(a: seq<byte>, b: seq<byte>)
    requires |a| == 4 && |b| == 4
    requires forall i :: 0 <= i < 4 ==> a[i] < 0x80 && b[i] < 0x80
    requires SynchsafeSize(a) == SynchsafeSize(b)
    ensures a == b
  {
    SynchsafeHorner(a);
    SynchsafeHorner(b);
    DigitsUnique(a[0] as int * 0x4000 + a[1] as int * 0x80 + a[2] as int, a[3], b[0] as int * 0x4000 + b[1] as int * 0x80 + b[2] as int, b[3]);
    DigitsUnique(a[0] as int * 0x80 + a[1] as int, a[2], b[0] as int * 0x80 + b[1] as int, b[2]);
    DigitsUnique(a[0], a[1], b[0], b[1]);
  }

  lemma SynchsafeHorner(b: seq<byte>)
    requires |b| == 4 && forall i :: 0 <= i < 4 ==> b[i] < 0x80
    ensures SynchsafeSize(b) == ((b[0] as int * 0x80 + b[1] as int) * 0x80 + b[2] as int) * 0x80 + b[3] as int
  {
    assert b[0] as int % 0x80 == b[0] && b[1] as int % 0x80 == b[1];
    assert b[2] as int % 0x80 == b[2] && b[3] as int % 0x80 == b[3];
  }

  /** Base-128 digits are unique. */
  lemma DigitsUnique(hi1: int, lo1: int, hi2: int, lo2: int)
    requires 0 <= lo1 < 0x80 && 0 <= lo2 < 0x80
    requires hi1 * 0x80 + lo1 == hi2 * 0x80 + lo2
    ensures hi1 == hi2 && lo1 == lo2
  {
    assert (hi1 - hi2) * 0x80 == lo2 - lo1;
  }

  /** The frame size as the reader computes it: the four bytes read as signed
      `char`s, weighted 2^28, 2^16, 2^8 and 1 in `int` arithmetic, then
      converted to `std::size_t`. */
  function FrameSizeAsWritten(b: seq<byte>): (r: nat)
    requires |b| == 4
    ensures r < TWO_64
  {
    U64(I32(SignedChar(b[0]) * 0x1000_0000 + SignedChar(b[1]) * 0x1_0000
            + SignedChar(b[2]) * 0x100 + SignedChar(b[3])))
  }

  /** A frame of 128 bytes: the low size byte reads as -128 and the size wraps
      to nearly 2^64; a top byte of 1 weighs 2^28 instead of 2^24. */
  lemma FrameSizeAsWrittenWraps()
    ensures FrameSizeAsWritten([0, 0, 0, 0x80]) == TWO_64 - 128
    ensures FrameSize([0, 0, 0, 0x80]) == 128
    ensures FrameSizeAsWritten([1, 0, 0, 0]) == 0x1000_0000 && FrameSize([1, 0, 0, 0]) == 0x100_0000
  {
  }

  /** The frame size of section 3.3 of ID3v2.3.0: a 32-bit big-endian integer. */
  function FrameSize(b: seq<byte>): (r: nat)
    requires |b| == 4
    ensures r < TWO_32
  {
    b[0] as int * 0x100_0000 + b[1] as int * 0x1_0000 + b[2] as int * 0x100 + b[3] as int
  }

  /** The big-endian layout of a frame size. */
  function BE32(n: nat): (b: seq<byte>)
    requires n < TWO_32
    ensures |b| == 4
  {
    [n / 0x100_0000, (n / 0x1_0000) % 0x100, (n / 0x100) % 0x100, n % 0x100]
  }

  lemma FrameSizeRoundTrip(n: nat)
    requires n < TWO_32
    ensures FrameSize(BE32(n)) == n
  {
    var q1 := n / 0x100;
    var q2 := q1 / 0x100;
    var q3 := q2 / 0x100;
    assert n == q1 * 0x100 + n % 0x100;
    assert q1 == q2 * 0x100 + q1 % 0x100;
    assert q2 == q3 * 0x100 + q2 % 0x100;
    assert n / 0x1_0000 == q2;
    assert n / 0x100_0000 == q3;
  }

  /** Where the reader's arithmetic is right: a zero top byte and the other
      three below 0x80. */
  lemma FrameSizeAgreesBelow(b: seq<byte>)
    requires |b| == 4 && b[0] == 0 && b[1] < 0x80 && b[2] < 0x80 && b[3] < 0x80
    ensures FrameSizeAsWritten(b) == FrameSize(b)
  {
    assert SignedChar(b[0]) == 0;
    assert SignedChar(b[1]) == b[1] && SignedChar(b[2]) == b[2] && SignedChar(b[3]) == b[3];
  }

  /** The tag size field of a body under 128 bytes reads the same both ways. */
  lemma TagSizeAgreesBelow(n: nat)
    requires n < 0x80
    ensures TagSizeAsWritten(Synchsafe(n)) == SynchsafeSize(Synchsafe(n)) == n
  {
    assert Synchsafe(n) == [0, 0, 0, n];
  }

  /** The size arithmetic a reader uses: the code's, or the standard's. */
  datatype Arith = AsWritten | Intended

  function TagSizeBy(a: Arith, b: seq<byte>): (r: nat)
    requires |b| == 4
    ensures a.AsWritten? ==> r == TagSizeAsWritten(b)
    ensures a.Intended? ==> r == SynchsafeSize(b)
  {
    if a.AsWritten? then TagSizeAsWritten(b) else SynchsafeSize(b)
  }

  function FrameSizeBy(a: Arith, b: seq<byte>): (r: nat)
    requires |b| == 4
    ensures a.AsWritten? ==> r == FrameSizeAsWritten(b)
    ensures a.Intended? ==> r == FrameSize(b)
  {
    if a.AsWritten? then FrameSizeAsWritten(b) else FrameSize(b)
  }

  // ---------------------------------------------------------------------------
  // The tag map: `std::map<std::string, std::string>` as an ordered list
  // ---------------------------------------------------------------------------

  /** `std::string`'s `operator<`: lexicographic on character codes. */
  predicate Less(a: string, b: string)
  {
    if a == [] then b != []
    else if b == [] then false
    else if a[0] != b[0] then a[0] < b[0]
    else Less(a[1..], b[1..])
  }

  lemma {:induction false} LessIrreflexive(a: string)
    ensures !Less(a, a)
  {
    if a != [] {
      LessIrreflexive(a[1..]);
    }
  }

  lemma {:induction false} LessTotal(a: string, b: string)
    ensures a == b || Less(a, b) || Less(b, a)
  {
    if a != [] && b != [] && a[0] == b[0] {
      LessTotal(a[1..], b[1..]);
      if a[1..] == b[1..] {
        assert a == [a[0]] + a[1..] && b == [b[0]] + b[1..];
      }
    }
  }

  lemma {:induction false} LessTransitive(a: string, b: string, c: string)
    requires Less(a, b) && Less(b, c)
    ensures Less(a, c)
  {
    if a != [] && b != [] && c != [] && a[0] == b[0] && b[0] == c[0] {
      LessTransitive(a[1..], b[1..], c[1..]);
    }
  }

  datatype Entry = Entry(key: string, value: string)

  type TagMap = seq<Entry>

  /** Keys strictly increase from each entry to the next, as in `std::map`. */
  predicate Sorted(m: TagMap)
    decreases |m|
  {
    |m| <= 1 || (Less(m[0].key, m[1].key) && Sorted(m[1..]))
  }

  /** `tags.find(k)`: the value stored under `k`, if any. */
  function Lookup(m: TagMap, k: string): (r: Option<string>)
    ensures r.Some? <==> exists i :: 0 <= i < |m| && m[i].key == k
    ensures r.Some? ==> exists i :: 0 <= i < |m| && m[i] == Entry(k, r.value)
  {
    if m == [] then None
    else if m[0].key == k then Some(m[0].value)
    else
      var r := Lookup(m[1..], k);
      assert forall i :: 0 < i < |m| ==> m[i] == m[1..][i - 1];
      r
  }

  lemma {:induction false} SortedHeadLeast(m: TagMap, i: nat)
    requires Sorted(m) && 0 < i < |m|
    ensures Less(m[0].key, m[i].key)
  {
    if i > 1 {
      SortedHeadLeast(m[1..], i - 1);
      LessTransitive(m[0].key, m[1].key, m[i].key);
    }
  }

  /** In a sorted map every entry is the one `find` returns for its key. */
  lemma {:induction false} LookupSorted(m: TagMap, i: nat)
    requires Sorted(m) && i < |m|
    ensures Lookup(m, m[i].key) == Some(m[i].value)
  {
    if i > 0 {
      SortedHeadLeast(m, i);
      LessIrreflexive(m[i].key);
      LookupSorted(m[1..], i - 1);
    }
  }

  /** `tags[k] = v`: insertion in key order, or replacement of the value. */
  function Put(m: TagMap, k: string, v: string): (r: TagMap)
    ensures forall x {:trigger Lookup(r, x)} :: Lookup(r, x) == if x == k then Some(v) else Lookup(m, x)
    ensures Sorted(m) ==> Sorted(r)
    ensures |m| <= |r| <= |m| + 1
  {
    if m == [] then [Entry(k, v)]
    else if m[0].key == k then [Entry(k, v)] + m[1..]
    else if Less(k, m[0].key) then [Entry(k, v)] + m
    else
      var tail := Put(m[1..], k, v);
      var r := [m[0]] + tail;
      assert forall x {:trigger Lookup(r, x)} :: Lookup(r, x) == if x == m[0].key then Some(m[0].value) else Lookup(tail, x);
      assert forall i :: 0 < i < |r| ==> r[i] == tail[i - 1];
      assert forall j :: 0 <= j < |m| - 1 ==> m[1..][j] == m[j + 1];
      assert Sorted(m) ==> Sorted(r) by {
        if Sorted(m) {
          assert Sorted(m[1..]);
          ConsSorted(m, k, tail);
        }
      }
      r
  }

  /** Storing a listed id other than "APIC" keeps every stored id listed. */
  lemma {:induction false} PutStoredIds(m: TagMap, k: string, v: string)
    requires StoredIds(m) && k in IDS && k != APIC
    ensures StoredIds(Put(m, k, v))
    decreases |m|
  {
    if m != [] && m[0].key != k && !Less(k, m[0].key) {
      var tail := Put(m[1..], k, v);
      assert StoredIds(m[1..]) by {
        forall i | 0 <= i < |m| - 1 ensures m[1..][i].key in IDS && m[1..][i].key != APIC {
          assert m[1..][i] == m[i + 1];
        }
      }
      PutStoredIds(m[1..], k, v);
      assert Put(m, k, v) == [m[0]] + tail;
    }
  }

  /** Putting the head back in front of a tail that gained key `k` keeps the
      order, when `k` sorts after the head. */
  lemma ConsSorted(m: TagMap, k: string, tail: TagMap)
    requires Sorted(m) && |m| > 0 && m[0].key != k && !Less(k, m[0].key) && Sorted(tail)
    requires |tail| > 0 && (tail[0].key == k || exists j :: 1 <= j < |m| && m[j] == tail[0])
    ensures Sorted([m[0]] + tail)
  {
    var r := [m[0]] + tail;
    assert r[0] == m[0] && r[1] == tail[0] && r[1..] == tail;
    assert Less(m[0].key, tail[0].key) by {
      if tail[0].key == k {
        LessTotal(k, m[0].key);
      } else {
        var j :| 1 <= j < |m| && m[j] == tail[0];
        SortedHeadLeast(m, j);
      }
    }
  }

  // ---------------------------------------------------------------------------
  // Queries
  // ---------------------------------------------------------------------------

  /** The reader's failures: `operator[]` on a missing tag, and the
      `std::length_error` of a text buffer resized past `max_size()`. */
  datatype TagError = UnexpectedTag(tag: string) | LengthError

  /** `operator[]`: the stored value, or the error the reader raises. */
  function Get(m: TagMap, tag: string): (r: Result<string, TagError>)
    ensures r.Ok? <==> exists i :: 0 <= i < |m| && m[i].key == tag
    ensures r.Ok? ==> exists i :: 0 <= i < |m| && m[i] == Entry(tag, r.value)
    ensures r.Err? ==> r.error == UnexpectedTag(tag)
  {
    match Lookup(m, tag)
    case Some(v) => Ok(v)
    case None => Err(UnexpectedTag(tag))
  }

  /** `common_info`: the title followed by the separator, then the artist. */
  function CommonInfo(m: TagMap): (r: string)
    ensures Lookup(m, TIT2).Some? ==>
              (|r| >= |Lookup(m, TIT2).value| + 3 && r[..|Lookup(m, TIT2).value| + 3] == Lookup(m, TIT2).value + SEP)
    ensures Lookup(m, TPE1).Some? ==>
              (|r| >= |Lookup(m, TPE1).value| && r[|r| - |Lookup(m, TPE1).value|..] == Lookup(m, TPE1).value)
    ensures |r| == (if Lookup(m, TIT2).Some? then |Lookup(m, TIT2).value| + 3 else 0)
      + (if Lookup(m, TPE1).Some? then |Lookup(m, TPE1).value| else 0)
  {
    var title := match Lookup(m, TIT2) case Some(t) => t + SEP case None => "";
    var artist := match Lookup(m, TPE1) case Some(a) => a case None => "";
    title + artist
  }

  /** The values of the entries that are not ignored, in key order. */
  function Visible(m: TagMap, ignore: seq<string>): (vs: seq<string>)
    ensures |vs| <= |m|
  {
    if m == [] then []
    else (if m[0].key in ignore then [] else [m[0].value]) + Visible(m[1..], ignore)
  }

  /** Each value followed by the separator, as the loop of `all_info` appends them. */
  function Terminated(vs: seq<string>): (r: string)
    ensures |r| >= 3 * |vs|
  {
    if vs == [] then "" else vs[0] + SEP + Terminated(vs[1..])
  }

  /** The values joined by the separator: the reference for `all_info`. */
  function Join(vs: seq<string>): (r: string)
    ensures |vs| > 1 ==> |r| >= 3 * (|vs| - 1)
  {
    if vs == [] then "" else if |vs| == 1 then vs[0] else vs[0] + SEP + Join(vs[1..])
  }

  /** `all_info` as written: every entry but the last, then the FIRST entry's
      value once more. Undefined on an empty map. */
  function AllInfoAsWritten(m: TagMap, ignore: seq<string>): (r: string)
    requires |m| > 0
    ensures |r| >= 3 * |Visible(m[..|m| - 1], ignore)|
    ensures m[0].key !in ignore ==> r == Join(Visible(m[..|m| - 1], ignore) + [m[0].value])
    ensures m[0].key in ignore ==> r == Join(Visible(m[..|m| - 1], ignore) + [""])
  {
    var vs := Visible(m[..|m| - 1], ignore);
    var first := if m[0].key in ignore then "" else m[0].value;
    TerminatedJoin(vs, first);
    Terminated(vs) + first
  }

  /** `all_info` with the last entry appended after the loop. */
  function AllInfo(m: TagMap, ignore: seq<string>): (r: string)
    requires |m| > 0
    ensures m[|m| - 1].key !in ignore ==> r == Join(Visible(m, ignore))
    ensures m[|m| - 1].key in ignore ==> r == Join(Visible(m, ignore) + [""])
  {
    var last := m[|m| - 1];
    VisibleSnoc(m[..|m| - 1], last, ignore);
    assert m[..|m| - 1] + [last] == m;
    if last.key in ignore then
      var shown := Visible(m[..|m| - 1], ignore);
      assert Visible(m, ignore) == shown + [] == shown;
      TerminatedJoin(shown, "");
      assert Terminated(shown) + "" == Terminated(shown);
      Terminated(Visible(m[..|m| - 1], ignore))
    else
      TerminatedJoin(Visible(m[..|m| - 1], ignore), last.value);
      Terminated(Visible(m[..|m| - 1], ignore)) + last.value
  }

  lemma {:induction false} VisibleSnoc(m: TagMap, e: Entry, ignore: seq<string>)
    ensures Visible(m + [e], ignore) == Visible(m, ignore) + (if e.key in ignore then [] else [e.value])
  {
    if m == [] {
      assert Visible([e], ignore) == (if e.key in ignore then [] else [e.value]) + Visible([], ignore);
    } else {
      var head := if m[0].key in ignore then [] else [m[0].value];
      var last := if e.key in ignore then [] else [e.value];
      assert (m + [e])[0] == m[0] && (m + [e])[1..] == m[1..] + [e];
      assert Visible(m + [e], ignore) == head + Visible(m[1..] + [e], ignore);
      VisibleSnoc(m[1..], e, ignore);
      AppendAssoc(head, Visible(m[1..], ignore), last);
    }
  }

  lemma {:induction false} TerminatedJoin(vs: seq<string>, x: string)
    ensures Terminated(vs) + x == Join(vs + [x])
  {
    if vs != [] {
      assert (vs + [x])[1..] == vs[1..] + [x];
      TerminatedJoin(vs[1..], x);
    }
  }

  /** The written and the corrected `all_info` agree exactly when the first
      entry would print what the last one does. */
  lemma AllInfoAgreement(m: TagMap, ignore: seq<string>)
    requires |m| > 0
    ensures AllInfoAsWritten(m, ignore) == AllInfo(m, ignore) <==>
              (if m[0].key in ignore then "" else m[0].value)
              == (if m[|m| - 1].key in ignore then "" else m[|m| - 1].value)
  {
    var t := Terminated(Visible(m[..|m| - 1], ignore));
    var first := if m[0].key in ignore then "" else m[0].value;
    var last := if m[|m| - 1].key in ignore then "" else m[|m| - 1].value;
    assert AllInfoAsWritten(m, ignore) == t + first;
    assert AllInfo(m, ignore) == t + last;
    if t + first == t + last {
      assert first == (t + first)[|t|..] == (t + last)[|t|..] == last;
    }
  }

  /** With two entries the reader prints the first value twice and drops the second. */
  lemma AllInfoAsWrittenRepeatsFirst()
    ensures AllInfoAsWritten([Entry("TALB", "A"), Entry("TIT2", "B")], [APIC, COMM]) == "A - A"
    ensures AllInfo([Entry("TALB", "A"), Entry("TIT2", "B")], [APIC, COMM]) == "A - B"
  {
    var m := [Entry("TALB", "A"), Entry("TIT2", "B")];
    assert m[..1] == [Entry("TALB", "A")];
    assert "TALB" !in [APIC, COMM] && "TIT2" !in [APIC, COMM];
    assert Visible(m[..1], [APIC, COMM]) == ["A"];
    assert Terminated(["A"]) == "A - ";
  }

  // ---------------------------------------------------------------------------
  // The input file
  // ---------------------------------------------------------------------------

  /** A file opened for reading, as the bytes from the read cursor to the end. */
  datatype File = File(rest: seq<byte>)

  /** `read(dest, n)`: up to `n` bytes from the cursor; the count is `gcount()`. */
  function Read(f: File, n: nat): (r: (seq<byte>, File))
    ensures |r.0| == Min(n, |f.rest|) && |r.1.rest| == |f.rest| - |r.0|
  {
    var k := Min(n, |f.rest|);
    (f.rest[..k], File(f.rest[k..]))
  }

  /** A read of exactly the bytes before `y`. */
  lemma ReadPrefix(f: File, x: seq<byte>, y: seq<byte>, n: nat)
    requires f.rest == x + y && n == |x|
    ensures Read(f, n) == (x, File(y))
  {
    assert f.rest[..n] == x && f.rest[n..] == y;
  }

  /** `ignore(n)`: skips up to `n` bytes. */
  function Ignore(f: File, n: nat): (t: File)
    ensures |t.rest| == |f.rest| - Min(n, |f.rest|)
  {
    File(f.rest[Min(n, |f.rest|)..])
  }

  /** A struct after a read of `fresh` bytes into it: the leading bytes are
      replaced, the rest keep what the struct held. */
  function Overlay(prev: seq<byte>, got: seq<byte>): (r: seq<byte>)
    requires |got| <= |prev|
    ensures |r| == |prev| && r[..|got|] == got && r[|got|..] == prev[|got|..]
  {
    got + prev[|got|..]
  }

  /** A zero-initialised vector of `n` bytes after a read of `got` into it. */
  function Filled(n: nat, got: seq<byte>): (r: seq<byte>)
    ensures |r| == n
    ensures forall i :: 0 <= i < n ==> r[i] == if i < |got| then got[i] else 0
  {
    seq(n, i requires 0 <= i < n => if i < |got| then got[i] else 0)
  }

  /** Bytes taken as `char`s of a `std::string`. */
  function Chars(b: seq<byte>): (s: string)
    ensures |s| == |b| && forall i :: 0 <= i < |b| ==> s[i] as int == b[i]
  {
    seq(|b|, i requires 0 <= i < |b| => b[i] as char)
  }

  /** The value stored for an encoding-0 frame whose text buffer is `show`:
      the string starts one byte into the buffer. */
  function Shown(show: seq<byte>): (s: string)
    ensures |show| > 0 ==> s == Chars(show[1..])
    ensures |show| == 0 ==> s == []
  {
    if show == [] then [] else Chars(show[1..])
  }

  // ---------------------------------------------------------------------------
  // The frame loop
  // ---------------------------------------------------------------------------

  /** The state of the constructor's loop. */
  datatype Scan = Scan(file: File, bitscount: nat, frame: seq<byte>, tags: TagMap) {
    predicate Valid() {
      |frame| == FRAME_HEADER_SIZE && Sorted(tags) && StoredIds(tags)
    }
  }

  /** Only listed ids other than "APIC" are ever stored. */
  predicate StoredIds(m: TagMap) {
    forall i :: 0 <= i < |m| ==> m[i].key in IDS && m[i].key != APIC
  }

  /** `PTRDIFF_MAX` of a 64-bit target. libstdc++'s `std::vector<T>::max_size()`
      is `PTRDIFF_MAX / sizeof(T)`, and `resize` beyond it throws
      `std::length_error`. */
  const PTRDIFF_MAX: nat := 0x7fff_ffff_ffff_ffff

  /** Whether `resize(n)` of an empty vector of `width`-byte elements throws. */
  predicate ResizeThrows(n: nat, width: nat)
    requires width > 0
  {
    n > PTRDIFF_MAX / width
  }

  /** A text buffer for `n` bytes, of `char` or of `char16_t`, is too large
      exactly when `n` exceeds `PTRDIFF_MAX`. */
  lemma ResizeLimit(n: nat, width: nat)
    requires width == 1 || width == 2
    ensures ResizeThrows(n / width, width) <==> n > PTRDIFF_MAX
  {
  }

  /** The value `encoding` holds after the one-byte read into it: the byte read,
      or the initial 0 when none was left. */
  function EncodingOf(f: File): byte
  {
    if f.rest == [] then 0 else f.rest[0]
  }

  /** Whether the reader stores a frame with this id and size. */
  predicate Kept(id: string, size: nat) {
    size != 0 && id != APIC && id in IDS
  }

  /** One iteration of the loop: read the frame header, then the frame.
      `utf16` stands for the library's UTF-16 to UTF-8 conversion. */
  function Step(a: Arith, s: Scan, utf16: seq<byte> -> string): (t: Result<Scan, TagError>)
    requires s.Valid()
    ensures t.Err? ==> t.error == LengthError
    ensures a.Intended? ==> t.Ok?
    ensures t.Ok? ==> t.value.Valid() && |t.value.file.rest| <= |s.file.rest|
    ensures t.Ok? ==> forall x {:trigger Lookup(t.value.tags, x)} :: x != Chars(t.value.frame[..4]) ==> Lookup(t.value.tags, x) == Lookup(s.tags, x)
    ensures t.Ok? && !Kept(Chars(t.value.frame[..4]), FrameSizeBy(a, t.value.frame[4..8])) ==> t.value.tags == s.tags
    ensures t.Ok? && EncodingOf(Read(s.file, FRAME_HEADER_SIZE).1) > 1 ==> t.value.tags == s.tags
  {
    FrameBody(a, ReadHeader(s), utf16)
  }

  /** The frame-header read into the struct. The bytes of a short read keep
      what the struct held before; the counter wraps like `std::size_t`. */
  function ReadHeader(s: Scan): (t: Scan)
    requires s.Valid()
    ensures t.Valid() && t.tags == s.tags
    ensures |t.file.rest| == |s.file.rest| - Min(FRAME_HEADER_SIZE, |s.file.rest|)
    ensures t.frame[..Min(FRAME_HEADER_SIZE, |s.file.rest|)] == s.file.rest[..Min(FRAME_HEADER_SIZE, |s.file.rest|)]
  {
    var (head, f1) := Read(s.file, FRAME_HEADER_SIZE);
    Scan(f1, U64(s.bitscount + |head|), Overlay(s.frame, head), s.tags)
  }

  /** The rest of an iteration, once `frame` holds the frame header. */
  function FrameBody(a: Arith, s: Scan, utf16: seq<byte> -> string): (t: Result<Scan, TagError>)
    requires s.Valid()
    ensures t.Err? ==> t.error == LengthError && Kept(Chars(s.frame[..4]), FrameSizeBy(a, s.frame[4..8]))
    ensures t.Ok? ==> t.value.Valid() && |t.value.file.rest| <= |s.file.rest| && t.value.frame == s.frame
    ensures t.Ok? ==> forall x {:trigger Lookup(t.value.tags, x)} :: x != Chars(s.frame[..4]) ==> Lookup(t.value.tags, x) == Lookup(s.tags, x)
    ensures t.Ok? && !Kept(Chars(s.frame[..4]), FrameSizeBy(a, s.frame[4..8])) ==> t.value.tags == s.tags
    ensures Kept(Chars(s.frame[..4]), FrameSizeBy(a, s.frame[4..8])) && EncodingOf(s.file) > 1 ==>
              t.Ok? && t.value.tags == s.tags
              && t.value.file == Ignore(Read(s.file, 1).1, FrameSizeBy(a, s.frame[4..8]) - 1)
  {
    var size := FrameSizeBy(a, s.frame[4..8]);
    var id := Chars(s.frame[..4]);
    if Kept(id, size) then KeptBody(s, id, size, utf16)
    else Ok(s.(file := Ignore(s.file, size), bitscount := U64(s.bitscount + size)))
  }

  /** The rest of an iteration throws exactly for a stored frame with encoding
      0 or 1 whose size leaves more than `PTRDIFF_MAX` text bytes. */
  lemma FrameBodyThrows(a: Arith, s: Scan, utf16: seq<byte> -> string)
    requires s.Valid()
    ensures FrameBody(a, s, utf16).Err? <==>
              Kept(Chars(s.frame[..4]), FrameSizeBy(a, s.frame[4..8])) && EncodingOf(s.file) <= 1
              && FrameSizeBy(a, s.frame[4..8]) > PTRDIFF_MAX + 1
  {
  }

  /** The rest of an iteration over a frame the reader stores: the encoding
      byte, then the text into a buffer of `char` (encoding 0) or `char16_t`
      (encoding 1), or a skip for any other encoding. */
  function KeptBody(s: Scan, id: string, size: nat, utf16: seq<byte> -> string): (t: Result<Scan, TagError>)
    requires s.Valid() && Kept(id, size)
    ensures t.Err? ==> t.error == LengthError
    ensures t.Err? <==> EncodingOf(s.file) <= 1 && size > PTRDIFF_MAX + 1
    ensures t.Ok? ==> t.value.Valid() && |t.value.file.rest| <= |s.file.rest| && t.value.frame == s.frame
    ensures t.Ok? ==> forall x {:trigger Lookup(t.value.tags, x)} :: x != id ==> Lookup(t.value.tags, x) == Lookup(s.tags, x)
    ensures EncodingOf(s.file) > 1 ==>
              t.Ok? && t.value.tags == s.tags && t.value.file == Ignore(Read(s.file, 1).1, size - 1)
              && t.value.bitscount == U64(s.bitscount + 1)
  {
    var (enc, f2) := Read(s.file, 1);
    var count := U64(s.bitscount + |enc|);
    var encoding := EncodingOf(s.file);
    if encoding == 0 || encoding == 1 then
      var width := if encoding == 0 then 1 else 2;
      ResizeLimit(size - 1, width);
      if ResizeThrows((size - 1) / width, width) then Err(LengthError)
      else
        var (text, f3) := Read(f2, size - 1);
        var value := if encoding == 0 then Shown(Filled(size - 1, text)) else utf16(Filled(2 * ((size - 1) / 2), text));
        PutStoredIds(s.tags, id, value);
        Ok(s.(file := f3, bitscount := U64(count + |text|), tags := Put(s.tags, id, value)))
    else
      Ok(s.(file := Ignore(f2, size - 1), bitscount := count))
  }

  /** The loop `while (bitscount < bound)`: `Some(Ok(_))` when the counter
      reaches the bound, `Some(Err(_))` when an iteration throws, and `None`
      when the fuel runs out first. */
  function Loop(a: Arith, s: Scan, bound: nat, fuel: nat, utf16: seq<byte> -> string): (r: Option<Result<Scan, TagError>>)
    requires s.Valid()
    ensures s.bitscount >= bound ==> r == Some(Ok(s))
    ensures a.Intended? && r.Some? ==> r.value.Ok?
    ensures r.Some? && r.value.Err? ==> r.value.error == LengthError
    ensures r.Some? && r.value.Ok? ==> r.value.value.Valid() && r.value.value.bitscount >= bound
    ensures r.Some? && r.value.Ok? ==> |r.value.value.file.rest| <= |s.file.rest|
    ensures r.Some? && r.value.Ok? ==>
              forall x {:trigger Lookup(r.value.value.tags, x)} :: x !in IDS || x == APIC ==> Lookup(r.value.value.tags, x) == Lookup(s.tags, x)
    decreases fuel
  {
    if s.bitscount >= bound then Some(Ok(s))
    else if fuel == 0 then None
    else
      match Step(a, s, utf16)
      case Err(e) => Some(Err(e))
      case Ok(t) => Loop(a, t, bound, Spend(fuel), utf16)
  }

  /** The fuel left after one iteration. */
  function Spend(fuel: nat): (r: nat)
    requires fuel > 0
    ensures r < fuel
  {
    fuel - 1
  }

  /** The constructor over a size arithmetic: check the "ID3" magic, decode the
      tag size and run the loop. The bytes of a header read short keep whatever
      `junk` held. */
  function ParseBy(a: Arith, data: seq<byte>, junk: seq<byte>, fuel: nat, utf16: seq<byte> -> string): (r: Option<Result<TagMap, TagError>>)
    requires |junk| == HEADER_SIZE + FRAME_HEADER_SIZE
    ensures r.Some? && r.value.Ok? ==> Sorted(r.value.value) && StoredIds(r.value.value)
    ensures r.Some? && r.value.Err? ==> r.value.error == LengthError
    ensures a.Intended? && r.Some? ==> r.value.Ok?
    ensures |data| >= 3 && Chars(data[..3]) != "ID3" ==> r == Some(Ok([]))
  {
    var (head, f) := Read(File(data), HEADER_SIZE);
    var header := Overlay(junk[..HEADER_SIZE], head);
    if Chars(header[..3]) != "ID3" then Some(Ok([]))
    else TagsOf(Loop(a, Scan(f, 0, junk[HEADER_SIZE..], []), HeaderBound(a, header), fuel, utf16))
  }

  /** The number of bytes after the header the reader takes the tag to span. */
  function HeaderBound(a: Arith, header: seq<byte>): (r: nat)
    requires |header| == HEADER_SIZE
    ensures r < TWO_64
  {
    U64(TagSizeBy(a, header[6..10]) - HEADER_SIZE)
  }

  /** The tags a finished loop gathered, or the exception it threw. */
  function TagsOf(r: Option<Result<Scan, TagError>>): (m: Option<Result<TagMap, TagError>>)
    requires r.Some? && r.value.Ok? ==> r.value.value.Valid()
    ensures m.Some? <==> r.Some?
    ensures m.Some? ==> (m.value.Ok? <==> r.value.Ok?)
    ensures m.Some? && m.value.Err? ==> m.value.error == r.value.error
    ensures m.Some? && m.value.Ok? ==> m.value.value == r.value.value.tags && Sorted(m.value.value) && StoredIds(m.value.value)
  {
    match r
    case None => None
    case Some(Err(e)) => Some(Err(e))
    case Some(Ok(t)) => Some(Ok(t.tags))
  }

  /** The `TagInfo` constructor as written. */
  function Parse(data: seq<byte>, junk: seq<byte>, fuel: nat, utf16: seq<byte> -> string): (r: Option<Result<TagMap, TagError>>)
    requires |junk| == HEADER_SIZE + FRAME_HEADER_SIZE
    ensures r.Some? && r.value.Ok? ==> Sorted(r.value.value) && StoredIds(r.value.value)
    ensures r.Some? && r.value.Err? ==> r.value.error == LengthError
    ensures |data| >= 3 && Chars(data[..3]) != "ID3" ==> r == Some(Ok([]))
  {
    ParseBy(AsWritten, data, junk, fuel, utf16)
  }

  /** The constructor with the sizes of section 3.1 and 3.3 of ID3v2.3.0. */
  function ParseIntended(data: seq<byte>, junk: seq<byte>, fuel: nat, utf16: seq<byte> -> string): (r: Option<Result<TagMap, TagError>>)
    requires |junk| == HEADER_SIZE + FRAME_HEADER_SIZE
    ensures r.Some? ==> r.value.Ok? && Sorted(r.value.value) && StoredIds(r.value.value)
    ensures |data| >= 3 && Chars(data[..3]) != "ID3" ==> r == Some(Ok([]))
  {
    ParseBy(Intended, data, junk, fuel, utf16)
  }

  // ---------------------------------------------------------------------------
  // Well-formed tags: the reader recovers the text frames a tagger wrote
  // ---------------------------------------------------------------------------

  /** A listed text frame with encoding 0, as a tagger writes it. */
  datatype TextFrame = TextFrame(id: string, text: seq<byte>) {
    predicate Valid() {
      Encodable() && id != APIC && id in IDS
    }

    /** A four-character one-byte id and a text whose size fits the field. */
    predicate Encodable() {
      |id| == 4 && (forall i :: 0 <= i < 4 ==> id[i] as int < 0x100) && |text| + 1 < TWO_32
    }
  }

  /** Frame header (id, big-endian size, zero flags), encoding byte, text. */
  function FrameBytes(f: TextFrame): (b: seq<byte>)
    requires f.Encodable()
    ensures |b| == FRAME_HEADER_SIZE + 1 + |f.text|
  {
    Ascii(f.id) + BE32(|f.text| + 1) + [0, 0] + [0] + f.text
  }

  predicate AllValid(fs: seq<TextFrame>) {
    forall i :: 0 <= i < |fs| ==> fs[i].Valid()
  }

  /** The frames of a tag, one after another. */
  function TagBody(fs: seq<TextFrame>): (b: seq<byte>)
    requires AllValid(fs)
    ensures |b| >= 11 * |fs|
  {
    if fs == [] then [] else FrameBytes(fs[0]) + TagBody(fs[1..])
  }

  /** The 10-byte ID3v2.3.0 tag header for a body of `n` bytes. */
  function TagHeader(n: nat): (b: seq<byte>)
    requires n < 0x1000_0000
    ensures |b| == HEADER_SIZE
  {
    Ascii("ID3") + [3, 0, 0] + Synchsafe(n)
  }

  /** The map after storing the frames in order. */
  function PutAll(m: TagMap, fs: seq<TextFrame>): (r: TagMap)
    ensures Sorted(m) ==> Sorted(r)
    decreases |fs|
  {
    if fs == [] then m else PutAll(Put(m, fs[0].id, Shown(fs[0].text)), fs[1..])
  }

  /** The value of the last frame with id `x`, if any: a later frame with
      the same id replaces an earlier one. */
  function LastText(fs: seq<TextFrame>, x: string): (r: Option<string>)
    ensures r.Some? <==> exists i :: 0 <= i < |fs| && fs[i].id == x
    decreases |fs|
  {
    if fs == [] then None
    else
      var later := LastText(fs[1..], x);
      assert forall i :: 0 < i < |fs| ==> fs[i] == fs[1..][i - 1];
      if later.Some? then later
      else if fs[0].id == x then Some(Shown(fs[0].text))
      else None
  }

  /** Storing frames in order leaves each id with the value of its last frame,
      and every other id as it was. */
  lemma {:induction false} PutAllLookup(m: TagMap, fs: seq<TextFrame>, x: string)
    ensures Lookup(PutAll(m, fs), x) == if LastText(fs, x).Some? then LastText(fs, x) else Lookup(m, x)
    decreases |fs|
  {
    if fs != [] {
      PutAllLookup(Put(m, fs[0].id, Shown(fs[0].text)), fs[1..], x);
    }
  }

  lemma CharsOfAscii(s: string)
    requires forall i :: 0 <= i < |s| ==> s[i] as int < 0x100
    ensures Chars(Ascii(s)) == s
  {
  }

  /** The frame sizes a reader decodes correctly: all of them with the
      standard's arithmetic, those under 128 with the code's. */
  predicate SizeFits(a: Arith, f: TextFrame) {
    a.Intended? || |f.text| + 1 < 0x80
  }

  predicate AllFit(a: Arith, fs: seq<TextFrame>) {
    forall i :: 0 <= i < |fs| ==> SizeFits(a, fs[i])
  }

  /** The reader decodes the id and the size of a well-formed frame header. */
  lemma FrameHeaderDecodes(a: Arith, f: TextFrame)
    requires f.Encodable() && SizeFits(a, f)
    ensures FrameBytes(f)[..4] == Ascii(f.id) && Chars(FrameBytes(f)[..4]) == f.id
    ensures FrameSizeBy(a, FrameBytes(f)[4..8]) == |f.text| + 1
    ensures FrameBytes(f)[FRAME_HEADER_SIZE..] == [0] + f.text
  {
    FrameBytesSplit(f);
    CharsOfAscii(f.id);
    FrameSizeRoundTrip(|f.text| + 1);
    if a.AsWritten? {
      BE32Small(|f.text| + 1);
      FrameSizeAgreesBelow(BE32(|f.text| + 1));
    }
  }

  /** The parts of a frame's bytes: id, size, flags, encoding and text. */
  lemma FrameBytesSplit(f: TextFrame)
    requires f.Encodable()
    ensures FrameBytes(f)[..4] == Ascii(f.id)
    ensures FrameBytes(f)[4..8] == BE32(|f.text| + 1)
    ensures FrameBytes(f)[FRAME_HEADER_SIZE..] == [0] + f.text
  {
    var h := Ascii(f.id);
    var z := BE32(|f.text| + 1);
    var tail := [0, 0] + [0] + f.text;
    assert FrameBytes(f) == h + z + tail;
    ConcatSlices(h + z, tail);
    ConcatSlices(h, z);
  }

  lemma ConcatSlices(x: seq<byte>, y: seq<byte>)
    ensures (x + y)[..|x|] == x && (x + y)[|x|..] == y
  {
  }

  /** A size under 128 is one low byte after three zero bytes. */
  lemma BE32Small(n: nat)
    requires n < 0x80
    ensures BE32(n) == [0, 0, 0, n]
  {
  }

  /** The header of a well-formed text frame, held in the loop's struct, names a
      frame the reader stores. */
  lemma KeptTextHeader(a: Arith, frame: seq<byte>, f: TextFrame)
    requires f.Valid() && SizeFits(a, f) && frame == FrameBytes(f)[..FRAME_HEADER_SIZE]
    ensures FrameSizeBy(a, frame[4..8]) == |f.text| + 1 && Chars(frame[..4]) == f.id
    ensures Kept(Chars(frame[..4]), FrameSizeBy(a, frame[4..8]))
  {
    FrameHeaderDecodes(a, f);
    assert frame[..4] == FrameBytes(f)[..4] && frame[4..8] == FrameBytes(f)[4..8];
  }

  /** The encoding byte and then the text are read in full. */
  lemma ReadsEncodedText(file: File, text: seq<byte>, tail: seq<byte>)
    requires file.rest == [0] + text + tail
    ensures Read(file, 1) == ([0], File(text + tail))
    ensures Read(File(text + tail), |text|) == (text, File(tail))
  {
    AppendAssoc([0], text, tail);
    ReadPrefix(file, [0], text + tail, 1);
    ReadPrefix(File(text + tail), text, tail, |text|);
  }

  /** The rest of an iteration over a text frame with encoding 0: a frame whose
      header names a listed id and a size one more than the text after the
      encoding byte is stored with that text and counted in full, to `count`. */
  lemma FrameBodyReadsText(a: Arith, s: Scan, id: string, text: seq<byte>, tail: seq<byte>, count: nat,
                           utf16: seq<byte> -> string)
    requires s.Valid() && id == Chars(s.frame[..4]) && |text| + 1 == FrameSizeBy(a, s.frame[4..8])
    requires Kept(id, |text| + 1) && |text| <= PTRDIFF_MAX
    requires s.file.rest == [0] + text + tail
    requires count == s.bitscount + 1 + |text| < TWO_64
    ensures FrameBody(a, s, utf16) == Ok(Scan(File(tail), count, s.frame, Put(s.tags, id, Shown(text))))
  {
    FrameBodyIsKept(a, s, id, |text| + 1, utf16);
    KeptBodyReadsText(s, id, text, tail, count, utf16);
  }

  /** A listed frame is handled by `KeptBody`. */
  lemma FrameBodyIsKept(a: Arith, s: Scan, id: string, size: nat, utf16: seq<byte> -> string)
    requires s.Valid() && id == Chars(s.frame[..4]) && size == FrameSizeBy(a, s.frame[4..8]) && Kept(id, size)
    ensures FrameBody(a, s, utf16) == KeptBody(s, id, size, utf16)
  {
  }

  /** A listed frame of encoding 0 whose text is present is stored and counted. */
  lemma KeptBodyReadsText(s: Scan, id: string, text: seq<byte>, tail: seq<byte>, count: nat, utf16: seq<byte> -> string)
    requires s.Valid() && Kept(id, |text| + 1) && |text| <= PTRDIFF_MAX
    requires s.file.rest == [0] + text + tail
    requires count == s.bitscount + 1 + |text| < TWO_64
    ensures KeptBody(s, id, |text| + 1, utf16) == Ok(Scan(File(tail), count, s.frame, Put(s.tags, id, Shown(text))))
  {
    ReadsEncodedText(s.file, text, tail);
    AppendAssoc([0], text, tail);
    assert s.file.rest[0] == 0;
    assert U64(s.bitscount + 1) == s.bitscount + 1;
    assert U64(U64(s.bitscount + 1) + |text|) == count;
    assert Filled(|text|, text) == text;
    KeptBodyEncodingZero(s, id, |text| + 1, File(text + tail), text, File(tail), count, utf16);
  }

  /** The encoding-0 branch of `KeptBody` once both reads are known. */
  lemma KeptBodyEncodingZero(s: Scan, id: string, size: nat, f2: File, text: seq<byte>, f3: File,
                             count: nat, utf16: seq<byte> -> string)
    requires s.Valid() && Kept(id, size) && size - 1 <= PTRDIFF_MAX
    requires Read(s.file, 1) == ([0], f2) && Read(f2, size - 1) == (text, f3)
    requires count == U64(U64(s.bitscount + 1) + |text|)
    ensures KeptBody(s, id, size, utf16) == Ok(s.(file := f3, bitscount := count, tags := Put(s.tags, id, Shown(Filled(size - 1, text)))))
  {
    assert EncodingOf(s.file) == 0;
    assert !ResizeThrows(size - 1, 1);
  }

  /** A frame header that can be read in full. */
  lemma ReadsHeader(s: Scan, h: seq<byte>, rest: seq<byte>)
    requires s.Valid() && |h| == FRAME_HEADER_SIZE && s.file.rest == h + rest
    requires s.bitscount + FRAME_HEADER_SIZE < TWO_64
    ensures ReadHeader(s) == Scan(File(rest), s.bitscount + FRAME_HEADER_SIZE, h, s.tags)
  {
    ReadPrefix(s.file, h, rest, FRAME_HEADER_SIZE);
  }

  /** The frame-header read of an iteration over a well-formed text frame takes
      the frame's first ten bytes and leaves the encoding byte and the text. */
  lemma ReadsFrameHeader(s: Scan, f: TextFrame, tail: seq<byte>)
    requires s.Valid() && f.Encodable() && s.file.rest == FrameBytes(f) + tail
    requires s.bitscount + |FrameBytes(f)| < TWO_64
    ensures ReadHeader(s) == Scan(File([0] + f.text + tail), s.bitscount + FRAME_HEADER_SIZE,
                                  FrameBytes(f)[..FRAME_HEADER_SIZE], s.tags)
  {
    var b := FrameBytes(f);
    FrameBytesSplit(f);
    var h := b[..FRAME_HEADER_SIZE];
    assert b == h + ([0] + f.text);
    AppendAssoc(h, [0] + f.text, tail);
    ReadsHeader(s, h, [0] + f.text + tail);
  }

  /** One iteration over a well-formed text frame stores it and counts all its bytes. */
  lemma StepReadsTextFrame(a: Arith, s: Scan, f: TextFrame, tail: seq<byte>, count: nat, utf16: seq<byte> -> string)
    requires s.Valid() && f.Valid() && SizeFits(a, f) && s.file.rest == FrameBytes(f) + tail
    requires count == s.bitscount + |FrameBytes(f)| < TWO_64
    ensures Step(a, s, utf16) == Ok(Scan(File(tail), count, FrameBytes(f)[..FRAME_HEADER_SIZE], Put(s.tags, f.id, Shown(f.text))))
  {
    var b := FrameBytes(f);
    var h := b[..FRAME_HEADER_SIZE];
    assert s.file.rest == h + ([0] + f.text + tail) by {
      FrameBytesSplit(f);
      assert b == h + ([0] + f.text);
      AppendAssoc(h, [0] + f.text, tail);
    }
    assert Chars(h[..4]) == f.id && FrameSizeBy(a, h[4..8]) == |f.text| + 1 && Kept(f.id, |f.text| + 1) by {
      KeptTextHeader(a, h, f);
    }
    assert |b| == FRAME_HEADER_SIZE + 1 + |f.text| by {
      FrameBytesSplit(f);
    }
    StepReadsFrame(a, s, h, f.id, f.text, tail, count, utf16);
  }

  /** One iteration over a frame header naming a listed id and a size one more
      than the text after the encoding byte 0: the text is stored and all the
      frame's bytes are counted. */
  lemma StepReadsFrame(a: Arith, s: Scan, h: seq<byte>, id: string, text: seq<byte>, tail: seq<byte>, count: nat,
                       utf16: seq<byte> -> string)
    requires s.Valid() && |h| == FRAME_HEADER_SIZE && s.file.rest == h + ([0] + text + tail)
    requires id == Chars(h[..4]) && |text| + 1 == FrameSizeBy(a, h[4..8])
    requires Kept(id, |text| + 1) && |text| <= PTRDIFF_MAX
    requires count == s.bitscount + FRAME_HEADER_SIZE + 1 + |text| < TWO_64
    ensures Step(a, s, utf16) == Ok(Scan(File(tail), count, h, Put(s.tags, id, Shown(text))))
  {
    var s1 := Scan(File([0] + text + tail), s.bitscount + FRAME_HEADER_SIZE, h, s.tags);
    var t := Scan(File(tail), count, h, Put(s.tags, id, Shown(text)));
    ReadsHeader(s, h, [0] + text + tail);
    FrameBodyReadsText(a, s1, id, text, tail, count, utf16);
    StepAfterHeader(a, s, s1, t, utf16);
  }

  /** An iteration is the frame-header read followed by the rest. */
  lemma StepAfterHeader(a: Arith, s: Scan, s1: Scan, t: Scan, utf16: seq<byte> -> string)
    requires s.Valid() && ReadHeader(s) == s1 && FrameBody(a, s1, utf16) == Ok(t)
    ensures Step(a, s, utf16) == Ok(t)
  {
  }

  /** The loop reads a run of well-formed text frames that ends within the
      loop bound's slack: past the bound, but by less than one frame. */
  lemma {:induction false} LoopReadsTextFrames(a: Arith, s: Scan, fs: seq<TextFrame>, tail: seq<byte>, bound: nat, fuel: nat, utf16: seq<byte> -> string)
    requires s.Valid() && AllValid(fs) && AllFit(a, fs) && s.file.rest == TagBody(fs) + tail
    requires bound <= s.bitscount + |TagBody(fs)| < bound + FRAME_HEADER_SIZE + 1
    requires s.bitscount + |TagBody(fs)| < TWO_64
    requires fuel >= |fs|
    ensures Loop(a, s, bound, fuel, utf16).Some? && Loop(a, s, bound, fuel, utf16).value.Ok?
    ensures Loop(a, s, bound, fuel, utf16).value.value.tags == PutAll(s.tags, fs)
    ensures Loop(a, s, bound, fuel, utf16).value.value.file == File(tail)
    decreases |fs|
  {
    if fs == [] {
      assert Loop(a, s, bound, fuel, utf16) == Some(Ok(s)) && s.file == File(tail);
    } else {
      StepReadsFirst(a, s, fs, tail, utf16);
      var t, more, left := Step(a, s, utf16).value, fs[1..], Spend(fuel);
      LoopIterates(a, s, t, bound, fuel, left, utf16);
      assert PutAll(s.tags, fs) == PutAll(t.tags, more);
      LoopReadsTextFrames(a, t, more, tail, bound, left, utf16);
    }
  }

  /** Below the bound and with fuel left, the loop runs one iteration and
      goes on from the state it reached with one unit of fuel less. */
  lemma LoopIterates(a: Arith, s: Scan, t: Scan, bound: nat, fuel: nat, left: nat, utf16: seq<byte> -> string)
    requires s.Valid() && s.bitscount < bound && fuel > 0
    requires Step(a, s, utf16) == Ok(t) && left == Spend(fuel)
    ensures t.Valid() && Loop(a, s, bound, fuel, utf16) == Loop(a, t, bound, left, utf16)
  {
  }

  /** One iteration over the first frame of a run leaves the rest of the run. */
  lemma StepReadsFirst(a: Arith, s: Scan, fs: seq<TextFrame>, tail: seq<byte>, utf16: seq<byte> -> string)
    requires s.Valid() && AllValid(fs) && AllFit(a, fs) && fs != [] && s.file.rest == TagBody(fs) + tail
    requires s.bitscount + |TagBody(fs)| < TWO_64
    ensures AllValid(fs[1..]) && AllFit(a, fs[1..]) && |TagBody(fs)| == |FrameBytes(fs[0])| + |TagBody(fs[1..])|
    ensures Step(a, s, utf16).Ok? && Step(a, s, utf16).value.file.rest == TagBody(fs[1..]) + tail
    ensures Step(a, s, utf16).value.bitscount == s.bitscount + |FrameBytes(fs[0])|
    ensures Step(a, s, utf16).value.tags == Put(s.tags, fs[0].id, Shown(fs[0].text))
  {
    var f := fs[0];
    FramesTail(a, fs);
    assert TagBody(fs) == FrameBytes(f) + TagBody(fs[1..]);
    AppendAssoc(FrameBytes(f), TagBody(fs[1..]), tail);
    StepReadsTextFrame(a, s, f, TagBody(fs[1..]) + tail, s.bitscount + |FrameBytes(f)|, utf16);
  }

  /** The frames after the first of a well-formed run are well-formed. */
  lemma FramesTail(a: Arith, fs: seq<TextFrame>)
    requires AllValid(fs) && AllFit(a, fs) && fs != []
    ensures AllValid(fs[1..]) && AllFit(a, fs[1..])
  {
    assert forall i :: 0 <= i < |fs| - 1 ==> fs[1..][i] == fs[i + 1];
  }

  /** Every frame of a body under 128 bytes has a size under 128. */
  lemma {:induction false} SmallBodyFits(fs: seq<TextFrame>)
    requires AllValid(fs) && |TagBody(fs)| < 0x80
    ensures AllFit(AsWritten, fs)
    decreases |fs|
  {
    if fs != [] {
      assert AllValid(fs[1..]) by {
        assert forall i :: 0 <= i < |fs| - 1 ==> fs[1..][i] == fs[i + 1];
      }
      assert TagBody(fs) == FrameBytes(fs[0]) + TagBody(fs[1..]);
      SmallBodyFits(fs[1..]);
      assert forall i :: 1 <= i < |fs| ==> fs[i] == fs[1..][i - 1];
    }
  }

  /** The tags a reader decodes correctly: all of them with the standard's
      arithmetic, those whose body is under 128 bytes with the code's. */
  predicate TagFits(a: Arith, fs: seq<TextFrame>)
    requires AllValid(fs)
  {
    |TagBody(fs)| < 0x1000_0000 && (a.Intended? || |TagBody(fs)| < 0x80)
  }

  /** A reader recovers every frame of a well-formed ID3v2.3.0 tag of text
      frames whose sizes it decodes correctly, whatever follows the tag. */
  lemma ParseReadsTag(a: Arith, fs: seq<TextFrame>, rest: seq<byte>, junk: seq<byte>, fuel: nat, utf16: seq<byte> -> string)
    requires fs != [] && AllValid(fs) && TagFits(a, fs)
    requires |junk| == HEADER_SIZE + FRAME_HEADER_SIZE && fuel >= |fs|
    ensures ParseBy(a, TagHeader(|TagBody(fs)|) + TagBody(fs) + rest, junk, fuel, utf16) == Some(Ok(PutAll([], fs)))
  {
    var body := TagBody(fs);
    var n := |body|;
    assert body == FrameBytes(fs[0]) + TagBody(fs[1..]);
    if a.AsWritten? {
      SmallBodyFits(fs);
    } else {
      assert AllFit(a, fs);
    }
    var bound := U64(TagSizeBy(a, Synchsafe(n)) - HEADER_SIZE);
    TagBound(a, n);
    var s0 := Scan(File(body + rest), 0, junk[HEADER_SIZE..], []);
    LoopReadsTextFrames(a, s0, fs, rest, bound, fuel, utf16);
    var r := Loop(a, s0, bound, fuel, utf16);
    assert r.Some? && r.value.Ok? && r.value.value.tags == PutAll([], fs);
    ParseStartsLoop(a, n, body + rest, junk, fuel, utf16);
    assert ParseBy(a, TagHeader(n) + (body + rest), junk, fuel, utf16) == Some(Ok(PutAll([], fs)));
    AppendAssoc(TagHeader(n), body, rest);
  }

  /** The loop bound a reader decodes from a tag header announcing `n` bytes,
      when it decodes the size correctly. */
  lemma TagBound(a: Arith, n: nat)
    requires HEADER_SIZE <= n < 0x1000_0000 && (a.AsWritten? ==> n < 0x80)
    ensures U64(TagSizeBy(a, Synchsafe(n)) - HEADER_SIZE) == n - HEADER_SIZE
  {
    SynchsafeRoundTrip(n);
    if a.AsWritten? {
      TagSizeAgreesBelow(n);
    }
  }

  /** The reader as written, on a tag whose body is under 128 bytes, and the
      reader with the standard's sizes, on any tag: every id the frames carry
      reads back as the text of its last frame, and no other id is present. */
  lemma ParseRecoversText(fs: seq<TextFrame>, rest: seq<byte>, junk: seq<byte>, fuel: nat, utf16: seq<byte> -> string, x: string)
    requires fs != [] && AllValid(fs) && |TagBody(fs)| < 0x1000_0000
    requires |junk| == HEADER_SIZE + FRAME_HEADER_SIZE && fuel >= |fs|
    ensures ParseIntended(TagHeader(|TagBody(fs)|) + TagBody(fs) + rest, junk, fuel, utf16).Some?
    ensures Lookup(ParseIntended(TagHeader(|TagBody(fs)|) + TagBody(fs) + rest, junk, fuel, utf16).value.value, x) == LastText(fs, x)
    ensures |TagBody(fs)| < 0x80 ==>
              Parse(TagHeader(|TagBody(fs)|) + TagBody(fs) + rest, junk, fuel, utf16) ==
              ParseIntended(TagHeader(|TagBody(fs)|) + TagBody(fs) + rest, junk, fuel, utf16)
  {
    ParseReadsTag(Intended, fs, rest, junk, fuel, utf16);
    if |TagBody(fs)| < 0x80 {
      ParseReadsTag(AsWritten, fs, rest, junk, fuel, utf16);
    }
    PutAllLookup([], fs, x);
  }

  /** The constructor on a tag header announcing `n` body bytes runs the loop
      from the first frame, up to the bound the reader decodes from the header. */
  lemma ParseStartsLoop(a: Arith, n: nat, body: seq<byte>, junk: seq<byte>, fuel: nat, utf16: seq<byte> -> string)
    requires n < 0x1000_0000 && |junk| == HEADER_SIZE + FRAME_HEADER_SIZE
    ensures var bound := U64(TagSizeBy(a, Synchsafe(n)) - HEADER_SIZE);
            var r := Loop(a, Scan(File(body), 0, junk[HEADER_SIZE..], []), bound, fuel, utf16);
            ParseBy(a, TagHeader(n) + body, junk, fuel, utf16) == TagsOf(r)
  {
    var h := TagHeader(n);
    ReadsTagHeader(n, body, junk);
    TagHeaderFields(n);
    ParseByUnfolds(a, h + body, junk, fuel, utf16, h, File(body));
    HeaderBoundOf(a, n);
  }

  /** The bound a reader takes from a tag header is what its size arithmetic
      makes of the synchsafe size. */
  lemma HeaderBoundOf(a: Arith, n: nat)
    requires n < 0x1000_0000
    ensures HeaderBound(a, TagHeader(n)) == U64(TagSizeBy(a, Synchsafe(n)) - HEADER_SIZE)
  {
    TagHeaderFields(n);
  }

  /** The constructor on data whose 10-byte read, over the junk, shows the magic:
      the frame loop from the rest of the file. */
  lemma ParseByUnfolds(a: Arith, data: seq<byte>, junk: seq<byte>, fuel: nat, utf16: seq<byte> -> string,
                       header: seq<byte>, f: File)
    requires |junk| == HEADER_SIZE + FRAME_HEADER_SIZE
    requires Read(File(data), HEADER_SIZE) == (header, f) && Overlay(junk[..HEADER_SIZE], header) == header
    requires |header| == HEADER_SIZE && Chars(header[..3]) == "ID3"
    ensures ParseBy(a, data, junk, fuel, utf16) ==
            TagsOf(Loop(a, Scan(f, 0, junk[HEADER_SIZE..], []), HeaderBound(a, header), fuel, utf16))
  {
  }

  /** The 10-byte header read of the constructor takes the tag header in full. */
  lemma ReadsTagHeader(n: nat, body: seq<byte>, junk: seq<byte>)
    requires n < 0x1000_0000 && |junk| == HEADER_SIZE + FRAME_HEADER_SIZE
    ensures Read(File(TagHeader(n) + body), HEADER_SIZE) == (TagHeader(n), File(body))
    ensures Overlay(junk[..HEADER_SIZE], TagHeader(n)) == TagHeader(n)
  {
    ReadPrefix(File(TagHeader(n) + body), TagHeader(n), body, HEADER_SIZE);
  }

  /** The tag header carries the magic and the synchsafe size. */
  lemma TagHeaderFields(n: nat)
    requires n < 0x1000_0000
    ensures Chars(TagHeader(n)[..3]) == "ID3" && TagHeader(n)[6..10] == Synchsafe(n)
  {
    assert TagHeader(n)[..3] == Ascii("ID3");
  }

  /** A 128-byte tag of a 60-byte title frame and a 68-byte artist frame: the
      reader as written decodes a tag size of 64, stops after the title and loses
      the artist, which the standard's sizes recover. */
  lemma ParseAsWrittenDropsFrame(f1: TextFrame, f2: TextFrame, junk: seq<byte>, fuel: nat, utf16: seq<byte> -> string)
    requires f1.Valid() && f2.Valid() && f1.id == TIT2 && f2.id == TPE1 && |f1.text| == 49 && |f2.text| == 57
    requires |junk| == HEADER_SIZE + FRAME_HEADER_SIZE && fuel >= 2
    ensures var data := TagHeader(128) + (FrameBytes(f1) + FrameBytes(f2));
            && Parse(data, junk, fuel, utf16) == Some(Ok([Entry(TIT2, Shown(f1.text))]))
            && ParseIntended(data, junk, fuel, utf16).Some?
            && Lookup(ParseIntended(data, junk, fuel, utf16).value.value, TPE1) == Some(Shown(f2.text))
  {
    AsWrittenStopsAfterFirst(f1, f2, junk, fuel, utf16);
    IntendedReadsBoth(f1, f2, junk, fuel, utf16);
  }

  /** Such frames exist: the ids are stored ones. */
  lemma TitleArtistStored()
    ensures TextFrame(TIT2, seq(49, _ => 0x41)).Valid() && TextFrame(TPE1, seq(57, _ => 0x42)).Valid()
  {
    TitleArtistListed();
    SampleEncodable('T', 'I', 'T', '2', seq(49, _ => 0x41));
    SampleEncodable('T', 'P', 'E', '1', seq(57, _ => 0x42));
  }

  /** An id of four one-byte characters and a short text make an encodable frame. */
  lemma SampleEncodable(c0: char, c1: char, c2: char, c3: char, text: seq<byte>)
    requires c0 as int < 0x100 && c1 as int < 0x100 && c2 as int < 0x100 && c3 as int < 0x100
    requires |text| < 0x100
    ensures TextFrame([c0, c1, c2, c3], text).Encodable()
  {
  }

  /** The title and artist ids are on the list the reader stores. */
  lemma TitleArtistListed()
    ensures TIT2 in IDS && TPE1 in IDS && TIT2 != APIC && TPE1 != APIC
  {
  }

  /** The other half of the witness: the standard's sizes read both frames. */
  lemma IntendedReadsBoth(f1: TextFrame, f2: TextFrame, junk: seq<byte>, fuel: nat, utf16: seq<byte> -> string)
    requires f1.Valid() && f2.Valid() && |f1.text| == 49 && |f2.text| == 57
    requires |junk| == HEADER_SIZE + FRAME_HEADER_SIZE && fuel >= 2
    ensures var data := TagHeader(128) + (FrameBytes(f1) + FrameBytes(f2));
            && ParseIntended(data, junk, fuel, utf16).Some?
            && Lookup(ParseIntended(data, junk, fuel, utf16).value.value, f2.id) == Some(Shown(f2.text))
  {
    var fs := [f1, f2];
    assert AllValid(fs);
    var body := TagBody(fs);
    assert body == FrameBytes(f1) + FrameBytes(f2) by {
      assert fs[1..] == [f2] && [f2][1..] == [];
      assert TagBody([f2]) == FrameBytes(f2) + TagBody([]);
      assert TagBody(fs) == FrameBytes(f1) + TagBody([f2]);
    }
    ParseRecoversText(fs, [], junk, fuel, utf16, f2.id);
    assert LastText(fs, f2.id) == Some(Shown(f2.text)) by {
      assert fs[1..] == [f2] && [f2][1..] == [];
    }
    assert TagHeader(|body|) + body + [] == TagHeader(128) + (FrameBytes(f1) + FrameBytes(f2));
  }

  /** The loop half of the witness: with the bound 54 the as-written reader
      takes the first frame only. */
  lemma AsWrittenStopsAfterFirst(f1: TextFrame, f2: TextFrame, junk: seq<byte>, fuel: nat, utf16: seq<byte> -> string)
    requires f1.Valid() && f2.Valid() && |f1.text| == 49 && |f2.text| == 57 && f1.id != TPE1
    requires |junk| == HEADER_SIZE + FRAME_HEADER_SIZE && fuel >= 1
    ensures var data := TagHeader(128) + (FrameBytes(f1) + FrameBytes(f2));
            Parse(data, junk, fuel, utf16) == Some(Ok([Entry(f1.id, Shown(f1.text))]))
  {
    var body := FrameBytes(f1) + FrameBytes(f2);
    TagSize128();
    LoopStopsAt54(f1, f2, junk, fuel, utf16);
    ParseStartsLoop(AsWritten, 128, body, junk, fuel, utf16);
    OneFrameTags(f1);
  }

  /** With a bound of 54 the loop reads the 60-byte first frame and stops. */
  lemma LoopStopsAt54(f1: TextFrame, f2: TextFrame, junk: seq<byte>, fuel: nat, utf16: seq<byte> -> string)
    requires f1.Valid() && f2.Valid() && |f1.text| == 49
    requires |junk| == HEADER_SIZE + FRAME_HEADER_SIZE && fuel >= 1
    ensures var r := Loop(AsWritten, Scan(File(FrameBytes(f1) + FrameBytes(f2)), 0, junk[HEADER_SIZE..], []), 54, fuel, utf16);
            r.Some? && r.value.Ok? && r.value.value.tags == PutAll([], [f1])
  {
    var s := Scan(File(FrameBytes(f1) + FrameBytes(f2)), 0, junk[HEADER_SIZE..], []);
    OneFrameBody(AsWritten, f1);
    LoopReadsTextFrames(AsWritten, s, [f1], FrameBytes(f2), 54, fuel, utf16);
  }

  /** A run of one frame is that frame's bytes. */
  lemma OneFrameBody(a: Arith, f: TextFrame)
    requires f.Valid() && SizeFits(a, f)
    ensures AllValid([f]) && AllFit(a, [f]) && TagBody([f]) == FrameBytes(f)
  {
    assert TagBody([f]) == FrameBytes(f) + TagBody([]);
  }

  /** A tag of one frame holds that frame's text and no other id. */
  lemma OneFrameTags(f: TextFrame)
    requires f.Valid()
    ensures PutAll([], [f]) == [Entry(f.id, Shown(f.text))]
    ensures forall x :: x != f.id ==> Lookup(PutAll([], [f]), x).None?
  {
  }

  /** A body of 128 bytes: the reader as written decodes 64 from its size field. */
  lemma TagSize128()
    ensures Synchsafe(128) == [0, 0, 1, 0]
    ensures TagSizeAsWritten(Synchsafe(128)) == 64 && SynchsafeSize(Synchsafe(128)) == 128
    ensures U64(TagSizeBy(AsWritten, Synchsafe(128)) - HEADER_SIZE) == 54
  {
  }

  // ---------------------------------------------------------------------------
  // A listed frame of 128 to 255 bytes: the written size is negative
  // ---------------------------------------------------------------------------

  /** A frame size of 128 to 255 has a single low byte, which the reader as
      written takes as a negative `char`: the size wraps past `PTRDIFF_MAX`. */
  lemma FrameSizeAsWrittenNegative(n: nat)
    requires 0x80 <= n < 0x100
    ensures BE32(n) == [0, 0, 0, n] && FrameSize(BE32(n)) == n
    ensures FrameSizeAsWritten(BE32(n)) == TWO_64 - 0x100 + n
    ensures FrameSizeAsWritten(BE32(n)) > PTRDIFF_MAX + 1
  {
    assert SignedChar(n) == n - 0x100;
    assert I32(n - 0x100) == n - 0x100;
  }

  /** An iteration over a listed text frame of 128 to 255 bytes: as written the
      text buffer's `resize` throws; with the standard's sizes the frame is
      stored and the counter reaches `count`. */
  lemma StepThrowsOnLongFrame(s: Scan, f: TextFrame, tail: seq<byte>, count: nat, utf16: seq<byte> -> string)
    requires s.Valid() && f.Valid() && 0x7f <= |f.text| < 0xff && s.file.rest == FrameBytes(f) + tail
    requires count == s.bitscount + |FrameBytes(f)| < TWO_64
    ensures Step(AsWritten, s, utf16) == Err(LengthError)
    ensures Step(Intended, s, utf16) == Ok(Scan(File(tail), count, FrameBytes(f)[..FRAME_HEADER_SIZE], Put(s.tags, f.id, Shown(f.text))))
  {
    StepAsWrittenThrows(s, f, tail, utf16);
    StepReadsTextFrame(Intended, s, f, tail, count, utf16);
  }

  /** The half of `StepThrowsOnLongFrame` about the reader as written. */
  lemma StepAsWrittenThrows(s: Scan, f: TextFrame, tail: seq<byte>, utf16: seq<byte> -> string)
    requires s.Valid() && f.Valid() && 0x7f <= |f.text| < 0xff && s.file.rest == FrameBytes(f) + tail
    requires s.bitscount + |FrameBytes(f)| < TWO_64
    ensures Step(AsWritten, s, utf16) == Err(LengthError)
  {
    var h := FrameBytes(f)[..FRAME_HEADER_SIZE];
    var s1 := Scan(File([0] + f.text + tail), s.bitscount + FRAME_HEADER_SIZE, h, s.tags);
    ReadsFrameHeader(s, f, tail);
    LongFrameHeader(f, h);
    assert EncodingOf(s1.file) == 0;
    FrameBodyThrows(AsWritten, s1, utf16);
  }

  /** The header of a listed text frame of 128 to 255 bytes names a frame the
      reader stores, with a size as written beyond `PTRDIFF_MAX + 1`. */
  lemma LongFrameHeader(f: TextFrame, h: seq<byte>)
    requires f.Valid() && 0x7f <= |f.text| < 0xff && h == FrameBytes(f)[..FRAME_HEADER_SIZE]
    ensures Kept(Chars(h[..4]), FrameSizeBy(AsWritten, h[4..8]))
    ensures FrameSizeBy(AsWritten, h[4..8]) > PTRDIFF_MAX + 1
  {
    FrameBytesSplit(f);
    CharsOfAscii(f.id);
    FrameSizeAsWrittenNegative(|f.text| + 1);
    assert h[..4] == Ascii(f.id) && h[4..8] == BE32(|f.text| + 1);
  }

  /** A tag body of 128 bytes or more (below 2^14): the reader as written
      decodes a tag size of at least 64 from its header. */
  lemma TagSizeAsWrittenAtLeast64(n: nat)
    requires 0x80 <= n < 0x4000
    ensures TagSizeAsWritten(Synchsafe(n)) >= 0x40
  {
    assert Synchsafe(n) == [0, 0, n / 0x80, n % 0x80];
  }

  /** A tag holding one listed text frame of 128 to 255 bytes: the constructor
      as written throws `std::length_error`; with the standard's sizes it
      stores the frame's text. */
  lemma ParseThrowsOnLongFrame(f: TextFrame, rest: seq<byte>, junk: seq<byte>, fuel: nat, utf16: seq<byte> -> string)
    requires f.Valid() && 0x7f <= |f.text| < 0xff
    requires |junk| == HEADER_SIZE + FRAME_HEADER_SIZE && fuel >= 1
    ensures Parse(TagHeader(|FrameBytes(f)|) + FrameBytes(f) + rest, junk, fuel, utf16) == Some(Err(LengthError))
    ensures ParseIntended(TagHeader(|FrameBytes(f)|) + FrameBytes(f) + rest, junk, fuel, utf16)
            == Some(Ok([Entry(f.id, Shown(f.text))]))
  {
    var n := |FrameBytes(f)|;
    var body := FrameBytes(f) + rest;
    var s0 := Scan(File(body), 0, junk[HEADER_SIZE..], []);
    var bound := U64(TagSizeBy(AsWritten, Synchsafe(n)) - HEADER_SIZE);
    TagSizeAsWrittenAtLeast64(n);
    StepAsWrittenThrows(s0, f, rest, utf16);
    assert Loop(AsWritten, s0, bound, fuel, utf16) == Some(Err(LengthError));
    ParseStartsLoop(AsWritten, n, body, junk, fuel, utf16);
    AppendAssoc(TagHeader(n), FrameBytes(f), rest);
    OneFrameBody(Intended, f);
    ParseReadsTag(Intended, [f], rest, junk, fuel, utf16);
    OneFrameTags(f);
  }

  /** A tag holding a 128-byte `TIT2` frame (127 text bytes after the
      encoding byte): the constructor as written throws `std::length_error`. */
  lemma LongTitleThrows(junk: seq<byte>, fuel: nat, utf16: seq<byte> -> string)
    requires |junk| == HEADER_SIZE + FRAME_HEADER_SIZE && fuel >= 1
    ensures var f := TextFrame(TIT2, seq(127, _ => 0x41));
            Parse(TagHeader(|FrameBytes(f)|) + FrameBytes(f), junk, fuel, utf16) == Some(Err(LengthError))
  {
    var f := TextFrame(TIT2, seq(127, _ => 0x41));
    TitleArtistListed();
    SampleEncodable('T', 'I', 'T', '2', f.text);
    ParseThrowsOnLongFrame(f, [], junk, fuel, utf16);
    assert TagHeader(|FrameBytes(f)|) + FrameBytes(f) + [] == TagHeader(|FrameBytes(f)|) + FrameBytes(f);
  }
}

=== FILE: timing.dfy ===
/** Conversions between byte counts and milliseconds of `src/audio.hpp`, also used
    inline by `src/decoder.hpp` and `audio.h` for `MusicInfo.time`, and the seek
    target `AudioPos`.

    The formulas measure the stream in 8192-byte blocks: at `bitrate` bits per
    second a block lasts `65536 / (bitrate / 1000)` ms (integer divisions). */
module Timing {
  import opened Bytes
  import opened Wrappers

  /** The bit rates for which both conversions divide by a non-zero value. */
  predicate ValidBitrate(bitrate: int) {
    1000 <= bitrate && bitrate / 1000 <= 65536
  }

  /** Milliseconds per 8192-byte block. */
  function BlockMs(bitrate: int): (q: nat)
    requires ValidBitrate(bitrate)
    ensures 1 <= q <= 65536
  {
    65536 / (bitrate / 1000)
  }

  /** `size_to_time(size, bitrate)`: whole blocks times the block duration, computed
      in `size_t` and returned as `unsigned int`. */
  function SizeToTime(size: nat, bitrate: int): (t: nat)
    requires ValidBitrate(bitrate)
    ensures t < TWO_32
    ensures (size / 8192) * BlockMs(bitrate) < TWO_32 ==> t == (size / 8192) * BlockMs(bitrate)
  {
    U32(U64((size / 8192) * (65536 / (bitrate / 1000))))
  }

  /** `time_to_size(time, bitrate)` as written: `time * 8192` is an `unsigned int`
      product and wraps modulo 2^32 before the division. */
  function TimeToSizeAsWritten(time: nat, bitrate: int): (s: nat)
    requires time < TWO_32 && ValidBitrate(bitrate)
    ensures s < TWO_32
    ensures s * BlockMs(bitrate) <= (time * 8192) % TWO_32 < (s + 1) * BlockMs(bitrate)
  {
    U32(time * 8192) / BlockMs(bitrate)
  }

  /** `time_to_size` as evidently intended: the product computed without wrapping
      (as a `size_t` it cannot overflow for a 32-bit `time`). */
  function TimeToSize(time: nat, bitrate: int): (s: nat)
    requires time < TWO_32 && ValidBitrate(bitrate)
    ensures s * BlockMs(bitrate) <= time * 8192 < (s + 1) * BlockMs(bitrate)
  {
    time * 8192 / BlockMs(bitrate)
  }

  /** Division undoes multiplication by a positive factor. */
  lemma MulDivCancel(x: nat, q: nat)
    requires q > 0
    ensures (x * q) / q == x
  {
    var d := (x * q) / q;
    var m := (x * q) % q;
    assert x * q == d * q + m && 0 <= m < q;
    assert (x - d) * q == m;
    assert x - d >= 1 ==> (x - d) * q >= q;
    assert x - d <= -1 ==> (x - d) * q <= -(q as int);
  }

  /** Converting a byte count to milliseconds and back gives the count rounded
      down to whole blocks, as long as the duration fits in `unsigned int`. */
  lemma TimeSizeRoundTrip(size: nat, bitrate: int)
    requires ValidBitrate(bitrate)
    requires (size / 8192) * BlockMs(bitrate) < TWO_32
    ensures TimeToSize(SizeToTime(size, bitrate), bitrate) == size - size % 8192
  {
    var q := BlockMs(bitrate);
    var blocks := size / 8192;
    assert SizeToTime(size, bitrate) == blocks * q;
    assert (blocks * q) * 8192 == (blocks * 8192) * q;
    MulDivCancel(blocks * 8192, q);
    assert TimeToSize(blocks * q, bitrate) == blocks * 8192;
  }

  /** The as-written conversion agrees with the intended one while `time * 8192`
      fits in 32 bits (up to 524287 ms). */
  lemma TimeToSizeAgreesWhenSmall(time: nat, bitrate: int)
    requires ValidBitrate(bitrate) && time * 8192 < TWO_32
    ensures TimeToSizeAsWritten(time, bitrate) == TimeToSize(time, bitrate)
  {
  }

  /** Ten minutes into a 128 kbit/s stream: the byte offset computed as written is
      1204224 instead of 9592832. */
  lemma TimeToSizeAsWrittenWraps()
    ensures SizeToTime(9600000, 128000) == 599552
    ensures TimeToSize(599552, 128000) == 9592832
    ensures TimeToSizeAsWritten(599552, 128000) == 1204224
  {
    assert BlockMs(128000) == 512;
    assert 9600000 / 8192 == 1171;
    assert SizeToTime(9600000, 128000) == 599552;
    assert 599552 * 8192 == 4911529984;
    assert U32(4911529984) == 616562688;
    assert 616562688 / 512 == 1204224;
    assert 4911529984 / 512 == 9592832;
  }

  /** `AudioPos`: a start position in ms and the bit rate needed to turn it into a
      byte offset; `-1` means the bit rate is not known yet. */
  datatype AudioPos = AudioPos(pos: nat, bitrate: int)
  {
    predicate Valid() {
      pos < TWO_32 && (bitrate == -1 || ValidBitrate(bitrate))
    }
  }

  datatype PosError = BitrateUndefined

  /** `AudioPos(pos)`: the bit rate starts out undefined. */
  function MakeAudioPos(pos: nat): (p: AudioPos)
    requires pos < TWO_32
    ensures p.Valid() && p.pos == pos && p.bitrate == -1
  {
    AudioPos(pos, -1)
  }

  function SetBitrate(p: AudioPos, b: int): (q: AudioPos)
    ensures q.bitrate == b && q.pos == p.pos
  {
    p.(bitrate := b)
  }

  /** `get_bitrate()`: throws while the bit rate is undefined. */
  function GetBitrate(p: AudioPos): (r: Result<int, PosError>)
    ensures r.Err? <==> p.bitrate == -1
    ensures r.Ok? ==> r.value == p.bitrate
  {
    if p.bitrate == -1 then Err(BitrateUndefined) else Ok(p.bitrate)
  }

  /** `as_size()`: the byte offset of the position, through the wrapping
      `time_to_size`; throws while the bit rate is undefined. Below 524288 ms the
      offset is the whole number of blocks that fit in `pos * 8192` bytes. */
  function AsSize(p: AudioPos): (r: Result<nat, PosError>)
    requires p.Valid()
    ensures r.Err? <==> p.bitrate == -1
    ensures r.Ok? ==> r.value * BlockMs(p.bitrate) <= (p.pos * 8192) % TWO_32 < (r.value + 1) * BlockMs(p.bitrate)
    ensures r.Ok? && p.pos * 8192 < TWO_32 ==>
              r.value * BlockMs(p.bitrate) <= p.pos * 8192 < (r.value + 1) * BlockMs(p.bitrate)
  {
    if p.bitrate == -1 then Err(BitrateUndefined) else Ok(TimeToSizeAsWritten(p.pos, p.bitrate))
  }
}

=== FILE: url.dfy ===
/** `http.h`: the `Url` parser and serialiser, and the `Response` variant that
    records where a download goes. The percent-encoder `curl_easy_escape` is an
    opaque parameter `esc`; `CurlEscape` is one instance of it (section 2.1 of
    RFC 3986 percent-encoding that keeps the section 2.3 unreserved characters). */
module Url {
  import opened Wrappers
  import opened Bytes
  import opened Decimal
  import MusicBuffer

  // ---------------------------------------------------------------- characters

  /** `isalpha` in the C locale. */
  predicate IsAlpha(c: char) {
    'a' <= c <= 'z' || 'A' <= c <= 'Z'
  }

  /** `isalnum` in the C locale. */
  predicate IsAlnum(c: char) {
    IsAlpha(c) || IsDigit(c)
  }

  predicate NotAlnum(c: char) {
    !IsAlnum(c)
  }

  /** A character that continues a domain label. */
  predicate LabelChar(c: char) {
    c != '.' && c != ':' && c != '/'
  }

  /** A character that continues a path segment. */
  predicate PathChar(c: char) {
    c != '/' && c != '?'
  }

  /** A character that continues a query key. */
  predicate KeyChar(c: char) {
    c != '='
  }

  /** A character that continues a query value. */
  predicate ValueChar(c: char) {
    c != '&'
  }

  /** The unreserved characters of section 2.3 of RFC 3986. */
  predicate Unreserved(c: char) {
    IsAlnum(c) || c == '-' || c == '.' || c == '_' || c == '~'
  }

  predicate AllOf(s: string, p: char -> bool) {
    forall i :: 0 <= i < |s| ==> p(s[i])
  }

  predicate AllUnreserved(s: string) {
    AllOf(s, Unreserved)
  }

  // ---------------------------------------------------------------- scanning

  /** The longest prefix of `s` whose characters all satisfy `keep`, and the rest:
      the `while (check(it) && keep(*it)) it++` loops of `Url::parse`. */
  function Span(s: string, keep: char -> bool): (r: (string, string))
    ensures r.0 + r.1 == s
    ensures AllOf(r.0, keep)
    ensures r.1 != [] ==> !keep(r.1[0])
    decreases |s|
  {
    if s != [] && keep(s[0]) then
      var (a, b) := Span(s[1..], keep);
      assert [s[0]] + a + b == s by {
        AppendAssoc([s[0]], a, b);
        HeadTail(s);
      }
      assert AllOf([s[0]] + a, keep) by {
        assert forall i :: 1 <= i <= |a| ==> ([s[0]] + a)[i] == a[i - 1];
      }
      ([s[0]] + a, b)
    else ([], s)
  }

  /** The split is unique: whatever prefix satisfies `keep` and is followed by a
      character that does not is the one `Span` returns. */
  lemma {:induction false} SpanOf(a: string, b: string, keep: char -> bool)
    requires AllOf(a, keep)
    requires b == [] || !keep(b[0])
    ensures Span(a + b, keep) == (a, b)
    decreases |a|
  {
    if a == [] {
      assert a + b == b;
    } else {
      assert (a + b)[1..] == a[1..] + b;
      SpanOf(a[1..], b, keep);
      assert [a[0]] + a[1..] == a;
    }
  }

  // ---------------------------------------------------------------- parsed form

  /** `ParsedUrl`; a port of -1 means none was given. */
  datatype ParsedUrl = ParsedUrl(
    params: seq<(string, string)>,
    paths: seq<string>,
    domain: seq<string>,
    protocol: string,
    port: int)

  const NO_PORT: int := -1

  /** `ParsedUrl()`: nothing parsed yet. */
  function NewParsedUrl(): (u: ParsedUrl)
    ensures u.params == [] && u.paths == [] && u.domain == [] && u.protocol == []
    ensures u.port == NO_PORT
  {
    ParsedUrl([], [], [], [], NO_PORT)
  }

  /** `add_domain`: escapes one label and appends it. */
  function AddDomain(u: ParsedUrl, v: string, esc: string -> string): (t: ParsedUrl)
    ensures t.domain == u.domain + [esc(v)]
    ensures t == u.(domain := t.domain)
  {
    u.(domain := u.domain + [esc(v)])
  }

  /** `add_path`: escapes one segment and appends it. */
  function AddPath(u: ParsedUrl, v: string, esc: string -> string): (t: ParsedUrl)
    ensures t.paths == u.paths + [esc(v)]
    ensures t == u.(paths := t.paths)
  {
    u.(paths := u.paths + [esc(v)])
  }

  /** `add_param`: escapes the key and the value and appends the pair. */
  function AddParam(u: ParsedUrl, v: (string, string), esc: string -> string): (t: ParsedUrl)
    ensures t.params == u.params + [(esc(v.0), esc(v.1))]
    ensures t == u.(params := t.params)
  {
    u.(params := u.params + [(esc(v.0), esc(v.1))])
  }

  /** The escaped form of every string in `xs`. */
  function Escaped(xs: seq<string>, esc: string -> string): (r: seq<string>)
    ensures |r| == |xs|
    ensures forall i :: 0 <= i < |xs| ==> r[i] == esc(xs[i])
  {
    if xs == [] then [] else [esc(xs[0])] + Escaped(xs[1..], esc)
  }

  /** `Url::add_path(il)`: `add_path` for each element in turn. */
  function AddPaths(u: ParsedUrl, il: seq<string>, esc: string -> string): (t: ParsedUrl)
    decreases |il|
  {
    if il == [] then u else AddPaths(AddPath(u, il[0], esc), il[1..], esc)
  }

  /** The list constructor appends the escaped segments in order and touches
      nothing else. */
  lemma {:induction false} AddPathsAppends(u: ParsedUrl, il: seq<string>, esc: string -> string)
    ensures AddPaths(u, il, esc) == u.(paths := u.paths + Escaped(il, esc))
    decreases |il|
  {
    if il == [] {
      assert u.paths + Escaped(il, esc) == u.paths;
    } else {
      var t, more := AddPath(u, il[0], esc), il[1..];
      var e := Escaped(more, esc);
      AddPathsAppends(t, more, esc);
      assert Escaped(il, esc) == [esc(il[0])] + e;
      AppendAssoc(u.paths, [esc(il[0])], e);
      assert AddPaths(u, il, esc) == AddPaths(t, more, esc);
    }
  }

  /** `Url::add_param(il)`: `add_param` for each pair in turn. */
  function AddParams(u: ParsedUrl, il: seq<(string, string)>, esc: string -> string): (t: ParsedUrl)
    ensures |t.params| == |u.params| + |il| && t.params[..|u.params|] == u.params
    ensures forall i :: 0 <= i < |il| ==> t.params[|u.params| + i] == (esc(il[i].0), esc(il[i].1))
    ensures t == u.(params := t.params)
    decreases |il|
  {
    if il == [] then u
    else
      var t := AddParams(AddParam(u, il[0], esc), il[1..], esc);
      assert forall i :: 1 <= i < |il| ==> il[i] == il[1..][i - 1];
      t
  }

  // ---------------------------------------------------------------- parsing

  /** The `add_to_domain` loop: labels separated by `.`, ending at `/`, `:` or the
      end of the text; each label is escaped as it is stored. */
  function Domain(s: string, esc: string -> string): (r: (seq<string>, string))
    ensures |r.1| <= |s|
    ensures r.1 == [] || r.1[0] == '/' || r.1[0] == ':'
    decreases |s|
  {
    if s == [] || s[0] == '/' || s[0] == ':' then ([], s)
    else
      var t := if s[0] == '.' then s[1..] else s;
      var (piece, rest) := Span(t, LabelChar);
      assert |rest| < |s| by {
        if s[0] != '.' { assert rest != s; }
      }
      var (labels, r) := Domain(rest, esc);
      ([esc(piece)] + labels, r)
  }

  /** The `add_to_paths` loop: segments separated by `/`, ending at `?` or the end
      of the text; each segment is escaped as it is stored. */
  function Paths(s: string, esc: string -> string): (r: (seq<string>, string))
    ensures |r.1| <= |s|
    ensures r.1 == [] || r.1[0] == '?'
    decreases |s|
  {
    if s == [] || s[0] == '?' then ([], s)
    else
      var t := if s[0] == '/' then s[1..] else s;
      var (segment, rest) := Span(t, PathChar);
      assert |rest| < |s| by {
        if s[0] != '/' { assert rest != s; }
      }
      var (segments, r) := Paths(rest, esc);
      ([esc(segment)] + segments, r)
  }

  /** `add_to_params`: a key up to the first `=`, then a value up to the next `&`.
      With no `=` left the whole text is the key (the iterator then steps past the
      end, which `check` treats as the end). At a `&` the pair is empty. */
  function Param(s: string): (r: (string, string, string))
    ensures r.2 == [] || r.2[0] == '&'
    ensures AllOf(r.0, KeyChar)
    ensures AllOf(r.1, ValueChar)
    ensures s == [] || s[0] == '&' ==> r == ([], [], s)
    ensures s != [] && s[0] != '&' ==> s == r.0 + "=" + r.1 + r.2 || (s == r.0 && r.1 == [] && r.2 == [])
  {
    if s == [] || s[0] == '&' then ([], [], s)
    else
      var (key, r1) := Span(s, KeyChar);
      if r1 == [] then
        assert s == key;
        (key, [], [])
      else
        var (value, r2) := Span(r1[1..], ValueChar);
        assert r1 == "=" + (value + r2) by {
          assert r1[0] == '=';
        }
        assert s == key + "=" + value + r2 by {
          AppendAssoc(key, "=", value + r2);
          AppendAssoc(key + "=", value, r2);
        }
        (key, value, r2)
  }

  /** The parameter loop: one pair per `&`-separated piece, escaped. */
  function Params(s: string, esc: string -> string): (r: seq<(string, string)>)
    ensures r == [] <==> s == []
    ensures |r| <= |s|
    decreases |s|
  {
    if s == [] then []
    else
      var t := if s[0] == '&' then s[1..] else s;
      var (key, value, rest) := Param(t);
      assert |rest| < |s|;
      [(esc(key), esc(value))] + Params(rest, esc)
  }

  /** The part of `Url::parse` after the port: the path, then the query after
      the `?` that ends it. */
  function ParsePath(base: ParsedUrl, s: string, esc: string -> string): (r: ParsedUrl)
    ensures r.protocol == base.protocol && r.domain == base.domain && r.port == base.port
    ensures |r.paths| >= |base.paths| && |r.params| >= |base.params|
  {
    if s == [] then base
    else
      var (paths, r4) := Paths(s, esc);
      var withPaths := base.(paths := base.paths + paths);
      if r4 == [] then withPaths
      else withPaths.(params := withPaths.params + Params(r4[1..], esc))
  }

  /** The part of `Url::parse` after the domain. The only failure is `std::stoi`
      throwing on the port text. */
  function ParseTail(base: ParsedUrl, s: string, esc: string -> string): (r: Result<ParsedUrl, StoiError>)
    ensures r.Ok? ==> r.value.protocol == base.protocol && r.value.domain == base.domain
    ensures r.Ok? ==> r.value.port == base.port || 0 <= r.value.port <= INT_MAX
    ensures r.Ok? && (s == [] || s[0] != ':') ==> r.value.port == base.port
    ensures r.Err? ==> s != [] && s[0] == ':'
  {
    if s == [] then Ok(base)
    else if s[0] == ':' then
      var (digits, r3) := Span(s[1..], IsAlnum);
      var p :- Stoi(digits);
      Ok(ParsePath(base.(port := p), r3, esc))
    else Ok(ParsePath(base, s, esc))
  }

  /** `Url::parse`: the protocol is the leading run of letters; the characters
      that are neither letters nor digits after it are skipped; then come the
      domain labels, an optional `:port`, the path and the query. */
  function Parse(u: string, esc: string -> string): (r: Result<ParsedUrl, StoiError>)
    ensures r.Ok? ==> r.value.protocol <= u && AllOf(r.value.protocol, IsAlpha)
    ensures r.Ok? ==> |r.value.protocol| == |u| || !IsAlpha(u[|r.value.protocol|])
    ensures r.Ok? ==> r.value.port == NO_PORT || 0 <= r.value.port <= INT_MAX
  {
    var (protocol, r0) := Span(u, IsAlpha);
    var r1 := Span(r0, NotAlnum).1;
    var (domain, r2) := Domain(r1, esc);
    ParseTail(NewParsedUrl().(protocol := protocol, domain := domain), r2, esc)
  }

  // ---------------------------------------------------------------- serialising

  /** Each string followed by `sep`: the `*ret += r; *ret += sep;` loops. */
  function Trail(xs: seq<string>, sep: char): (r: string)
    decreases |xs|
  {
    if xs == [] then [] else xs[0] + [sep] + Trail(xs[1..], sep)
  }

  /** Each string preceded by `sep`. */
  function Prefixed(xs: seq<string>, sep: char): (r: string)
    decreases |xs|
  {
    if xs == [] then [] else [sep] + xs[0] + Prefixed(xs[1..], sep)
  }

  /** The strings joined by `sep`: the reference for what `total()` emits. */
  function Join(xs: seq<string>, sep: char): (r: string)
  {
    if xs == [] then [] else xs[0] + Prefixed(xs[1..], sep)
  }

  /** `std::string::pop_back`. */
  function PopBack(s: string): (r: string)
    requires s != []
    ensures r + [s[|s| - 1]] == s
  {
    s[..|s| - 1]
  }

  lemma PopBackAppend(a: string, c: char)
    ensures PopBack(a + [c]) == a
  {
    assert (a + [c])[..|a|] == a;
  }

  /** A trailing separator is a join plus one separator. */
  lemma {:induction false} TrailIsJoin(xs: seq<string>, sep: char)
    requires xs != []
    ensures Trail(xs, sep) == Join(xs, sep) + [sep]
    decreases |xs|
  {
    var tail := xs[1..];
    if tail == [] {
      assert Trail(tail, sep) == [] && Prefixed(tail, sep) == [];
    } else {
      TrailIsJoin(tail, sep);
      calc {
        Trail(xs, sep);
        xs[0] + [sep] + (Join(tail, sep) + [sep]);
        { assert Join(tail, sep) == tail[0] + Prefixed(tail[1..], sep); }
        xs[0] + ([sep] + tail[0] + Prefixed(tail[1..], sep)) + [sep];
        xs[0] + Prefixed(tail, sep) + [sep];
      }
    }
  }

  /** A non-empty join behind its separator is the prefixed form. */
  lemma JoinPrefixed(xs: seq<string>, sep: char)
    requires xs != []
    ensures [sep] + Join(xs, sep) == Prefixed(xs, sep)
  {
    AppendAssoc([sep], xs[0], Prefixed(xs[1..], sep));
  }

  /** `std::to_string` of a port. */
  function IntToString(n: int): (r: string)
  {
    if n < 0 then "-" + NatToString(-n) else NatToString(n)
  }

  /** Each pair as `key=value`. */
  function PairTexts(ps: seq<(string, string)>): (r: seq<string>)
    ensures |r| == |ps|
    ensures forall i :: 0 <= i < |ps| ==> r[i] == ps[i].0 + "=" + ps[i].1
  {
    if ps == [] then [] else [ps[0].0 + "=" + ps[0].1] + PairTexts(ps[1..])
  }

  /** `protocol "://"`, each label and a `.`, then one `pop_back`. */
  function Authority(u: ParsedUrl): (r: string)
    ensures u.protocol + ":/" <= r
    ensures u.domain != [] ==> r == u.protocol + "://" + Join(u.domain, '.')
  {
    var whole := u.protocol + "://" + Trail(u.domain, '.');
    assert u.domain != [] ==> PopBack(whole) == u.protocol + "://" + Join(u.domain, '.') by {
      if u.domain != [] {
        TrailIsJoin(u.domain, '.');
        AppendAssoc(u.protocol + "://", Join(u.domain, '.'), ['.']);
        PopBackAppend(u.protocol + "://" + Join(u.domain, '.'), '.');
      }
    }
    PopBack(whole)
  }

  /** `"/"`, each segment and a `/`, then one `pop_back`, when there are segments. */
  function WithPaths(s: string, paths: seq<string>): (r: string)
    ensures s <= r
    ensures paths != [] ==> s + "/" <= r
  {
    if paths != [] then PopBack(s + "/" + Trail(paths, '/')) else s
  }

  /** `"?"`, each `key=value` and a `&`, then one `pop_back`, when there are pairs. */
  function WithQuery(s: string, params: seq<(string, string)>): (r: string)
    ensures s <= r
    ensures params != [] ==> s + "?" <= r
  {
    if params != [] then PopBack(s + "?" + Trail(PairTexts(params), '&')) else s
  }

  /** `Url::total()`. Every separator loop leaves one separator too many, and a
      `pop_back` removes the last character; with no domain label that is the
      `/` of `://`. */
  function Total(u: ParsedUrl): (r: string)
    ensures u.protocol + ":/" <= r
    ensures u.domain != [] ==> u.protocol + "://" + Join(u.domain, '.') <= r
  {
    WithQuery(WithPaths(Authority(u) + PortText(u), u.paths), u.params)
  }

  /** `Url::get()`. */
  function Get(u: ParsedUrl): (r: string)
  {
    Total(u)
  }

  /** The `:port` part of the serialised form. */
  function PortText(u: ParsedUrl): (r: string)
  {
    if u.port != NO_PORT then ":" + IntToString(u.port) else []
  }

  /** The `?k=v&...` part of the serialised form. */
  function QueryText(u: ParsedUrl): (r: string)
  {
    if u.params != [] then "?" + Join(PairTexts(u.params), '&') else []
  }

  /** What follows the authority: the port, the `/`-prefixed segments, the query. */
  function TailText(u: ParsedUrl): (r: string)
  {
    PortText(u) + Prefixed(u.paths, '/') + QueryText(u)
  }

  lemma AuthorityShape(u: ParsedUrl)
    ensures u.domain != [] ==> Authority(u) == u.protocol + "://" + Join(u.domain, '.')
    ensures u.domain == [] ==> Authority(u) == u.protocol + ":/"
  {
    if u.domain != [] {
      TrailIsJoin(u.domain, '.');
      PopBackAppend(u.protocol + "://" + Join(u.domain, '.'), '.');
    } else {
      assert u.protocol + "://" + Trail(u.domain, '.') == (u.protocol + ":/") + ['/'];
      PopBackAppend(u.protocol + ":/", '/');
    }
  }

  lemma WithPathsShape(s: string, paths: seq<string>)
    ensures WithPaths(s, paths) == s + Prefixed(paths, '/')
  {
    if paths != [] {
      var j := Join(paths, '/');
      TrailIsJoin(paths, '/');
      AppendAssoc(s + "/", j, ['/']);
      PopBackAppend((s + "/") + j, '/');
      AppendAssoc(s, "/", j);
      JoinPrefixed(paths, '/');
    }
  }

  lemma WithQueryShape(s: string, params: seq<(string, string)>)
    ensures WithQuery(s, params) == s + (if params != [] then "?" + Join(PairTexts(params), '&') else [])
  {
    if params != [] {
      var j := Join(PairTexts(params), '&');
      TrailIsJoin(PairTexts(params), '&');
      assert s + "?" + Trail(PairTexts(params), '&') == (s + ("?" + j)) + ['&'];
      PopBackAppend(s + ("?" + j), '&');
    }
  }

  /** `total()` in terms of joins: the labels are joined by `.` after `://`, and
      with no label the `/` of `://` is lost. */
  lemma TotalShape(u: ParsedUrl)
    ensures u.domain != [] ==> Total(u) == u.protocol + "://" + Join(u.domain, '.') + TailText(u)
    ensures u.domain == [] ==> Total(u) == u.protocol + ":/" + TailText(u)
  {
    var a := Authority(u);
    AuthorityShape(u);
    var b := a + PortText(u);
    WithPathsShape(b, u.paths);
    var c := b + Prefixed(u.paths, '/');
    WithQueryShape(c, u.params);
    assert Total(u) == c + QueryText(u);
    AppendAssoc(a, PortText(u), Prefixed(u.paths, '/'));
    AppendAssoc(a, PortText(u) + Prefixed(u.paths, '/'), QueryText(u));
  }

  // ---------------------------------------------------------------- round trip

  /** `esc` leaves text made of unreserved characters alone, as
      `curl_easy_escape` does. */
  ghost predicate KeepsUnreserved(esc: string -> string) {
    forall x :: AllUnreserved(x) ==> esc(x) == x
  }

  predicate Labels(xs: seq<string>) {
    forall i :: 0 <= i < |xs| ==> AllUnreserved(xs[i]) && AllOf(xs[i], LabelChar)
  }

  predicate Segments(xs: seq<string>) {
    forall i :: 0 <= i < |xs| ==> AllUnreserved(xs[i])
  }

  predicate Pairs(ps: seq<(string, string)>) {
    forall i :: 0 <= i < |ps| ==> AllUnreserved(ps[i].0) && AllUnreserved(ps[i].1)
  }

  /** A URL of the form `p://a.b[:port][/x/y][?k=v&...]` whose pieces are
      unreserved characters: a letter-only protocol, a first label that starts with
      a letter or digit, labels without `.`, a port `std::stoi` can read back, and a
      query only behind a port or a path (otherwise the domain loop, which does not
      stop at `?`, swallows it). */
  predicate WellFormed(u: ParsedUrl) {
    && AllOf(u.protocol, IsAlpha)
    && u.domain != [] && u.domain[0] != [] && IsAlnum(u.domain[0][0])
    && Labels(u.domain)
    && (u.port == NO_PORT || 0 <= u.port <= INT_MAX)
    && Segments(u.paths)
    && Pairs(u.params)
    && (u.params != [] ==> u.paths != [] || u.port != NO_PORT)
  }

  lemma UnreservedChars(x: string, i: nat)
    requires AllUnreserved(x) && i < |x|
    ensures x[i] != ':' && x[i] != '/' && x[i] != '?' && x[i] != '=' && x[i] != '&'
  {
    assert Unreserved(x[i]);
  }

  /** The first piece of a prefixed join, with what follows it. */
  lemma PrefixedCons(xs: seq<string>, sep: char, r: string)
    requires xs != []
    ensures Prefixed(xs, sep) + r == [sep] + (xs[0] + (Prefixed(xs[1..], sep) + r))
    ensures Prefixed(xs[1..], sep) + r == [] || (Prefixed(xs[1..], sep) + r)[0] == sep || Prefixed(xs[1..], sep) == []
  {
    AppendAssoc([sep] + xs[0], Prefixed(xs[1..], sep), r);
    AppendAssoc([sep], xs[0], Prefixed(xs[1..], sep) + r);
  }

  /** One turn of the domain loop. */
  lemma DomainStep(s: string, piece: string, rest: string, esc: string -> string)
    requires s != [] && s[0] != '/' && s[0] != ':'
    requires Span(if s[0] == '.' then s[1..] else s, LabelChar) == (piece, rest)
    ensures Domain(s, esc) == ([esc(piece)] + Domain(rest, esc).0, Domain(rest, esc).1)
  {
  }

  /** One turn of the path loop. */
  lemma PathsStep(s: string, segment: string, rest: string, esc: string -> string)
    requires s != [] && s[0] != '?'
    requires Span(if s[0] == '/' then s[1..] else s, PathChar) == (segment, rest)
    ensures Paths(s, esc) == ([esc(segment)] + Paths(rest, esc).0, Paths(rest, esc).1)
  {
  }

  /** Labels behind dots come back from the domain loop. */
  lemma {:induction false} DomainDots(ls: seq<string>, r: string, esc: string -> string)
    requires Labels(ls) && KeepsUnreserved(esc)
    requires r == [] || r[0] == '/' || r[0] == ':'
    ensures Domain(Prefixed(ls, '.') + r, esc) == (ls, r)
    decreases |ls|
  {
    if ls == [] {
      assert Prefixed(ls, '.') + r == r;
    } else {
      var more, first := ls[1..], ls[0];
      var rest := Prefixed(more, '.') + r;
      var s := Prefixed(ls, '.') + r;
      PrefixedCons(ls, '.', r);
      assert s[0] == '.' && s[1..] == first + rest;
      assert Span(first + rest, LabelChar) == (first, rest) by {
        assert AllOf(first, LabelChar);
        SpanOf(first, rest, LabelChar);
      }
      DomainStep(s, first, rest, esc);
      assert Domain(rest, esc) == (more, r) by {
        assert Labels(more);
        DomainDots(more, r, esc);
      }
      assert esc(first) == first;
      HeadTail(ls);
    }
  }

  /** The domain loop reads back the joined labels. */
  lemma DomainJoin(ls: seq<string>, r: string, esc: string -> string)
    requires Labels(ls) && KeepsUnreserved(esc) && ls != [] && ls[0] != []
    requires r == [] || r[0] == '/' || r[0] == ':'
    ensures Domain(Join(ls, '.') + r, esc) == (ls, r)
  {
    var more, first := ls[1..], ls[0];
    var rest := Prefixed(more, '.') + r;
    var s := Join(ls, '.') + r;
    assert s == first + rest by {
      AppendAssoc(first, Prefixed(more, '.'), r);
    }
    assert LabelChar(first[0]);
    assert Span(s, LabelChar) == (first, rest) by {
      PrefixedCons(ls, '.', r);
      SpanOf(first, rest, LabelChar);
    }
    DomainStep(s, first, rest, esc);
    assert Domain(rest, esc) == (more, r) by {
      DomainDots(more, r, esc);
    }
    assert esc(first) == first;
    HeadTail(ls);
  }

  /** Segments behind slashes come back from the path loop. */
  lemma {:induction false} PathsPrefixed(ps: seq<string>, r: string, esc: string -> string)
    requires Segments(ps) && KeepsUnreserved(esc)
    requires r == [] || r[0] == '?'
    ensures Paths(Prefixed(ps, '/') + r, esc) == (ps, r)
    decreases |ps|
  {
    if ps == [] {
      assert Prefixed(ps, '/') + r == r;
    } else {
      var more, first := ps[1..], ps[0];
      var rest := Prefixed(more, '/') + r;
      var s := Prefixed(ps, '/') + r;
      PrefixedCons(ps, '/', r);
      assert s[0] == '/' && s[1..] == first + rest;
      assert Span(first + rest, PathChar) == (first, rest) by {
        assert AllOf(first, PathChar) by {
          forall i | 0 <= i < |first| { UnreservedChars(first, i); }
        }
        SpanOf(first, rest, PathChar);
      }
      PathsStep(s, first, rest, esc);
      assert Paths(rest, esc) == (more, r) by {
        assert Segments(more);
        PathsPrefixed(more, r, esc);
      }
      assert esc(first) == first;
      HeadTail(ps);
    }
  }

  /** One `key=value` comes back from `add_to_params`. */
  lemma ParamOf(k: string, v: string, r: string)
    requires AllUnreserved(k) && AllUnreserved(v)
    requires r == [] || r[0] == '&'
    ensures Param(k + "=" + v + r) == (k, v, r)
  {
    var s := k + "=" + v + r;
    assert forall i :: 0 <= i < |k| ==> KeyChar(k[i]) by {
      forall i | 0 <= i < |k| { UnreservedChars(k, i); }
    }
    assert forall i :: 0 <= i < |v| ==> ValueChar(v[i]) by {
      forall i | 0 <= i < |v| { UnreservedChars(v, i); }
    }
    assert s == k + ("=" + (v + r));
    SpanOf(k, "=" + (v + r), KeyChar);
    assert s != [] && s[0] != '&' by {
      if k != [] { UnreservedChars(k, 0); }
    }
    assert ("=" + (v + r))[1..] == v + r;
    SpanOf(v, r, ValueChar);
  }

  /** One turn of the parameter loop. */
  lemma ParamsStep(s: string, key: string, value: string, rest: string, esc: string -> string)
    requires s != [] && Param(if s[0] == '&' then s[1..] else s) == (key, value, rest)
    ensures Params(s, esc) == [(esc(key), esc(value))] + Params(rest, esc)
  {
  }

  lemma PrefixedHead(xs: seq<string>, sep: char)
    requires xs != []
    ensures Prefixed(xs, sep) == [sep] + (xs[0] + Prefixed(xs[1..], sep))
  {
    AppendAssoc([sep], xs[0], Prefixed(xs[1..], sep));
  }

  /** Pairs behind `&` come back from the parameter loop. */
  lemma {:induction false} ParamsPrefixed(ps: seq<(string, string)>, esc: string -> string)
    requires Pairs(ps) && KeepsUnreserved(esc)
    ensures Params(Prefixed(PairTexts(ps), '&'), esc) == ps
    decreases |ps|
  {
    if ps != [] {
      var more, first := ps[1..], ps[0];
      var texts := PairTexts(ps);
      var rest := Prefixed(PairTexts(more), '&');
      var s := Prefixed(texts, '&');
      assert texts[0] == first.0 + "=" + first.1 && texts[1..] == PairTexts(more);
      assert s == ['&'] + (texts[0] + rest) by {
        PrefixedHead(texts, '&');
      }
      assert Param(s[1..]) == (first.0, first.1, rest) by {
        assert rest == [] || rest[0] == '&';
        ParamOf(first.0, first.1, rest);
      }
      ParamsStep(s, first.0, first.1, rest, esc);
      assert Params(rest, esc) == more by {
        assert Pairs(more);
        ParamsPrefixed(more, esc);
      }
      assert esc(first.0) == first.0 && esc(first.1) == first.1;
      HeadTail(ps);
    }
  }

  /** The query text after `?` comes back from the parameter loop. */
  lemma ParamsJoin(ps: seq<(string, string)>, esc: string -> string)
    requires Pairs(ps) && KeepsUnreserved(esc) && ps != []
    ensures Params(Join(PairTexts(ps), '&'), esc) == ps
  {
    var more, first := ps[1..], ps[0];
    var texts := PairTexts(ps);
    var rest := Prefixed(PairTexts(more), '&');
    var s := Join(texts, '&');
    assert texts[0] == first.0 + "=" + first.1 && texts[1..] == PairTexts(more);
    assert s == texts[0] + rest;
    assert s[0] != '&' by {
      if first.0 != [] { UnreservedChars(first.0, 0); }
    }
    assert Param(s) == (first.0, first.1, rest) by {
      assert rest == [] || rest[0] == '&';
      ParamOf(first.0, first.1, rest);
    }
    ParamsStep(s, first.0, first.1, rest, esc);
    assert Params(rest, esc) == more by {
      assert Pairs(more);
      ParamsPrefixed(more, esc);
    }
    assert esc(first.0) == first.0 && esc(first.1) == first.1;
    HeadTail(ps);
  }

  /** The path and query text come back from the path and parameter loops. */
  lemma ParsePathOf(u: ParsedUrl, esc: string -> string)
    requires Segments(u.paths) && Pairs(u.params) && KeepsUnreserved(esc)
    ensures ParsePath(u.(paths := [], params := []), Prefixed(u.paths, '/') + QueryText(u), esc) == u
  {
    var base := u.(paths := [], params := []);
    var query := QueryText(u);
    var after := Prefixed(u.paths, '/') + query;
    PathsPrefixed(u.paths, query, esc);
    if after == [] {
      assert u.paths == [] && u.params == [];
    } else {
      var withPaths := base.(paths := u.paths);
      assert base.paths + u.paths == u.paths;
      if query == [] {
        assert ParsePath(base, after, esc) == withPaths;
      } else {
        assert query[1..] == Join(PairTexts(u.params), '&');
        ParamsJoin(u.params, esc);
        assert ParsePath(base, after, esc) == withPaths.(params := [] + u.params);
      }
    }
  }

  /** A port numeral followed by the path and query text. */
  lemma ParseTailPort(base: ParsedUrl, p: int, after: string, esc: string -> string)
    requires 0 <= p <= INT_MAX
    requires after == [] || after[0] == '/' || after[0] == '?'
    ensures ParseTail(base, ":" + (NatToString(p) + after), esc) == Ok(ParsePath(base.(port := p), after, esc))
  {
    var digits := NatToString(p);
    var t := ":" + (digits + after);
    assert t[1..] == digits + after;
    SpanOf(digits, after, IsAlnum);
    StoiOfToString(p, []);
    assert digits + [] == digits;
  }

  /** The text after the domain comes back from the rest of the parser. */
  lemma ParseTailOf(u: ParsedUrl, esc: string -> string)
    requires WellFormed(u) && KeepsUnreserved(esc)
    ensures var t := TailText(u);
            && (t == [] || t[0] == '/' || t[0] == ':')
            && ParseTail(NewParsedUrl().(protocol := u.protocol, domain := u.domain), t, esc) == Ok(u)
  {
    var base := NewParsedUrl().(protocol := u.protocol, domain := u.domain);
    var after := Prefixed(u.paths, '/') + QueryText(u);
    var t := TailText(u);
    assert t == PortText(u) + after by {
      AppendAssoc(PortText(u), Prefixed(u.paths, '/'), QueryText(u));
    }
    assert after == [] || after[0] == '/' || after[0] == '?';
    assert ParsePath(u.(paths := [], params := []), after, esc) == u by {
      ParsePathOf(u, esc);
    }
    if u.port != NO_PORT {
      assert PortText(u) == ":" + NatToString(u.port);
      AppendAssoc(":", NatToString(u.port), after);
      ParseTailPort(base, u.port, after, esc);
      assert base.(port := u.port) == u.(paths := [], params := []);
    } else {
      assert t == after;
      assert base == u.(paths := [], params := []);
    }
  }

  lemma SeparatorNotAlnum()
    ensures AllOf("://", NotAlnum)
  {
    var sep := "://";
    assert forall i :: 0 <= i < 3 ==> sep[i] == ':' || sep[i] == '/';
  }

  /** `Url::parse` as its three scans and the rest. */
  lemma ParseSteps(text: string, protocol: string, r0: string, r1: string, domain: seq<string>, r2: string, esc: string -> string)
    requires Span(text, IsAlpha) == (protocol, r0)
    requires Span(r0, NotAlnum).1 == r1
    requires Domain(r1, esc) == (domain, r2)
    ensures Parse(text, esc) == ParseTail(NewParsedUrl().(protocol := protocol, domain := domain), r2, esc)
  {
  }

  /** `get()` after parsing is the identity on well-formed text, and parsing the
      text of a well-formed URL restores it. */
  lemma ParseTotal(u: ParsedUrl, esc: string -> string)
    requires WellFormed(u) && KeepsUnreserved(esc)
    ensures Parse(Total(u), esc) == Ok(u)
    ensures Get(Parse(Total(u), esc).value) == Total(u)
  {
    var d := Join(u.domain, '.');
    var t := TailText(u);
    var r0 := "://" + (d + t);
    var text := Total(u);
    assert text == u.protocol + r0 by {
      TotalShape(u);
      AppendAssoc(u.protocol + "://", d, t);
      AppendAssoc(u.protocol, "://", d + t);
    }
    SpanOf(u.protocol, r0, IsAlpha);
    assert Span(r0, NotAlnum).1 == d + t by {
      assert d == u.domain[0] + Prefixed(u.domain[1..], '.');
      assert (d + t)[0] == u.domain[0][0];
      SeparatorNotAlnum();
      SpanOf("://", d + t, NotAlnum);
    }
    assert Domain(d + t, esc) == (u.domain, t) by {
      ParseTailOf(u, esc);
      DomainJoin(u.domain, t, esc);
    }
    ParseTailOf(u, esc);
    ParseSteps(text, u.protocol, r0, d + t, u.domain, t, esc);
  }

  /** With no label, `total()` loses the `/` of `://`. */
  lemma TotalWithoutDomain(u: ParsedUrl)
    requires u.domain == [] && u.port == NO_PORT && u.paths == [] && u.params == []
    ensures Total(u) == u.protocol + ":/"
  {
    TotalShape(u);
  }

  lemma SchemeOfExample()
    ensures Span("p://a?k=v", IsAlpha) == ("p", "://a?k=v")
    ensures Span("://a?k=v", NotAlnum).1 == "a?k=v"
  {
    assert "p://a?k=v" == "p" + "://a?k=v";
    SpanOf("p", "://a?k=v", IsAlpha);
    assert "://a?k=v" == "://" + "a?k=v";
    SeparatorNotAlnum();
    SpanOf("://", "a?k=v", NotAlnum);
  }

  lemma HostOfExample(esc: string -> string)
    ensures Domain("a?k=v", esc) == ([esc("a?k=v")], [])
  {
    var host := "a?k=v";
    assert AllOf(host, LabelChar) by {
      assert host[0] == 'a' && host[1] == '?' && host[2] == 'k' && host[3] == '=' && host[4] == 'v';
      forall i | 0 <= i < |host| ensures LabelChar(host[i]) {
        assert i == 0 || i == 1 || i == 2 || i == 3 || i == 4;
      }
    }
    SpanOf(host, [], LabelChar);
    assert host + [] == host;
    DomainStep(host, host, [], esc);
    assert [esc(host)] + [] == [esc(host)];
  }

  /** `p://a?k=v`: without a port or a path the query ends up in the domain. */
  lemma QueryWithoutPathIsDomain(esc: string -> string)
    ensures Parse("p://a?k=v", esc) == Ok(ParsedUrl([], [], [esc("a?k=v")], "p", NO_PORT))
  {
    SchemeOfExample();
    HostOfExample(esc);
    ParseSteps("p://a?k=v", "p", "://a?k=v", "a?k=v", [esc("a?k=v")], [], esc);
  }

  // ---------------------------------------------------------------- escaping

  function HexDigit(d: nat): (c: char)
    requires d < 16
    ensures IsAlnum(c)
  {
    if d < 10 then DigitChar(d) else ('A' as int + d - 10) as char
  }

  /** `curl_easy_escape`: every character outside the unreserved set becomes `%`
      and two upper-case hex digits of its byte. */
  function CurlEscape(s: string): (r: string)
    ensures AllUnreserved(s) ==> r == s
    ensures |s| <= |r| <= 3 * |s|
    decreases |s|
  {
    if s == [] then []
    else
      var b := s[0] as int % 0x100;
      var head := if Unreserved(s[0]) then [s[0]] else ['%', HexDigit(b / 16), HexDigit(b % 16)];
      assert AllUnreserved(s) ==> AllUnreserved(s[1..]);
      head + CurlEscape(s[1..])
  }

  lemma CurlEscapeKeepsUnreserved()
    ensures KeepsUnreserved(CurlEscape)
  {
  }

  // ---------------------------------------------------------------- Response

  /** `Response::value`: nothing yet, a string, a file, or a `music::Buffer`. */
  datatype Response = Empty | Str(text: string) | File(name: string) | Buffer(buf: MusicBuffer.Buffer)

  /** The `set_*` calls; `canOpen` is whether the file could be opened. */
  datatype Setter = SetStr | SetFile(filename: string, canOpen: bool) | SetBuffer

  /** `Response()`. */
  function NewResponse(): (r: Response)
    ensures IsEmpty(r) && !IsBuffer(r)
  {
    Empty
  }

  /** One setter: a fresh empty string, a truncated file, or an empty buffer. A
      file that cannot be opened throws "Open file failed." and the value stays. */
  function Set(r: Response, c: Setter): (t: Result<Response, string>)
    ensures t.Err? <==> c.SetFile? && !c.canOpen
    ensures t.Ok? ==> !IsEmpty(t.value) && (IsBuffer(t.value) <==> c.SetBuffer?)
  {
    match c
    case SetStr => Ok(Str([]))
    case SetFile(name, canOpen) => if canOpen then Ok(File(name)) else Err("Open file failed.")
    case SetBuffer => Ok(Buffer(MusicBuffer.Empty()))
  }

  /** `is_buffer()`. */
  predicate IsBuffer(r: Response) {
    r.Buffer?
  }

  /** `empty()`. */
  predicate IsEmpty(r: Response) {
    r.Empty?
  }

  /** A run of setters, stopping at the first throw. */
  function SetAll(r: Response, cs: seq<Setter>): (t: Result<Response, string>)
    decreases |cs|
  {
    if cs == [] then Ok(r)
    else
      var next :- Set(r, cs[0]);
      SetAll(next, cs[1..])
  }

  /** `empty()` holds until a setter succeeds, and `is_buffer()` holds iff the
      last setter was `set_buffer`. */
  lemma {:induction false} ResponseTag(r: Response, cs: seq<Setter>)
    requires SetAll(r, cs).Ok?
    ensures IsEmpty(SetAll(r, cs).value) <==> cs == [] && IsEmpty(r)
    ensures cs != [] ==> (IsBuffer(SetAll(r, cs).value) <==> cs[|cs| - 1].SetBuffer?)
    ensures forall i :: 0 <= i < |cs| ==> !(cs[i].SetFile? && !cs[i].canOpen)
    decreases |cs|
  {
    if cs != [] {
      var next := Set(r, cs[0]).value;
      ResponseTag(next, cs[1..]);
      assert forall i :: 1 <= i < |cs| ==> cs[i] == cs[1..][i - 1];
      if |cs| > 1 {
        assert cs[|cs| - 1] == cs[1..][|cs[1..]| - 1];
      }
    }
  }

  /** `str()`: `std::get` throws `bad_variant_access` unless a string is held. */
  function GetStr(r: Response): (t: Result<string, string>)
    ensures t.Ok? <==> r.Str?
    ensures t.Ok? ==> t.value == r.text
  {
    if r.Str? then Ok(r.text) else Err("bad_variant_access")
  }
}

=== FILE: utils.dfy ===
/** `src/utils.hpp`: the metadata record handed from the decoder to the progress bar,
    and ANSI colour wrapping (SGR, section 8.3.117 of ECMA-48). */
module Utils {
  import opened Bytes

  /** `MusicInfo`: duration in ms (`unsigned int`), sample rate (`unsigned int`),
      bit rate (`unsigned long`), channel count (`unsigned int`) and total byte
      size (`size_t`). */
  datatype MusicInfo = MusicInfo(time: nat, samplerate: nat, bitrate: nat, channels: nat, size: nat)
  {
    predicate WellTyped() {
      time < TWO_32 && samplerate < TWO_32 && bitrate < TWO_64 && channels < TWO_32 && size < TWO_64
    }
  }

  /** `enum class Color`: a closed set, so the `default:` branch that throws
      "Unexpected color" is unreachable and has no counterpart here. */
  datatype Color = Blue | LightBlue | Green | Purple | Yellow | White | Red

  const ESC: char := 27 as char

  /** The SGR foreground code selected for each colour. */
  function Code(c: Color): (r: string)
    ensures |r| == 2 && r[0] == '3' && '1' <= r[1] <= '7'
  {
    match c
    case Purple => "35"
    case LightBlue => "36"
    case Blue => "34"
    case Green => "32"
    case Yellow => "33"
    case White => "37"
    case Red => "31"
  }

  /** Distinct colours select distinct codes. */
  lemma CodeInjective(a: Color, b: Color)
    requires a != b
    ensures Code(a) != Code(b)
  {
  }

  /** `colorify(str, color)`: `ESC [ code m`, the text, then the reset `ESC [ 0 m`. */
  function Colorify(s: string, c: Color): (r: string)
    ensures |r| == |s| + 9
    ensures r[5 .. 5 + |s|] == s
    ensures r[..5] == [ESC, '['] + Code(c) + "m"
    ensures r[5 + |s|..] == [ESC, '[', '0', 'm']
  {
    [ESC, '['] + Code(c) + "m" + s + [ESC, '[', '0', 'm']
  }

  /** The colour whose code is `code`, if any. */
  function ColorOfCode(code: string): (r: Color)
    requires |code| == 2 && code[0] == '3' && '1' <= code[1] <= '7'
    ensures Code(r) == code
  {
    match code[1]
    case '5' => Purple
    case '6' => LightBlue
    case '4' => Blue
    case '2' => Green
    case '3' => Yellow
    case '7' => White
    case '1' => Red
  }

  /** The inverse of `Colorify`: the text and the colour back from the wrapped string. */
  function Uncolorify(r: string): (p: (string, Color))
    requires |r| >= 9 && r[2] == '3' && '1' <= r[3] <= '7'
  {
    (r[5 .. |r| - 4], ColorOfCode(r[2..4]))
  }

  lemma {:induction false} ColorifyRoundTrip(s: string, c: Color)
    ensures Uncolorify(Colorify(s, c)) == (s, c)
  {
    var r := Colorify(s, c);
    assert r[2..4] == Code(c);
    var c' := ColorOfCode(r[2..4]);
    if c' != c {
      CodeInjective(c', c);
    }
  }
}

=== FILE: wrappers.dfy ===
/** Failure-carrying wrappers used throughout the model in place of C++ exceptions
    and null pointers. */
module Wrappers {

  /** A value that may be absent; models a null pointer or an indeterminate field. */
  datatype Option<+T> = None | Some(value: T) {

    /** The carried value, or `default` when absent. */
    function GetOr(default: T): T {
      match this
      case Some(v) => v
      case None => default
    }
  }

  /** The outcome of an operation that either returns or throws. */
  datatype Result<+T, +E> = Ok(value: T) | Err(error: E) {

    predicate IsFailure() {
      Err?
    }

    function PropagateFailure<U>(): Result<U, E>
      requires Err?
    {
      Err(error)
    }

    function Extract(): T
      requires Ok?
    {
      value
    }
  }
}
